=== FILE: README.md ===
# U-FinDI document pipeline: a Dafny model of its decision logic

U-FinDI takes uploaded financial documents through these stages:

1. Ingestion, with an image-quality gate.
2. Classification by keywords.
3. Layout analysis.
4. Rule-table field extraction.
5. Rule-based validation.
6. Human review, with a correction memory that suggests values and ranks layouts by similarity.
7. A dashboard that aggregates the results.

This project models the deterministic core of those stages as pure functions over immutable data, and proves properties of them:

- values are a JSON-like tree (`Json.Value`);
- dictionaries keep insertion order (`Dict`);
- amounts are exact reals;
- dates are a calendar datatype.

OCR, OpenCV, PDF rasterisation, the database, the clock and hashing are inputs. They arrive as parameters or as already-computed numbers and strings.

Modules follow the program's files:

| module | models |
|---|---|
| `Normalization`, `DateNormalization` | `backend/app/utils/normalization.py` |
| `Validation` | `backend/app/services/validation_service.py` |
| `MemoryStore` | `backend/app/core/backboard_client.py` (the in-memory store) |
| `Learning` | `backend/app/services/learning_service.py` |
| `Extraction`, `ExtractionLines` | `backend/app/services/extraction_service.py` |
| `Classification` | `backend/app/services/classification_service.py` |
| `Layout` | `backend/app/services/layout_service.py` |
| `Ingestion` | `backend/app/services/ingestion_service.py` (decision helpers) |
| `ImageQuality` | `backend/app/utils/image_utils.py` (`validate_image_quality`) |
| `Review` | `backend/app/api/routes/review.py` |
| `Dashboard` | `backend/app/api/routes/dashboard.py` |
| `Base`, `Dict`, `Json`, `Dates`, `Sorting` | shared pieces: Python string operations, ordered dicts, the value tree, calendar dates, and `sorted(..., reverse=True)` as a stable sort |

## Model

| member | source | states |
|---|---|---|
| Normalization.NormalizeAmount | backend/app/utils/normalization.py:62-83 | `None` and other non-numbers give 0. A number gives itself. A string gives the value of its `[0-9.-]` characters when they parse, else 0. |
| Normalization.AmountIgnoresDecoration | backend/app/utils/normalization.py:72-78 | Two strings with the same digits, points and minus signs have the same amount. |
| Normalization.AmountCleanIdempotent | backend/app/utils/normalization.py:72-78 | Cleaning a string before normalising it changes nothing. |
| Normalization.AmountWithoutDigits | backend/app/utils/normalization.py:72-78 | A string without a digit is worth 0. |
| Normalization.ParseDecimalWhole | backend/app/utils/normalization.py:76 | `float` of a whole number's decimal rendering, with or without a minus sign, gives the number back. |
| Normalization.ParseDecimalFraction | backend/app/utils/normalization.py:76 | `float("w.f")` is w plus f scaled by its number of digits. |
| Normalization.NormalizePercentage | backend/app/utils/normalization.py:132-149 | Falsy values give 0, and numbers are divided by 100. |
| Normalization.PercentageIsAmountOverHundred | backend/app/utils/normalization.py:132-149 | For every scalar value, the percentage is the amount divided by 100. |
| Normalization.NormalizeName | backend/app/utils/normalization.py:85-102 | The result is its words joined by single spaces. Each word is non-empty, holds only letters, `-` and `.`, and is capitalised. |
| Normalization.NormalizeNameIdempotent | backend/app/utils/normalization.py:85-102 | Normalising a name twice is normalising it once. |
| Normalization.SplitJoin | backend/app/utils/normalization.py:93-102 | Splitting a single-space join of words gives the words back. |
| Normalization.NormalizeAccountNumber | backend/app/utils/normalization.py:104-114 | The result is all digits and no longer than the input. |
| Normalization.AccountNumberConcat | backend/app/utils/normalization.py:104-114 | The result of a concatenation is the concatenation of the results, so it keeps exactly the input's digits in order. |
| Normalization.AccountNumberIdempotent | backend/app/utils/normalization.py:104-114 | Normalising an account number twice is normalising it once. |
| Normalization.NormalizePhoneNumber | backend/app/utils/normalization.py:116-130 | The result holds only digits and `+`, and never starts with `0`. |
| Normalization.PhoneTrunkZero | backend/app/utils/normalization.py:126-128 | A number whose kept characters start with `0` becomes `+44` followed by the rest. |
| Normalization.NormalizePhoneIdempotent | backend/app/utils/normalization.py:116-130 | Normalising a phone number twice is normalising it once. |
| Normalization.NormalizeBoolean | backend/app/utils/normalization.py:151-168 | A bool is itself. Trimmed, case-insensitive true words give True and false words give False. Anything else falls back to Python truthiness. |
| Normalization.BooleanIgnoresCase | backend/app/utils/normalization.py:158-166 | Lower-casing a string first never changes its boolean. |
| Normalization.BooleanOfRendering | backend/app/utils/normalization.py:158-166 | `str(b)` reads back as `b`. |
| DateNormalization.NormalizeDate | backend/app/utils/normalization.py:6-43 | Empty input gives empty output. When the D/M/Y pattern matches anywhere in the stripped text, the result is that match formatted as `YYYY-MM-DD`. Otherwise a Y/M/D date that `strptime` accepts is re-rendered zero-filled. Otherwise the month-name parser's answer, and failing that the stripped text itself. |
| DateNormalization.NormalizeDateWith | backend/app/utils/normalization.py:6-43 | The same three-way result, with the D/M/Y search either anywhere or only at a digit-run boundary. Each matched branch is `YYYY-MM-DD`-shaped. |
| DateNormalization.FormatDmy | backend/app/utils/normalization.py:29-34 | The result is `YYYY-MM-DD`-shaped. Its year part is the year group, with `20` in front of a two-digit year. Its month and day parts hold the values of the month and day groups, zero-filled to two digits, with no range check. |
| DateNormalization.ParseIso | backend/app/utils/normalization.py:35-38 | `strptime("%Y-%m-%d")` accepts only dashes and a real calendar day, and reads the three groups as numbers. |
| DateNormalization.MatchAtComplete | backend/app/utils/normalization.py:24-26 | The modelled `re.match` finds a match wherever the pattern matches. |
| DateNormalization.NormalizeDateDayFirst | backend/app/utils/normalization.py:29-34 | `01/02/23` becomes `2023-02-01`. |
| DateNormalization.NormalizeDateSwapsIso | backend/app/utils/normalization.py:14-34 | As written, `YYYY-MM-DD` comes out as `20DD-MM-YY`. |
| DateNormalization.NormalizeDateNotIdempotent | backend/app/utils/normalization.py:14-34 | As written, `2023-01-15` gives `2015-01-23`, and normalising that gives `2023-01-15` back. |
| DateNormalization.NormalizeDateFixedKeepsIso | backend/app/utils/normalization.py:14-38 | With the D/M/Y search anchored at a digit boundary, a real ISO date with a four-digit year is left unchanged. |
| Validation.DetermineStatus | backend/app/services/validation_service.py:363-376 | The status is `needs_review` iff some issue is an error. It is `passed` iff every issue is info, including when there are none. It is never `failed`. |
| Validation.StatusMonotone | backend/app/services/validation_service.py:363-376 | Adding issues never improves the status. |
| Validation.BalanceIssues | backend/app/services/validation_service.py:77-109 | At most one issue. Without both an opening and a closing balance the check is skipped and gives none. |
| Validation.TransactionBalanceOfAmounts | backend/app/services/validation_service.py:84-103 | When every amount converts, the closing balance is compared with the opening balance plus the sum of the signed amounts. |
| Validation.BalanceMismatchIff | backend/app/services/validation_service.py:77-103 | When everything converts: one `BALANCE_MISMATCH` error, with expected and actual, iff the closing balance is more than 0.01 away from opening + Σ amounts; otherwise no issue. |
| Validation.TallyIsNet | backend/app/services/validation_service.py:84-93 | The loop completes iff every amount converts, and then credits − debits is the sum of the signed amounts. |
| Validation.BalanceMismatchExample | backend/app/services/validation_service.py:77-103 | Opening 100, +50, −20, closing 140 gives one error expecting 130. |
| Validation.BalanceMatchExample | backend/app/services/validation_service.py:77-103 | The same statement closing at 130 gives no issue. |
| Validation.SequencingIffOutOfOrder | backend/app/services/validation_service.py:129-131 | `dates != sorted(dates)` iff some date precedes an earlier-listed one. |
| Validation.FutureDatesIffLater | backend/app/services/validation_service.py:139-141 | A future date is found iff some parsed date is after today. |
| Validation.DateWarningsMeaning | backend/app/services/validation_service.py:111-146 | `DATE_SEQUENCING` is raised iff the parsed dates are out of order, and `FUTURE_DATE` iff one lies after today. |
| Validation.BankStatementIssues | backend/app/services/validation_service.py:72-148 | Completes iff both the balance check and the date checks complete. The issues are then the balance issues followed by the date issues. |
| Validation.HighDeductionIffLowNet | backend/app/services/validation_service.py:170-172 | (gross − net)/gross > 0.5 iff net < gross/2. |
| Validation.PayIssuesExclusive | backend/app/services/validation_service.py:155-178 | `NET_EXCEEDS_GROSS` and `HIGH_DEDUCTION_RATIO` are never raised together. |
| Validation.PayIssues | backend/app/services/validation_service.py:155-184 | No issue unless both pay fields are present. At most two issues, each `NET_EXCEEDS_GROSS`, `HIGH_DEDUCTION_RATIO` or `PAY_CALCULATION_ERROR`. |
| Validation.PayIssuesIff | backend/app/services/validation_service.py:155-178 | When both amounts convert, the issues are exactly `NET_EXCEEDS_GROSS` (carrying the net pay) if net > gross, followed by `HIGH_DEDUCTION_RATIO` if gross > 0 and (gross − net)/gross > 0.5. |
| Validation.PayFlagsIff | backend/app/services/validation_service.py:160-178 | `NET_EXCEEDS_GROSS` is raised iff net > gross. `HIGH_DEDUCTION_RATIO` is raised iff gross > 0 and the deduction ratio exceeds 0.5. |
| Validation.PayIssuesUnreadable | backend/app/services/validation_service.py:155-184 | When both pay fields are present but one does not convert, the only issue is the `PAY_CALCULATION_ERROR` warning. |
| Validation.HighDeductionExample | backend/app/services/validation_service.py:155-178 | Gross 2000 with net 900 gives exactly the ratio warning. |
| Validation.NormalDeductionExample | backend/app/services/validation_service.py:155-178 | Gross 2000 with net 1100 gives no issue. |
| Validation.PayPeriodIssues | backend/app/services/validation_service.py:187-197 | A pay-period warning iff the field is present and its text has no D/M/Y-shaped substring. |
| Validation.PayslipIssues | backend/app/services/validation_service.py:150-198 | The pay checks followed by the pay-period check. `INVALID_PAY_PERIOD` is raised iff the period is present and has no D/M/Y-shaped substring. |
| Validation.TotalIssues | backend/app/services/validation_service.py:205-228 | At most one issue, and none unless subtotal, tax and total are all present. A mismatch error has a total more than 0.01 away from subtotal + tax. |
| Validation.TotalMismatchIff | backend/app/services/validation_service.py:205-221 | When all three amounts convert: one `INVOICE_TOTAL_MISMATCH` error, expecting subtotal + tax and carrying the total, iff the total is more than 0.01 away from subtotal + tax; otherwise no issue. |
| Validation.TotalIssuesUnreadable | backend/app/services/validation_service.py:205-227 | When all three fields are present but one does not convert, the only issue is the `INVOICE_CALCULATION_ERROR` warning. |
| Validation.LongTermIffOverNinetyDays | backend/app/services/validation_service.py:236-250 | `LONG_PAYMENT_TERM` iff the due date is more than 90 days after the invoice date. `DUE_DATE_BEFORE_INVOICE` iff it is before it. |
| Validation.InvoiceDateIssues | backend/app/services/validation_service.py:230-252 | When both dates are present and parse, the issues are the term checks of the two parsed dates. Otherwise there is none. At most one issue. |
| Validation.InvoiceIssues | backend/app/services/validation_service.py:200-254 | The total checks followed by the date checks, at most two issues. |
| Validation.ParseDateValue | backend/app/services/validation_service.py:340-361 | Parsing raises exactly for a truthy non-string value. |
| Validation.NegativeValueIssues | backend/app/services/validation_service.py:261-276 | Every issue is a `NEGATIVE_VALUE` for a listed field, carrying its negative amount. |
| Validation.NegativeValueComplete | backend/app/services/validation_service.py:261-276 | Every listed field that holds a negative amount is reported. |
| Validation.DateFormatIssuesIff | backend/app/services/validation_service.py:278-287 | A field is flagged iff its name contains "date" (case-insensitive) and its value has no D/M/Y-shaped substring. |
| Validation.GeneralIssues | backend/app/services/validation_service.py:256-289 | The negative-value issues of the four listed fields, followed by the date-format issues. |
| Validation.CrossDocumentIssues | backend/app/services/validation_service.py:326-333 | The simulated cross-document warning appears iff a related document exists. |
| Validation.TypeRules | backend/app/services/validation_service.py:21-33 | Bank statements, payslips and invoices run their own rules and name them. Other types run none. Only the bank-statement rules can raise. |
| Validation.ValidateDocument | backend/app/services/validation_service.py:9-70 | `failed`, with exactly one `VALIDATION_ERROR` and no rules, iff a rule raised. Otherwise the issues are the type rules' issues, then the general ones, then the cross-document ones. The status comes from those issues, `general_rules` is always listed, and `cross_document_rules` iff there are related documents. |
| Validation.ErrorBlocksPassing | backend/app/services/validation_service.py:9-70 | A document with an error issue is never `passed` or `passed_with_warnings`. |
| MemoryStore.StorePattern | backend/app/core/backboard_client.py:20-30 | The pattern is stored under its signature (default `"unknown"`), replacing an earlier one. Nothing else changes. |
| MemoryStore.StoreCorrection | backend/app/core/backboard_client.py:32-54 | Exactly one entry is appended, keyed `corr_{n+1}`. The count of the field's new value rises by one, and every other count is unchanged. |
| MemoryStore.StoreCorrectionValid | backend/app/core/backboard_client.py:32-54 | Storing keeps the store well formed: no duplicate keys, corrections numbered from 1. |
| MemoryStore.HealthCounts | backend/app/core/backboard_client.py:147-153 | A stored correction raises the health count by one. A stored pattern does too, unless its signature was already stored. |
| MemoryStore.HealthCheck | backend/app/core/backboard_client.py:147-153 | The health check reports exactly the numbers of stored patterns and corrections. |
| MemoryStore.GetFieldSuggestions | backend/app/core/backboard_client.py:89-120 | Exact-path suggestions have confidence min(f/10, 1). Namesake paths (other path, same last segment) have min(f/20, 0.5). All confidences lie in [0, 1]. |
| MemoryStore.NamesakeSuggestions | backend/app/core/backboard_client.py:106-115 | Every namesake suggestion is for a different path with the same last segment, at the namesake confidence. |
| MemoryStore.ExactSuggested | backend/app/core/backboard_client.py:97-104 | Every value counted for the path is suggested with its count. |
| MemoryStore.NamesakeSuggested | backend/app/core/backboard_client.py:106-115 | Every value counted for a namesake path is suggested at the lower confidence. |
| MemoryStore.Similarity | backend/app/core/backboard_client.py:122-145 | The score is 0 when the features are empty. A non-zero score needs a non-empty stored feature dict. |
| MemoryStore.ScoreSymmetric | backend/app/core/backboard_client.py:134-145 | The similarity score is symmetric. |
| MemoryStore.ScoreWithoutSharedKeys | backend/app/core/backboard_client.py:134-145 | With no shared numeric key the score is 0. |
| MemoryStore.ScoreOfItself | backend/app/core/backboard_client.py:134-145 | A map with a numeric key scores 1 against itself. |
| MemoryStore.ScoreRange | backend/app/core/backboard_client.py:134-145 | With non-negative features the score lies in [0, 1]. |
| MemoryStore.SearchSimilar | backend/app/core/backboard_client.py:56-87 | Completes iff the candidate scan does. The result is drawn without repetition from the candidates, so every returned pattern is stored with the requested type and scores > 0.5. It is sorted non-increasing by score and, for a non-negative limit, holds min(limit, number of candidates) entries. |
| MemoryStore.Candidates | backend/app/core/backboard_client.py:66-80 | Every candidate is a stored pattern of the requested type that scores > 0.5. |
| MemoryStore.CandidateFound | backend/app/core/backboard_client.py:66-80 | Every same-type pattern scoring > 0.5 is a candidate. |
| MemoryStore.SearchLeadsWithBest | backend/app/core/backboard_client.py:56-87 | With `limit` ≥ 1 the search returns a match at least as good as any candidate. |
| Learning.ExtractLayoutFeatures | backend/app/services/learning_service.py:189-209 | Text, table and image counts sum to at most the region count. Averages are 0 without regions and the arithmetic means otherwise. Bad regions raise. |
| Learning.KindsWithinTotal | backend/app/services/learning_service.py:195-197 | The three kind counts never exceed the number of regions. |
| Learning.FeaturesMatchThemselves | backend/app/services/learning_service.py:189-209 | A layout's feature dict scores 1 against itself. |
| Learning.PatternSignature | backend/app/services/learning_service.py:171-187 | The signature is computed iff its features can be read. |
| Learning.SignatureIgnoresValues | backend/app/services/learning_service.py:171-187 | Extractions with the same field names get the same signature. |
| Learning.StoreExtractionPattern | backend/app/services/learning_service.py:14-44 | The pattern is stored under its signature with its features. A failure leaves the store unchanged. |
| Learning.RetrieveSimilar | backend/app/services/learning_service.py:81-101 | The result is the similarity search over the layout's features, `[]` on failure. It is sorted and at most `limit` long. |
| Learning.StoredPatternRetrieved | backend/app/services/learning_service.py:14-101 | Once stored, a layout retrieves a non-empty result, led by a match of score ≥ 1. |
| Learning.UpdateErrorPatterns | backend/app/services/learning_service.py:211-236 | The `type:path` count rises by one and first/last-seen are kept right. All other keys are unchanged. |
| Learning.UpdateCountsValues | backend/app/services/learning_service.py:218-236 | Under the `type:path` key, the rendered old value and the new value each gain one occurrence. Every other value keeps its tally. |
| Learning.UpdateKeepsTallies | backend/app/services/learning_service.py:211-236 | The old-value and new-value tables keep adding up to the count. |
| Learning.UpdateAllCounts | backend/app/services/learning_service.py:211-236 | After a run of corrections, a key's count is its start plus its occurrences. |
| Learning.RetrainingFromTheTenth | backend/app/services/learning_service.py:238-253 | Starting from none, retraining is due iff at least 10 corrections of that type and field were recorded. |
| Learning.RecordCorrection | backend/app/services/learning_service.py:46-79 | The memory count rises by one and the tally by one. Retraining fires iff the tally was already ≥ 9. Patterns are untouched. |
| Learning.RecordCorrectionValid | backend/app/services/learning_service.py:46-79 | Recording keeps the memory layer and the tallies consistent. |
| Learning.RankSuggestions | backend/app/services/learning_service.py:268-280 | The result is a permutation, sorted non-increasing by frequency. |
| Learning.RankStable | backend/app/services/learning_service.py:268-280 | Suggestions of equal frequency keep their order. |
| Learning.SuggestedCorrections | backend/app/services/learning_service.py:103-124 | At most 3 suggestions, sorted, all drawn from the field's suggestions. |
| Learning.SuggestedAreTheMostFrequent | backend/app/services/learning_service.py:103-124 | A suggestion left out means 3 were returned, none less frequent than it. |
| Learning.ClusterErrors | backend/app/services/learning_service.py:126-169 | The total is the number of rows. The clusters are drawn without repetition from the grouping and sorted by count, and there are min(10, number of groups) of them. A failed query gives the error result. |
| Learning.ClusterErrorsKeepLargest | backend/app/services/learning_service.py:152-163 | A cluster left out means 10 were returned, each with a count at least as large as its own. |
| Learning.Clusters | backend/app/services/learning_service.py:137-150 | There is a cluster for a key iff some row has that `field_path||document_id` key. |
| Learning.ClustersAccountForRows | backend/app/services/learning_service.py:137-150 | Cluster counts add up to the number of rows. |
| Learning.ClustersConsistent | backend/app/services/learning_service.py:137-150 | Each cluster's count equals the number of corrections it lists. |
| Extraction.ExtractFields | backend/app/services/extraction_service.py:12-34 | Confidence keys equal field keys, and every confidence lies in [0.6, 0.9]. There are at most 5 tables, numbered `table_0`…. `agreement`, or any raise, gives the empty result. |
| Extraction.ExtractFieldsScored | backend/app/services/extraction_service.py:76-232 | Every extracted field carries its document type's confidence constant for that field: 0.9/0.7/0.8 for bank statements, 0.85/0.7 for payslips and invoices, and 0.8/0.7/0.6 otherwise. |
| Extraction.Dispatch | backend/app/services/extraction_service.py:21-30 | `agreement` raises, because its extractor does not exist. Any table failure raises too. A completed result has paired keys and the layout's tables. |
| Extraction.DispatchScored | backend/app/services/extraction_service.py:21-30 | Whichever extractor is chosen, each confidence is the document type's constant for its field. |
| Extraction.ApplyRules | backend/app/services/extraction_service.py:91-113 | Fields and confidences stay paired. Fields outside the table are untouched. |
| Extraction.RuleDecides | backend/app/services/extraction_service.py:91-95 | A rule that alone fills its field sets it, with its confidence, iff its pattern matches. |
| Extraction.BankStatementFields | backend/app/services/extraction_service.py:76-119 | Paired keys, confidences within 0.7–0.9, and the layout's tables. |
| Extraction.BankStatementScored | backend/app/services/extraction_service.py:91-113 | The account fields score 0.9, the transactions 0.7 and the totals 0.8. |
| Extraction.AccountNumberFound | backend/app/services/extraction_service.py:91-95 | The account number is present, stripped, at 0.9 iff its pattern matches. |
| Extraction.AccountNumberScore | backend/app/services/extraction_service.py:91-95 | A present account number has confidence 0.9. |
| Extraction.PayslipFields | backend/app/services/extraction_service.py:121-157 | Corrected payslip extractor: completes iff the tables do, with paired keys and the layout's tables. |
| Extraction.PayslipFieldsAsWritten | backend/app/services/extraction_service.py:121-157 | As written: completes iff the tables do, with paired keys and the layout's tables. |
| Extraction.PayslipScored | backend/app/services/extraction_service.py:137-151 | Payslip fields score 0.85 and deductions 0.7, under either value rule. |
| Extraction.PayPeriodBecomesNumber | backend/app/services/extraction_service.py:142-143 | As written, `pay_period` passes through `normalize_amount` and becomes a number. |
| Extraction.PayPeriodStoredAsNumber | backend/app/services/extraction_service.py:137-151 | As written, a matched pay period reaches the result as a number. |
| Extraction.PayslipValueFixedDiffers | backend/app/services/extraction_service.py:142-143 | The corrected value differs from the as-written value exactly for `pay_period`. |
| Extraction.PayPeriodStoredAsText | backend/app/services/extraction_service.py:137-151 | With the correction, a matched pay period is its group's stripped text. |
| Extraction.InvoiceFields | backend/app/services/extraction_service.py:159-197 | The extractor completes iff the line items and tables do, with paired keys and the layout's tables. |
| Extraction.InvoiceFieldFound | backend/app/services/extraction_service.py:173-185 | Each header field is absent iff its pattern does not match, and otherwise holds the value rule applied to its first group. |
| Extraction.InvoiceRuleFound | backend/app/services/extraction_service.py:173-185 | The same, for the header rules followed by any line items. |
| Extraction.InvoiceFieldValue | backend/app/services/extraction_service.py:178-184 | Fields named with `amount`, `total` or `subtotal` become numbers. Other fields named with `date` become normalised dates. The rest stay stripped text. |
| Extraction.InvoiceMoneyValue | backend/app/services/extraction_service.py:180-181 | `total_amount`, `tax_amount` and `subtotal` become the amount of their stripped text. |
| Extraction.InvoiceDateValue | backend/app/services/extraction_service.py:182-183 | `invoice_date` and `due_date` become the normalised date of their stripped text. |
| Extraction.InvoiceTextValue | backend/app/services/extraction_service.py:178-184 | `invoice_number`, `bill_to` and `ship_to` stay stripped text. |
| Extraction.InvoiceScored | backend/app/services/extraction_service.py:185-191 | Header fields score 0.85 and line items 0.7. |
| Extraction.InvoiceQuantityFailure | backend/app/services/extraction_service.py:12-34 | One non-integer quantity empties the whole invoice result. |
| Extraction.GenericDatesFound | backend/app/services/extraction_service.py:210-218 | `dates` is present iff a date pattern matched, at confidence 0.8. It then holds the first five found dates, each normalised. |
| Extraction.GenericDatesEntry | backend/app/services/extraction_service.py:214-218 | `dates` is absent without a match. Otherwise it is the list of the first five found dates, normalised, at 0.8. |
| Extraction.DateValues | backend/app/services/extraction_service.py:217 | One normalised date per found date, in order. |
| Extraction.GenericAmountsAndNamesFound | backend/app/services/extraction_service.py:220-232 | `amounts` and `names` are present iff their patterns matched. `amounts` then holds `normalize_amount` of each of the first 10 matches and `names` the first 5 matches as found, in order, so at most 10 and 5 entries. |
| Extraction.GenericFields | backend/app/services/extraction_service.py:199-238 | Completes iff the tables do, with paired keys and the layout's tables. |
| Extraction.GenericScored | backend/app/services/extraction_service.py:217-232 | Dates score 0.8, amounts 0.7 and names 0.6. |
| ExtractionLines.TransactionTable | backend/app/services/extraction_service.py:240-257 | The rows are the first min(20, n) of the per-line rows, in line order. |
| ExtractionLines.TransactionOf | backend/app/services/extraction_service.py:246-255 | A line yields a row iff the pattern matches. The row holds, in this order, the first group as a normalised date, the second stripped and the third as an amount. |
| ExtractionLines.CollectCount | backend/app/services/extraction_service.py:246-257 | Exactly one item per line that yields one. |
| ExtractionLines.CollectKeepsEvery | backend/app/services/extraction_service.py:246-257 | Every line that yields an item contributes it. |
| ExtractionLines.DeductionOf | backend/app/services/extraction_service.py:267-276 | A deduction iff the line mentions a keyword and holds an amount. Its name is the text before `:`, cut to 50. |
| ExtractionLines.Deductions | backend/app/services/extraction_service.py:259-278 | At most 10, a prefix of the per-line deductions. |
| ExtractionLines.LineItems | backend/app/services/extraction_service.py:280-298 | Completes iff every quantity is an integer. At most 20 items, a prefix of the per-line items. |
| ExtractionLines.LineItemOfDigits | backend/app/services/extraction_service.py:286-296 | A matching line whose quantity group is a run of digits yields an item with that quantity. |
| ExtractionLines.TableOf | backend/app/services/extraction_service.py:304-311 | Id `table_i`. Defaults: bbox `[]`, `cell_count` 1, confidence 0.5. |
| ExtractionLines.TablesFromLayout | backend/app/services/extraction_service.py:300-312 | At most 5 tables, numbered from `table_0` in order. |
| Classification.Score | backend/app/services/classification_service.py:100-105 | A score in [0, 1]. It is 1 iff every keyword occurs and 0 iff none does. |
| Classification.HitsExtremes | backend/app/services/classification_service.py:100-105 | The hit count is full iff every keyword occurs, and 0 iff none occurs. |
| Classification.Best | backend/app/services/classification_service.py:108 | The first entry with the largest score. |
| Classification.AnalyzeTextPatterns | backend/app/services/classification_service.py:75-113 | Either UNKNOWN with 0.1, or a type with score in (0.3, 1]. |
| Classification.DecideMeaning | backend/app/services/classification_service.py:107-113 | Over scores with no UNKNOWN entry: a type is decided iff some score is above 0.3, and it is then the first entry with the largest score; otherwise the answer is UNKNOWN with 0.1. |
| Classification.AnalyzeTextPatternsDecides | backend/app/services/classification_service.py:75-113 | The earliest type with the best score is chosen iff that score is > 0.3. |
| Classification.ImageQuality | backend/app/services/classification_service.py:115-157 | Quality lies in [0.1, 1]: 0.5 when unreadable, otherwise the weighted sum clamped to that range (0.1 below it, 1 above it). |
| Classification.QualityMonotoneInSharpness | backend/app/services/classification_service.py:142-153 | A sharper image never scores lower. |
| Classification.PerfectImage | backend/app/services/classification_service.py:142-153 | A fully sharp, contrasted, mid-grey image scores 1. |
| Classification.ClassifyDocument | backend/app/services/classification_service.py:11-55 | Short text gives UNKNOWN, 0.1, 0.1. Otherwise the result is the text analysis, with language falling back to `en` and quality from the metrics. |
| Classification.ClassifiedAboveThreshold | backend/app/services/classification_service.py:11-55 | A classified type always has confidence > 0.3. |
| Layout.DecideCases | backend/app/services/layout_service.py:100-109 | Each region type, as a condition on the two densities. |
| Layout.ClassifyRegion | backend/app/services/layout_service.py:83-112 | `unknown` iff the analysis failed; otherwise the density decision. |
| Layout.BlankRegionIsNotText | backend/app/services/layout_service.py:93-109 | A region without text is a separator or an image. |
| Layout.Regions | backend/app/services/layout_service.py:43-58 | Every kept region's area exceeds the minimum. |
| Layout.RegionOf | backend/app/services/layout_service.py:47-58 | The bbox is [x, y, x+w, y+h] and the area is the contour's. The type is the region's classification, unknown iff its scan raised. The aspect ratio r satisfies r·h = w when h > 0 and is 0 when h = 0. |
| Layout.RegionsKeepLargeContours | backend/app/services/layout_service.py:45-58 | Every contour above the minimum area becomes a region. |
| Layout.TableBoxes | backend/app/services/layout_service.py:133-140 | Every box is wider than 50 and taller than 20, with `cell_count` 1 and confidence 0.8. |
| Layout.TableBoxesKeepLarge | backend/app/services/layout_service.py:133-140 | Every large enough box is kept. |
| Layout.TextOrientation | backend/app/services/layout_service.py:147-172 | `vertical` iff the folded mean of at most 10 angles is within 10 of 90. Otherwise, including no lines, `horizontal`. |
| Layout.OrientationUsesTenLines | backend/app/services/layout_service.py:156 | Lines after the tenth do not matter. |
| Layout.AnalyzeLayout | backend/app/services/layout_service.py:9-81 | A load failure is its own result, and so is a failure during the analysis. Otherwise one page with kept regions above the minimum area. |
| Layout.ExtractionAcceptsLayout | backend/app/services/layout_service.py:68-81 | Every layout result can be read by the extractor's table copy. |
| Ingestion.OverallQuality | backend/app/services/ingestion_service.py:545-564 | The weighted quality never exceeds 1. |
| Ingestion.AcceptedQualityBounds | backend/app/services/ingestion_service.py:545-564 | An image that passes the gate scores between 0.246875 and 1. |
| Ingestion.AcceptedYetBelowReviewThreshold | backend/app/services/ingestion_service.py:545-564 | Some accepted image scores below 0.3. |
| Ingestion.CheckQuality | backend/app/services/ingestion_service.py:378-388 | An accepted image gets the overall quality. A rejected one gets 0.3 and exactly one more warning issue. |
| Ingestion.DocumentStatus | backend/app/services/ingestion_service.py:621-624 | `needs_review` iff the quality is missing or below 0.3. |
| Ingestion.NextSteps | backend/app/services/ingestion_service.py:670-692 | Starts with `classification`. `manual_review` and `quality_enhancement` iff quality < 0.3. Otherwise `table_detection` iff tables, else `deskew` iff skew > 2. `multi_page_processing` last iff pages > 1. `manual_review`, `table_detection` or `deskew` comes second, and `quality_enhancement` third after `manual_review`. At most 4 steps, none repeated. |
| Ingestion.ReviewDecisionsAgree | backend/app/services/ingestion_service.py:109-115 | With a quality present, classification is triggered iff the status is `ingested`. |
| Ingestion.RejectedImageStillClassified | backend/app/services/ingestion_service.py:378-388 | A rejected image scores 0.3, so it is ingested and classified, with no manual review. |
| Ingestion.MissingScoreDefaultsDisagree | backend/app/services/ingestion_service.py:621-624 | Without a quality score, the status says review while the next steps assume 0.5. |
| Ingestion.DetectMimeType | backend/app/services/ingestion_service.py:185-200 | The detector's answer when it works. Otherwise the type of the first table entry whose extension equals the lower-cased one, or `application/octet-stream` when no entry does. |
| Ingestion.Extension | backend/app/services/ingestion_service.py:190 | `splitext`: a suffix of the path starting at a dot, with no dot or `/` after it. |
| Ingestion.TifFallback | backend/app/services/ingestion_service.py:190-200 | A file whose suffix lower-cases to `tif`, in any mix of letter cases, falls back to `image/tiff`. |
| Ingestion.FallbackIsKnown | backend/app/services/ingestion_service.py:190-200 | The fallback is one of the table's types or `application/octet-stream`. |
| ImageQuality.ValidateImageQuality | backend/app/utils/image_utils.py:7-84 | Accepted iff every check passes. Load failure and exceptions give their own reasons. Low resolution is rejected before any other check. Metrics are attached exactly to the last three rejections. |
| ImageQuality.CascadeOrder | backend/app/utils/image_utils.py:19-78 | A loaded image is rejected for a reason iff every earlier check passed and this one failed. |
| ImageQuality.MetricsDescribeTheImage | backend/app/utils/image_utils.py:48-56 | The metrics of an accepted image are those of the image. |
| Review.SetPath | backend/app/api/routes/review.py:63-71 | The update succeeds iff no intermediate is a non-object. The path then reads back the value, other top-level keys are unchanged, and keys are kept or appended. Every key path that leaves the updated path at some depth (a sibling at the top level or inside an intermediate object) reads as before. |
| Review.SiblingSurvives | backend/app/api/routes/review.py:63-71 | Setting `a.b` in `{"a": {"c": 1, "b": 0}}` succeeds, reads back the new value and keeps `a.c`. |
| Review.CreatesIntermediates | backend/app/api/routes/review.py:67-69 | Writing through a missing intermediate key succeeds, and that key then holds the nested objects of the rest of the path ending in the value, with nothing else inside them. |
| Review.UpdateField | backend/app/api/routes/review.py:63-75 | A dot-free name sets that key and leaves every other key unchanged. Any successful update reads back the value, and every key path off the dotted path reads as before. |
| Review.UpdateFieldRaises | backend/app/api/routes/review.py:63-75 | The write-back raises iff some intermediate is not an object. |
| Review.MakeRecord | backend/app/api/routes/review.py:48-55 | The new value is stored as its string form. The old value is absent iff there is none. |
| Review.RecordedOldValueSource | backend/app/api/routes/review.py:35-55 | A recorded old value is the string form of the request's old value when one was given, else of the first JSONPath match. |
| Review.OldValue | backend/app/api/routes/review.py:35-45 | The given old value, else the first match, else none. |
| Review.Apply | backend/app/api/routes/review.py:63-90 | `sent_to_memory` is true iff `store_correction` did not raise. |
| Review.SubmitCorrectionAsWritten | backend/app/api/routes/review.py:11-102 | As written, every error, including the missing document, is a 500. |
| Review.MissingDocumentIsServerError | backend/app/api/routes/review.py:20-32 | As written, an unknown document gives 500, not 404. |
| Review.SubmitCorrection | backend/app/api/routes/review.py:11-102 | Corrected: 404 iff no document, 400 iff no extraction. Accepted iff found and writable. |
| Review.AcceptedCorrectionIsVisible | backend/app/api/routes/review.py:63-75 | After acceptance the path reads the new value. Top-level keys other than the path's first are unchanged, and so is every key path that leaves the path deeper down. |
| Dashboard.DocumentsByTypeAsWritten | backend/app/api/routes/dashboard.py:26 | As written, a dict comprehension over labelled groups. |
| Dashboard.UnknownCountsOverwrite | backend/app/api/routes/dashboard.py:26 | As written, `None: 3` and `"unknown": 2` give `{"unknown": 2}`. |
| Dashboard.DocumentsByType | backend/app/api/routes/dashboard.py:26 | Corrected: every label is present and the counts add up to the total. |
| Dashboard.DocumentsByTypeAgree | backend/app/api/routes/dashboard.py:26 | With distinct labels, the corrected and as-written versions agree. |
| Dashboard.ExtractionAccuracyIsMean | backend/app/api/routes/dashboard.py:37-51 | A field appears iff some extraction scores it, and then its value is the mean of its scores. |
| Dashboard.ExtractionAccuracyWithin | backend/app/api/routes/dashboard.py:37-51 | Scores in [0, 1] give a mean in [0, 1]. |
| Dashboard.ExtractionAccuracy | backend/app/api/routes/dashboard.py:37-51 | `{}` when there are no extractions. |
| Dashboard.FailureRate | backend/app/api/routes/dashboard.py:54-59 | 0 for no validations. Otherwise rate · total = 100 · failed, so it lies in [0, 100] when failed ≤ total. |
| Dashboard.CountCodes | backend/app/api/routes/dashboard.py:66-71 | Each code's count rises by its occurrences. A missing code counts as `"unknown"`. |
| Dashboard.TopErrorCodes | backend/app/api/routes/dashboard.py:66-75 | At most 5 entries, sorted non-increasing by count, with no code repeated. Each count is the number of occurrences of its code. |
| Dashboard.TopErrorCodesAreTop | backend/app/api/routes/dashboard.py:66-75 | A code left out means 5 entries were returned, none of them less frequent than it. |
| Dashboard.Shorten | backend/app/api/routes/dashboard.py:87-88 | Values over 50 characters become their first 50 plus `...`. Others are kept. |
| Dashboard.ShortenIdempotent | backend/app/api/routes/dashboard.py:87-88 | Shortening twice is shortening once. |
| Dashboard.DashboardMetrics | backend/app/api/routes/dashboard.py:11-116 | Corrected: type counts add up. The rate is in [0, 100]. At most 5 codes. One shortened entry per correction. |

## Left out

- OCR, OpenCV and PDF rasterisation are inputs. This covers Tesseract, thresholding, contours, Hough lines, Laplacian, std and mean. The model receives their results: text, densities, contour boxes, angles and pixel statistics. `pdf_utils.py` is not part of this model.
- The database, HTTP routing, background tasks and `asyncio` are not modelled. Query results arrive as sequences. Store operations are sequential state transitions.
- The regular-expression engine is a parameter, except for the D/M/Y and Y/M/D date patterns of `normalize_date` and the validator, which are modelled concretely.
- The `strptime` format cascades and `%b` month names are parameters, and so are `Decimal()` on strings, `str()` of non-strings, md5 hashing, time stamps and today's date.
- `normalize_currency` is not modelled, because it is float formatting (`%.2f`).
- Floats are exact reals, so rounding error is not modelled.
- Issue and log messages are not modelled. Rejection reasons are an enumeration rather than message strings.
- The cross-document lookup is DB-bound. Only the count of related documents is an input, and the fabricated salary-mismatch warning is modelled from it.
- The JSONPath old-value lookup of `review.py` is an input: what it found, or that it raised.
- `review.py` commits the correction record before the write-back. That a record persists when the write-back later fails is not modelled.
- The PDF branch of `analyze_layout` ("Failed to load PDF") is folded into the single load-failure result.
- `_check_duplicate`, `cleanup_old_files`, the file hashing and moves of the ingestion service, and `_trigger_classification`'s body are not modelled. They are I/O.
- `Ingestion.Extension` models `os.path.splitext` on `/`-separated paths only. The source's platform-dependent separators are not modelled.
- `Classification.ClassifyDocument`: the `except` branch (UNKNOWN, 0.0, `en`, 0.5) is `Classification.ClassificationFailed`. No input reaches it, because the model's inputs cannot raise.
- `Learning.RecordCorrection`: the service swallows every exception. The model has no raising step, so the handler is unreachable and not modelled.
- `Validation.BalanceIssues`: its own contract states only that there is at most one issue, and none when a balance is missing. The full if-and-only-if is `Validation.BalanceMismatchIff`.
- `Dashboard.DashboardMetrics`: the 7-day windows and query limits (100 extractions, 10 validations, 5 corrections) are applied by the database queries, which are inputs.
- `Dashboard.DashboardMetrics`: builds the type counts with the corrected, summing `Dashboard.DocumentsByType`. As written, a `None` group and an `"unknown"` group overwrite each other (`Dashboard.UnknownCountsOverwrite`). The model does not reproduce that loss.
- `Dashboard.DashboardMetrics`: the `except Exception` branch that answers 500 (dashboard.py:115-117) is not modelled. The input types rule out the data that would raise there, such as an extraction whose `confidence_scores` is null or an issue that is not a dict, and the database errors are not modelled either.
- `Extraction.ExtractFields` and `Extraction.Dispatch`: the payslip case uses the corrected `Extraction.PayslipFields`, so `pay_period` stays text. As written it becomes a number (`Extraction.PayPeriodStoredAsNumber`). `Extraction.PayslipFieldsAsWritten` is the as-written extractor, and `Extraction.PayslipValueFixedDiffers` says the two differ only there.
- `Extraction.InvoiceFieldValue`, `Extraction.DateValues` and `ExtractionLines.TransactionOf`: dates go through the corrected `NormalizeDateFixed`. As written, `normalize_date` turns a `YYYY-MM-DD` date into `20DD-MM-YY` (`DateNormalization.NormalizeDateSwapsIso`). For an invoice date, a generic date or a transaction date in ISO form, the model therefore stores the date unchanged, where the program stores it swapped.
- `Base.IsSpace`: only the six ASCII whitespace characters. Python's `split` and `strip` also treat \x1c-\x1f, \x85 and the Unicode spaces as whitespace. For example, `normalize_name` splits on a no-break space, and the model does not.
- `Base.IsDigit`: only ASCII digits. Python's `\d` and `int` also accept other Unicode decimal digits.
- `Base.LowerChar` / `Base.Lower` / `Base.UpperChar`: case folding covers the ASCII letters only. Python's `str.lower`, `str.upper` and `str.capitalize` also fold other capitals (accented Latin, Greek, Cyrillic, and the Kelvin sign U+212A to `k`). This affects the keyword matching of `classify_document`, the token matching of `normalize_boolean`, `normalize_name`'s capitalisation, the MIME fallback's extension and the keyword tests of the line extractors and validators.
- `AnalyzeTextPatterns` (`Classification.AnalyzeTextPatterns`): because of the ASCII-only `Base.Lower`, a keyword written with a non-ASCII capital is missed. For "ACCOUNT BALANCE BAN" followed by the Kelvin sign, Python lower-cases to "account balance bank" and scores bank statements 3/9, above 0.3. The model keeps the Kelvin sign, scores 2/9 and answers UNKNOWN with 0.1.
- `ExtractionLines.ParseInt`: `int()` on the quantity group. The regular-expression engine is a parameter, so a group that is not a run of digits can reach it and raise. With the real `(\d+)` group it never raises (`ExtractionLines.LineItemOfDigits`). Python's own limit, a raise on a quantity of more than 4300 digits, is not modelled.
- `Extraction.InvoiceQuantityFailure`: for the same reason, it shows the propagation of a raise that the real regular expression does not produce.
- `Dashboard.CountCodes`: an issue whose `issue_code` is present but null is treated like a missing one. The source would count it under `None`.

## Findings

| source | as written | input that shows it | evidently intended | confidence | as-written member | corrected member |
|---|---|---|---|---|---|---|
| backend/app/utils/normalization.py:14-34 | The D/M/Y pattern is searched anywhere, so it matches `YY-MM-DD` inside an ISO date. | `"2023-01-15"` gives `"2015-01-23"`, and normalising again gives `"2023-01-15"`. | An ISO date is left as it is. | not executed | DateNormalization.NormalizeDateNotIdempotent | DateNormalization.NormalizeDateFixedKeepsIso |
| backend/app/services/extraction_service.py:142-143 | Every payslip field whose name contains "pay" goes through `normalize_amount`, and that includes `pay_period`. | A matched pay period `01/03/2024 - 31/03/2024` becomes a number. | The pay period stays text. | not executed | Extraction.PayPeriodStoredAsNumber | Extraction.PayPeriodStoredAsText |
| backend/app/api/routes/review.py:20-32, 101-103 | The 404 and 400 `HTTPException`s are raised inside `try` and caught by `except Exception`, which re-raises 500. | An unknown `document_id` gives 500. | 404 for a missing document, 400 for a missing extraction. | not executed | Review.MissingDocumentIsServerError | Review.SubmitCorrection |
| backend/app/api/routes/dashboard.py:26 | `{doc_type or "unknown": count ...}` overwrites, so a `None` group and an `"unknown"` group collide. | Groups `(None, 3)` and `("unknown", 2)` give `{"unknown": 2}`, losing 3 documents. | The counts are summed, as `Dashboard.DocumentsByType` does. | not executed | Dashboard.UnknownCountsOverwrite | Dashboard.DocumentsByType |

=== FILE: base.dfy ===
/** Shared building blocks: an optional value, character classes, and the
    handful of Python string operations (strip, lower, filter, split, slicing,
    decimal rendering) that the pipeline relies on. Characters are treated as
    ASCII: `IsDigit` is `[0-9]` and `IsSpace` is the ASCII whitespace set. */
module Base {

  datatype Option<+T> = None | Some(value: T) {
    function GetOr(default: T): T {
      match this
      case Some(v) => v
      case None => default
    }
  }

  /** The outcome of a Python call that may raise: either it returns a value
      or an exception escapes it. Which exception it was is not modelled. */
  datatype Outcome<+T> = Done(value: T) | Raised

  // ---------------------------------------------------------------- characters

  /** ASCII digits only: Python's `\d` and `int` also accept other Unicode
      decimal digits, which are ordinary characters here. */
  predicate IsDigit(c: char) { '0' <= c <= '9' }

  predicate IsUpper(c: char) { 'A' <= c <= 'Z' }

  predicate IsLower(c: char) { 'a' <= c <= 'z' }

  predicate IsLetter(c: char) { IsUpper(c) || IsLower(c) }

  /** The six ASCII whitespace characters: space, \t, \n, \r, \v, \f.
      Python's `str.split` and `str.strip` also treat \x1c-\x1f, \x85 and
      the Unicode spaces (such as the no-break space) as whitespace; those
      characters are ordinary characters here. */
  predicate IsSpace(c: char) {
    c == ' ' || c == '\t' || c == '\n' || c == '\r' || c as int == 11 || c as int == 12
  }

  /** ASCII case folding: only `A`-`Z` change. Python's `str.lower` also
      folds other capitals, such as `À`, Greek and Cyrillic letters and the
      Kelvin sign U+212A (to `k`); those characters are kept unchanged here. */
  function LowerChar(c: char): (r: char)
    ensures IsUpper(c) ==> IsLower(r)
    ensures !IsUpper(c) ==> r == c
  {
    if IsUpper(c) then (c as int + 32) as char else c
  }

  /** ASCII case folding the other way: only `a`-`z` change. */
  function UpperChar(c: char): (r: char)
    ensures IsLower(c) ==> IsUpper(r)
    ensures !IsLower(c) ==> r == c
  {
    if IsLower(c) then (c as int - 32) as char else c
  }

  function Lower(s: string): (r: string)
    ensures |r| == |s|
    ensures forall i :: 0 <= i < |s| ==> r[i] == LowerChar(s[i])
  {
    if s == [] then [] else [LowerChar(s[0])] + Lower(s[1..])
  }

  lemma LowerTwice(s: string)
    ensures Lower(Lower(s)) == Lower(s)
  {
  }

  predicate AllDigits(s: string) {
    forall i :: 0 <= i < |s| ==> IsDigit(s[i])
  }

  // ------------------------------------------------------------------- strings

  /** `s.lstrip()` */
  function StripLeft(s: string): (r: string)
    ensures |r| <= |s| && r == s[|s| - |r|..]
    ensures r == [] || !IsSpace(r[0])
    ensures forall i :: 0 <= i < |s| - |r| ==> IsSpace(s[i])
  {
    if s != [] && IsSpace(s[0]) then StripLeft(s[1..]) else s
  }

  /** `s.rstrip()` */
  function StripRight(s: string): (r: string)
    ensures |r| <= |s| && r == s[..|r|]
    ensures r == [] || !IsSpace(r[|r| - 1])
    ensures forall i :: |r| <= i < |s| ==> IsSpace(s[i])
  {
    if s != [] && IsSpace(s[|s| - 1]) then StripRight(s[..|s| - 1]) else s
  }

  /** `s.strip()` */
  function Strip(s: string): (r: string)
    ensures |r| <= |s|
    ensures r == [] || (!IsSpace(r[0]) && !IsSpace(r[|r| - 1]))
  {
    StripRight(StripLeft(s))
  }

  /** Text without surrounding whitespace is its own `strip()`. */
  lemma StripUnpadded(s: string)
    requires s == [] || (!IsSpace(s[0]) && !IsSpace(s[|s| - 1]))
    ensures Strip(s) == s
  {
  }

  /** `"".join(c for c in s if keep(c))` */
  function Filter(s: string, keep: char -> bool): (r: string)
    ensures |r| <= |s|
    ensures forall i :: 0 <= i < |r| ==> keep(r[i])
  {
    if s == [] then []
    else (if keep(s[0]) then [s[0]] else []) + Filter(s[1..], keep)
  }

  lemma {:induction false} FilterAppend(a: string, b: string, keep: char -> bool)
    ensures Filter(a + b, keep) == Filter(a, keep) + Filter(b, keep)
  {
    if a == [] {
      assert a + b == b;
    } else {
      assert (a + b)[1..] == a[1..] + b;
      FilterAppend(a[1..], b, keep);
    }
  }

  /** Filtering a string whose characters are all kept returns it unchanged. */
  lemma {:induction false} FilterKeepsAll(s: string, keep: char -> bool)
    requires forall i :: 0 <= i < |s| ==> keep(s[i])
    ensures Filter(s, keep) == s
  {
    if s != [] {
      FilterKeepsAll(s[1..], keep);
    }
  }

  lemma {:induction false} FilterKeepsNone(s: string, keep: char -> bool)
    requires forall i :: 0 <= i < |s| ==> !keep(s[i])
    ensures Filter(s, keep) == []
  {
    if s != [] {
      FilterKeepsNone(s[1..], keep);
    }
  }

  /** Filtering keeps only characters of the input. */
  lemma {:induction false} FilterChars(s: string, keep: char -> bool, p: char -> bool)
    requires forall i :: 0 <= i < |s| ==> p(s[i])
    ensures forall i :: 0 <= i < |Filter(s, keep)| ==> p(Filter(s, keep)[i])
  {
    if s != [] {
      FilterChars(s[1..], keep, p);
    }
  }

  /** Filtering idempotently: a second pass keeps everything the first one kept. */
  lemma FilterTwice(s: string, keep: char -> bool)
    ensures Filter(Filter(s, keep), keep) == Filter(s, keep)
  {
    FilterKeepsAll(Filter(s, keep), keep);
  }

  /** A filter that drops whitespace does not care whether the text was stripped first. */
  lemma FilterStrip(s: string, keep: char -> bool)
    requires forall c :: IsSpace(c) ==> !keep(c)
    ensures Filter(Strip(s), keep) == Filter(s, keep)
  {
    FilterStripLeft(s, keep);
    FilterStripRight(StripLeft(s), keep);
  }

  lemma FilterStripLeft(s: string, keep: char -> bool)
    requires forall c :: IsSpace(c) ==> !keep(c)
    ensures Filter(StripLeft(s), keep) == Filter(s, keep)
  {
    var l := StripLeft(s);
    var k := |s| - |l|;
    var spaces := s[..k];
    assert s == spaces + l;
    forall i | 0 <= i < |spaces|
      ensures !keep(spaces[i])
    {
      assert IsSpace(s[i]);
    }
    FilterAppend(spaces, l, keep);
    FilterKeepsNone(spaces, keep);
  }

  lemma FilterStripRight(s: string, keep: char -> bool)
    requires forall c :: IsSpace(c) ==> !keep(c)
    ensures Filter(StripRight(s), keep) == Filter(s, keep)
  {
    var r := StripRight(s);
    var spaces := s[|r|..];
    assert s == r + spaces;
    forall i | 0 <= i < |spaces|
      ensures !keep(spaces[i])
    {
      assert IsSpace(s[|r| + i]);
    }
    FilterAppend(r, spaces, keep);
    FilterKeepsNone(spaces, keep);
  }

  predicate StartsWith(s: string, prefix: string) {
    |prefix| <= |s| && s[..|prefix|] == prefix
  }

  /** `sub in s` for strings. */
  predicate Contains(s: string, sub: string)
    decreases |s|
  {
    StartsWith(s, sub) || (s != [] && Contains(s[1..], sub))
  }

  lemma {:induction false} ContainsAt(s: string, sub: string, i: nat)
    requires i + |sub| <= |s| && s[i..i + |sub|] == sub
    ensures Contains(s, sub)
    decreases i
  {
    if i > 0 {
      assert s[1..][i - 1..i - 1 + |sub|] == sub;
      ContainsAt(s[1..], sub, i - 1);
    }
  }

  /** `sub` cannot occur in a string that lacks one of its characters. */
  lemma {:induction false} NotContainsMissing(s: string, sub: string, c: char)
    requires c in sub && c !in s
    ensures !Contains(s, sub)
    decreases |s|
  {
    var i :| 0 <= i < |sub| && sub[i] == c;
    if |sub| <= |s| {
      assert s[..|sub|][i] != c;
    }
    if s != [] {
      NotContainsMissing(s[1..], sub, c);
    }
  }

  /** `sub` occurs in `s` starting at index `i`. */
  predicate OccursAt(s: string, sub: string, i: nat) {
    i + |sub| <= |s| && s[i..i + |sub|] == sub
  }

  /** An occurrence of `a + b` is an occurrence of `a` followed by one of `b`. */
  lemma OccursSplit(s: string, a: string, b: string, i: nat)
    requires OccursAt(s, a + b, i)
    ensures OccursAt(s, a, i) && OccursAt(s, b, i + |a|)
  {
    var w := s[i..i + |a| + |b|];
    assert w == a + b;
    assert s[i..i + |a|] == w[..|a|];
    assert s[i + |a|..i + |a| + |b|] == w[|a|..];
  }

  /** An occurrence of `a` followed by one of `b` is an occurrence of `a + b`. */
  lemma OccursJoin(s: string, a: string, b: string, i: nat)
    requires OccursAt(s, a, i) && OccursAt(s, b, i + |a|)
    ensures OccursAt(s, a + b, i)
  {
    assert s[i..i + |a| + |b|] == s[i..i + |a|] + s[i + |a|..i + |a| + |b|];
  }

  /** A one-character occurrence is that character. */
  lemma OccursChar(s: string, c: char, i: nat)
    requires OccursAt(s, [c], i)
    ensures i < |s| && s[i] == c
  {
    assert s[i..i + 1][0] == s[i];
  }

  lemma {:induction false} ContainsWitness(s: string, sub: string)
    requires Contains(s, sub)
    ensures exists i: nat :: OccursAt(s, sub, i)
    decreases |s|
  {
    if StartsWith(s, sub) {
      assert OccursAt(s, sub, 0);
    } else {
      ContainsWitness(s[1..], sub);
      var i: nat :| OccursAt(s[1..], sub, i);
      assert s[i + 1..i + 1 + |sub|] == s[1..][i..i + |sub|];
      assert OccursAt(s, sub, i + 1);
    }
  }

  /** Index of the first occurrence of `c`, if any. */
  function IndexOf(s: string, c: char): (r: Option<nat>)
    ensures r.Some? ==> r.value < |s| && s[r.value] == c && c !in s[..r.value]
    ensures r.None? ==> c !in s
  {
    if s == [] then None
    else if s[0] == c then Some(0)
    else match IndexOf(s[1..], c)
      case None => None
      case Some(k) => assert s[..k + 1] == [s[0]] + s[1..][..k]; Some(k + 1)
  }

  lemma {:induction false} IndexOfAfter(s: string, c: char, rest: string)
    requires c !in s
    ensures IndexOf(s + [c] + rest, c) == Some(|s|)
  {
    if s != [] {
      assert (s + [c] + rest)[1..] == s[1..] + [c] + rest;
      IndexOfAfter(s[1..], c, rest);
    }
  }

  /** `s.split(sep)[-1]`: the text after the last occurrence of `sep`. */
  function LastSegment(s: string, sep: char): (r: string)
    ensures |r| <= |s| && r == s[|s| - |r|..]
    ensures sep !in r
    ensures |r| < |s| ==> s[|s| - |r| - 1] == sep
  {
    if s == [] then []
    else if s[|s| - 1] == sep then []
    else LastSegment(s[..|s| - 1], sep) + [s[|s| - 1]]
  }

  /** `s.split(sep)` with a one-character separator: always at least one part. */
  function SplitOn(s: string, sep: char): (r: seq<string>)
    ensures |r| >= 1
    ensures forall i :: 0 <= i < |r| ==> sep !in r[i]
    decreases |s|
  {
    match IndexOf(s, sep)
    case None => [s]
    case Some(k) => [s[..k]] + SplitOn(s[k + 1..], sep)
  }

  /** Python's `s[:n]` for a non-negative `n`. */
  function Prefix<T>(s: seq<T>, n: nat): (r: seq<T>)
    ensures |r| == if n < |s| then n else |s|
    ensures r == s[..|r|]
  {
    if n < |s| then s[..n] else s
  }

  /** Python's `s[:n]` for any integer `n`: a negative `n` drops `-n` items from the end. */
  function PySlice<T>(s: seq<T>, n: int): (r: seq<T>)
    ensures n >= 0 ==> r == Prefix(s, n)
    ensures n < 0 ==> |r| == (if |s| + n < 0 then 0 else |s| + n)
    ensures r == s[..|r|]
  {
    if n >= 0 then Prefix(s, n) else if |s| + n < 0 then [] else s[..|s| + n]
  }

  // ---------------------------------------------------------- decimal numerals

  function DigitValue(c: char): (r: nat)
    requires IsDigit(c)
    ensures r < 10
  {
    c as int - '0' as int
  }

  function DigitChar(d: nat): (r: char)
    requires d < 10
    ensures IsDigit(r) && DigitValue(r) == d
  {
    ('0' as int + d) as char
  }

  lemma DigitCharOfValue(c: char)
    requires IsDigit(c)
    ensures DigitChar(DigitValue(c)) == c
  {
    assert ('0' as int + (c as int - '0' as int)) == c as int;
  }

  /** `int(s)` for a string of ASCII digits (the empty string reads as 0). */
  function DigitsToNat(s: string): nat
    requires AllDigits(s)
  {
    if s == [] then 0 else 10 * DigitsToNat(s[..|s| - 1]) + DigitValue(s[|s| - 1])
  }

  /** `str(n)` for a natural number. */
  function NatToString(n: nat): (r: string)
    ensures |r| >= 1 && AllDigits(r)
    ensures n >= 10 ==> r[0] != '0'
  {
    if n < 10 then [DigitChar(n)] else NatToString(n / 10) + [DigitChar(n % 10)]
  }

  lemma {:induction false} NatToStringRoundTrip(n: nat)
    ensures DigitsToNat(NatToString(n)) == n
  {
    var s := NatToString(n);
    if n >= 10 {
      NatToStringRoundTrip(n / 10);
      assert s[..|s| - 1] == NatToString(n / 10);
    }
  }

  /** Distinct numbers have distinct decimal renderings. */
  lemma NatToStringInjective(m: nat, n: nat)
    requires NatToString(m) == NatToString(n)
    ensures m == n
  {
    NatToStringRoundTrip(m);
    NatToStringRoundTrip(n);
  }

  /** Zero-padded rendering of `n` with at least `width` digits (`%0*d`). */
  function PadNat(n: nat, width: nat): (r: string)
    ensures AllDigits(r) && |r| >= width
    ensures |NatToString(n)| <= width ==> |r| == width
  {
    var s := NatToString(n);
    Zeros(width - |s|) + s
  }

  function Zeros(k: int): (r: string)
    ensures |r| == (if k < 0 then 0 else k) && AllDigits(r)
    ensures forall i :: 0 <= i < |r| ==> r[i] == '0'
    decreases k
  {
    if k <= 0 then [] else "0" + Zeros(k - 1)
  }

  /** `s.zfill(width)` for a string of digits. */
  function ZFill(s: string, width: nat): (r: string)
    ensures |r| == if |s| < width then width else |s|
    ensures r[|r| - |s|..] == s
  {
    Zeros(width - |s|) + s
  }

  /** Zero-filling digits gives digits. */
  lemma ZFillDigits(s: string, width: nat)
    requires AllDigits(s)
    ensures AllDigits(ZFill(s, width))
  {
    var z := Zeros(width - |s|);
    assert ZFill(s, width) == z + s;
    forall i | 0 <= i < |z + s|
      ensures IsDigit((z + s)[i])
    {
      if i < |z| {
        assert (z + s)[i] == z[i];
      } else {
        assert (z + s)[i] == s[i - |z|];
      }
    }
  }

  /** Zero-filling digits keeps their value. */
  lemma ZFillValue(s: string, width: nat)
    requires AllDigits(s)
    ensures AllDigits(ZFill(s, width)) && DigitsToNat(ZFill(s, width)) == DigitsToNat(s)
  {
    var k := if |s| < width then width - |s| else 0;
    assert ZFill(s, width) == Zeros(k) + s;
    DigitsToNatLeadingZeros(k, s);
  }

  lemma {:induction false} DigitsToNatLeadingZeros(k: nat, s: string)
    requires AllDigits(s)
    ensures AllDigits(Zeros(k) + s) && DigitsToNat(Zeros(k) + s) == DigitsToNat(s)
    decreases |s|
  {
    var t := Zeros(k) + s;
    if s == [] {
      assert t == Zeros(k);
      DigitsToNatZeros(k);
    } else {
      assert t[..|t| - 1] == Zeros(k) + s[..|s| - 1];
      DigitsToNatLeadingZeros(k, s[..|s| - 1]);
    }
  }

  lemma {:induction false} DigitsToNatZeros(k: nat)
    ensures DigitsToNat(Zeros(k)) == 0
    decreases k
  {
    if k > 0 {
      var z := Zeros(k);
      ZerosSnoc(k - 1);
      assert z[..|z| - 1] == Zeros(k - 1);
      DigitsToNatZeros(k - 1);
    }
  }

  lemma DivMod10(m: nat, d: nat)
    requires d < 10
    ensures (10 * m + d) / 10 == m && (10 * m + d) % 10 == d
  {
  }

  /** Appending a digit to a digit string multiplies its value by ten and adds the digit. */
  lemma DigitsToNatSnoc(init: string, c: char)
    requires AllDigits(init) && IsDigit(c)
    ensures AllDigits(init + [c]) && DigitsToNat(init + [c]) == 10 * DigitsToNat(init) + DigitValue(c)
  {
    var s := init + [c];
    assert s[..|s| - 1] == init;
  }

  /** A digit string of a fixed width renders back to itself once its value is padded to that width. */
  lemma {:induction false} PadNatRoundTrip(s: string)
    requires AllDigits(s) && |s| >= 1
    ensures PadNat(DigitsToNat(s), |s|) == s
    decreases |s|
  {
    var init := s[..|s| - 1];
    var last := s[|s| - 1];
    assert s == init + [last];
    DigitsToNatSnoc(init, last);
    var m := DigitsToNat(init);
    var d := DigitValue(last);
    var n := 10 * m + d;
    assert DigitsToNat(s) == n;
    DigitCharOfValue(last);
    DivMod10(m, d);
    if m == 0 {
      ZeroDigitsAreZeros(init);
      assert NatToString(n) == [last];
      assert PadNat(n, |s|) == Zeros(|init|) + [last];
    } else {
      PadNatRoundTrip(init);
      assert NatToString(n) == NatToString(m) + [last];
      assert PadNat(n, |s|) == Zeros(|init| - |NatToString(m)|) + NatToString(m) + [last];
    }
  }

  /** A digit string without a leading zero is the decimal rendering of its value. */
  lemma NatToStringOfDigits(s: string)
    requires AllDigits(s) && |s| >= 1 && (|s| == 1 || s[0] != '0')
    ensures NatToString(DigitsToNat(s)) == s
  {
    PadNatRoundTrip(s);
  }

  lemma {:induction false} ZeroDigitsAreZeros(s: string)
    requires AllDigits(s) && DigitsToNat(s) == 0
    ensures s == Zeros(|s|)
    decreases |s|
  {
    if s != [] {
      var init := s[..|s| - 1];
      assert DigitsToNat(s) == 10 * DigitsToNat(init) + DigitValue(s[|s| - 1]);
      assert DigitsToNat(init) == 0 && DigitValue(s[|s| - 1]) == 0;
      assert s[|s| - 1] == '0';
      ZeroDigitsAreZeros(init);
      assert s == init + "0";
      ZerosSnoc(|s| - 1);
    }
  }

  lemma {:induction false} ZerosSnoc(k: nat)
    ensures Zeros(k + 1) == Zeros(k) + "0"
    decreases k
  {
    if k > 0 {
      ZerosSnoc(k - 1);
    }
  }

  // ------------------------------------------------------------------ numbers

  function Min(a: real, b: real): real { if a <= b then a else b }

  function Max(a: real, b: real): real { if a >= b then a else b }

  function Abs(x: real): real { if x < 0.0 then -x else x }

  function Sum(xs: seq<real>): real {
    if xs == [] then 0.0 else Sum(xs[..|xs| - 1]) + xs[|xs| - 1]
  }

  /** `sum(xs) / len(xs)`, the arithmetic mean of a non-empty list. */
  function Mean(xs: seq<real>): real
    requires xs != []
  {
    Sum(xs) / (|xs| as real)
  }

  lemma {:induction false} SumAppend(a: seq<real>, b: seq<real>)
    ensures Sum(a + b) == Sum(a) + Sum(b)
    decreases |b|
  {
    if b == [] {
      assert a + b == a;
    } else {
      var ab := a + b;
      assert ab[..|ab| - 1] == a + b[..|b| - 1];
      assert ab[|ab| - 1] == b[|b| - 1];
      SumAppend(a, b[..|b| - 1]);
    }
  }
}

=== FILE: classification.dfy ===
/** `classification_service.py`: keyword scoring of the OCR text, the
    document-type decision with its threshold and tie order, the shaping of
    the classification result, and the combination of image metrics into a
    quality score. OCR, language detection and the pixel statistics are
    inputs. */
module Classification {
  import opened Base

  /** `DocumentType` of `schemas.py`. */
  datatype DocumentType =
    | BankStatement | Invoice | Payslip | Agreement | SettlementLetter | TaxForm | IdProof | Unknown
  {
    /** The enum's string value. */
    function Name(): string {
      match this
      case BankStatement => "bank_statement"
      case Invoice => "invoice"
      case Payslip => "payslip"
      case Agreement => "agreement"
      case SettlementLetter => "settlement_letter"
      case TaxForm => "tax_form"
      case IdProof => "id_proof"
      case Unknown => "unknown"
    }
  }

  /** The keyword table, in the dict's insertion order, which is also the tie order. */
  const Keywords: seq<(DocumentType, seq<string>)> := [
    (BankStatement, ["account", "balance", "transaction", "debit", "credit",
                     "statement", "bank", "withdrawal", "deposit"]),
    (Payslip, ["salary", "pay slip", "net pay", "gross pay", "deduction",
               "employee", "employer", "tax", "national insurance"]),
    (Invoice, ["invoice", "bill to", "ship to", "quantity", "total",
               "subtotal", "tax", "amount due", "item"]),
    (Agreement, ["agreement", "contract", "terms", "conditions",
                 "party", "signature", "effective date"])]

  /** The number of keywords that occur in the text; a keyword counts once however often it occurs. */
  function Hits(text: string, keywords: seq<string>): (n: nat)
    ensures n <= |keywords|
  {
    if keywords == [] then 0
    else (if Contains(text, keywords[0]) then 1 else 0) + Hits(text, keywords[1..])
  }

  /** Every keyword occurs exactly when the count is full, and none when it is zero. */
  lemma {:induction false} HitsExtremes(text: string, keywords: seq<string>)
    ensures Hits(text, keywords) == |keywords| <==> forall i :: 0 <= i < |keywords| ==> Contains(text, keywords[i])
    ensures Hits(text, keywords) == 0 <==> forall i :: 0 <= i < |keywords| ==> !Contains(text, keywords[i])
  {
    if keywords != [] {
      HitsExtremes(text, keywords[1..]);
      assert forall i :: 1 <= i < |keywords| ==> keywords[i] == keywords[1..][i - 1];
    }
  }

  /** `score / max(len(doc_keywords), 1)` */
  function Score(text: string, keywords: seq<string>): (r: real)
    ensures 0.0 <= r <= 1.0
    ensures r == 1.0 <==> keywords != [] && Hits(text, keywords) == |keywords|
    ensures r == 0.0 <==> Hits(text, keywords) == 0
  {
    var n := if |keywords| > 1 then |keywords| else 1;
    (Hits(text, keywords) as real) / (n as real)
  }

  /** The score of every type, in table order. */
  function Scores(lowered: string, table: seq<(DocumentType, seq<string>)>): (r: seq<(DocumentType, real)>)
    ensures |r| == |table|
    ensures forall i :: 0 <= i < |table| ==> r[i] == (table[i].0, Score(lowered, table[i].1))
  {
    if table == [] then [] else [(table[0].0, Score(lowered, table[0].1))] + Scores(lowered, table[1..])
  }

  /** Entry `i` has the largest score and every earlier entry a smaller one. */
  predicate FirstBest(s: seq<(DocumentType, real)>, i: nat) {
    i < |s| && (forall j :: 0 <= j < |s| ==> s[j].1 <= s[i].1) && (forall j :: 0 <= j < i ==> s[j].1 < s[i].1)
  }

  /** `max(scores.items(), key=lambda x: x[1])`: the first entry with the largest score. */
  function Best(s: seq<(DocumentType, real)>): (i: nat)
    requires s != []
    ensures FirstBest(s, i)
  {
    if |s| == 1 then 0
    else
      var k := Best(s[..|s| - 1]);
      if s[|s| - 1].1 > s[k].1 then |s| - 1 else k
  }

  /** The threshold on the best score: the first type with the largest
      score when that score is above 0.3, otherwise `(UNKNOWN, 0.1)`. */
  function Decide(scores: seq<(DocumentType, real)>): (r: (DocumentType, real))
    requires scores != []
  {
    var best := scores[Best(scores)];
    if best.1 > 0.3 then best else (Unknown, 0.1)
  }

  /** Some score above 0.3 decides a type, and the type decided is the first best. */
  lemma DecideMeaning(scores: seq<(DocumentType, real)>)
    requires scores != [] && forall i :: 0 <= i < |scores| ==> scores[i].0 != Unknown
    ensures (exists i :: 0 <= i < |scores| && scores[i].1 > 0.3) <==> Decide(scores).0 != Unknown
    ensures Decide(scores).0 != Unknown ==> exists i: nat :: FirstBest(scores, i) && scores[i] == Decide(scores)
    ensures Decide(scores).0 == Unknown ==> Decide(scores).1 == 0.1
  {
    var k := Best(scores);
    if exists i :: 0 <= i < |scores| && scores[i].1 > 0.3 {
      var i :| 0 <= i < |scores| && scores[i].1 > 0.3;
      assert scores[k].1 >= scores[i].1;
    }
    if Decide(scores).0 != Unknown {
      assert FirstBest(scores, k) && scores[k] == Decide(scores);
    }
  }

  /** `analyze_text_patterns(text)` */
  function AnalyzeTextPatterns(text: string): (r: (DocumentType, real))
    ensures r.0 == Unknown ==> r.1 == 0.1
    ensures r.0 != Unknown ==> 0.3 < r.1 <= 1.0
  {
    Decide(Scores(Lower(text), Keywords))
  }

  /** The decision: the first type with the largest score when that score
      is above 0.3, otherwise `(UNKNOWN, 0.1)`. */
  lemma AnalyzeTextPatternsDecides(text: string, scores: seq<(DocumentType, real)>)
    requires scores == Scores(Lower(text), Keywords)
    ensures (exists i :: 0 <= i < |scores| && scores[i].1 > 0.3) <==> AnalyzeTextPatterns(text).0 != Unknown
    ensures AnalyzeTextPatterns(text).0 != Unknown ==>
      exists i: nat :: FirstBest(scores, i) && scores[i] == AnalyzeTextPatterns(text)
  {
    forall i | 0 <= i < |scores|
      ensures scores[i].0 != Unknown
    {
      assert scores[i].0 == Keywords[i].0;
    }
    DecideMeaning(scores);
  }

  // ------------------------------------------------------------ image quality

  /** The pixel statistics of the first page: Laplacian variance, standard
      deviation and mean of the grey image. */
  datatype Metrics = Metrics(sharpness: real, contrast: real, brightness: real)

  /** The weighted sum before clamping. */
  function WeightedQuality(m: Metrics): real {
    Min(m.sharpness / 1000.0, 1.0) * 0.4 + Min(m.contrast / 100.0, 1.0) * 0.3
      + (1.0 - Abs(m.brightness - 128.0) / 128.0) * 0.3
  }

  /** `calculate_image_quality(filepath)`: 0.5 when the image cannot be read,
      else the weighted score clamped to `[0.1, 1.0]`. */
  function ImageQuality(m: Option<Metrics>): (q: real)
    ensures 0.1 <= q <= 1.0
    ensures m.None? ==> q == 0.5
    ensures m.Some? && 0.1 <= WeightedQuality(m.value) <= 1.0 ==> q == WeightedQuality(m.value)
    ensures m.Some? && WeightedQuality(m.value) < 0.1 ==> q == 0.1
    ensures m.Some? && WeightedQuality(m.value) > 1.0 ==> q == 1.0
  {
    match m
    case None => 0.5
    case Some(x) => Max(0.1, Min(1.0, WeightedQuality(x)))
  }

  /** A sharper image never scores lower, all else equal. */
  lemma QualityMonotoneInSharpness(m: Metrics, s: real)
    requires m.sharpness <= s
    ensures ImageQuality(Some(m)) <= ImageQuality(Some(m.(sharpness := s)))
  {
  }

  /** A sharp, contrasted image of mid-grey brightness scores the maximum. */
  lemma PerfectImage(m: Metrics)
    requires m.sharpness >= 1000.0 && m.contrast >= 100.0 && m.brightness == 128.0
    ensures ImageQuality(Some(m)) == 1.0
  {
  }

  // ---------------------------------------------------- classify_document

  /** The dict `classify_document` returns; `language` and `textSample` are
      absent for text too short to classify. */
  datatype Classification = Classification(documentType: DocumentType, confidence: real,
                                           language: Option<string>, quality: real,
                                           textSample: Option<string>)

  /** The `except` branch. */
  function ClassificationFailed(): Classification {
    Classification(Unknown, 0.0, Some("en"), 0.5, None)
  }

  /** `classify_document(filepath)` with the OCR text (empty when OCR fails),
      the language detector (`None` when it raises) and the image metrics given. */
  function ClassifyDocument(text: string, detect: string -> Option<string>, metrics: Option<Metrics>): (r: Classification)
    ensures |Strip(text)| < 10 ==> r == Classification(Unknown, 0.1, None, 0.1, None)
    ensures |Strip(text)| >= 10 ==> r.language == Some(detect(Prefix(text, 1000)).GetOr("en"))
    ensures |Strip(text)| >= 10 ==> (r.documentType, r.confidence) == AnalyzeTextPatterns(text)
    ensures |Strip(text)| >= 10 ==> r.quality == ImageQuality(metrics) && r.textSample == Some(Prefix(text, 500))
    ensures 0.0 <= r.confidence <= 1.0 && 0.1 <= r.quality <= 1.0
  {
    if |Strip(text)| < 10 then Classification(Unknown, 0.1, None, 0.1, None)
    else
      var (t, c) := AnalyzeTextPatterns(text);
      Classification(t, c, Some(detect(Prefix(text, 1000)).GetOr("en")), ImageQuality(metrics), Some(Prefix(text, 500)))
  }

  /** A classified type always comes with a confidence above the threshold. */
  lemma ClassifiedAboveThreshold(text: string, detect: string -> Option<string>, metrics: Option<Metrics>)
    ensures ClassifyDocument(text, detect, metrics).documentType != Unknown ==>
      ClassifyDocument(text, detect, metrics).confidence > 0.3
  {
  }
}

=== FILE: dashboard.dfy ===
/** The aggregation arithmetic of `dashboard.py` (`get_dashboard_metrics`):
    documents per type, mean confidence per field, the validation failure
    rate, the most frequent issue codes and the shortened correction values.
    The database queries are inputs: their rows arrive as sequences, already
    in the order and within the limit the query asks for. */
module Dashboard {
  import opened Base
  import opened Dict
  import opened Sorting

  // ------------------------------------------------------ documents by type

  /** `doc_type or "unknown"`: a missing or empty type is reported as `unknown`. */
  function TypeLabel(t: Option<string>): (r: string)
    ensures r == "unknown" <==> t.None? || t.value == "" || t.value == "unknown"
    ensures t.Some? && t.value != "" ==> r == t.value
  {
    if t.None? || t.value == "" then "unknown" else t.value
  }

  /** One `(label, count)` pair per row of the `GROUP BY document_type` query. */
  function LabelledGroups(groups: seq<(Option<string>, nat)>): (r: seq<(string, nat)>)
    ensures |r| == |groups|
    ensures forall i :: 0 <= i < |groups| ==> r[i] == (TypeLabel(groups[i].0), groups[i].1)
  {
    if groups == [] then [] else [(TypeLabel(groups[0].0), groups[0].1)] + LabelledGroups(groups[1..])
  }

  /** The number of documents the rows describe. */
  function GroupTotal(groups: seq<(Option<string>, nat)>): nat {
    if groups == [] then 0 else groups[0].1 + GroupTotal(groups[1..])
  }

  /** Line 26 as written: a dict comprehension, so when two rows share a
      label (a `NULL` type and the type `unknown`) the later row's count
      replaces the earlier one's. */
  function DocumentsByTypeAsWritten(groups: seq<(Option<string>, nat)>): (r: Dict<nat>)
    ensures WellFormed(r)
  {
    FromPairs(LabelledGroups(groups))
  }

  /** Untyped and `unknown`-typed documents: three plus two documents, of which the table reports two. */
  lemma UnknownCountsOverwrite()
    ensures var groups := [(None, 3), (Some("unknown"), 2)];
      DocumentsByTypeAsWritten(groups) == [("unknown", 2)]
      && SumOf(DocumentsByTypeAsWritten(groups), Identity) == 2 && GroupTotal(groups) == 5
  {
    var groups: seq<(Option<string>, nat)> := [(None, 3), (Some("unknown"), 2)];
    assert LabelledGroups(groups) == [("unknown", 3), ("unknown", 2)];
    assert Put([("unknown", 3)], "unknown", 2) == [("unknown", 2)];
  }

  /** `d[name] = d.get(name, 0) + n` */
  function AddCount(d: Dict<nat>, name: string, n: nat): (r: Dict<nat>)
    requires WellFormed(d)
    ensures WellFormed(r)
    ensures SumOf(r, Identity) == SumOf(d, Identity) + n
    ensures Keys(r) == if name in Keys(d) then Keys(d) else Keys(d) + [name]
  {
    var v: nat := GetOr<nat>(d, name, 0) + n;
    PutWellFormed(d, name, v);
    PutSum(d, name, v, Identity);
    Put<nat>(d, name, v)
  }

  /** A count added to a missing label is assigned. */
  lemma AddCountFresh(d: Dict<nat>, name: string, n: nat)
    requires WellFormed(d) && name !in Keys(d)
    ensures AddCount(d, name, n) == Put(d, name, n)
  {
    assert Get(d, name) == None;
    assert GetOr<nat>(d, name, 0) + n == n;
  }

  /** Adds each row's count to its label's entry. */
  function Tally(acc: Dict<nat>, groups: seq<(Option<string>, nat)>): (r: Dict<nat>)
    requires WellFormed(acc)
    ensures WellFormed(r)
    ensures SumOf(r, Identity) == SumOf(acc, Identity) + GroupTotal(groups)
    ensures forall k :: k in Keys(acc) ==> k in Keys(r)
    ensures forall i :: 0 <= i < |groups| ==> TypeLabel(groups[i].0) in Keys(r)
    decreases |groups|
  {
    if groups == [] then acc
    else
      var name := TypeLabel(groups[0].0);
      var next := AddCount(acc, name, groups[0].1);
      assert name in Keys(next);
      var r := Tally(next, groups[1..]);
      assert forall k :: k in Keys(acc) ==> k in Keys(next);
      forall i | 0 <= i < |groups|
        ensures TypeLabel(groups[i].0) in Keys(r)
      {
        if i > 0 {
          assert groups[i] == groups[1..][i - 1];
        }
      }
      r
  }

  /** `documents_by_type` with the counts of rows sharing a label added up:
      every document is counted once. */
  function DocumentsByType(groups: seq<(Option<string>, nat)>): (r: Dict<nat>)
    ensures WellFormed(r)
    ensures SumOf(r, Identity) == GroupTotal(groups)
    ensures forall i :: 0 <= i < |groups| ==> TypeLabel(groups[i].0) in Keys(r)
  {
    Tally([], groups)
  }

  /** When no two rows share a label the two versions agree. */
  lemma DocumentsByTypeAgree(groups: seq<(Option<string>, nat)>)
    requires forall i, j :: 0 <= i < j < |groups| ==> TypeLabel(groups[i].0) != TypeLabel(groups[j].0)
    ensures DocumentsByType(groups) == DocumentsByTypeAsWritten(groups)
  {
    TallyIsPutAll([], groups);
  }

  /** With fresh, distinct labels, adding up is assigning. */
  lemma {:induction false} TallyIsPutAll(acc: Dict<nat>, groups: seq<(Option<string>, nat)>)
    requires WellFormed(acc)
    requires forall i, j :: 0 <= i < j < |groups| ==> TypeLabel(groups[i].0) != TypeLabel(groups[j].0)
    requires forall i :: 0 <= i < |groups| ==> TypeLabel(groups[i].0) !in Keys(acc)
    ensures Tally(acc, groups) == PutAll(acc, LabelledGroups(groups))
    decreases |groups|
  {
    if groups != [] {
      var next := Put(acc, TypeLabel(groups[0].0), groups[0].1);
      TallyFreshStep(acc, groups);
      FreshAfterStep(acc, groups);
      TallyIsPutAll(next, groups[1..]);
    }
  }

  /** One step of both folds on a fresh label. */
  lemma TallyFreshStep(acc: Dict<nat>, groups: seq<(Option<string>, nat)>)
    requires WellFormed(acc) && groups != [] && TypeLabel(groups[0].0) !in Keys(acc)
    ensures WellFormed(Put(acc, TypeLabel(groups[0].0), groups[0].1))
    ensures Tally(acc, groups) == Tally(Put(acc, TypeLabel(groups[0].0), groups[0].1), groups[1..])
    ensures PutAll(acc, LabelledGroups(groups))
         == PutAll(Put(acc, TypeLabel(groups[0].0), groups[0].1), LabelledGroups(groups[1..]))
  {
    var name := TypeLabel(groups[0].0);
    PutWellFormed(acc, name, groups[0].1);
    assert GetOr<nat>(acc, name, 0) == 0;
    AddCountFresh(acc, name, groups[0].1);
    var pairs := LabelledGroups(groups);
    assert pairs[0] == (name, groups[0].1);
    assert pairs[1..] == LabelledGroups(groups[1..]);
  }

  /** The remaining labels stay fresh and distinct after the first is added. */
  lemma FreshAfterStep(acc: Dict<nat>, groups: seq<(Option<string>, nat)>)
    requires groups != []
    requires forall i, j :: 0 <= i < j < |groups| ==> TypeLabel(groups[i].0) != TypeLabel(groups[j].0)
    requires forall i :: 0 <= i < |groups| ==> TypeLabel(groups[i].0) !in Keys(acc)
    ensures var next := Put(acc, TypeLabel(groups[0].0), groups[0].1);
      forall i :: 0 <= i < |groups[1..]| ==> TypeLabel(groups[1..][i].0) !in Keys(next)
    ensures forall i, j :: 0 <= i < j < |groups[1..]| ==> TypeLabel(groups[1..][i].0) != TypeLabel(groups[1..][j].0)
  {
    var name := TypeLabel(groups[0].0);
    var next := Put(acc, name, groups[0].1);
    var rest := groups[1..];
    assert Keys(next) == Keys(acc) + [name];
    forall i | 0 <= i < |rest| ensures TypeLabel(rest[i].0) !in Keys(next) {
      assert rest[i] == groups[i + 1];
    }
    forall i, j | 0 <= i < j < |rest| ensures TypeLabel(rest[i].0) != TypeLabel(rest[j].0) {
      assert rest[i] == groups[i + 1] && rest[j] == groups[j + 1];
    }
  }

  // --------------------------------------------------- extraction accuracy

  /** Every `(field, score)` pair of the extractions' `confidence_scores`, in iteration order. */
  function Flatten(extractions: seq<Dict<real>>): (r: seq<(string, real)>)
    ensures |extractions| > 0 ==> r == extractions[0] + Flatten(extractions[1..])
  {
    if extractions == [] then [] else extractions[0] + Flatten(extractions[1..])
  }

  /** The scores recorded for `field`, in order. */
  function ScoresOf(items: seq<(string, real)>, field: string): (r: seq<real>)
    ensures |r| <= |items|
  {
    if items == [] then []
    else (if items[0].0 == field then [items[0].1] else []) + ScoresOf(items[1..], field)
  }

  /** Whether some pair records `field`. */
  predicate Mentions(items: seq<(string, real)>, field: string) {
    exists i :: 0 <= i < |items| && items[i].0 == field
  }

  lemma {:induction false} ScoresOfEmpty(items: seq<(string, real)>, field: string)
    ensures ScoresOf(items, field) == [] <==> !Mentions(items, field)
  {
    if items != [] {
      ScoresOfEmpty(items[1..], field);
      if items[0].0 != field && Mentions(items, field) {
        var i :| 0 <= i < |items| && items[i].0 == field;
        assert items[1..][i - 1].0 == field;
      }
    }
  }

  /** Lines 40-44: `avg_confidences.setdefault(field, []).append(score)` for every pair. */
  function Group(acc: Dict<seq<real>>, items: seq<(string, real)>): (r: Dict<seq<real>>)
    ensures (forall i :: 0 <= i < |acc| ==> acc[i].1 != []) ==> forall i :: 0 <= i < |r| ==> r[i].1 != []
    decreases |items|
  {
    if items == [] then acc
    else
      var (f, s) := items[0];
      var group := GetOr<seq<real>>(acc, f, []) + [s];
      var next := Put<seq<real>>(acc, f, group);
      PutEntries<seq<real>>(acc, f, group);
      Group(next, items[1..])
  }

  /** A field's group is what it held before followed by its scores, in order. */
  lemma {:induction false} GroupGet(acc: Dict<seq<real>>, items: seq<(string, real)>, f: string)
    ensures Get(Group(acc, items), f)
         == if f in Keys(acc) || Mentions(items, f) then Some(GetOr(acc, f, []) + ScoresOf(items, f)) else None
    decreases |items|
  {
    if items != [] {
      var (g, s) := items[0];
      var next := Put(acc, g, GetOr(acc, g, []) + [s]);
      GroupGet(next, items[1..], f);
      MentionsCons(items, f);
      GroupStep(acc, items, f);
    } else {
      assert GetOr(acc, f, []) + ScoresOf(items, f) == GetOr(acc, f, []);
      assert f in Keys(acc) ==> Get(acc, f) == Some(GetOr(acc, f, []));
    }
  }

  /** One pair of the loop: its field's group gains the score, the others stay. */
  lemma GroupStep(acc: Dict<seq<real>>, items: seq<(string, real)>, f: string)
    requires items != []
    ensures var next := Put(acc, items[0].0, GetOr(acc, items[0].0, []) + [items[0].1]);
      Group(acc, items) == Group(next, items[1..])
      && (f in Keys(next) <==> f in Keys(acc) || f == items[0].0)
      && GetOr(next, f, []) + ScoresOf(items[1..], f) == GetOr(acc, f, []) + ScoresOf(items, f)
  {
    var g := items[0].0;
    var next := Put(acc, g, GetOr(acc, g, []) + [items[0].1]);
    assert Group(acc, items) == Group(next, items[1..]);
    ScoresStep(acc, next, items, f);
  }

  lemma ScoresStep(acc: Dict<seq<real>>, next: Dict<seq<real>>, items: seq<(string, real)>, f: string)
    requires items != [] && next == Put(acc, items[0].0, GetOr<seq<real>>(acc, items[0].0, []) + [items[0].1])
    ensures GetOr<seq<real>>(next, f, []) + ScoresOf(items[1..], f) == GetOr<seq<real>>(acc, f, []) + ScoresOf(items, f)
  {
    ScoresOfCons(items, f);
    if items[0].0 == f {
      ScoresHit(GetOr<seq<real>>(acc, f, []), items[0].1, ScoresOf(items[1..], f));
    } else {
      assert Get(next, f) == Get(acc, f);
    }
  }

  lemma ScoresOfCons(items: seq<(string, real)>, f: string)
    requires items != []
    ensures items[0].0 == f ==> ScoresOf(items, f) == [items[0].1] + ScoresOf(items[1..], f)
    ensures items[0].0 != f ==> ScoresOf(items, f) == ScoresOf(items[1..], f)
  {
    if items[0].0 != f {
      assert ScoresOf(items, f) == [] + ScoresOf(items[1..], f);
    }
  }

  lemma ScoresHit(before: seq<real>, x: real, rest: seq<real>)
    ensures (before + [x]) + rest == before + ([x] + rest)
  {
  }

  lemma MentionsCons(items: seq<(string, real)>, f: string)
    requires items != []
    ensures Mentions(items, f) <==> items[0].0 == f || Mentions(items[1..], f)
  {
    if Mentions(items, f) && items[0].0 != f {
      var i :| 0 <= i < |items| && items[i].0 == f;
      assert items[1..][i - 1].0 == f;
    }
    if Mentions(items[1..], f) {
      var i :| 0 <= i < |items[1..]| && items[1..][i].0 == f;
      assert items[i + 1].0 == f;
    }
  }

  /** The mean of scores within `[lo, hi]` lies within `[lo, hi]`. */
  lemma MeanWithin(scores: seq<real>, lo: real, hi: real)
    requires scores != []
    requires forall i :: 0 <= i < |scores| ==> lo <= scores[i] <= hi
    ensures lo <= Mean(scores) <= hi
  {
    SumWithin(scores, lo, hi);
  }

  lemma {:induction false} SumWithin(scores: seq<real>, lo: real, hi: real)
    requires forall i :: 0 <= i < |scores| ==> lo <= scores[i] <= hi
    ensures lo * (|scores| as real) <= Sum(scores) <= hi * (|scores| as real)
  {
    if scores != [] {
      var init := scores[..|scores| - 1];
      var m := |init| as real;
      assert forall i :: 0 <= i < |init| ==> init[i] == scores[i];
      SumWithin(init, lo, hi);
      assert Sum(scores) == Sum(init) + scores[|scores| - 1];
      assert (|scores| as real) == m + 1.0;
      assert lo * (m + 1.0) == lo * m + lo;
      assert hi * (m + 1.0) == hi * m + hi;
    }
  }

  /** The comprehension of lines 46-49 over groups that are never empty. */
  function Means(groups: Dict<seq<real>>): (r: Dict<real>)
    requires forall i :: 0 <= i < |groups| ==> groups[i].1 != []
    ensures |r| == |groups|
    ensures forall i :: 0 <= i < |groups| ==> r[i] == (groups[i].0, Mean(groups[i].1))
  {
    if groups == [] then []
    else [(groups[0].0, Mean(groups[0].1))] + Means(groups[1..])
  }

  /** Looking a field up among the means is taking the mean of its group. */
  lemma {:induction false} MeansGet(groups: Dict<seq<real>>, f: string)
    requires forall i :: 0 <= i < |groups| ==> groups[i].1 != []
    ensures Get(groups, f).Some? ==> Get(groups, f).value != [] && Get(Means(groups), f) == Some(Mean(Get(groups, f).value))
    ensures Get(groups, f).None? ==> Get(Means(groups), f).None?
  {
    if groups != [] {
      MeansGet(groups[1..], f);
      assert Means(groups)[1..] == Means(groups[1..]);
    }
  }

  /** `extraction_accuracy`: for each field that some extraction scores, the
      mean of its scores across the extractions, in first-seen order; `{}`
      when there are no extractions. */
  function ExtractionAccuracy(extractions: seq<Dict<real>>): (r: Dict<real>)
    ensures extractions == [] ==> r == []
  {
    if extractions == [] then []
    else Means(Group([], Flatten(extractions)))
  }

  /** Each field's accuracy is the mean of all its scores, and only scored fields appear. */
  lemma ExtractionAccuracyIsMean(extractions: seq<Dict<real>>, f: string)
    ensures Get(ExtractionAccuracy(extractions), f).Some? <==> Mentions(Flatten(extractions), f)
    ensures Mentions(Flatten(extractions), f) ==> ScoresOf(Flatten(extractions), f) != []
    ensures Mentions(Flatten(extractions), f) ==>
      Get(ExtractionAccuracy(extractions), f) == Some(Mean(ScoresOf(Flatten(extractions), f)))
  {
    var items := Flatten(extractions);
    ScoresOfEmpty(items, f);
    if extractions != [] {
      GroupGet([], items, f);
      assert GetOr<seq<real>>([], f, []) == [];
      assert [] + ScoresOf(items, f) == ScoresOf(items, f);
      MeansGet(Group([], items), f);
    }
  }

  /** Scores within `[0, 1]` give accuracies within `[0, 1]`. */
  lemma ExtractionAccuracyWithin(extractions: seq<Dict<real>>, f: string)
    requires forall i :: 0 <= i < |Flatten(extractions)| ==> 0.0 <= Flatten(extractions)[i].1 <= 1.0
    requires Mentions(Flatten(extractions), f)
    ensures Get(ExtractionAccuracy(extractions), f).Some?
    ensures 0.0 <= Get(ExtractionAccuracy(extractions), f).value <= 1.0
  {
    var items := Flatten(extractions);
    ExtractionAccuracyIsMean(extractions, f);
    ScoresOfWithin(items, f);
    MeanWithin(ScoresOf(items, f), 0.0, 1.0);
  }

  lemma {:induction false} ScoresOfWithin(items: seq<(string, real)>, f: string)
    requires forall i :: 0 <= i < |items| ==> 0.0 <= items[i].1 <= 1.0
    ensures forall i :: 0 <= i < |ScoresOf(items, f)| ==> 0.0 <= ScoresOf(items, f)[i] <= 1.0
  {
    if items != [] {
      assert forall i :: 0 <= i < |items[1..]| ==> items[1..][i] == items[i + 1];
      ScoresOfWithin(items[1..], f);
    }
  }

  // ---------------------------------------------------------- failure rate

  /** `failed / total * 100 if total > 0 else 0` */
  function FailureRate(failed: nat, total: nat): (r: real)
    ensures total == 0 ==> r == 0.0
    ensures total > 0 ==> r * (total as real) == 100.0 * (failed as real)
    ensures failed <= total ==> 0.0 <= r <= 100.0
    ensures r >= 0.0
  {
    if total > 0 then (failed as real) / (total as real) * 100.0 else 0.0
  }

  // ------------------------------------------------------- top error codes

  /** `issue.get("issue_code", "unknown")` */
  function Code(issueCode: Option<string>): string {
    issueCode.GetOr("unknown")
  }

  /** The issue codes of the fetched validations, in order. */
  function Codes(validations: seq<seq<Option<string>>>): (r: seq<string>) {
    if validations == [] then []
    else Codes1(validations[0]) + Codes(validations[1..])
  }

  function Codes1(issues: seq<Option<string>>): (r: seq<string>)
    ensures |r| == |issues|
    ensures forall i :: 0 <= i < |issues| ==> r[i] == Code(issues[i])
  {
    if issues == [] then [] else [Code(issues[0])] + Codes1(issues[1..])
  }

  /** How often `c` occurs. */
  function Occurrences(codes: seq<string>, c: string): nat {
    if codes == [] then 0 else (if codes[0] == c then 1 else 0) + Occurrences(codes[1..], c)
  }

  /** Lines 66-70: `error_counts[code] = error_counts.get(code, 0) + 1` for every code. */
  function CountCodes(acc: Dict<nat>, codes: seq<string>): (r: Dict<nat>)
    requires WellFormed(acc)
    ensures WellFormed(r)
    ensures forall c :: GetOr<nat>(r, c, 0) == GetOr<nat>(acc, c, 0) + Occurrences(codes, c)
    ensures forall c :: c in Keys(r) <==> c in Keys(acc) || c in codes
    decreases |codes|
  {
    if codes == [] then
      assert forall c :: Occurrences(codes, c) == 0;
      acc
    else
      PutWellFormed<nat>(acc, codes[0], GetOr<nat>(acc, codes[0], 0) + 1);
      var r := CountCodes(Increment(acc, codes[0]), codes[1..]);
      assert forall c :: c in codes <==> c == codes[0] || c in codes[1..];
      r
  }

  function Count(entry: (string, nat)): real {
    entry.1 as real
  }

  /** `top_error_codes`: the five most frequent codes with their counts, most
      frequent first; codes with equal counts keep first-seen order. */
  function TopErrorCodes(validations: seq<seq<Option<string>>>): (r: seq<(string, nat)>)
    ensures |r| <= 5
    ensures SortedDesc(r, Count)
    ensures forall i :: 0 <= i < |r| ==> r[i].1 == Occurrences(Codes(validations), r[i].0)
    ensures forall i :: 0 <= i < |r| ==> r[i].0 in Codes(validations)
    ensures forall i, j :: 0 <= i < j < |r| ==> r[i].0 != r[j].0
  {
    var counts := CountCodes([], Codes(validations));
    var sorted := SortDesc(counts, Count);
    PermutedKeysDistinct(counts, sorted);
    PrefixSorted(sorted, if |sorted| < 5 then |sorted| else 5, Count);
    var r := Prefix(sorted, 5);
    forall i | 0 <= i < |r| ensures r[i].1 == Occurrences(Codes(validations), r[i].0) && r[i].0 in Codes(validations) {
      assert r[i] == sorted[i];
      SortedEntryCounted(Codes(validations), counts, sorted, r[i]);
    }
    r
  }

  /** An entry of the sorted table holds a code that occurs, with its number of occurrences. */
  lemma SortedEntryCounted(codes: seq<string>, counts: Dict<nat>, sorted: seq<(string, nat)>, e: (string, nat))
    requires counts == CountCodes([], codes) && multiset(sorted) == multiset(counts) && e in sorted
    ensures e.1 == Occurrences(codes, e.0) && e.0 in codes
  {
    assert e in multiset(sorted);
    CountedEntry(counts, e);
  }

  /** An entry of a well-formed table holds its key's count. */
  lemma CountedEntry(counts: Dict<nat>, e: (string, nat))
    requires WellFormed(counts) && e in counts
    ensures GetOr<nat>(counts, e.0, 0) == e.1 && e.0 in Keys(counts)
  {
    var i :| 0 <= i < |counts| && counts[i] == e;
    GetAt(counts, i);
    KeysIndex(counts, i);
  }

  /** A code left out of the top five is no more frequent than any code in it,
      and the top five are full. */
  lemma TopErrorCodesAreTop(validations: seq<seq<Option<string>>>, c: string)
    requires c in Codes(validations)
    requires forall i :: 0 <= i < |TopErrorCodes(validations)| ==> TopErrorCodes(validations)[i].0 != c
    ensures |TopErrorCodes(validations)| == 5
    ensures forall i :: 0 <= i < |TopErrorCodes(validations)| ==>
      Occurrences(Codes(validations), c) <= TopErrorCodes(validations)[i].1
  {
    var codes := Codes(validations);
    var counts := CountCodes([], codes);
    assert TopErrorCodes(validations) == Prefix(SortDesc(counts, Count), 5);
    assert GetOr<nat>(counts, c, 0) == Occurrences(codes, c);
    TopOfTable(counts, c);
  }

  /** When a key is left out of the five largest entries of a count table,
      there are five of them and each is at least as large as its count. */
  lemma TopOfTable(counts: Dict<nat>, c: string)
    requires WellFormed(counts) && c in Keys(counts)
    requires forall i :: 0 <= i < |Prefix(SortDesc(counts, Count), 5)| ==> Prefix(SortDesc(counts, Count), 5)[i].0 != c
    ensures |Prefix(SortDesc(counts, Count), 5)| == 5
    ensures forall i :: 0 <= i < |Prefix(SortDesc(counts, Count), 5)| ==>
      GetOr<nat>(counts, c, 0) <= Prefix(SortDesc(counts, Count), 5)[i].1
  {
    var r := Prefix(SortDesc(counts, Count), 5);
    var e := (c, GetOr<nat>(counts, c, 0));
    CountedCode(counts, c);
    forall i | 0 <= i < |r| ensures r[i] != e {
      assert r[i].0 != c;
    }
    LeftOutOfTop<(string, nat)>(counts, Count, 5, e);
    forall i | 0 <= i < |r| ensures e.1 <= r[i].1 {
      assert Count(r[i]) >= Count(e);
    }
  }

  /** A key of a well-formed table is stored with its count. */
  lemma CountedCode(counts: Dict<nat>, c: string)
    requires WellFormed(counts) && c in Keys(counts)
    ensures (c, GetOr<nat>(counts, c, 0)) in counts
  {
    var k :| 0 <= k < |Keys(counts)| && Keys(counts)[k] == c;
    KeysIndex(counts, k);
    GetAt(counts, k);
  }

  // ------------------------------------------------------- recent corrections

  /** Line 87-88: a value longer than 50 characters is shown as its first 50 and `...`. */
  function Shorten(v: Option<string>): (r: Option<string>)
    ensures r.None? <==> v.None?
    ensures v.Some? && |v.value| <= 50 ==> r == v
    ensures v.Some? && |v.value| > 50 ==> |r.value| == 53 && r.value[..50] == v.value[..50] && r.value[50..] == "..."
  {
    if v.Some? && |v.value| > 50 then Some(v.value[..50] + "...") else v
  }

  /** Shortening twice is shortening once. */
  lemma ShortenIdempotent(v: Option<string>)
    ensures Shorten(Shorten(v)) == Shorten(v)
  {
    if v.Some? && |v.value| > 50 {
      var s := Shorten(v).value;
      assert s[..50] == v.value[..50];
    }
  }

  // ------------------------------------------------------------ the metrics

  /** One row of `recent_corrections`. */
  datatype RecentCorrection = RecentCorrection(documentId: string, field: string, oldValue: Option<string>,
                                               newValue: Option<string>)

  /** The arithmetic parts of `DashboardMetrics`. */
  datatype Metrics = Metrics(documentsByType: Dict<nat>, extractionAccuracy: Dict<real>,
                             validationFailureRate: real, topErrorCodes: seq<(string, nat)>,
                             recentCorrections: seq<RecentCorrection>)

  /** `get_dashboard_metrics` over the query results: the type groups, the
      confidence scores of the fetched extractions, the validation counts,
      the issue codes of the recent validations and the recent corrections. */
  function DashboardMetrics(groups: seq<(Option<string>, nat)>, scores: seq<Dict<real>>,
                            failed: nat, total: nat, validations: seq<seq<Option<string>>>,
                            corrections: seq<RecentCorrection>): (r: Metrics)
    ensures SumOf(r.documentsByType, Identity) == GroupTotal(groups)
    ensures failed <= total ==> 0.0 <= r.validationFailureRate <= 100.0
    ensures |r.topErrorCodes| <= 5 && |r.recentCorrections| == |corrections|
    ensures forall i :: 0 <= i < |corrections| ==>
      r.recentCorrections[i].newValue == Shorten(corrections[i].newValue)
      && r.recentCorrections[i].oldValue == Shorten(corrections[i].oldValue)
  {
    Metrics(DocumentsByType(groups), ExtractionAccuracy(scores), FailureRate(failed, total),
            TopErrorCodes(validations), ShortenAll(corrections))
  }

  function ShortenAll(cs: seq<RecentCorrection>): (r: seq<RecentCorrection>)
    ensures |r| == |cs|
    ensures forall i :: 0 <= i < |cs| ==>
      r[i] == cs[i].(oldValue := Shorten(cs[i].oldValue), newValue := Shorten(cs[i].newValue))
  {
    if cs == [] then []
    else [cs[0].(oldValue := Shorten(cs[0].oldValue), newValue := Shorten(cs[0].newValue))] + ShortenAll(cs[1..])
  }
}

=== FILE: date_normalization.dfy ===
/** `normalize_date` from `backend/app/utils/normalization.py`: the two
    numeric date patterns are matched exactly as Python's `re.search` does
    (leftmost start, greedy groups with backtracking), and the Y/M/D branch
    parses with the rules of `strptime("%Y-%m-%d")`. */
module DateNormalization {
  import opened Base
  import opened Dates

  // ----------------------------------------------- three-group date patterns

  predicate IsDateSep(c: char) { c == '/' || c == '-' || c == '.' }

  /** The pattern `(\d{lo1,hi1})[/\-.](\d{lo2,hi2})[/\-.](\d{lo3,hi3})`. */
  datatype Shape = Shape(lo1: nat, hi1: nat, lo2: nat, hi2: nat, lo3: nat, hi3: nat) {
    predicate Proper() { 1 <= lo1 && 1 <= lo2 && 1 <= lo3 }
  }

  /** Day, month, year with a one- or two-digit day and month and a 2-4 digit year. */
  const DmyShape := Shape(1, 2, 1, 2, 2, 4)

  /** Four-digit year, then a one- or two-digit month and day. */
  const YmdShape := Shape(4, 4, 1, 2, 1, 2)

  /** A match of a three-group pattern: where it starts and what each group holds. */
  datatype Groups = Groups(start: nat, g1: string, sep1: char, g2: string, sep2: char, g3: string) {
    function Text(): string { g1 + [sep1] + g2 + [sep2] + g3 }
  }

  predicate GroupOk(g: string, lo: nat, hi: nat) {
    lo <= |g| <= hi && AllDigits(g)
  }

  /** `m` is a genuine match of the pattern `sh` inside `s`. */
  predicate IsMatch(s: string, sh: Shape, m: Groups) {
    GroupOk(m.g1, sh.lo1, sh.hi1) && GroupOk(m.g2, sh.lo2, sh.hi2) && GroupOk(m.g3, sh.lo3, sh.hi3)
    && IsDateSep(m.sep1) && IsDateSep(m.sep2) && OccursAt(s, m.Text(), m.start)
  }

  predicate DigitRun(s: string, i: nat, n: nat) {
    i + n <= |s| && AllDigits(s[i..i + n])
  }

  predicate SepAfterRun(s: string, i: nat, n: nat) {
    DigitRun(s, i, n) && i + n < |s| && IsDateSep(s[i + n])
  }

  /** A digit run, the separator after it and an occurrence of `rest` right
      after the separator form one occurrence. */
  lemma RunSepJoin(s: string, i: nat, n: nat, rest: string)
    requires SepAfterRun(s, i, n) && OccursAt(s, rest, i + n + 1)
    ensures OccursAt(s, s[i..i + n] + [s[i + n]] + rest, i)
  {
    var head := s[i..i + n] + [s[i + n]];
    assert s[i..i + n + 1] == head;
    OccursJoin(s, head, rest, i);
  }

  /** The last group, greedy: the longest run of `lo..hi` digits at `k`. */
  function LastGroupAt(s: string, k: nat, lo: nat, hi: nat): (r: Option<string>)
    requires 1 <= lo
    ensures r.Some? ==> GroupOk(r.value, lo, hi) && OccursAt(s, r.value, k)
    ensures r.Some? ==> forall n :: |r.value| < n <= hi ==> !DigitRun(s, k, n)
    ensures r.None? ==> forall n :: lo <= n <= hi ==> !DigitRun(s, k, n)
    decreases hi
  {
    if hi < lo then None
    else if DigitRun(s, k, hi) then Some(s[k..k + hi])
    else LastGroupAt(s, k, lo, hi - 1)
  }

  /** The middle and last groups at `j`, the middle one tried with `n` digits, then fewer. */
  function TailAt(s: string, j: nat, sh: Shape, n: nat): (r: Option<(string, char, string)>)
    requires sh.Proper()
    ensures r.Some? ==> GroupOk(r.value.0, sh.lo2, n) && IsDateSep(r.value.1) && GroupOk(r.value.2, sh.lo3, sh.hi3)
    ensures r.Some? ==> OccursAt(s, r.value.0 + [r.value.1] + r.value.2, j)
    decreases n
  {
    if n < sh.lo2 then None
    else if SepAfterRun(s, j, n) && LastGroupAt(s, j + n + 1, sh.lo3, sh.hi3).Some? then
      var g3 := LastGroupAt(s, j + n + 1, sh.lo3, sh.hi3).value;
      RunSepJoin(s, j, n, g3);
      Some((s[j..j + n], s[j + n], g3))
    else TailAt(s, j, sh, n - 1)
  }

  /** A whole match starting at `i`, the first group tried with `n` digits, then fewer. */
  function GroupsAt(s: string, i: nat, sh: Shape, n: nat): (r: Option<Groups>)
    requires sh.Proper() && n <= sh.hi1
    ensures r.Some? ==> r.value.start == i && |r.value.g1| <= n && IsMatch(s, sh, r.value)
    decreases n
  {
    if n < sh.lo1 then None
    else if SepAfterRun(s, i, n) && TailAt(s, i + n + 1, sh, sh.hi2).Some? then
      var t := TailAt(s, i + n + 1, sh, sh.hi2).value;
      var m := Groups(i, s[i..i + n], s[i + n], t.0, t.1, t.2);
      RunSepJoin(s, i, n, t.0 + [t.1] + t.2);
      assert m.Text() == m.g1 + [m.sep1] + (t.0 + [t.1] + t.2);
      Some(m)
    else GroupsAt(s, i, sh, n - 1)
  }

  /** The match `re.match` finds at position `i`, if the pattern matches there. */
  function MatchAt(s: string, i: nat, sh: Shape): (r: Option<Groups>)
    requires sh.Proper()
    ensures r.Some? ==> r.value.start == i && IsMatch(s, sh, r.value)
  {
    GroupsAt(s, i, sh, sh.hi1)
  }

  /** With `boundary`, a match may not begin right after a digit. */
  predicate StartOk(s: string, i: nat, boundary: bool) {
    !boundary || i == 0 || i > |s| || !IsDigit(s[i - 1])
  }

  predicate Hit(s: string, sh: Shape, i: nat, boundary: bool)
    requires sh.Proper()
  {
    StartOk(s, i, boundary) && MatchAt(s, i, sh).Some?
  }

  /** `re.search`: the leftmost match at or after `from`. */
  function Search(s: string, sh: Shape, from: nat, boundary: bool): (r: Option<Groups>)
    requires sh.Proper()
    ensures r.Some? ==> from <= r.value.start <= |s| && Hit(s, sh, r.value.start, boundary)
    ensures r.Some? ==> MatchAt(s, r.value.start, sh) == r
    ensures r.Some? ==> forall i :: from <= i < r.value.start ==> !Hit(s, sh, i, boundary)
    ensures r.None? ==> forall i :: from <= i <= |s| ==> !Hit(s, sh, i, boundary)
    decreases |s| + 1 - from
  {
    if from > |s| then None
    else if Hit(s, sh, from, boundary) then MatchAt(s, from, sh)
    else Search(s, sh, from + 1, boundary)
  }

  lemma LastGroupComplete(s: string, k: nat, lo: nat, hi: nat, n: nat)
    requires 1 <= lo <= n <= hi && DigitRun(s, k, n)
    ensures LastGroupAt(s, k, lo, hi).Some?
  {
  }

  /** Splitting the text of a match back into its groups. */
  lemma MatchParts(s: string, m: Groups)
    requires OccursAt(s, m.Text(), m.start)
    ensures OccursAt(s, m.g1, m.start)
    ensures s[m.start + |m.g1|] == m.sep1
    ensures OccursAt(s, m.g2, m.start + |m.g1| + 1)
    ensures s[m.start + |m.g1| + 1 + |m.g2|] == m.sep2
    ensures OccursAt(s, m.g3, m.start + |m.g1| + |m.g2| + 2)
  {
    var i := m.start;
    var a2 := m.g1 + [m.sep1];
    var a3 := a2 + m.g2;
    var a4 := a3 + [m.sep2];
    assert m.Text() == a4 + m.g3;
    OccursSplit(s, a4, m.g3, i);
    OccursSplit(s, a3, [m.sep2], i);
    OccursChar(s, m.sep2, i + |a3|);
    OccursSplit(s, a2, m.g2, i);
    OccursSplit(s, m.g1, [m.sep1], i);
    OccursChar(s, m.sep1, i + |m.g1|);
  }

  lemma {:induction false} TailComplete(s: string, j: nat, sh: Shape, n: nat, g2: string, sep: char, g3: string)
    requires sh.Proper() && GroupOk(g2, sh.lo2, n) && GroupOk(g3, sh.lo3, sh.hi3) && IsDateSep(sep)
    requires OccursAt(s, g2, j) && j + |g2| < |s| && s[j + |g2|] == sep && OccursAt(s, g3, j + |g2| + 1)
    ensures TailAt(s, j, sh, n).Some?
    decreases n
  {
    if n == |g2| {
      assert s[j..j + n] == g2;
      assert s[j + n + 1..j + n + 1 + |g3|] == g3;
      LastGroupComplete(s, j + n + 1, sh.lo3, sh.hi3, |g3|);
    } else if !(SepAfterRun(s, j, n) && LastGroupAt(s, j + n + 1, sh.lo3, sh.hi3).Some?) {
      TailComplete(s, j, sh, n - 1, g2, sep, g3);
    }
  }

  /** Trying first groups of `n` digits and fewer reaches a first group of
      `k` digits that the rest of the pattern follows. */
  lemma {:induction false} GroupsComplete(s: string, i: nat, sh: Shape, k: nat, n: nat)
    requires sh.Proper() && sh.lo1 <= k <= n <= sh.hi1
    requires SepAfterRun(s, i, k) && TailAt(s, i + k + 1, sh, sh.hi2).Some?
    ensures GroupsAt(s, i, sh, n).Some?
    decreases n
  {
    if n > k && !(SepAfterRun(s, i, n) && TailAt(s, i + n + 1, sh, sh.hi2).Some?) {
      GroupsComplete(s, i, sh, k, n - 1);
    }
  }

  lemma GroupsExact(s: string, sh: Shape, m: Groups)
    requires sh.Proper() && IsMatch(s, sh, m)
    ensures SepAfterRun(s, m.start, |m.g1|)
    ensures TailAt(s, m.start + |m.g1| + 1, sh, sh.hi2).Some?
  {
    var i := m.start;
    var n := |m.g1|;
    MatchParts(s, m);
    assert s[i..i + n] == m.g1;
    TailComplete(s, i + n + 1, sh, sh.hi2, m.g2, m.sep2, m.g3);
  }

  /** Wherever the pattern matches, `MatchAt` finds a match. */
  lemma MatchAtComplete(s: string, sh: Shape, m: Groups)
    requires sh.Proper() && IsMatch(s, sh, m)
    ensures MatchAt(s, m.start, sh).Some?
  {
    GroupsExact(s, sh, m);
    GroupsComplete(s, m.start, sh, |m.g1|, sh.hi1);
  }

  // ------------------------------------------------------------ normalize_date

  /** `YYYY-MM-DD`-like text: digits, a dash, two digits, a dash, two digits. */
  predicate DashedDate(r: string) {
    |r| >= 7 && AllDigits(r[..|r| - 6]) && r[|r| - 6] == '-'
    && AllDigits(r[|r| - 5..|r| - 3]) && r[|r| - 3] == '-' && AllDigits(r[|r| - 2..])
  }

  /** Joining a year and two two-digit fields with dashes gives `YYYY-MM-DD`-like text. */
  lemma DashedJoin(y: string, mm: string, dd: string)
    requires |y| >= 1 && AllDigits(y) && |mm| == 2 && AllDigits(mm) && |dd| == 2 && AllDigits(dd)
    ensures DashedDate(y + "-" + mm + "-" + dd)
    ensures var r := y + "-" + mm + "-" + dd; r[..|r| - 6] == y && r[|r| - 5..|r| - 3] == mm && r[|r| - 2..] == dd
  {
    var r := y + "-" + mm + "-" + dd;
    assert r[..|r| - 6] == y;
    assert r[|r| - 5..|r| - 3] == mm;
    assert r[|r| - 2..] == dd;
  }

  /** The D/M/Y branch: a two-digit year is taken to be in the 2000s, day and month are zero-filled. */
  function FormatDmy(m: Groups): (r: string)
    requires GroupOk(m.g1, 1, 2) && GroupOk(m.g2, 1, 2) && GroupOk(m.g3, 2, 4)
    ensures DashedDate(r)
    ensures r[..|r| - 6] == if |m.g3| == 2 then "20" + m.g3 else m.g3
    ensures DigitsToNat(r[|r| - 5..|r| - 3]) == DigitsToNat(m.g2)
    ensures DigitsToNat(r[|r| - 2..]) == DigitsToNat(m.g1)
  {
    var year := if |m.g3| == 2 then "20" + m.g3 else m.g3;
    assert AllDigits(year) by {
      if |m.g3| == 2 {
        assert forall i :: 0 <= i < |year| ==> year[i] == if i < 2 then "20"[i] else m.g3[i - 2];
      }
    }
    var mm := ZFill(m.g2, 2);
    var dd := ZFill(m.g1, 2);
    ZFillValue(m.g2, 2);
    ZFillValue(m.g1, 2);
    DashedJoin(year, mm, dd);
    year + "-" + mm + "-" + dd
  }

  /** `datetime.strptime(text, "%Y-%m-%d")` on a Y/M/D match: the separators
      must be dashes, the month 1..12, and the day must exist in that month. */
  function ParseIso(m: Groups): (r: Option<CalendarDate>)
    requires AllDigits(m.g1) && AllDigits(m.g2) && AllDigits(m.g3)
    ensures r.Some? ==> m.sep1 == '-' && m.sep2 == '-'
    ensures r.Some? ==> r.value == Date(DigitsToNat(m.g1), DigitsToNat(m.g2), DigitsToNat(m.g3))
  {
    var d := Date(DigitsToNat(m.g1), DigitsToNat(m.g2), DigitsToNat(m.g3));
    if m.sep1 == '-' && m.sep2 == '-' && Valid(d) then Some(d) else None
  }

  lemma TwoDigitsAtMost(n: nat)
    requires n < 100
    ensures |NatToString(n)| <= 2
  {
  }

  /** `date.strftime("%Y-%m-%d")`; a year below 1000 is not zero-filled. */
  function FormatIso(d: CalendarDate): (r: string)
    ensures DashedDate(r)
  {
    TwoDigitsAtMost(d.month);
    TwoDigitsAtMost(d.day);
    DashedJoin(NatToString(d.year), PadNat(d.month, 2), PadNat(d.day, 2));
    NatToString(d.year) + "-" + PadNat(d.month, 2) + "-" + PadNat(d.day, 2)
  }

  /** The first Y/M/D match, if `strptime` accepts it. */
  function IsoDateIn(t: string): (r: Option<CalendarDate>)
    ensures r.Some? ==> Search(t, YmdShape, 0, false).Some?
  {
    match Search(t, YmdShape, 0, false)
    case None => None
    case Some(m) => ParseIso(m)
  }

  /** `normalize_date`, with the D/M/Y search optionally anchored after a
      non-digit. The two month-name patterns, which end in `strptime` with
      `%b`, are the parameter `monthNames`. */
  function NormalizeDateWith(s: string, monthNames: string -> Option<string>, boundary: bool): (r: string)
    ensures s == [] ==> r == []
    ensures Search(Strip(s), DmyShape, 0, boundary).Some? ==> DashedDate(r)
    ensures IsoDateIn(Strip(s)).Some? ==> DashedDate(r)
    ensures s != [] && Search(Strip(s), DmyShape, 0, boundary).Some? ==>
      r == FormatDmy(Search(Strip(s), DmyShape, 0, boundary).value)
    ensures s != [] && Search(Strip(s), DmyShape, 0, boundary).None? && IsoDateIn(Strip(s)).Some? ==>
      r == FormatIso(IsoDateIn(Strip(s)).value)
    ensures s != [] && Search(Strip(s), DmyShape, 0, boundary).None? && IsoDateIn(Strip(s)).None? ==>
      r == monthNames(Strip(s)).GetOr(Strip(s))
  {
    if s == [] then []
    else
      var t := Strip(s);
      match Search(t, DmyShape, 0, boundary)
      case Some(m) => FormatDmy(m)
      case None =>
        match IsoDateIn(t)
        case Some(d) => FormatIso(d)
        case None => monthNames(t).GetOr(t)
  }

  /** `normalize_date` as written: the D/M/Y pattern is searched anywhere in the text. */
  function NormalizeDate(s: string, monthNames: string -> Option<string>): (r: string)
    ensures s == [] ==> r == []
    ensures Search(Strip(s), DmyShape, 0, false).Some? ==> DashedDate(r)
    ensures s != [] && Search(Strip(s), DmyShape, 0, false).Some? ==>
      r == FormatDmy(Search(Strip(s), DmyShape, 0, false).value)
    ensures s != [] && Search(Strip(s), DmyShape, 0, false).None? && IsoDateIn(Strip(s)).Some? ==>
      r == FormatIso(IsoDateIn(Strip(s)).value)
    ensures s != [] && Search(Strip(s), DmyShape, 0, false).None? && IsoDateIn(Strip(s)).None? ==>
      r == monthNames(Strip(s)).GetOr(Strip(s))
  {
    NormalizeDateWith(s, monthNames, false)
  }

  /** `normalize_date` with the D/M/Y search required to start at a digit-run boundary. */
  function NormalizeDateFixed(s: string, monthNames: string -> Option<string>): (r: string)
    ensures s == [] ==> r == []
    ensures Search(Strip(s), DmyShape, 0, true).Some? ==> DashedDate(r)
    ensures s != [] && Search(Strip(s), DmyShape, 0, true).Some? ==>
      r == FormatDmy(Search(Strip(s), DmyShape, 0, true).value)
    ensures s != [] && Search(Strip(s), DmyShape, 0, true).None? && IsoDateIn(Strip(s)).Some? ==>
      r == FormatIso(IsoDateIn(Strip(s)).value)
    ensures s != [] && Search(Strip(s), DmyShape, 0, true).None? && IsoDateIn(Strip(s)).None? ==>
      r == monthNames(Strip(s)).GetOr(Strip(s))
  {
    NormalizeDateWith(s, monthNames, true)
  }

  /** A day-first date with a two-digit year becomes an ISO date in the 2000s. */
  lemma NormalizeDateDayFirst(monthNames: string -> Option<string>)
    ensures NormalizeDate("01/02/23", monthNames) == "2023-02-01"
  {
    var s := "01/02/23";
    var m := Groups(0, "01", '/', "02", '/', "23");
    StripUnpadded(s);
    DayFirstSearch();
    DmyBranch(s, monthNames, false, m);
    DayFirstFormat();
  }

  /** When the D/M/Y search finds a match, the result is that match reformatted. */
  lemma DmyBranch(s: string, monthNames: string -> Option<string>, boundary: bool, m: Groups)
    requires s != [] && Search(Strip(s), DmyShape, 0, boundary) == Some(m)
    ensures NormalizeDateWith(s, monthNames, boundary) == FormatDmy(m)
  {
  }

  lemma DayFirstFormat()
    ensures FormatDmy(Groups(0, "01", '/', "02", '/', "23")) == "2023-02-01"
  {
    assert ZFill("02", 2) == "02" && ZFill("01", 2) == "01";
    assert "20" + "23" + "-" + "02" + "-" + "01" == "2023-02-01";
  }

  lemma DayFirstSearch()
    ensures Search("01/02/23", DmyShape, 0, false) == Some(Groups(0, "01", '/', "02", '/', "23"))
  {
    DayFirstMatch();
  }

  lemma DayFirstMatch()
    ensures MatchAt("01/02/23", 0, DmyShape) == Some(Groups(0, "01", '/', "02", '/', "23"))
  {
    var s := "01/02/23";
    DayFirstTail();
    assert s[0..2] == "01";
    assert SepAfterRun(s, 0, 2);
  }

  lemma DayFirstTail()
    ensures TailAt("01/02/23", 3, DmyShape, 2) == Some(("02", '/', "23"))
  {
    var s := "01/02/23";
    assert s[6..8] == "23" && s[3..5] == "02";
    assert LastGroupAt(s, 6, 2, 4) == Some("23");
    assert SepAfterRun(s, 3, 2);
  }

  // ----------------------------------------- normalize_date on ISO input

  /** Text of the form `YYYY-MM-DD` (digits only, not necessarily a real date). */
  predicate IsoText(t: string) {
    |t| == 10 && AllDigits(t[..4]) && t[4] == '-' && AllDigits(t[5..7]) && t[7] == '-' && AllDigits(t[8..])
  }

  lemma IsoTextDigits(t: string)
    requires IsoText(t)
    ensures forall i :: 0 <= i < 10 && i != 4 && i != 7 ==> IsDigit(t[i])
  {
    forall i | 0 <= i < 10 && i != 4 && i != 7
      ensures IsDigit(t[i])
    {
      if i < 4 {
        assert t[i] == t[..4][i];
      } else if i < 7 {
        assert t[i] == t[5..7][i - 5];
      } else {
        assert t[i] == t[8..][i - 8];
      }
    }
  }

  /** No D/M/Y match can start where a digit is followed by another digit, nor at a dash. */
  lemma NoMatchBeforeDigits(t: string, i: nat)
    requires i + 2 < |t| && IsDigit(t[i + 1]) && IsDigit(t[i + 2])
    ensures MatchAt(t, i, DmyShape).None?
  {
    assert !SepAfterRun(t, i, 2) && !SepAfterRun(t, i, 1);
    assert GroupsAt(t, i, DmyShape, 0).None?;
    assert GroupsAt(t, i, DmyShape, 1).None?;
  }

  lemma NoMatchAtNonDigit(t: string, i: nat)
    requires i < |t| && !IsDigit(t[i])
    ensures MatchAt(t, i, DmyShape).None?
  {
    assert !DigitRun(t, i, 2) && !DigitRun(t, i, 1);
    assert GroupsAt(t, i, DmyShape, 0).None?;
    assert GroupsAt(t, i, DmyShape, 1).None?;
  }

  /** On `YYYY-MM-DD` the unanchored D/M/Y search finds `YY-MM-DD` inside the year. */
  lemma IsoTextDmyMatch(t: string)
    requires IsoText(t)
    ensures Search(t, DmyShape, 0, false) == Some(Groups(2, t[2..4], '-', t[5..7], '-', t[8..]))
  {
    IsoTextDigits(t);
    NoMatchBeforeDigits(t, 0);
    NoMatchBeforeDigits(t, 1);
    assert !Hit(t, DmyShape, 0, false) && !Hit(t, DmyShape, 1, false);
    assert LastGroupAt(t, 8, 2, 4) == Some(t[8..]) by {
      assert t[8..10] == t[8..];
      assert !DigitRun(t, 8, 4) && !DigitRun(t, 8, 3) && DigitRun(t, 8, 2);
    }
    assert SepAfterRun(t, 5, 2);
    assert TailAt(t, 5, DmyShape, 2) == Some((t[5..7], '-', t[8..]));
    assert SepAfterRun(t, 2, 2);
    assert MatchAt(t, 2, DmyShape) == Some(Groups(2, t[2..4], '-', t[5..7], '-', t[8..]));
    assert Search(t, DmyShape, 2, false) == MatchAt(t, 2, DmyShape);
    assert Search(t, DmyShape, 1, false) == Search(t, DmyShape, 2, false);
  }

  /** `YYYY-MM-DD` read as `YY-MM-DD` starting inside the year: `20DD-MM-YY`. */
  function SwappedIso(t: string): string
    requires IsoText(t)
  {
    "20" + t[8..] + "-" + t[5..7] + "-" + t[2..4]
  }

  lemma SwappedIsoText(t: string)
    requires IsoText(t)
    ensures IsoText(SwappedIso(t))
    ensures SwappedIso(SwappedIso(t)) == "20" + t[2..]
  {
    IsoTextDigits(t);
    var u := SwappedIso(t);
    assert u[..4] == "20" + t[8..] && u[5..7] == t[5..7] && u[8..] == t[2..4];
  }

  /** As written, an ISO date `YYYY-MM-DD` comes out as `20DD-MM-YY`. */
  lemma NormalizeDateSwapsIso(t: string, monthNames: string -> Option<string>)
    requires IsoText(t)
    ensures NormalizeDate(t, monthNames) == SwappedIso(t)
  {
    IsoTextStripped(t);
    IsoTextDmyMatch(t);
  }

  /** Normalizing an ISO date twice restores its month and day and forces the century to 20. */
  lemma NormalizeDateTwiceOnIso(t: string, monthNames: string -> Option<string>)
    requires IsoText(t)
    ensures NormalizeDate(NormalizeDate(t, monthNames), monthNames) == "20" + t[2..]
  {
    NormalizeDateSwapsIso(t, monthNames);
    SwappedIsoText(t);
    NormalizeDateSwapsIso(SwappedIso(t), monthNames);
  }

  /** So `normalize_date` is not idempotent: 2023-01-15 and 2015-01-23 trade places. */
  lemma NormalizeDateNotIdempotent(t: string, monthNames: string -> Option<string>)
    requires t == "2023-01-15"
    ensures NormalizeDate(t, monthNames) == "2015-01-23"
    ensures NormalizeDate(NormalizeDate(t, monthNames), monthNames) == t
  {
    SwapExampleText(t);
    NormalizeDateSwapsIso(t, monthNames);
    NormalizeDateTwiceOnIso(t, monthNames);
  }

  lemma SwapExampleText(a: string)
    requires a == "2023-01-15"
    ensures IsoText(a) && SwappedIso(a) == "2015-01-23" && "20" + a[2..] == a
  {
    assert a[..4] == "2023" && a[5..7] == "01" && a[8..] == "15" && a[2..4] == "23";
    assert AllDigits(a[..4]) && AllDigits(a[5..7]) && AllDigits(a[8..]);
    assert SwappedIso(a) == "20" + "15" + "-" + "01" + "-" + "23";
    assert a[2..] == "23-01-15";
  }

  /** With the D/M/Y search anchored, `YYYY-MM-DD` offers it no match at all. */
  lemma IsoTextNoAnchoredDmy(t: string)
    requires IsoText(t)
    ensures Search(t, DmyShape, 0, true).None?
  {
    IsoTextDigits(t);
    forall i | 0 <= i <= |t|
      ensures !Hit(t, DmyShape, i, true)
    {
      if i == 0 || i == 5 || i == 8 {
        NoDmyAtIsoField(t, i);
      } else if i == 4 || i == 7 {
        NoMatchAtNonDigit(t, i);
      } else if i == 10 {
        assert !DigitRun(t, i, 2) && !DigitRun(t, i, 1);
        assert GroupsAt(t, i, DmyShape, 0).None?;
        assert GroupsAt(t, i, DmyShape, 1).None?;
      } else {
        assert IsDigit(t[i - 1]);
      }
    }
  }

  lemma NoDmyAtIsoField(t: string, i: nat)
    requires IsoText(t) && (i == 0 || i == 5 || i == 8)
    requires forall k :: 0 <= k < 10 && k != 4 && k != 7 ==> IsDigit(t[k])
    ensures MatchAt(t, i, DmyShape).None?
  {
    if i == 0 {
      NoMatchBeforeDigits(t, 0);
    } else if i == 5 {
      assert !SepAfterRun(t, 8, 2) && !SepAfterRun(t, 8, 1);
      assert TailAt(t, 8, DmyShape, 0).None?;
      assert TailAt(t, 8, DmyShape, 1).None?;
      assert TailAt(t, 8, DmyShape, 2).None?;
      assert !SepAfterRun(t, 5, 1);
      assert GroupsAt(t, 5, DmyShape, 0).None?;
      assert GroupsAt(t, 5, DmyShape, 1).None?;
    } else {
      assert !SepAfterRun(t, 8, 2) && !SepAfterRun(t, 8, 1);
      assert GroupsAt(t, 8, DmyShape, 0).None?;
      assert GroupsAt(t, 8, DmyShape, 1).None?;
    }
  }

  /** `YYYY-MM-DD` is its own Y/M/D match. */
  lemma IsoTextYmdMatch(t: string)
    requires IsoText(t)
    ensures Search(t, YmdShape, 0, false) == Some(Groups(0, t[..4], '-', t[5..7], '-', t[8..]))
  {
    IsoTextDigits(t);
    assert LastGroupAt(t, 8, 1, 2) == Some(t[8..]) by {
      assert t[8..10] == t[8..];
      assert DigitRun(t, 8, 2);
    }
    assert SepAfterRun(t, 5, 2);
    assert TailAt(t, 5, YmdShape, 2) == Some((t[5..7], '-', t[8..]));
    assert SepAfterRun(t, 0, 4);
    assert MatchAt(t, 0, YmdShape) == Some(Groups(0, t[..4], '-', t[5..7], '-', t[8..]));
  }

  /** The date an ISO text names. */
  function IsoTextDate(t: string): Date
    requires IsoText(t)
  {
    Date(DigitsToNat(t[..4]), DigitsToNat(t[5..7]), DigitsToNat(t[8..]))
  }

  /** The Y/M/D search reads an ISO text as the date it names. */
  lemma IsoDateInOfIsoText(t: string)
    requires IsoText(t) && Valid(IsoTextDate(t))
    ensures IsoDateIn(t) == Some(IsoTextDate(t))
  {
    var m := Groups(0, t[..4], '-', t[5..7], '-', t[8..]);
    IsoTextYmdMatch(t);
    assert ParseIso(m) == Some(IsoTextDate(t));
  }

  /** An ISO text is its own `strip()`. */
  lemma IsoTextStripped(t: string)
    requires IsoText(t)
    ensures Strip(t) == t
  {
    IsoTextDigits(t);
    assert IsDigit(t[0]) && IsDigit(t[9]);
    StripUnpadded(t);
  }

  /** An ISO text with a four-digit year takes the Y/M/D branch of the anchored search. */
  lemma FixedTakesIsoBranch(t: string, monthNames: string -> Option<string>)
    requires IsoText(t) && t[0] != '0' && Valid(IsoTextDate(t))
    ensures NormalizeDateFixed(t, monthNames) == FormatIso(IsoTextDate(t))
  {
    IsoTextStripped(t);
    IsoTextNoAnchoredDmy(t);
    IsoDateInOfIsoText(t);
  }

  /** Formatting the date an ISO text names gives the text back. */
  lemma IsoTextFormatsBack(t: string)
    requires IsoText(t) && t[0] != '0' && Valid(IsoTextDate(t))
    ensures FormatIso(IsoTextDate(t)) == t
  {
    IsoTextDigits(t);
    NatToStringOfDigits(t[..4]);
    PadNatRoundTrip(t[5..7]);
    PadNatRoundTrip(t[8..]);
    assert FormatIso(IsoTextDate(t)) == t[..4] + "-" + t[5..7] + "-" + t[8..];
    assert t == t[..4] + "-" + t[5..7] + "-" + t[8..];
  }

  /** With the anchored search, a real ISO date with a four-digit year is left as it is. */
  lemma NormalizeDateFixedKeepsIso(t: string, monthNames: string -> Option<string>)
    requires IsoText(t) && t[0] != '0' && Valid(IsoTextDate(t))
    ensures NormalizeDateFixed(t, monthNames) == t
  {
    FixedTakesIsoBranch(t, monthNames);
    IsoTextFormatsBack(t);
  }
}

=== FILE: dates.dfy ===
/** Calendar dates as Python's `datetime` sees them: a proleptic Gregorian
    (year, month, day) with 1 <= year <= 9999, ordered lexicographically, and
    a day ordinal (`date.toordinal()`) so that `(b - a).days` can be written
    as a difference of ordinals. */
module Dates {

  datatype Date = Date(year: int, month: int, day: int)

  predicate IsLeap(y: int) {
    (y % 4 == 0 && y % 100 != 0) || y % 400 == 0
  }

  function DaysInYear(y: int): int {
    if IsLeap(y) then 366 else 365
  }

  function DaysInMonth(y: int, m: int): (r: int)
    requires 1 <= m <= 12
    ensures 28 <= r <= 31
  {
    if m == 2 then (if IsLeap(y) then 29 else 28)
    else if m == 4 || m == 6 || m == 9 || m == 11 then 30
    else 31
  }

  /** The checks `datetime(year, month, day)` performs. */
  predicate Valid(d: Date) {
    1 <= d.year <= 9999 && 1 <= d.month <= 12 && 1 <= d.day <= DaysInMonth(d.year, d.month)
  }

  type CalendarDate = d: Date | Valid(d) witness Date(1970, 1, 1)

  /** `a < b` on datetimes at the same time of day. */
  predicate Before(a: Date, b: Date) {
    a.year < b.year
    || (a.year == b.year && a.month < b.month)
    || (a.year == b.year && a.month == b.month && a.day < b.day)
  }

  /** `a <= b` */
  predicate NotAfter(a: Date, b: Date) {
    Before(a, b) || a == b
  }

  /** Days in the years before `y` (Python's `_days_before_year`). */
  function DaysBeforeYear(y: int): int {
    var p := y - 1;
    p * 365 + p / 4 - p / 100 + p / 400
  }

  /** Days in the months of `y` before `m` (Python's `_days_before_month`). */
  function DaysBeforeMonth(y: int, m: int): (r: int)
    requires 1 <= m <= 12
    ensures 0 <= r
  {
    var table := [0, 31, 59, 90, 120, 151, 181, 212, 243, 273, 304, 334];
    table[m - 1] + (if m > 2 && IsLeap(y) then 1 else 0)
  }

  /** `date.toordinal()`: 0001-01-01 is day 1. */
  function Ordinal(d: Date): int
    requires 1 <= d.month <= 12
  {
    DaysBeforeYear(d.year) + DaysBeforeMonth(d.year, d.month) + d.day
  }

  /** `(b - a).days` */
  function DaysBetween(a: Date, b: Date): int
    requires 1 <= a.month <= 12 && 1 <= b.month <= 12
  {
    Ordinal(b) - Ordinal(a)
  }

  /** Counting the multiples of 4, 100 or 400 up to `y`: one more than up to
      `y - 1` exactly when the divisor divides `y`. */
  lemma DivStep(y: int)
    requires y >= 1
    ensures y / 4 == (y - 1) / 4 + (if y % 4 == 0 then 1 else 0)
    ensures y / 100 == (y - 1) / 100 + (if y % 100 == 0 then 1 else 0)
    ensures y / 400 == (y - 1) / 400 + (if y % 400 == 0 then 1 else 0)
  {
    assert y / 4 == (y - 1) / 4 + (if y % 4 == 0 then 1 else 0);
    assert y / 100 == (y - 1) / 100 + (if y % 100 == 0 then 1 else 0);
  }

  lemma DaysBeforeYearStep(y: int)
    requires y >= 1
    ensures DaysBeforeYear(y + 1) == DaysBeforeYear(y) + DaysInYear(y)
  {
    DivStep(y);
    var p := y - 1;
    assert DaysBeforeYear(y + 1) == y * 365 + y / 4 - y / 100 + y / 400;
    assert DaysBeforeYear(y) == p * 365 + p / 4 - p / 100 + p / 400;
    assert y * 365 == p * 365 + 365;
    if y % 400 == 0 {
      assert y % 4 == 0 && y % 100 == 0 by { assert y == 400 * (y / 400); }
    } else if y % 100 == 0 {
      assert y % 4 == 0 by { assert y == 100 * (y / 100); }
    }
  }

  lemma {:induction false} DaysBeforeYearMonotone(y1: int, y2: int)
    requires 1 <= y1 < y2
    ensures DaysBeforeYear(y1) + DaysInYear(y1) <= DaysBeforeYear(y2)
    decreases y2 - y1
  {
    DaysBeforeYearStep(y1);
    if y1 + 1 < y2 {
      DaysBeforeYearMonotone(y1 + 1, y2);
    }
  }

  /** The last day of a month is the day before the first of the next one. */
  lemma MonthFitsBeforeNext(y: int, m: int)
    requires 1 <= m < 12
    ensures DaysBeforeMonth(y, m) + DaysInMonth(y, m) == DaysBeforeMonth(y, m + 1)
  {
  }

  lemma MonthFitsInYear(y: int, m: int)
    requires 1 <= m <= 12
    ensures DaysBeforeMonth(y, m) + DaysInMonth(y, m) <= DaysInYear(y)
  {
  }

  lemma {:induction false} DaysBeforeMonthMonotone(y: int, m1: int, m2: int)
    requires 1 <= m1 < m2 <= 12
    ensures DaysBeforeMonth(y, m1) + DaysInMonth(y, m1) <= DaysBeforeMonth(y, m2)
    decreases m2 - m1
  {
    MonthFitsBeforeNext(y, m1);
    if m1 + 1 < m2 {
      DaysBeforeMonthMonotone(y, m1 + 1, m2);
    }
  }

  /** Calendar order and ordinal order agree on valid dates. */
  lemma OrdinalOrder(a: Date, b: Date)
    requires Valid(a) && Valid(b)
    ensures Before(a, b) <==> Ordinal(a) < Ordinal(b)
    ensures a == b <==> Ordinal(a) == Ordinal(b)
  {
    if a.year < b.year {
      OrdinalBeforeByYear(a, b);
    } else if b.year < a.year {
      OrdinalBeforeByYear(b, a);
    } else if a.month < b.month {
      DaysBeforeMonthMonotone(a.year, a.month, b.month);
    } else if b.month < a.month {
      DaysBeforeMonthMonotone(a.year, b.month, a.month);
    }
  }

  lemma OrdinalBeforeByYear(a: Date, b: Date)
    requires Valid(a) && Valid(b) && a.year < b.year
    ensures Ordinal(a) < Ordinal(b)
  {
    MonthFitsInYear(a.year, a.month);
    DaysBeforeYearMonotone(a.year, b.year);
  }
}

=== FILE: dict.dfy ===
/** Python dictionaries remember insertion order, and the pipeline observes
    that order (the first five field names of an extraction, the order issues
    are reported in, the tie order of stable sorts). A dictionary is therefore
    modelled as a sequence of key/value pairs: assigning to an existing key
    replaces its value in place, assigning to a new key appends it. */
module Dict {
  import opened Base

  type Dict<V> = seq<(string, V)>

  function Keys<V>(d: Dict<V>): (r: seq<string>)
    ensures |r| == |d|
  {
    if d == [] then [] else [d[0].0] + Keys(d[1..])
  }

  lemma {:induction false} KeysIndex<V>(d: Dict<V>, i: nat)
    requires i < |d|
    ensures Keys(d)[i] == d[i].0
  {
    if i > 0 {
      KeysIndex(d[1..], i - 1);
    }
  }

  predicate Distinct<T(==)>(s: seq<T>) {
    forall i, j :: 0 <= i < j < |s| ==> s[i] != s[j]
  }

  /** No key occurs twice: every dictionary built with `Put` is well formed. */
  predicate WellFormed<V>(d: Dict<V>) {
    Distinct(Keys(d))
  }

  /** The entries after the first of a well-formed dictionary form one, without the first key. */
  lemma WellFormedTail<V>(d: Dict<V>)
    requires WellFormed(d) && d != []
    ensures WellFormed(d[1..]) && d[0].0 !in Keys(d[1..])
  {
    var ks := Keys(d);
    assert ks == [d[0].0] + Keys(d[1..]);
    forall i, j | 0 <= i < j < |Keys(d[1..])|
      ensures Keys(d[1..])[i] != Keys(d[1..])[j]
    {
      assert ks[i + 1] != ks[j + 1];
    }
    forall j | 0 <= j < |Keys(d[1..])|
      ensures Keys(d[1..])[j] != d[0].0
    {
      assert ks[0] != ks[j + 1];
    }
  }

  /** Two different entries of a well-formed dictionary have different keys. */
  lemma EntriesKeysDiffer<V>(d: Dict<V>, a: (string, V), b: (string, V))
    requires WellFormed(d) && a in d && b in d && a != b
    ensures a.0 != b.0
  {
    var i :| 0 <= i < |d| && d[i] == a;
    var j :| 0 <= j < |d| && d[j] == b;
    KeysIndex(d, i);
    KeysIndex(d, j);
  }

  /** An entry of a well-formed dictionary occurs in it exactly once. */
  lemma {:induction false} EntryOnce<V>(d: Dict<V>, e: (string, V))
    requires WellFormed(d) && e in d
    ensures multiset(d)[e] == 1
  {
    assert d == [d[0]] + d[1..];
    WellFormedTail(d);
    if d[0] == e {
      forall j | 0 <= j < |d[1..]| ensures d[1..][j] != e {
        KeysIndex(d[1..], j);
      }
      assert e !in d[1..];
    } else {
      EntryOnce(d[1..], e);
    }
  }

  /** An item at two positions occurs at least twice. */
  lemma RepeatCounts<T>(s: seq<T>, i: nat, j: nat)
    requires i < j < |s| && s[i] == s[j]
    ensures multiset(s)[s[i]] >= 2
  {
    assert s == s[..j] + s[j..];
    assert s[..j][i] == s[i];
    assert s[j..][0] == s[j];
  }

  /** Any reordering of a well-formed dictionary repeats no key. */
  lemma PermutedKeysDistinct<V>(d: Dict<V>, s: seq<(string, V)>)
    requires WellFormed(d) && multiset(s) == multiset(d)
    ensures forall i, j :: 0 <= i < j < |s| ==> s[i].0 != s[j].0
  {
    forall i, j | 0 <= i < j < |s| ensures s[i].0 != s[j].0 {
      assert s[i] in multiset(d) && s[j] in multiset(d);
      EntryOnce(d, s[i]);
      if s[i] == s[j] {
        RepeatCounts(s, i, j);
      }
      EntriesKeysDiffer(d, s[i], s[j]);
    }
  }

  /** `d.get(k)`: the value stored under `k`, if any. */
  function Get<V>(d: Dict<V>, k: string): (r: Option<V>)
    ensures r.Some? <==> k in Keys(d)
  {
    if d == [] then None
    else if d[0].0 == k then Some(d[0].1)
    else Get(d[1..], k)
  }

  /** `d.get(k, default)` */
  function GetOr<V>(d: Dict<V>, k: string, default: V): V {
    Get(d, k).GetOr(default)
  }

  /** `d[k] = v` */
  function Put<V>(d: Dict<V>, k: string, v: V): (r: Dict<V>)
    ensures Get(r, k) == Some(v)
    ensures forall k' :: k' != k ==> Get(r, k') == Get(d, k')
    ensures Keys(r) == if k in Keys(d) then Keys(d) else Keys(d) + [k]
  {
    if d == [] then [(k, v)]
    else if d[0].0 == k then [(k, v)] + d[1..]
    else
      var rest := Put(d[1..], k, v);
      var r := [d[0]] + rest;
      assert r[1..] == rest;
      assert Keys(r) == [d[0].0] + Keys(rest);
      r
  }

  /** Assigning to a new key appends it. */
  lemma {:induction false} PutNew<V>(d: Dict<V>, k: string, v: V)
    requires k !in Keys(d)
    ensures Put(d, k, v) == d + [(k, v)]
  {
    if d != [] {
      assert Keys(d) == [d[0].0] + Keys(d[1..]);
      assert d[0].0 != k;
      PutNew(d[1..], k, v);
      assert Put(d, k, v) == [d[0]] + Put(d[1..], k, v);
      assert d == [d[0]] + d[1..];
    }
  }

  lemma KeysOfThree<V>(a: string, x: V, b: string, y: V, c: string, z: V)
    ensures Keys([(a, x), (b, y), (c, z)]) == [a, b, c]
  {
    var d := [(a, x), (b, y), (c, z)];
    assert Keys(d[2..]) == [c];
    assert Keys(d[1..]) == [b] + Keys(d[2..]);
  }

  lemma PutWellFormed<V>(d: Dict<V>, k: string, v: V)
    requires WellFormed(d)
    ensures WellFormed(Put(d, k, v))
  {
  }

  /** `d[k] = d.get(k, 0) + 1`: one more occurrence of `k` in a frequency table. */
  function Increment(d: Dict<nat>, k: string): (r: Dict<nat>)
    ensures GetOr<nat>(r, k, 0) == GetOr<nat>(d, k, 0) + 1
    ensures forall k' :: k' != k ==> Get(r, k') == Get(d, k')
    ensures Keys(r) == if k in Keys(d) then Keys(d) else Keys(d) + [k]
  {
    Put<nat>(d, k, GetOr<nat>(d, k, 0) + 1)
  }

  /** The dictionary holding exactly the given pairs, in order, later pairs winning
      (`{k: v for k, v in pairs}`). */
  function FromPairs<V>(pairs: seq<(string, V)>): (r: Dict<V>)
    ensures WellFormed(r)
  {
    PutAll([], pairs)
  }

  function PutAll<V>(acc: Dict<V>, pairs: seq<(string, V)>): (r: Dict<V>)
    requires WellFormed(acc)
    ensures WellFormed(r)
    decreases |pairs|
  {
    if pairs == [] then acc
    else
      PutWellFormed(acc, pairs[0].0, pairs[0].1);
      PutAll(Put(acc, pairs[0].0, pairs[0].1), pairs[1..])
  }

  /** Every entry after an assignment is an old entry or the assigned one. */
  lemma {:induction false} PutEntries<V>(d: Dict<V>, k: string, v: V)
    ensures forall i :: 0 <= i < |Put(d, k, v)| ==> Put(d, k, v)[i] in d || Put(d, k, v)[i] == (k, v)
  {
    if d != [] && d[0].0 != k {
      PutEntries(d[1..], k, v);
      var r := Put(d, k, v);
      assert r == [d[0]] + Put(d[1..], k, v);
      forall i | 0 < i < |r|
        ensures r[i] in d || r[i] == (k, v)
      {
        assert r[i] == Put(d[1..], k, v)[i - 1];
      }
    }
  }

  /** The sum of `f` over the values of a dictionary. */
  function SumOf<V>(d: Dict<V>, f: V -> nat): nat {
    if d == [] then 0 else f(d[0].1) + SumOf(d[1..], f)
  }

  /** Assigning `v` to `k` trades the old value's share of the sum for `v`'s. */
  lemma {:induction false} PutSum<V>(d: Dict<V>, k: string, v: V, f: V -> nat)
    ensures SumOf(Put(d, k, v), f) + (match Get(d, k) case Some(o) => f(o) case None => 0)
         == SumOf(d, f) + f(v)
  {
    if d != [] && d[0].0 != k {
      PutSum(d[1..], k, v, f);
      var r := Put(d, k, v);
      assert r == [d[0]] + Put(d[1..], k, v);
      assert r[1..] == Put(d[1..], k, v);
    } else if d != [] {
      assert Put(d, k, v)[1..] == d[1..];
    }
  }

  function Identity(n: nat): nat { n }

  /** Counting one more occurrence adds one to the table's total. */
  lemma IncrementTotal(d: Dict<nat>, k: string)
    ensures SumOf(Increment(d, k), Identity) == SumOf(d, Identity) + 1
  {
    PutSum<nat>(d, k, GetOr<nat>(d, k, 0) + 1, Identity);
  }

  /** In a well-formed dictionary every entry is what its key looks up. */
  lemma {:induction false} GetAt<V>(d: Dict<V>, i: nat)
    requires WellFormed(d) && i < |d|
    ensures Get(d, d[i].0) == Some(d[i].1)
  {
    if i > 0 {
      KeysIndex(d, 0);
      KeysIndex(d, i);
      assert Keys(d[1..]) == Keys(d)[1..];
      assert d[1..][i - 1] == d[i];
      GetAt(d[1..], i - 1);
    }
  }
}

=== FILE: extraction.dfy ===
/** `extraction_service.py`: the per-type field extractors and the dispatch
    in `extract_fields`. Each extractor runs a table of named patterns over
    the OCR text, stores the first group of each pattern that matches under
    the pattern's name with a fixed confidence, adds the line-based tables
    when they are non-empty, and copies the layout's tables. */
module Extraction {
  import opened Base
  import opened Dict
  import opened Json
  import opened Normalization
  import opened DateNormalization
  import opened ExtractionLines

  /** One entry of a `patterns` dict: the field it fills and its pattern. */
  datatype Rule = Rule(field: string, pattern: string)

  /** The `fields` and `confidence_scores` dicts under construction. */
  datatype Found = Found(fields: Dict<Value>, confidence: Dict<real>) {
    /** Every field has a confidence score and every score a field. */
    predicate Paired() { Keys(fields) == Keys(confidence) }
  }

  /** The result of `extract_fields`. */
  datatype Extraction = Extraction(fields: Dict<Value>, tables: seq<Table>, confidence: Dict<real>)

  /** What every successful extractor returns: a confidence score in
      `[0.6, 0.9]` for each field and nothing else, and the layout's tables. */
  predicate Shaped(e: Extraction, layout: Dict<Value>) {
    Keys(e.fields) == Keys(e.confidence) && ScoresWithin(e.confidence, 0.6, 0.9)
    && TablesFromLayout(layout) == Done(e.tables)
  }

  /** `{"fields": {}, "tables": [], "confidence_scores": {}}` */
  function Empty(): Extraction { Extraction([], [], []) }

  function Names(rules: seq<Rule>): (r: seq<string>)
    ensures |r| == |rules|
    ensures forall i :: 0 <= i < |rules| ==> r[i] == rules[i].field
  {
    if rules == [] then [] else [rules[0].field] + Names(rules[1..])
  }

  /** Every confidence score lies in `[lo, hi]`. */
  predicate ScoresWithin(c: Dict<real>, lo: real, hi: real) {
    forall i :: 0 <= i < |c| ==> lo <= c[i].1 <= hi
  }

  lemma Widen(c: Dict<real>, lo: real, hi: real, lo': real, hi': real)
    requires ScoresWithin(c, lo, hi) && lo' <= lo && hi <= hi'
    ensures ScoresWithin(c, lo', hi')
  {
  }

  /** The confidence `extract_fields` gives a field of a document of the
      given type: account details 0.9, transactions 0.7 and totals 0.8 on a
      statement; 0.85 for a payslip's or an invoice's named fields and 0.7
      for their deductions or line items; 0.8 for the dates, 0.7 for the
      amounts and 0.6 for the names of any other document. */
  function Score(docType: string, field: string): real {
    if docType == "bank_statement" then
      if field == "transactions" then 0.7
      else if field == "total_credits" || field == "total_debits" then 0.8
      else 0.9
    else if docType == "payslip" then (if field == "deductions" then 0.7 else 0.85)
    else if docType == "invoice" then (if field == "line_items" then 0.7 else 0.85)
    else if field == "dates" then 0.8
    else if field == "amounts" then 0.7
    else 0.6
  }

  /** Every score is the one its field gets in a document of type `docType`. */
  predicate ScoredAs(c: Dict<real>, docType: string) {
    forall i :: 0 <= i < |c| ==> c[i].1 == Score(docType, c[i].0)
  }

  /** A field's looked-up score is the one its type gives it. */
  lemma {:induction false} ScoredGet(c: Dict<real>, docType: string, k: string)
    requires ScoredAs(c, docType) && Get(c, k).Some?
    ensures Get(c, k) == Some(Score(docType, k))
  {
    if c[0].0 != k {
      assert ScoredAs(c[1..], docType) by {
        forall i | 0 <= i < |c[1..]| ensures c[1..][i].1 == Score(docType, c[1..][i].0) {
          assert c[1..][i] == c[i + 1];
        }
      }
      ScoredGet(c[1..], docType, k);
    }
  }

  /** `fields[k] = v; confidence_scores[k] = score` */
  function Record(acc: Found, k: string, v: Value, score: real): (r: Found)
    ensures acc.Paired() ==> r.Paired()
    ensures Get(r.fields, k) == Some(v) && Get(r.confidence, k) == Some(score)
    ensures forall k' :: k' != k ==> Get(r.fields, k') == Get(acc.fields, k')
    ensures forall k' :: k' != k ==> Get(r.confidence, k') == Get(acc.confidence, k')
  {
    Found(Put(acc.fields, k, v), Put(acc.confidence, k, score))
  }

  lemma RecordWithin(acc: Found, k: string, v: Value, score: real, lo: real, hi: real)
    requires ScoresWithin(acc.confidence, lo, hi) && lo <= score <= hi
    ensures ScoresWithin(Record(acc, k, v, score).confidence, lo, hi)
  {
    PutEntries(acc.confidence, k, score);
  }

  lemma RecordScored(acc: Found, k: string, v: Value, docType: string)
    requires ScoredAs(acc.confidence, docType)
    ensures ScoredAs(Record(acc, k, v, Score(docType, k)).confidence, docType)
  {
    PutEntries(acc.confidence, k, Score(docType, k));
  }

  /** One pass of `for field_name, pattern in patterns.items()`. */
  function ApplyRule(acc: Found, rule: Rule, text: string, re: Regex,
                     value: (string, string) -> Value, score: real): (r: Found)
    ensures acc.Paired() ==> r.Paired()
    ensures re.search(rule.pattern, text).None? ==> r == acc
    ensures re.search(rule.pattern, text).Some? ==>
      r == Record(acc, rule.field, value(rule.field, Group(re.search(rule.pattern, text).value, 1)), score)
  {
    match re.search(rule.pattern, text)
    case None => acc
    case Some(g) => Record(acc, rule.field, value(rule.field, Group(g, 1)), score)
  }

  /** The whole loop over a pattern table, in the table's order. */
  function ApplyRules(acc: Found, rules: seq<Rule>, text: string, re: Regex,
                      value: (string, string) -> Value, score: real): (r: Found)
    ensures acc.Paired() ==> r.Paired()
    decreases |rules|
    ensures forall k :: k !in Names(rules) ==> Get(r.fields, k) == Get(acc.fields, k)
    ensures forall k :: k !in Names(rules) ==> Get(r.confidence, k) == Get(acc.confidence, k)
  {
    if rules == [] then acc
    else
      var next := ApplyRule(acc, rules[0], text, re, value, score);
      var r := ApplyRules(next, rules[1..], text, re, value, score);
      assert forall k :: k !in Names(rules) ==> k != rules[0].field && k !in Names(rules[1..]);
      r
  }

  lemma {:induction false} ApplyRulesWithin(acc: Found, rules: seq<Rule>, text: string, re: Regex,
                                            value: (string, string) -> Value, score: real, lo: real, hi: real)
    requires ScoresWithin(acc.confidence, lo, hi) && lo <= score <= hi
    ensures ScoresWithin(ApplyRules(acc, rules, text, re, value, score).confidence, lo, hi)
    decreases |rules|
  {
    if rules != [] {
      var next := ApplyRule(acc, rules[0], text, re, value, score);
      var m := re.search(rules[0].pattern, text);
      if m.Some? {
        RecordWithin(acc, rules[0].field, value(rules[0].field, Group(m.value, 1)), score, lo, hi);
      }
      ApplyRulesWithin(next, rules[1..], text, re, value, score, lo, hi);
    }
  }

  /** A table whose every field gets `score` in documents of type `docType`. */
  predicate ScoredRules(rules: seq<Rule>, docType: string, score: real) {
    forall j :: 0 <= j < |rules| ==> Score(docType, rules[j].field) == score
  }

  lemma {:induction false} ApplyRulesScored(acc: Found, rules: seq<Rule>, text: string, re: Regex,
                                            value: (string, string) -> Value, score: real, docType: string)
    requires ScoredAs(acc.confidence, docType) && ScoredRules(rules, docType, score)
    ensures ScoredAs(ApplyRules(acc, rules, text, re, value, score).confidence, docType)
    decreases |rules|
  {
    if rules != [] {
      var next := ApplyRule(acc, rules[0], text, re, value, score);
      var m := re.search(rules[0].pattern, text);
      if m.Some? {
        assert Score(docType, rules[0].field) == score;
        RecordScored(acc, rules[0].field, value(rules[0].field, Group(m.value, 1)), docType);
      }
      assert ScoredRules(rules[1..], docType, score) by {
        forall j | 0 <= j < |rules[1..]| ensures Score(docType, rules[1..][j].field) == score {
          assert rules[1..][j] == rules[j + 1];
        }
      }
      ApplyRulesScored(next, rules[1..], text, re, value, score, docType);
    }
  }

  /** No other rule of the table fills the same field as rule `i`. */
  predicate Unique(rules: seq<Rule>, i: nat)
    requires i < |rules|
  {
    forall j :: 0 <= j < |rules| && j != i ==> rules[j].field != rules[i].field
  }

  /** When no other rule fills its field, a field ends up holding its own
      pattern's first group, at the table's confidence, exactly when its
      pattern matched; otherwise it keeps what it had. */
  lemma {:induction false} RuleDecides(acc: Found, rules: seq<Rule>, text: string, re: Regex,
                                       value: (string, string) -> Value, score: real, i: nat)
    requires i < |rules| && Unique(rules, i)
    ensures re.search(rules[i].pattern, text).None? ==>
      Get(ApplyRules(acc, rules, text, re, value, score).fields, rules[i].field) == Get(acc.fields, rules[i].field)
    ensures re.search(rules[i].pattern, text).Some? ==>
      Get(ApplyRules(acc, rules, text, re, value, score).fields, rules[i].field)
        == Some(value(rules[i].field, Group(re.search(rules[i].pattern, text).value, 1)))
    ensures re.search(rules[i].pattern, text).Some? ==>
      Get(ApplyRules(acc, rules, text, re, value, score).confidence, rules[i].field) == Some(score)
    decreases i
  {
    var next := ApplyRule(acc, rules[0], text, re, value, score);
    var tail := rules[1..];
    if i == 0 {
      assert rules[0].field !in Names(tail) by {
        forall j | 0 <= j < |tail| ensures Names(tail)[j] != rules[0].field {
          assert tail[j] == rules[j + 1];
        }
      }
    } else {
      assert Unique(tail, i - 1) by {
        forall j | 0 <= j < |tail| && j != i - 1 ensures tail[j].field != tail[i - 1].field {
          assert tail[j] == rules[j + 1];
        }
      }
      assert rules[i] == tail[i - 1];
      RuleDecides(next, tail, text, re, value, score, i - 1);
    }
  }

  /** Stores `v` under `k` when the list is non-empty, as `if transactions:` and its siblings do. */
  function RecordList(acc: Found, k: string, items: seq<Value>, score: real): (r: Found)
    ensures acc.Paired() ==> r.Paired()
    ensures items == [] ==> r == acc
    ensures items != [] ==> r == Record(acc, k, Arr(items), score)
    ensures Get(r.fields, k) == if items == [] then Get(acc.fields, k) else Some(Arr(items))
    ensures forall k' :: k' != k ==> Get(r.fields, k') == Get(acc.fields, k')
  {
    if items == [] then acc else Record(acc, k, Arr(items), score)
  }

  lemma RecordListWithin(acc: Found, k: string, items: seq<Value>, score: real, lo: real, hi: real)
    requires ScoresWithin(acc.confidence, lo, hi) && lo <= score <= hi
    ensures ScoresWithin(RecordList(acc, k, items, score).confidence, lo, hi)
  {
    if items != [] {
      RecordWithin(acc, k, Arr(items), score, lo, hi);
    }
  }

  lemma RecordListScored(acc: Found, k: string, items: seq<Value>, docType: string)
    requires ScoredAs(acc.confidence, docType)
    ensures ScoredAs(RecordList(acc, k, items, Score(docType, k)).confidence, docType)
  {
    if items != [] {
      RecordScored(acc, k, Arr(items), docType);
    }
  }

  /** The dict the extractor returns; `extract_tables_from_layout` runs last and may raise. */
  function Finish(acc: Found, layout: Dict<Value>): (r: Outcome<Extraction>)
    ensures r.Done? <==> TablesFromLayout(layout).Done?
    ensures r.Done? ==> r.value == Extraction(acc.fields, TablesFromLayout(layout).value, acc.confidence)
    ensures r.Done? && acc.Paired() && ScoresWithin(acc.confidence, 0.6, 0.9) ==> Shaped(r.value, layout)
  {
    match TablesFromLayout(layout)
    case Raised => Raised
    case Done(tables) => Done(Extraction(acc.fields, tables, acc.confidence))
  }

  // ----------------------------------------------------------- bank statement

  const AccountNumberPattern := "Account\\s*[#:]?\\s*(\\d{8,16})"

  const AccountRules: seq<Rule> := [
    Rule("account_number", AccountNumberPattern),
    Rule("account_holder", "Account\\s*Holder\\s*[:]?\\s*([A-Za-z\\s\\.]+)"),
    Rule("bank_name", "(?:Bank|Financial Institution)\\s*[:]?\\s*([A-Za-z\\s\\.]+)"),
    Rule("statement_date", "Statement\\s*Date\\s*[:]?\\s*([\\d\\/\\.-]+)"),
    Rule("opening_balance", "Opening\\s*Balance\\s*[:]?\\s*([\\d,]+\\.?\\d*)"),
    Rule("closing_balance", "(?:Closing|Ending)\\s*Balance\\s*[:]?\\s*([\\d,]+\\.?\\d*)")]

  const TotalRules: seq<Rule> := [
    Rule("total_credits", "Total\\s*Credits\\s*[:]?\\s*([\\d,]+\\.?\\d*)"),
    Rule("total_debits", "Total\\s*Debits\\s*[:]?\\s*([\\d,]+\\.?\\d*)")]

  lemma AccountNumberUnique()
    ensures Unique(AccountRules, 0) && AccountRules[0].pattern == AccountNumberPattern
    ensures "account_number" !in Names(TotalRules)
  {
    forall j | 0 < j < |AccountRules| ensures AccountRules[j].field != "account_number" {
      var f := AccountRules[j].field;
      assert |f| < 9 || f[0] != 'a' || f[8] != 'n';
    }
    forall j | 0 <= j < |TotalRules| ensures Names(TotalRules)[j] != "account_number" {
      assert TotalRules[j].field[0] == 't';
    }
  }

  /** Account details are kept as stripped text. */
  function StrippedText(field: string, raw: string): Value { Str(Strip(raw)) }

  /** Totals go through `normalize_amount`. */
  function Amount(field: string, raw: string): Value { Num(NormalizeAmount(Str(raw))) }

  /** The account details alone. */
  function AccountsFound(text: string, re: Regex): (r: Found)
    ensures r.Paired() && ScoresWithin(r.confidence, 0.7, 0.9)
    ensures re.search(AccountNumberPattern, text).None? ==> Get(r.fields, "account_number").None?
    ensures re.search(AccountNumberPattern, text).Some? ==>
      Get(r.fields, "account_number") == Some(Str(Strip(Group(re.search(AccountNumberPattern, text).value, 1))))
  {
    ApplyRulesWithin(Found([], []), AccountRules, text, re, StrippedText, 0.9, 0.7, 0.9);
    AccountNumberUnique();
    RuleDecides(Found([], []), AccountRules, text, re, StrippedText, 0.9, 0);
    ApplyRules(Found([], []), AccountRules, text, re, StrippedText, 0.9)
  }

  function BankStatementFound(text: string, re: Regex): (r: Found)
    ensures r.Paired()
    ensures ScoresWithin(r.confidence, 0.7, 0.9)
  {
    var accounts := AccountsFound(text, re);
    var withRows := RecordList(accounts, "transactions", TransactionTable(text, re), 0.7);
    RecordListWithin(accounts, "transactions", TransactionTable(text, re), 0.7, 0.7, 0.9);
    ApplyRulesWithin(withRows, TotalRules, text, re, Amount, 0.8, 0.7, 0.9);
    ApplyRules(withRows, TotalRules, text, re, Amount, 0.8)
  }

  /** Account details score 0.9, transactions 0.7 and totals 0.8. */
  lemma BankStatementScored(text: string, re: Regex)
    ensures ScoredAs(BankStatementFound(text, re).confidence, "bank_statement")
  {
    assert ScoredRules(AccountRules, "bank_statement", 0.9) by {
      forall j | 0 <= j < |AccountRules| ensures Score("bank_statement", AccountRules[j].field) == 0.9 {
        var f := AccountRules[j].field;
        assert f[0] != 't';
      }
    }
    assert ScoredRules(TotalRules, "bank_statement", 0.8);
    var accounts := AccountsFound(text, re);
    ApplyRulesScored(Found([], []), AccountRules, text, re, StrippedText, 0.9, "bank_statement");
    RecordListScored(accounts, "transactions", TransactionTable(text, re), "bank_statement");
    var withRows := RecordList(accounts, "transactions", TransactionTable(text, re), 0.7);
    ApplyRulesScored(withRows, TotalRules, text, re, Amount, 0.8, "bank_statement");
  }

  /** `extract_bank_statement_fields(text, layout_data)` */
  function BankStatementFields(text: string, layout: Dict<Value>, re: Regex): (r: Outcome<Extraction>)
    ensures r.Done? <==> TablesFromLayout(layout).Done?
    ensures r.Done? ==> Shaped(r.value, layout)
  {
    Widen(BankStatementFound(text, re).confidence, 0.7, 0.9, 0.6, 0.9);
    Finish(BankStatementFound(text, re), layout)
  }

  lemma AccountNumberScore(text: string, re: Regex)
    ensures Get(BankStatementFound(text, re).fields, "account_number").Some? ==>
      Get(BankStatementFound(text, re).confidence, "account_number") == Some(0.9)
  {
    var found := BankStatementFound(text, re);
    BankStatementScored(text, re);
    if Get(found.fields, "account_number").Some? {
      assert Get(found.confidence, "account_number").Some?;
      ScoredGet(found.confidence, "bank_statement", "account_number");
      AccountNumberScoreConstant();
    }
  }

  /** In a bank statement the account number is scored 0.9. */
  lemma AccountNumberScoreConstant()
    ensures Score("bank_statement", "account_number") == 0.9
  {
    assert "account_number"[0] != "transactions"[0] && "account_number"[0] != "total_credits"[0];
  }

  /** The account number is present exactly when its pattern matches, as
      the digits of the first group; the transaction rows and totals added
      later do not touch it. */
  lemma AccountNumberFound(text: string, re: Regex)
    ensures re.search(AccountNumberPattern, text).None? ==>
      Get(BankStatementFound(text, re).fields, "account_number").None?
    ensures re.search(AccountNumberPattern, text).Some? ==>
      Get(BankStatementFound(text, re).fields, "account_number")
        == Some(Str(Strip(Group(re.search(AccountNumberPattern, text).value, 1))))
    ensures Get(BankStatementFound(text, re).fields, "account_number").Some? ==>
      Get(BankStatementFound(text, re).confidence, "account_number") == Some(0.9)
  {
    AccountNumberScore(text, re);
    AccountNumberUnique();
    var accounts := AccountsFound(text, re);
    var withRows := RecordList(accounts, "transactions", TransactionTable(text, re), 0.7);
    assert Get(withRows.fields, "account_number") == Get(accounts.fields, "account_number");
  }

  // ------------------------------------------------------------------ payslip

  const PayPeriodPattern := "Pay\\s*Period\\s*[:]?\\s*([\\d\\/\\.\\s-]+(?:to|through)[\\d\\/\\.\\s-]+)"

  const PayslipRules: seq<Rule> := [
    Rule("employee_name", "Employee\\s*Name\\s*[:]?\\s*([A-Za-z\\s\\.]+)"),
    Rule("employee_id", "Employee\\s*[I#]D\\s*[:]?\\s*(\\w+)"),
    Rule("employer_name", "Employer\\s*[:]?\\s*([A-Za-z\\s\\.&]+)"),
    Rule("pay_period", PayPeriodPattern),
    Rule("gross_pay", "Gross\\s*Pay\\s*[:]?\\s*([\\d,]+\\.?\\d*)"),
    Rule("net_pay", "Net\\s*Pay\\s*[:]?\\s*([\\d,]+\\.?\\d*)"),
    Rule("tax_amount", "Tax\\s*[:]?\\s*([\\d,]+\\.?\\d*)"),
    Rule("insurance_amount", "(?:National\\s*)?Insurance\\s*[:]?\\s*([\\d,]+\\.?\\d*)")]

  lemma PayPeriodUnique()
    ensures Unique(PayslipRules, 3)
    ensures PayslipRules[3].field == "pay_period" && PayslipRules[3].pattern == PayPeriodPattern
  {
    forall j | 0 <= j < |PayslipRules| && j != 3 ensures PayslipRules[j].field != "pay_period" {
      var f := PayslipRules[j].field;
      assert f[0] != 'p' || f[1] != 'a' || |f| != 10;
    }
  }

  /** The payslip value as written: every field whose name contains "pay"
      or "amount" goes through `normalize_amount` -- and "pay_period"
      contains "pay". */
  function PayslipValue(field: string, raw: string): Value {
    var v := Strip(raw);
    if Contains(field, "pay") || Contains(field, "amount") then Num(NormalizeAmount(Str(v))) else Str(v)
  }

  /** The payslip value as evidently intended: the pay period stays text,
      every other field is treated as written. */
  function PayslipValueFixed(field: string, raw: string): (r: Value)
    ensures field == "pay_period" ==> r == Str(Strip(raw))
    ensures field != "pay_period" ==> r == PayslipValue(field, raw)
  {
    if field == "pay_period" then Str(Strip(raw)) else PayslipValue(field, raw)
  }

  /** As written, the pay period -- a range of dates such as
      "01/01/2023 to 31/01/2023" -- is stored as a number. */
  lemma PayPeriodBecomesNumber(raw: string)
    ensures PayslipValue("pay_period", raw).Num?
    ensures PayslipValue("pay_period", raw) != Str(Strip(raw))
  {
    assert StartsWith("pay_period", "pay") by {
      assert "pay_period"[..3] == "pay";
    }
  }

  /** The correction changes the stored value of the pay period and of no other field. */
  lemma PayslipValueFixedDiffers(field: string, raw: string)
    ensures PayslipValueFixed(field, raw) != PayslipValue(field, raw) <==> field == "pay_period"
  {
    if field == "pay_period" {
      PayPeriodBecomesNumber(raw);
    }
  }

  /** The pattern table alone; the pay period is its own pattern's value, whichever value rule is used. */
  function PayslipRulesFound(text: string, re: Regex, value: (string, string) -> Value): (r: Found)
    ensures r.Paired() && ScoresWithin(r.confidence, 0.7, 0.85)
    ensures re.search(PayPeriodPattern, text).None? ==> Get(r.fields, "pay_period").None?
    ensures re.search(PayPeriodPattern, text).Some? ==>
      Get(r.fields, "pay_period") == Some(value("pay_period", Group(re.search(PayPeriodPattern, text).value, 1)))
  {
    ApplyRulesWithin(Found([], []), PayslipRules, text, re, value, 0.85, 0.7, 0.85);
    PayPeriodUnique();
    RuleDecides(Found([], []), PayslipRules, text, re, value, 0.85, 3);
    ApplyRules(Found([], []), PayslipRules, text, re, value, 0.85)
  }

  /** The fields before the layout's tables are copied, for either value rule. */
  function PayslipFoundWith(text: string, re: Regex, value: (string, string) -> Value): (r: Found)
    ensures r.Paired()
    ensures ScoresWithin(r.confidence, 0.7, 0.85)
  {
    var found := PayslipRulesFound(text, re, value);
    RecordListWithin(found, "deductions", Deductions(text, re), 0.7, 0.7, 0.85);
    RecordList(found, "deductions", Deductions(text, re), 0.7)
  }

  /** Named payslip fields score 0.85 and deductions 0.7, whichever value rule is used. */
  lemma PayslipScored(text: string, re: Regex, value: (string, string) -> Value)
    ensures ScoredAs(PayslipFoundWith(text, re, value).confidence, "payslip")
  {
    assert ScoredRules(PayslipRules, "payslip", 0.85) by {
      forall j | 0 <= j < |PayslipRules| ensures Score("payslip", PayslipRules[j].field) == 0.85 {
        var f := PayslipRules[j].field;
        assert f[0] != 'd';
      }
    }
    ApplyRulesScored(Found([], []), PayslipRules, text, re, value, 0.85, "payslip");
    RecordListScored(PayslipRulesFound(text, re, value), "deductions", Deductions(text, re), "payslip");
  }

  /** The pay period field, whichever value rule is used, is the value of its pattern's first group. */
  lemma {:induction false} PayPeriodFound(text: string, re: Regex, value: (string, string) -> Value)
    ensures re.search(PayPeriodPattern, text).None? ==>
      Get(PayslipFoundWith(text, re, value).fields, "pay_period").None?
    ensures re.search(PayPeriodPattern, text).Some? ==>
      Get(PayslipFoundWith(text, re, value).fields, "pay_period")
        == Some(value("pay_period", Group(re.search(PayPeriodPattern, text).value, 1)))
  {
    var found := PayslipRulesFound(text, re, value);
    assert Get(RecordList(found, "deductions", Deductions(text, re), 0.7).fields, "pay_period")
        == Get(found.fields, "pay_period");
  }

  /** `extract_payslip_fields` as written. */
  function PayslipFieldsAsWritten(text: string, layout: Dict<Value>, re: Regex): (r: Outcome<Extraction>)
    ensures r.Done? <==> TablesFromLayout(layout).Done?
    ensures r.Done? ==> Shaped(r.value, layout)
  {
    Widen(PayslipFoundWith(text, re, PayslipValue).confidence, 0.7, 0.85, 0.6, 0.9);
    Finish(PayslipFoundWith(text, re, PayslipValue), layout)
  }

  /** As written, a matched pay period reaches the result as a number, so
      the payslip rule that checks the period against a date pattern sees
      the text of a float. */
  lemma PayPeriodStoredAsNumber(text: string, layout: Dict<Value>, re: Regex)
    requires re.search(PayPeriodPattern, text).Some?
    requires TablesFromLayout(layout).Done?
    ensures Get(PayslipFieldsAsWritten(text, layout, re).value.fields, "pay_period").Some?
    ensures Get(PayslipFieldsAsWritten(text, layout, re).value.fields, "pay_period").value.Num?
  {
    PayPeriodFound(text, re, PayslipValue);
    PayPeriodBecomesNumber(Group(re.search(PayPeriodPattern, text).value, 1));
  }

  /** `extract_payslip_fields` with the pay period kept as text. */
  function PayslipFields(text: string, layout: Dict<Value>, re: Regex): (r: Outcome<Extraction>)
    ensures r.Done? <==> TablesFromLayout(layout).Done?
    ensures r.Done? ==> Shaped(r.value, layout)
  {
    Widen(PayslipFoundWith(text, re, PayslipValueFixed).confidence, 0.7, 0.85, 0.6, 0.9);
    Finish(PayslipFoundWith(text, re, PayslipValueFixed), layout)
  }

  /** With the correction, a matched pay period is the stripped text of its group. */
  lemma PayPeriodStoredAsText(text: string, layout: Dict<Value>, re: Regex)
    requires re.search(PayPeriodPattern, text).Some?
    requires TablesFromLayout(layout).Done?
    ensures Get(PayslipFields(text, layout, re).value.fields, "pay_period")
         == Some(Str(Strip(Group(re.search(PayPeriodPattern, text).value, 1))))
  {
    PayPeriodFound(text, re, PayslipValueFixed);
  }

  // ------------------------------------------------------------------ invoice

  const InvoiceRules: seq<Rule> := [
    Rule("invoice_number", "Invoice\\s*[#:]?\\s*(\\w+)"),
    Rule("invoice_date", "Invoice\\s*Date\\s*[:]?\\s*([\\d\\/\\.-]+)"),
    Rule("due_date", "Due\\s*Date\\s*[:]?\\s*([\\d\\/\\.-]+)"),
    Rule("bill_to", "Bill\\s*To\\s*[:]?\\s*(.+)"),
    Rule("ship_to", "Ship\\s*To\\s*[:]?\\s*(.+)"),
    Rule("total_amount", "Total\\s*(?:Amount)?\\s*[:]?\\s*([\\d,]+\\.?\\d*)"),
    Rule("tax_amount", "Tax\\s*[:]?\\s*([\\d,]+\\.?\\d*)"),
    Rule("subtotal", "Subtotal\\s*[:]?\\s*([\\d,]+\\.?\\d*)")]

  /** Amounts by name first, then dates by name, else the stripped text. */
  function InvoiceFieldValue(monthNames: string -> Option<string>, field: string, raw: string): (r: Value)
    ensures MoneyField(field) ==> r == Num(NormalizeAmount(Str(Strip(raw))))
    ensures !MoneyField(field) ==>
      r == if Contains(field, "date") then Str(NormalizeDateFixed(Strip(raw), monthNames)) else Str(Strip(raw))
  {
    var v := Strip(raw);
    if MoneyField(field)
    then Num(NormalizeAmount(Str(v)))
    else if Contains(field, "date") then Str(NormalizeDateFixed(v, monthNames))
    else Str(v)
  }

  /** A field name is a money field when it contains one of these words. */
  predicate MoneyField(field: string) {
    Contains(field, "amount") || Contains(field, "total") || Contains(field, "subtotal")
  }

  /** A field name that lacks a character of each money word names no amount. */
  lemma NotMoney(field: string, a: char, t: char, s: char)
    requires a in "amount" && a !in field && t in "total" && t !in field && s in "subtotal" && s !in field
    ensures !MoneyField(field)
  {
    NotContainsMissing(field, "amount", a);
    NotContainsMissing(field, "total", t);
    NotContainsMissing(field, "subtotal", s);
  }

  /** A field name holding `date` but no money word is stored as a normalized date. */
  lemma DatedField(monthNames: string -> Option<string>, field: string, raw: string,
                   a: char, t: char, s: char, i: nat)
    requires a in "amount" && a !in field && t in "total" && t !in field && s in "subtotal" && s !in field
    requires i + 4 <= |field| && field[i..i + 4] == "date"
    ensures InvoiceFieldValue(monthNames, field, raw) == Str(NormalizeDateFixed(Strip(raw), monthNames))
  {
    NotMoney(field, a, t, s);
    ContainsAt(field, "date", i);
  }

  /** A field name with no money word and no `d` is stored as stripped text. */
  lemma PlainField(monthNames: string -> Option<string>, field: string, raw: string, a: char, t: char, s: char)
    requires a in "amount" && a !in field && t in "total" && t !in field && s in "subtotal" && s !in field
    requires 'd' !in field
    ensures InvoiceFieldValue(monthNames, field, raw) == Str(Strip(raw))
  {
    NotMoney(field, a, t, s);
    NotContainsMissing(field, "date", 'd');
  }

  /** The invoice table's three money fields are stored as amounts. */
  lemma InvoiceMoneyValue(monthNames: string -> Option<string>, field: string, raw: string)
    requires field == "total_amount" || field == "tax_amount" || field == "subtotal"
    ensures InvoiceFieldValue(monthNames, field, raw) == Num(NormalizeAmount(Str(Strip(raw))))
  {
    if field == "total_amount" {
      ContainsAt(field, "amount", 6);
    } else if field == "tax_amount" {
      ContainsAt(field, "amount", 4);
    } else {
      ContainsAt(field, "total", 3);
    }
  }

  /** Its two dates are stored normalized. */
  lemma InvoiceDateValue(monthNames: string -> Option<string>, field: string, raw: string)
    requires field == "invoice_date" || field == "due_date"
    ensures InvoiceFieldValue(monthNames, field, raw) == Str(NormalizeDateFixed(Strip(raw), monthNames))
  {
    InvoiceDateIsDate(monthNames, raw);
    DueDateIsDate(monthNames, raw);
  }

  lemma InvoiceDateIsDate(monthNames: string -> Option<string>, raw: string)
    ensures InvoiceFieldValue(monthNames, "invoice_date", raw) == Str(NormalizeDateFixed(Strip(raw), monthNames))
  {
    DatedField(monthNames, "invoice_date", raw, 'm', 'l', 's', 8);
  }

  lemma DueDateIsDate(monthNames: string -> Option<string>, raw: string)
    ensures InvoiceFieldValue(monthNames, "due_date", raw) == Str(NormalizeDateFixed(Strip(raw), monthNames))
  {
    DatedField(monthNames, "due_date", raw, 'm', 'o', 's', 4);
  }

  /** The number and the two addresses stay stripped text. */
  lemma InvoiceTextValue(monthNames: string -> Option<string>, field: string, raw: string)
    requires field == "invoice_number" || field == "bill_to" || field == "ship_to"
    ensures InvoiceFieldValue(monthNames, field, raw) == Str(Strip(raw))
  {
    InvoiceNumberIsText(monthNames, raw);
    BillToIsText(monthNames, raw);
    ShipToIsText(monthNames, raw);
  }

  lemma InvoiceNumberIsText(monthNames: string -> Option<string>, raw: string)
    ensures InvoiceFieldValue(monthNames, "invoice_number", raw) == Str(Strip(raw))
  {
    PlainField(monthNames, "invoice_number", raw, 'a', 't', 's');
  }

  lemma BillToIsText(monthNames: string -> Option<string>, raw: string)
    ensures InvoiceFieldValue(monthNames, "bill_to", raw) == Str(Strip(raw))
  {
    PlainField(monthNames, "bill_to", raw, 'a', 'a', 's');
  }

  lemma ShipToIsText(monthNames: string -> Option<string>, raw: string)
    ensures InvoiceFieldValue(monthNames, "ship_to", raw) == Str(Strip(raw))
  {
    PlainField(monthNames, "ship_to", raw, 'a', 'a', 'u');
  }

  function InvoiceValue(monthNames: string -> Option<string>): (string, string) -> Value {
    (field: string, raw: string) => InvoiceFieldValue(monthNames, field, raw)
  }

  function InvoiceRulesFound(text: string, re: Regex): (r: Found)
    ensures r.Paired() && ScoresWithin(r.confidence, 0.7, 0.85)
  {
    ApplyRulesWithin(Found([], []), InvoiceRules, text, re, InvoiceValue(re.monthNames), 0.85, 0.7, 0.85);
    ApplyRules(Found([], []), InvoiceRules, text, re, InvoiceValue(re.monthNames), 0.85)
  }

  /** The fields before the layout's tables are copied; raises with `extract_line_items`. */
  function InvoiceFound(text: string, re: Regex): (r: Outcome<Found>)
    ensures r.Done? <==> LineItems(text, re).Done?
    ensures r.Done? ==> r.value.Paired() && ScoresWithin(r.value.confidence, 0.7, 0.85)
  {
    var found := InvoiceRulesFound(text, re);
    var items := LineItems(text, re);
    if items.Raised? then Raised
    else
      RecordListWithin(found, "line_items", items.value, 0.7, 0.7, 0.85);
      Done(RecordList(found, "line_items", items.value, 0.7))
  }

  /** Named invoice fields score 0.85 and line items 0.7. */
  lemma InvoiceScored(text: string, re: Regex, items: seq<Value>)
    ensures ScoredAs(RecordList(InvoiceRulesFound(text, re), "line_items", items, 0.7).confidence, "invoice")
  {
    InvoiceRulesScored(text, re);
    RecordListScored(InvoiceRulesFound(text, re), "line_items", items, "invoice");
  }

  lemma InvoiceRulesScored(text: string, re: Regex)
    ensures ScoredAs(InvoiceRulesFound(text, re).confidence, "invoice")
  {
    assert ScoredRules(InvoiceRules, "invoice", 0.85) by {
      forall j | 0 <= j < |InvoiceRules| ensures Score("invoice", InvoiceRules[j].field) == 0.85 {
        var f := InvoiceRules[j].field;
        assert f[0] != 'l';
      }
    }
    ApplyRulesScored(Found([], []), InvoiceRules, text, re, InvoiceValue(re.monthNames), 0.85, "invoice");
  }

  /** `extract_invoice_fields(text, layout_data)` */
  function InvoiceFields(text: string, layout: Dict<Value>, re: Regex): (r: Outcome<Extraction>)
    ensures r.Done? <==> LineItems(text, re).Done? && TablesFromLayout(layout).Done?
    ensures r.Done? ==> Shaped(r.value, layout)
  {
    match InvoiceFound(text, re)
    case Raised => Raised
    case Done(found) =>
      Widen(found.confidence, 0.7, 0.85, 0.6, 0.9);
      Finish(found, layout)
  }

  /** The invoice table fills eight different fields. */
  lemma InvoiceRulesUnique(i: nat)
    requires i < |InvoiceRules|
    ensures Unique(InvoiceRules, i) && InvoiceRules[i].field != "line_items"
  {
    forall j | 0 <= j < |InvoiceRules| && j != i ensures InvoiceRules[j].field != InvoiceRules[i].field {
      var f, g := InvoiceRules[j].field, InvoiceRules[i].field;
      assert f[0] != g[0] || |f| != |g|;
    }
    assert InvoiceRules[i].field[0] != 'l';
  }

  /** Before the layout's tables: a named field holds its value exactly when its pattern matched. */
  lemma {:induction false} InvoiceRuleFound(text: string, re: Regex, items: seq<Value>, i: nat)
    requires i < |InvoiceRules|
    ensures var f := InvoiceRules[i].field;
            var found := RecordList(InvoiceRulesFound(text, re), "line_items", items, 0.7);
            var m := re.search(InvoiceRules[i].pattern, text);
            (m.None? ==> Get(found.fields, f).None?)
            && (m.Some? ==> Get(found.fields, f) == Some(InvoiceFieldValue(re.monthNames, f, Group(m.value, 1))))
  {
    InvoiceRulesUnique(i);
    RuleDecides(Found([], []), InvoiceRules, text, re, InvoiceValue(re.monthNames), 0.85, i);
  }

  /** Each field of the invoice table is present exactly when its pattern
      matched, holding the value its name selects for the first group. */
  lemma InvoiceFieldFound(text: string, layout: Dict<Value>, re: Regex, i: nat)
    requires i < |InvoiceRules|
    requires InvoiceFields(text, layout, re).Done?
    ensures re.search(InvoiceRules[i].pattern, text).None? ==>
      Get(InvoiceFields(text, layout, re).value.fields, InvoiceRules[i].field).None?
    ensures re.search(InvoiceRules[i].pattern, text).Some? ==>
      Get(InvoiceFields(text, layout, re).value.fields, InvoiceRules[i].field)
        == Some(InvoiceFieldValue(re.monthNames, InvoiceRules[i].field,
                                  Group(re.search(InvoiceRules[i].pattern, text).value, 1)))
  {
    var items := LineItems(text, re).value;
    InvoiceRuleFound(text, re, items, i);
    assert InvoiceFound(text, re).value == RecordList(InvoiceRulesFound(text, re), "line_items", items, 0.7);
  }

  // ------------------------------------------------------------------ generic

  const DatePatterns: seq<string> := [
    "\\d{1,2}[/\\-\\.]\\d{1,2}[/\\-\\.]\\d{2,4}",
    "\\d{4}[/\\-\\.]\\d{1,2}[/\\-\\.]\\d{1,2}",
    "(?:Jan|Feb|Mar|Apr|May|Jun|Jul|Aug|Sep|Oct|Nov|Dec)[a-z]* \\d{1,2},? \\d{4}"]

  const AmountPattern := "\\$?\\s*(\\d{1,3}(?:,\\d{3})*\\.?\\d{0,2})"

  const NamePattern := "(?:Mr\\.|Ms\\.|Mrs\\.|Dr\\.)\\s*([A-Z][a-z]+(?:\\s+[A-Z][a-z]+)*)"

  /** The matches of every date pattern, pattern by pattern. */
  function DatesFound(text: string, re: Regex): seq<string> {
    re.findAll(DatePatterns[0], text) + re.findAll(DatePatterns[1], text) + re.findAll(DatePatterns[2], text)
  }

  /** `[normalize_date(d) for d in dates]` */
  function DateValues(dates: seq<string>, monthNames: string -> Option<string>): (r: seq<Value>)
    ensures |r| == |dates|
    ensures forall i :: 0 <= i < |dates| ==> r[i] == Str(NormalizeDateFixed(dates[i], monthNames))
  {
    seq(|dates|, i requires 0 <= i < |dates| => Str(NormalizeDateFixed(dates[i], monthNames)))
  }

  /** `[normalize_amount(a) for a in amounts]` */
  function AmountValues(amounts: seq<string>): (r: seq<Value>)
    ensures |r| == |amounts|
    ensures forall i :: 0 <= i < |amounts| ==> r[i] == Num(NormalizeAmount(Str(amounts[i])))
  {
    seq(|amounts|, i requires 0 <= i < |amounts| => Num(NormalizeAmount(Str(amounts[i]))))
  }

  /** The names as found, as text values. */
  function TextValues(names: seq<string>): (r: seq<Value>)
    ensures |r| == |names|
    ensures forall i :: 0 <= i < |names| ==> r[i] == Str(names[i])
  {
    seq(|names|, i requires 0 <= i < |names| => Str(names[i]))
  }

  /** The fields of a document of any other type. */
  function GenericFound(text: string, re: Regex): (r: Found)
    ensures r.Paired()
    ensures ScoresWithin(r.confidence, 0.6, 0.8)
  {
    var dates := Prefix(DatesFound(text, re), 5);
    var amounts := Prefix(re.findAll(AmountPattern, text), 10);
    var names := Prefix(re.findAll(NamePattern, text), 5);
    var dateValues := DateValues(dates, re.monthNames);
    var amountValues := AmountValues(amounts);
    var nameValues := TextValues(names);
    var f1 := RecordList(Found([], []), "dates", dateValues, 0.8);
    var f2 := RecordList(f1, "amounts", amountValues, 0.7);
    var f3 := RecordList(f2, "names", nameValues, 0.6);
    RecordListWithin(Found([], []), "dates", dateValues, 0.8, 0.6, 0.8);
    RecordListWithin(f1, "amounts", amountValues, 0.7, 0.6, 0.8);
    RecordListWithin(f2, "names", nameValues, 0.6, 0.6, 0.8);
    f3
  }

  /** Dates score 0.8, amounts 0.7 and names 0.6 in a document of any other type. */
  lemma GenericScored(text: string, re: Regex, docType: string)
    requires docType != "bank_statement" && docType != "payslip" && docType != "invoice"
    ensures ScoredAs(GenericFound(text, re).confidence, docType)
  {
    var dates := Prefix(DatesFound(text, re), 5);
    var amounts := Prefix(re.findAll(AmountPattern, text), 10);
    var names := Prefix(re.findAll(NamePattern, text), 5);
    var f1 := RecordList(Found([], []), "dates", DateValues(dates, re.monthNames), 0.8);
    var f2 := RecordList(f1, "amounts", AmountValues(amounts), 0.7);
    RecordListScored(Found([], []), "dates", DateValues(dates, re.monthNames), docType);
    RecordListScored(f1, "amounts", AmountValues(amounts), docType);
    RecordListScored(f2, "names", TextValues(names), docType);
  }

  /** The dates are present exactly when a date pattern found something, at
      confidence 0.8: the first five found, in order, each normalized. */
  lemma GenericDatesFound(text: string, re: Regex)
    ensures DatesFound(text, re) != [] <==> Get(GenericFound(text, re).fields, "dates").Some?
    ensures DatesFound(text, re) != [] ==> Get(GenericFound(text, re).confidence, "dates") == Some(0.8)
    ensures DatesFound(text, re) != [] ==> Get(GenericFound(text, re).fields, "dates").value.Arr?
    ensures DatesFound(text, re) != [] ==>
      |Get(GenericFound(text, re).fields, "dates").value.items| == |Prefix(DatesFound(text, re), 5)|
    ensures DatesFound(text, re) != [] ==>
      forall i :: 0 <= i < |Get(GenericFound(text, re).fields, "dates").value.items| ==>
        Get(GenericFound(text, re).fields, "dates").value.items[i]
          == Str(NormalizeDateFixed(DatesFound(text, re)[i], re.monthNames))
  {
    var dates := Prefix(DatesFound(text, re), 5);
    GenericDatesEntry(text, re);
    assert forall i :: 0 <= i < |dates| ==> dates[i] == DatesFound(text, re)[i];
  }

  lemma GenericDatesEntry(text: string, re: Regex)
    ensures Get(GenericFound(text, re).fields, "dates")
         == if DatesFound(text, re) == [] then None
            else Some(Arr(DateValues(Prefix(DatesFound(text, re), 5), re.monthNames)))
    ensures DatesFound(text, re) != [] ==> Get(GenericFound(text, re).confidence, "dates") == Some(0.8)
  {
    var dates := Prefix(DatesFound(text, re), 5);
    var amounts := Prefix(re.findAll(AmountPattern, text), 10);
    var names := Prefix(re.findAll(NamePattern, text), 5);
    var values := DateValues(dates, re.monthNames);
    var f1 := RecordList(Found([], []), "dates", values, 0.8);
    var f2 := RecordList(f1, "amounts", AmountValues(amounts), 0.7);
    var f3 := RecordList(f2, "names", TextValues(names), 0.6);
    assert GenericFound(text, re) == f3;
    assert Get(f3.fields, "dates") == Get(f1.fields, "dates");
  }

  lemma GenericAmountsAndNamesFound(text: string, re: Regex)
    ensures re.findAll(AmountPattern, text) != [] <==> Get(GenericFound(text, re).fields, "amounts").Some?
    ensures re.findAll(NamePattern, text) != [] <==> Get(GenericFound(text, re).fields, "names").Some?
    ensures Get(GenericFound(text, re).fields, "amounts")
         == if re.findAll(AmountPattern, text) == [] then None
            else Some(Arr(AmountValues(Prefix(re.findAll(AmountPattern, text), 10))))
    ensures Get(GenericFound(text, re).fields, "names")
         == if re.findAll(NamePattern, text) == [] then None
            else Some(Arr(TextValues(Prefix(re.findAll(NamePattern, text), 5))))
    ensures Get(GenericFound(text, re).fields, "amounts").Some? ==>
      |Get(GenericFound(text, re).fields, "amounts").value.items| <= 10
    ensures Get(GenericFound(text, re).fields, "names").Some? ==>
      |Get(GenericFound(text, re).fields, "names").value.items| <= 5
  {
    var dates := Prefix(DatesFound(text, re), 5);
    var amounts := Prefix(re.findAll(AmountPattern, text), 10);
    var names := Prefix(re.findAll(NamePattern, text), 5);
    var f1 := RecordList(Found([], []), "dates", DateValues(dates, re.monthNames), 0.8);
    var f2 := RecordList(f1, "amounts", AmountValues(amounts), 0.7);
    var f3 := RecordList(f2, "names", TextValues(names), 0.6);
    assert GenericFound(text, re) == f3;
    assert Get(f3.fields, "amounts") == Get(f2.fields, "amounts");
  }

  /** `extract_generic_fields(text, layout_data)` */
  function GenericFields(text: string, layout: Dict<Value>, re: Regex): (r: Outcome<Extraction>)
    ensures r.Done? <==> TablesFromLayout(layout).Done?
    ensures r.Done? ==> Shaped(r.value, layout)
  {
    Widen(GenericFound(text, re).confidence, 0.6, 0.8, 0.6, 0.9);
    Finish(GenericFound(text, re), layout)
  }

  // ----------------------------------------------------------------- dispatch

  /** `extract_fields(filepath, document_type, layout_data)`, with the OCR
      text given. "agreement" names an extractor that does not exist, so the
      lookup raises; any raise leaves the empty result. */
  function ExtractFields(docType: string, text: string, layout: Dict<Value>, re: Regex): (r: Extraction)
    ensures Keys(r.fields) == Keys(r.confidence)
    ensures ScoresWithin(r.confidence, 0.6, 0.9)
    ensures |r.tables| <= 5
    ensures forall i :: 0 <= i < |r.tables| ==> r.tables[i].tableId == TableId(i)
    ensures docType == "agreement" ==> r == Empty()
    ensures TablesFromLayout(layout).Raised? ==> r == Empty()
    ensures r != Empty() ==> TablesFromLayout(layout) == Done(r.tables)
    ensures r == Empty() || Shaped(r, layout)
  {
    match Dispatch(docType, text, layout, re)
    case Raised => Empty()
    case Done(e) =>
      ShapedTables(e, layout);
      e
  }

  /** The extractor the document type selects, run on the text. */
  function Dispatch(docType: string, text: string, layout: Dict<Value>, re: Regex): (r: Outcome<Extraction>)
    ensures r.Done? ==> Shaped(r.value, layout)
    ensures docType == "agreement" ==> r.Raised?
    ensures TablesFromLayout(layout).Raised? ==> r.Raised?
  {
    if docType == "bank_statement" then BankStatementFields(text, layout, re)
    else if docType == "payslip" then PayslipFields(text, layout, re)
    else if docType == "invoice" then InvoiceFields(text, layout, re)
    else if docType == "agreement" then Raised
    else GenericFields(text, layout, re)
  }

  /** The extractor the type selects scores each field with the type's confidence for it. */
  lemma DispatchScored(docType: string, text: string, layout: Dict<Value>, re: Regex)
    ensures Dispatch(docType, text, layout, re).Done? ==>
      ScoredAs(Dispatch(docType, text, layout, re).value.confidence, docType)
  {
    if docType == "bank_statement" {
      BankStatementScored(text, re);
    } else if docType == "payslip" {
      PayslipScored(text, re, PayslipValueFixed);
    } else if docType == "invoice" {
      if LineItems(text, re).Done? {
        InvoiceScored(text, re, LineItems(text, re).value);
        assert InvoiceFound(text, re).value
            == RecordList(InvoiceRulesFound(text, re), "line_items", LineItems(text, re).value, 0.7);
      }
    } else if docType != "agreement" {
      GenericScored(text, re, docType);
    }
  }

  /** Every field `extract_fields` returns carries the confidence its document type gives it. */
  lemma ExtractFieldsScored(docType: string, text: string, layout: Dict<Value>, re: Regex)
    ensures ScoredAs(ExtractFields(docType, text, layout, re).confidence, docType)
    ensures forall k :: k in Keys(ExtractFields(docType, text, layout, re).fields) ==>
      Get(ExtractFields(docType, text, layout, re).confidence, k) == Some(Score(docType, k))
  {
    DispatchScored(docType, text, layout, re);
    var r := ExtractFields(docType, text, layout, re);
    forall k | k in Keys(r.fields) ensures Get(r.confidence, k) == Some(Score(docType, k)) {
      ScoredGet(r.confidence, docType, k);
    }
  }

  /** The tables of a shaped extraction are the layout's, numbered in order. */
  lemma ShapedTables(e: Extraction, layout: Dict<Value>)
    requires Shaped(e, layout)
    ensures |e.tables| <= 5
    ensures forall i :: 0 <= i < |e.tables| ==> e.tables[i].tableId == TableId(i)
  {
  }

  /** An invoice loses every field, not only its line items, when one line's quantity is not an integer. */
  lemma InvoiceQuantityFailure(text: string, layout: Dict<Value>, re: Regex)
    requires LineItems(text, re).Raised?
    ensures ExtractFields("invoice", text, layout, re) == Empty()
  {
    assert Dispatch("invoice", text, layout, re) == InvoiceFields(text, layout, re);
  }

  /** Statements keep their account number exactly when its pattern matches. */
  lemma StatementAccountNumber(text: string, layout: Dict<Value>, re: Regex)
    requires TablesFromLayout(layout).Done?
    ensures Get(ExtractFields("bank_statement", text, layout, re).fields, "account_number").Some?
        <==> re.search(AccountNumberPattern, text).Some?
  {
    var found := BankStatementFound(text, re);
    assert Dispatch("bank_statement", text, layout, re) == BankStatementFields(text, layout, re);
    assert BankStatementFields(text, layout, re) == Finish(found, layout);
    assert ExtractFields("bank_statement", text, layout, re).fields == found.fields;
    AccountNumberFound(text, re);
  }
}

=== FILE: extraction_lines.dfy ===
/** The line-oriented and layout-derived parts of `extraction_service.py`:
    transaction rows, payslip deductions, invoice line items and the tables
    copied from the layout analysis. The regular-expression engine is a
    parameter (`Regex`); everything around it is modelled as written. */
module ExtractionLines {
  import opened Base
  import opened Dict
  import opened Json
  import opened Normalization
  import opened DateNormalization

  /** The regular-expression engine, keyed by the pattern's source text.
      `search(p, s)` is `re.search(p, s)`: `None` when nothing matches, or
      the match's groups with the whole match at index 0. `findAll(p, s)` is
      `re.findall(p, s)` for a pattern with at most one group. Patterns the
      source compiles with `re.IGNORECASE` are looked up the same way. */
  datatype Regex = Regex(search: (string, string) -> Option<seq<string>>,
                         findAll: (string, string) -> seq<string>,
                         monthNames: string -> Option<string>)

  /** `match.group(i)`; a group the engine does not report reads as empty. */
  function Group(groups: seq<string>, i: nat): string {
    if i < |groups| then groups[i] else ""
  }

  /** `text.split('\n')` */
  function Lines(text: string): seq<string> {
    SplitOn(text, '\n')
  }

  // ------------------------------------------------------------- line scans

  /** The items `f` yields for the lines, in line order: the loops over
      `text.split('\n')` that append one item per line that qualifies. */
  function Collect<T>(lines: seq<string>, f: string -> Option<T>): (r: seq<T>)
    ensures |r| <= |lines|
  {
    if lines == [] then []
    else
      var rest := Collect(lines[..|lines| - 1], f);
      match f(lines[|lines| - 1])
      case None => rest
      case Some(x) => rest + [x]
  }

  /** The number of lines for which `f` yields an item. */
  function Yielding<T>(lines: seq<string>, f: string -> Option<T>): (n: nat)
    ensures n <= |lines|
  {
    if lines == [] then 0
    else Yielding(lines[..|lines| - 1], f) + (if f(lines[|lines| - 1]).Some? then 1 else 0)
  }

  /** Items follow the lines: the items of two blocks of lines are those of the first then those of the second. */
  lemma {:induction false} CollectAppend<T>(a: seq<string>, b: seq<string>, f: string -> Option<T>)
    ensures Collect(a + b, f) == Collect(a, f) + Collect(b, f)
    decreases |b|
  {
    if b == [] {
      assert a + b == a;
    } else {
      var ab := a + b;
      assert ab[..|ab| - 1] == a + b[..|b| - 1];
      assert ab[|ab| - 1] == b[|b| - 1];
      CollectAppend(a, b[..|b| - 1], f);
    }
  }

  /** Exactly one item per line that yields one. */
  lemma {:induction false} CollectCount<T>(lines: seq<string>, f: string -> Option<T>)
    ensures |Collect(lines, f)| == Yielding(lines, f)
  {
    if lines != [] {
      CollectCount(lines[..|lines| - 1], f);
    }
  }

  /** `x` is what `f` yields for one of the lines. */
  ghost predicate YieldedBy<T>(lines: seq<string>, f: string -> Option<T>, x: T) {
    exists i :: 0 <= i < |lines| && f(lines[i]) == Some(x)
  }

  /** Every item is what `f` yields for one of the lines. */
  lemma {:induction false} CollectFromLines<T>(lines: seq<string>, f: string -> Option<T>)
    ensures forall x :: x in Collect(lines, f) ==> YieldedBy(lines, f, x)
  {
    if lines != [] {
      var last := |lines| - 1;
      var init := lines[..last];
      CollectFromLines(init, f);
      var rest := Collect(init, f);
      forall x | x in Collect(lines, f)
        ensures YieldedBy(lines, f, x)
      {
        if x in rest {
          var i :| 0 <= i < |init| && f(init[i]) == Some(x);
          assert lines[i] == init[i];
        } else {
          assert f(lines[last]) == Some(x);
        }
      }
    }
  }

  /** Every line that yields an item contributes it. */
  lemma {:induction false} CollectKeepsEvery<T>(lines: seq<string>, f: string -> Option<T>, i: nat)
    requires i < |lines| && f(lines[i]).Some?
    ensures f(lines[i]).value in Collect(lines, f)
  {
    var init := lines[..|lines| - 1];
    if i < |init| {
      assert lines[i] == init[i];
      CollectKeepsEvery(init, f, i);
    }
  }

  // -------------------------------------------------------------- transactions

  const TransactionPattern := "(\\d{1,2}[/\\-\\.]\\d{1,2}[/\\-\\.]\\d{2,4})\\s+(.+?)\\s+([\\d,]+\\.?\\d{2})"

  /** The transaction row of a line: date, description and amount from the three groups. */
  function TransactionOf(line: string, re: Regex): (r: Option<Value>)
    ensures r.Some? <==> re.search(TransactionPattern, line).Some?
    ensures r.Some? ==> r.value.Obj? && Keys(r.value.fields) == ["date", "description", "amount"]
    ensures r.Some? ==> var g := re.search(TransactionPattern, line).value;
      r.value.fields == [("date", Str(NormalizeDateFixed(Group(g, 1), re.monthNames))),
                         ("description", Str(Strip(Group(g, 2)))),
                         ("amount", Num(NormalizeAmount(Str(Group(g, 3)))))]
  {
    match re.search(TransactionPattern, line)
    case None => None
    case Some(g) =>
      var date := Str(NormalizeDateFixed(Group(g, 1), re.monthNames));
      var description := Str(Strip(Group(g, 2)));
      var amount := Num(NormalizeAmount(Str(Group(g, 3))));
      KeysOfThree("date", date, "description", description, "amount", amount);
      Some(Obj([("date", date), ("description", description), ("amount", amount)]))
  }

  function TransactionStep(re: Regex): string -> Option<Value> {
    line => TransactionOf(line, re)
  }

  /** `extract_transaction_table(text)`: one row per matching line, the first twenty. */
  function TransactionTable(text: string, re: Regex): (r: seq<Value>)
    ensures |r| == if Yielding(Lines(text), TransactionStep(re)) < 20
                   then Yielding(Lines(text), TransactionStep(re)) else 20
    ensures r <= Collect(Lines(text), TransactionStep(re))
  {
    CollectCount(Lines(text), TransactionStep(re));
    Prefix(Collect(Lines(text), TransactionStep(re)), 20)
  }

  // ---------------------------------------------------------------- deductions

  const DeductionKeywords: seq<string> := ["tax", "insurance", "pension", "deduction", "withholding"]

  const DeductionAmountPattern := "([\\d,]+\\.?\\d{2})"

  /** `any(keyword in line.lower() for keyword in deduction_keywords)` */
  predicate MentionsDeduction(line: string) {
    exists i :: 0 <= i < |DeductionKeywords| && Contains(Lower(line), DeductionKeywords[i])
  }

  /** The text before the first colon, or the whole line, stripped and cut to fifty characters. */
  function DeductionName(line: string): (r: string)
    ensures |r| <= 50
    ensures ':' !in line ==> r == Prefix(Strip(line), 50)
  {
    Prefix(Strip(if ':' in line then SplitOn(line, ':')[0] else line), 50)
  }

  /** The deduction a line yields, if it mentions one and holds an amount. */
  function DeductionOf(line: string, re: Regex): (r: Option<Value>)
    ensures r.Some? <==> MentionsDeduction(line) && re.search(DeductionAmountPattern, line).Some?
    ensures r.Some? ==> r.value == Obj([("name", Str(DeductionName(line))),
      ("amount", Num(NormalizeAmount(Str(Group(re.search(DeductionAmountPattern, line).value, 1)))))])
  {
    if !MentionsDeduction(line) then None
    else
      match re.search(DeductionAmountPattern, line)
      case None => None
      case Some(g) => Some(Obj([("name", Str(DeductionName(line))),
                                ("amount", Num(NormalizeAmount(Str(Group(g, 1)))))]))
  }

  /** `extract_deductions(text)`: the first ten. */
  function DeductionStep(re: Regex): string -> Option<Value> {
    line => DeductionOf(line, re)
  }

  function Deductions(text: string, re: Regex): (r: seq<Value>)
    ensures |r| <= 10
    ensures r <= Collect(Lines(text), DeductionStep(re))
  {
    Prefix(Collect(Lines(text), DeductionStep(re)), 10)
  }

  // ---------------------------------------------------------------- line items

  const LineItemPattern := "(\\d+)\\s+(.+?)\\s+([\\d,]+\\.?\\d{2})\\s+([\\d,]+\\.?\\d{2})"

  /** `int(s)` for a run of ASCII digits; anything else raises. */
  function ParseInt(s: string): (r: Outcome<nat>)
    ensures r.Done? <==> s != [] && AllDigits(s)
  {
    if s != [] && AllDigits(s) then Done(DigitsToNat(s)) else Raised
  }

  /** A quantity group that is a run of digits never raises: the raise needs a
      quantity group that is not one. */
  lemma LineItemOfDigits(line: string, re: Regex)
    requires re.search(LineItemPattern, line).Some?
    requires var q := Group(re.search(LineItemPattern, line).value, 1); q != [] && AllDigits(q)
    ensures LineItemOf(line, re).Done? && LineItemOf(line, re).value.Some?
    ensures LineItemOf(line, re).value.value.Obj?
    ensures Get(LineItemOf(line, re).value.value.fields, "quantity")
         == Some(Num(DigitsToNat(Group(re.search(LineItemPattern, line).value, 1)) as real))
  {
  }

  /** One line item from the groups of a matching line. */
  function LineItem(g: seq<string>): (r: Outcome<Value>)
    ensures r.Done? <==> ParseInt(Group(g, 1)).Done?
  {
    match ParseInt(Group(g, 1))
    case Raised => Raised
    case Done(q) =>
      Done(Obj([("quantity", Num(q as real)), ("description", Str(Strip(Group(g, 2)))),
                ("unit_price", Num(NormalizeAmount(Str(Group(g, 3))))),
                ("total", Num(NormalizeAmount(Str(Group(g, 4)))))]))
  }

  /** The line item of a line, if the pattern matches it; raises when the quantity is not an integer. */
  function LineItemOf(line: string, re: Regex): (r: Outcome<Option<Value>>)
    ensures r == Done(None) <==> re.search(LineItemPattern, line).None?
  {
    match re.search(LineItemPattern, line)
    case None => Done(None)
    case Some(g) =>
      match LineItem(g)
      case Raised => Raised
      case Done(item) => Done(Some(item))
  }

  /** What a step that did not raise yielded. */
  function Settled<T>(o: Outcome<Option<T>>): Option<T> {
    if o.Done? then o.value else None
  }

  function SettledStep<T>(f: string -> Outcome<Option<T>>): string -> Option<T> {
    line => Settled(f(line))
  }

  /** `Collect` for a per-line step that may raise: the first raise ends the loop. */
  function CollectChecked<T>(lines: seq<string>, f: string -> Outcome<Option<T>>): (r: Outcome<seq<T>>)
    ensures r.Done? <==> forall i :: 0 <= i < |lines| ==> f(lines[i]).Done?
    ensures r.Done? ==> r.value == Collect(lines, SettledStep(f))
  {
    if lines == [] then Done([])
    else
      var init := lines[..|lines| - 1];
      assert forall i :: 0 <= i < |init| ==> init[i] == lines[i];
      match CollectChecked(init, f)
      case Raised => Raised
      case Done(rest) =>
        match f(lines[|lines| - 1])
        case Raised => Raised
        case Done(None) => Done(rest)
        case Done(Some(item)) => Done(rest + [item])
  }

  /** `extract_line_items(text)`: the first twenty; a quantity that is not an integer raises. */
  function LineItemStep(re: Regex): string -> Outcome<Option<Value>> {
    line => LineItemOf(line, re)
  }

  function LineItems(text: string, re: Regex): (r: Outcome<seq<Value>>)
    ensures r.Done? <==> forall i :: 0 <= i < |Lines(text)| ==> LineItemOf(Lines(text)[i], re).Done?
    ensures r.Done? ==> |r.value| <= 20
    ensures r.Done? ==> r.value <= Collect(Lines(text), SettledStep(LineItemStep(re)))
  {
    match CollectChecked(Lines(text), LineItemStep(re))
    case Raised => Raised
    case Done(items) => Done(Prefix(items, 20))
  }

  // ------------------------------------------------------------ layout tables

  datatype Table = Table(tableId: string, bbox: Value, cellCount: Value, confidence: Value)

  function TableId(i: nat): string { "table_" + NatToString(i) }

  /** `layout_data.get("tables", [])[:5]`: slicing needs a list or a string,
      and the loop's `.get` needs dict entries. */
  function LayoutTables(layout: Dict<Value>): (r: Outcome<seq<Value>>)
    ensures r.Done? ==> |r.value| <= 5
    ensures Get(layout, "tables").None? ==> r == Done([])
  {
    var t := Get(layout, "tables");
    if t.None? then Done([])
    else match t.value
      case Arr(items) => Done(Prefix(items, 5))
      case Str(s) => if s == [] then Done([]) else Raised
      case _ => Raised
  }

  /** The copy of the `i`-th layout table, with the defaults of the source. */
  function TableOf(i: nat, t: Value): (r: Table)
    requires t.Obj?
    ensures r.tableId == TableId(i)
    ensures Get(t.fields, "bbox").None? ==> r.bbox == Arr([])
    ensures Get(t.fields, "cell_count").None? ==> r.cellCount == Num(1.0)
    ensures Get(t.fields, "confidence").None? ==> r.confidence == Num(0.5)
  {
    Table(TableId(i), FieldOr(t, "bbox", Arr([])), FieldOr(t, "cell_count", Num(1.0)),
          FieldOr(t, "confidence", Num(0.5)))
  }

  function TablesFrom(items: seq<Value>, from: nat): (r: Outcome<seq<Table>>)
    ensures r.Done? <==> forall i :: 0 <= i < |items| ==> items[i].Obj?
    ensures r.Done? ==> |r.value| == |items|
    ensures r.Done? ==> forall i :: 0 <= i < |items| ==> r.value[i] == TableOf(from + i, items[i])
    decreases |items|
  {
    if items == [] then Done([])
    else if !items[0].Obj? then Raised
    else
      match TablesFrom(items[1..], from + 1)
      case Raised =>
        TailNotAllObjects(items);
        Raised
      case Done(rest) =>
        var r := [TableOf(from, items[0])] + rest;
        forall i | 0 <= i < |items|
          ensures r[i] == TableOf(from + i, items[i])
        {
          if i > 0 {
            assert items[i] == items[1..][i - 1];
          }
        }
        Done(r)
  }

  /** A non-object after the first item is a non-object of the whole list. */
  lemma TailNotAllObjects(items: seq<Value>)
    requires items != [] && !(forall i :: 0 <= i < |items[1..]| ==> items[1..][i].Obj?)
    ensures !(forall i :: 0 <= i < |items| ==> items[i].Obj?)
  {
    var j :| 0 <= j < |items[1..]| && !items[1..][j].Obj?;
    assert items[j + 1] == items[1..][j];
  }

  /** `extract_tables_from_layout(layout)`: at most five tables, numbered
      `table_0`, `table_1`, ... in layout order. */
  function TablesFromLayout(layout: Dict<Value>): (r: Outcome<seq<Table>>)
    ensures r.Done? ==> |r.value| <= 5
    ensures r.Done? ==> forall i :: 0 <= i < |r.value| ==> r.value[i].tableId == TableId(i)
    ensures LayoutTables(layout).Raised? ==> r.Raised?
  {
    match LayoutTables(layout)
    case Raised => Raised
    case Done(items) => TablesFrom(items, 0)
  }
}

=== FILE: image_quality.dfy ===
/** `validate_image_quality` of `image_utils.py`: the ordered cascade of
    checks an upload must pass before OCR. The pixel statistics (Laplacian
    variance, standard deviation and mean of the grey image) are inputs. */
module ImageQuality {
  import opened Base

  /** The loaded image: its size and grey-level statistics. */
  datatype Image = Image(height: nat, width: nat, sharpness: real, contrast: real, brightness: real)

  /** The `metrics` dict. */
  datatype Metrics = Metrics(resolution: nat, aspectRatio: real, sharpness: real, contrast: real,
                             brightness: real, width: nat, height: nat)

  const MinResolution: nat := 1000 * 1000

  /** Why an image was rejected; `Error` carries the message of an exception
      raised while reading the pixels. */
  datatype Reason =
    | LoadFailure | LowResolution | UnusualAspectRatio | TooBlurry | LowContrast | BrightnessOutOfRange
    | Error(message: string)

  /** What reading the file gave: nothing (`cv2.imread` returned `None`), an
      image, or an exception with its message. */
  datatype Load = NotLoaded | Loaded(image: Image) | Failed(message: string)

  /** `(True, metrics)`, or `(False, details)`; the details of the last three
      rejections include the metrics. */
  datatype Verdict =
    | Accepted(metrics: Metrics)
    | Rejected(reason: Reason, attached: Option<Metrics>)

  /** `height * width` */
  function Resolution(img: Image): nat {
    img.height * img.width
  }

  /** An image with any pixels has a height. */
  lemma NonEmptyHasHeight(img: Image)
    requires Resolution(img) > 0
    ensures img.height > 0
  {
  }

  /** `width / height` */
  function AspectRatio(img: Image): real
    requires img.height > 0
  {
    (img.width as real) / (img.height as real)
  }

  /** Every check the image must pass, stated on its own. */
  predicate Acceptable(img: Image) {
    Resolution(img) >= MinResolution
    && img.height > 0
    && 0.5 <= AspectRatio(img) <= 2.5
    && img.sharpness >= 100.0 && img.contrast >= 30.0 && 30.0 <= img.brightness <= 220.0
  }

  /** `validate_image_quality(image_path)`. The width-to-height ratio is
      only computed once the resolution check guarantees a non-zero height. */
  function ValidateImageQuality(load: Load): (v: Verdict)
    ensures v.Accepted? <==> load.Loaded? && Acceptable(load.image)
    ensures load.NotLoaded? <==> v == Rejected(LoadFailure, None)
    ensures load.Failed? ==> v == Rejected(Error(load.message), None)
    ensures v.Rejected? && v.reason.Error? ==> load.Failed?
    ensures load.Loaded? && Resolution(load.image) < MinResolution ==> v == Rejected(LowResolution, None)
    ensures v.Rejected? ==>
      (v.attached.Some? <==> v.reason == TooBlurry || v.reason == LowContrast || v.reason == BrightnessOutOfRange)
  {
    match load
    case NotLoaded => Rejected(LoadFailure, None)
    case Failed(message) => Rejected(Error(message), None)
    case Loaded(img) =>
      var resolution := Resolution(img);
      if resolution < MinResolution then Rejected(LowResolution, None)
      else
        NonEmptyHasHeight(img);
        var ratio := AspectRatio(img);
        if ratio < 0.5 || ratio > 2.5 then Rejected(UnusualAspectRatio, None)
        else
          var m := Metrics(resolution, ratio, img.sharpness, img.contrast, img.brightness, img.width, img.height);
          if img.sharpness < 100.0 then Rejected(TooBlurry, Some(m))
          else if img.contrast < 30.0 then Rejected(LowContrast, Some(m))
          else if img.brightness < 30.0 || img.brightness > 220.0 then Rejected(BrightnessOutOfRange, Some(m))
          else Accepted(m)
  }

  /** The checks run in order: a rejection for one reason means every
      earlier check passed and this one failed. */
  predicate RejectedFor(img: Image, reason: Reason) {
    match reason
    case LowResolution => Resolution(img) < MinResolution
    case UnusualAspectRatio =>
      Resolution(img) >= MinResolution && img.height > 0
      && !(0.5 <= AspectRatio(img) <= 2.5)
    case TooBlurry =>
      Resolution(img) >= MinResolution && img.height > 0
      && 0.5 <= AspectRatio(img) <= 2.5 && img.sharpness < 100.0
    case LowContrast =>
      Resolution(img) >= MinResolution && img.height > 0
      && 0.5 <= AspectRatio(img) <= 2.5 && img.sharpness >= 100.0 && img.contrast < 30.0
    case BrightnessOutOfRange =>
      Resolution(img) >= MinResolution && img.height > 0
      && 0.5 <= AspectRatio(img) <= 2.5 && img.sharpness >= 100.0 && img.contrast >= 30.0
      && (img.brightness < 30.0 || img.brightness > 220.0)
    case _ => false
  }

  /** A loaded image is rejected for exactly the first check it fails. */
  lemma CascadeOrder(img: Image, reason: Reason)
    ensures ValidateImageQuality(Loaded(img)).Rejected? && ValidateImageQuality(Loaded(img)).reason == reason
      <==> RejectedFor(img, reason)
  {
  }

  /** The metrics attached to a verdict are those of the image. */
  lemma MetricsDescribeTheImage(img: Image)
    requires ValidateImageQuality(Loaded(img)).Accepted?
    ensures ValidateImageQuality(Loaded(img)).metrics
      == Metrics(Resolution(img), AspectRatio(img),
                 img.sharpness, img.contrast, img.brightness, img.width, img.height)
  {
  }
}

=== FILE: ingestion.dfy ===
/** The decision logic of `ingestion_service.py`: how the quality gate's
    verdict becomes a quality score, how that score sets the document's
    status and whether classification is triggered, which processing steps
    come next, and the MIME-type fallback on the file extension. File
    access, hashing, OCR and the database are left out; the pixel analysis
    arrives as the `has_tables` flag and the skew angle. */
module Ingestion {
  import opened Base
  import ImageQuality

  // ------------------------------------------------------ overall quality

  /** `_calculate_overall_quality(quality_metrics)` on the metrics of an
      accepted image (every key is present, so no default applies). */
  function OverallQuality(m: ImageQuality.Metrics): (q: real)
    ensures q <= 1.0
  {
    Min(m.sharpness / 500.0, 1.0) * 0.3
    + Min(m.contrast / 100.0, 1.0) * 0.3
    + (1.0 - Abs(m.brightness - 128.0) / 128.0) * 0.2
    + Min((m.resolution as real) / 4000000.0, 1.0) * 0.2
  }

  /** An image the gate accepts scores at least 0.246875: the minimum of
      every weighted term at its threshold. The score can therefore fall
      below the 0.3 review threshold even for an accepted image. */
  lemma AcceptedQualityBounds(img: ImageQuality.Image)
    requires ImageQuality.ValidateImageQuality(ImageQuality.Loaded(img)).Accepted?
    ensures var q := OverallQuality(ImageQuality.ValidateImageQuality(ImageQuality.Loaded(img)).metrics);
      0.246875 <= q <= 1.0
  {
    var m := ImageQuality.ValidateImageQuality(ImageQuality.Loaded(img)).metrics;
    assert m.brightness == img.brightness && m.resolution == ImageQuality.Resolution(img);
    assert Abs(m.brightness - 128.0) <= 98.0;
  }

  /** The least-quality accepted image: a 1000 x 1000 page exactly at every threshold. */
  lemma AcceptedYetBelowReviewThreshold()
    ensures var v := ImageQuality.ValidateImageQuality(ImageQuality.Loaded(ImageQuality.Image(1000, 1000, 100.0, 30.0, 30.0)));
      v.Accepted? && OverallQuality(v.metrics) == 0.246875
  {
    var img := ImageQuality.Image(1000, 1000, 100.0, 30.0, 30.0);
    assert ImageQuality.Resolution(img) == 1000000;
    assert ImageQuality.AspectRatio(img) == 1.0;
  }

  // ---------------------------------------------------- structure analysis

  /** One entry of `analysis["issues"]`; the message is represented by the
      gate's rejection reason. */
  datatype Issue = Issue(kind: string, reason: ImageQuality.Reason, severity: string)

  /** The parts of `_analyze_document_structure`'s result that later
      decisions read. `quality` is optional because the readers give it
      different defaults. */
  datatype Structure = Structure(quality: Option<real>, hasTables: bool, skewAngle: real, issues: seq<Issue>)

  /** The analysis before the page is looked at. */
  function InitialStructure(hasTables: bool, skewAngle: real): Structure {
    Structure(Some(0.5), hasTables, skewAngle, [])
  }

  /** The quality step of `_analyze_document_structure`: an accepted image
      scores its overall quality, a rejected one scores 0.3 and adds one
      warning. */
  function CheckQuality(s: Structure, v: ImageQuality.Verdict): (r: Structure)
    ensures r.hasTables == s.hasTables && r.skewAngle == s.skewAngle
    ensures v.Accepted? ==> r.quality == Some(OverallQuality(v.metrics)) && r.issues == s.issues
    ensures v.Rejected? ==> r.quality == Some(0.3)
    ensures v.Rejected? ==> r.issues == s.issues + [Issue("quality", v.reason, "warning")]
  {
    match v
    case Accepted(m) => s.(quality := Some(OverallQuality(m)))
    case Rejected(reason, _) => s.(quality := Some(0.3), issues := s.issues + [Issue("quality", reason, "warning")])
  }

  // --------------------------------------------------- status and trigger

  datatype Status = NeedsReview | Ingested {
    function Name(): string {
      match this
      case NeedsReview => "needs_review"
      case Ingested => "ingested"
    }
  }

  /** The status `_update_document_record` stores (a missing score reads as 0). */
  function DocumentStatus(s: Structure): (st: Status)
    ensures st == NeedsReview <==> s.quality.None? || s.quality.value < 0.3
  {
    if s.quality.GetOr(0.0) < 0.3 then NeedsReview else Ingested
  }

  /** Whether `process_document_upload` triggers classification (a missing score reads as 0.5). */
  predicate TriggersClassification(s: Structure) {
    s.quality.GetOr(0.5) >= 0.3
  }

  // ------------------------------------------------------------ next steps

  datatype Step = Classify | ManualReview | QualityEnhancement | TableDetection | Deskew | MultiPageProcessing {
    function Name(): string {
      match this
      case Classify => "classification"
      case ManualReview => "manual_review"
      case QualityEnhancement => "quality_enhancement"
      case TableDetection => "table_detection"
      case Deskew => "deskew"
      case MultiPageProcessing => "multi_page_processing"
    }
  }

  /** `_determine_next_steps(structure_analysis, file_metadata)`; `pageCount`
      is the metadata's `page_count`, present for PDFs only. */
  function NextSteps(s: Structure, pageCount: Option<int>): (r: seq<Step>)
    ensures 2 <= |r| + 1 <= 5 && r[0] == Classify
    ensures ManualReview in r <==> s.quality.GetOr(0.5) < 0.3
    ensures QualityEnhancement in r <==> ManualReview in r
    ensures TableDetection in r <==> s.quality.GetOr(0.5) >= 0.3 && s.hasTables
    ensures Deskew in r <==> s.quality.GetOr(0.5) >= 0.3 && !s.hasTables && s.skewAngle > 2.0
    ensures MultiPageProcessing in r <==> pageCount.GetOr(1) > 1
    ensures MultiPageProcessing in r ==> r[|r| - 1] == MultiPageProcessing
    ensures ManualReview in r ==> r[1] == ManualReview && r[2] == QualityEnhancement
    ensures TableDetection in r ==> r[1] == TableDetection
    ensures Deskew in r ==> r[1] == Deskew
    ensures forall i, j :: 0 <= i < j < |r| ==> r[i] != r[j]
  {
    var q := s.quality.GetOr(0.5);
    var middle :=
      if q < 0.3 then [ManualReview, QualityEnhancement]
      else if s.hasTables then [TableDetection]
      else if s.skewAngle > 2.0 then [Deskew]
      else [];
    [Classify] + middle + (if pageCount.GetOr(1) > 1 then [MultiPageProcessing] else [])
  }

  /** Once the quality step has run, the three readers of the score agree:
      the document needs review exactly when manual review is planned and
      classification is not triggered, which happens exactly when the gate
      accepted the image but its overall quality is below 0.3. */
  lemma ReviewDecisionsAgree(hasTables: bool, skewAngle: real, v: ImageQuality.Verdict, pageCount: Option<int>)
    ensures var s := CheckQuality(InitialStructure(hasTables, skewAngle), v);
      (DocumentStatus(s) == NeedsReview <==> ManualReview in NextSteps(s, pageCount))
      && (DocumentStatus(s) == NeedsReview <==> !TriggersClassification(s))
      && (DocumentStatus(s) == NeedsReview <==> v.Accepted? && OverallQuality(v.metrics) < 0.3)
  {
  }

  /** An image the gate rejects scores exactly the threshold, so it is
      stored as ingested, classified, and not sent to manual review. */
  lemma RejectedImageStillClassified(hasTables: bool, skewAngle: real, v: ImageQuality.Verdict)
    requires v.Rejected?
    ensures var s := CheckQuality(InitialStructure(hasTables, skewAngle), v);
      DocumentStatus(s) == Ingested && TriggersClassification(s) && ManualReview !in NextSteps(s, None)
      && |s.issues| == 1
  {
  }

  /** Without a score the readers disagree: the status says review, the
      trigger and the plan say it is fine. `_analyze_document_structure`
      always sets the score, so this does not arise in the pipeline. */
  lemma MissingScoreDefaultsDisagree(s: Structure)
    requires s.quality.None?
    ensures DocumentStatus(s) == NeedsReview && TriggersClassification(s) && ManualReview !in NextSteps(s, None)
  {
  }

  // ------------------------------------------------------------ MIME type

  /** Drop the leading dots of a file name. */
  function DropLeadingDots(s: string): (r: string)
    ensures |r| <= |s| && r == s[|s| - |r|..]
    ensures r == [] || r[0] != '.'
  {
    if s != [] && s[0] == '.' then DropLeadingDots(s[1..]) else s
  }

  /** A suffix of a sequence lacking `c` lacks it too. */
  lemma SuffixLacks(s: string, k: nat, c: char)
    requires k <= |s| && c !in s
    ensures c !in s[k..]
  {
    assert forall i :: 0 <= i < |s| - k ==> s[k..][i] == s[k + i];
  }

  /** A dot followed by a dot-free, slash-free suffix has the shape of an extension. */
  lemma DottedSuffixShape(x: string)
    requires '.' !in x && '/' !in x
    ensures (['.'] + x)[0] == '.' && '.' !in (['.'] + x)[1..] && '/' !in ['.'] + x
  {
    var e := ['.'] + x;
    assert e[1..] == x;
    forall i | 0 <= i < |e|
      ensures e[i] != '/'
    {
      if i > 0 {
        assert e[i] == x[i - 1];
      }
    }
  }

  /** `os.path.splitext(path)[1]`: the last `.`-suffix of the file name, where
      the dots a name starts with do not count. */
  function Extension(path: string): (e: string)
    ensures e == [] || (e[0] == '.' && '.' !in e[1..] && '/' !in e)
  {
    var b := LastSegment(path, '/');
    var rest := DropLeadingDots(b);
    if '.' in rest then
      var x := LastSegment(rest, '.');
      SuffixLacks(b, |b| - |rest|, '/');
      SuffixLacks(rest, |rest| - |x|, '/');
      DottedSuffixShape(x);
      ['.'] + x
    else []
  }

  /** A name whose stem ends in an ordinary character keeps its final suffix as the extension. */
  lemma ExtensionOfName(stem: string, suffix: string)
    requires stem != [] && stem[|stem| - 1] != '.' && stem[|stem| - 1] != '/'
    requires '.' !in suffix && '/' !in suffix
    ensures Extension(stem + "." + suffix) == "." + suffix
  {
    var front := BaseNameOf(stem, suffix);
    DottedTail(front, suffix);
  }

  /** The file name of `stem.suffix`, with its leading dots dropped, is that of `stem` followed by `.suffix`. */
  lemma BaseNameOf(stem: string, suffix: string) returns (front: string)
    requires stem != [] && stem[|stem| - 1] != '.' && stem[|stem| - 1] != '/'
    requires '/' !in suffix
    ensures DropLeadingDots(LastSegment(stem + "." + suffix, '/')) == front + "." + suffix
  {
    var base := LastSegment(stem, '/');
    LastSegmentOfSuffix(stem, "." + suffix, '/');
    Assoc(stem, ".", suffix);
    assert base != [] && base[|base| - 1] == stem[|stem| - 1];
    DropLeadingDotsKeepsTail(base, "." + suffix);
    front := DropLeadingDots(base);
    Assoc(front, ".", suffix);
  }

  /** The last `.`-segment of `front.suffix` is `suffix`. */
  lemma DottedTail(front: string, suffix: string)
    requires '.' !in suffix
    ensures '.' in front + "." + suffix
    ensures LastSegment(front + "." + suffix, '.') == suffix
  {
    assert (front + "." + suffix)[|front|] == '.';
    LastSegmentOfSuffix(front + ".", suffix, '.');
    assert LastSegment(front + ".", '.') == [];
  }

  lemma Assoc(a: string, b: string, c: string)
    ensures a + (b + c) == (a + b) + c
  {
  }

  lemma SnocAssoc(a: string, t: string, c: char)
    ensures a + (t + [c]) == (a + t) + [c]
  {
  }

  lemma LastSegmentSnoc(init: string, c: char, sep: char)
    requires c != sep
    ensures LastSegment(init + [c], sep) == LastSegment(init, sep) + [c]
  {
    assert (init + [c])[..|init + [c]| - 1] == init;
  }

  /** When the tail has no separator, the last segment of `a + t` is the last segment of `a` followed by `t`. */
  lemma {:induction false} LastSegmentOfSuffix(a: string, t: string, sep: char)
    requires sep !in t
    ensures LastSegment(a + t, sep) == LastSegment(a, sep) + t
    decreases |t|
  {
    if t == [] {
      assert a + t == a;
    } else {
      var init := t[..|t| - 1];
      var c := t[|t| - 1];
      assert t == init + [c];
      assert sep !in init by {
        assert forall i :: 0 <= i < |init| ==> init[i] == t[i];
      }
      LastSegmentOfSuffix(a, init, sep);
      LastSegmentSnoc(a + init, c, sep);
      SnocAssoc(a, init, c);
      SnocAssoc(LastSegment(a, sep), init, c);
    }
  }

  /** Leading dots are dropped from the head only: a tail after an ordinary character survives. */
  lemma {:induction false} DropLeadingDotsKeepsTail(a: string, t: string)
    requires a != [] && a[|a| - 1] != '.'
    ensures DropLeadingDots(a + t) == DropLeadingDots(a) + t
  {
    if a[0] == '.' {
      assert (a + t)[1..] == a[1..] + t;
      DropLeadingDotsKeepsTail(a[1..], t);
    }
  }

  /** The extension table of `_detect_mime_type`'s fallback. */
  const MimeMap: seq<(string, string)> := [
    (".pdf", "application/pdf"), (".png", "image/png"), (".jpg", "image/jpeg"),
    (".jpeg", "image/jpeg"), (".tiff", "image/tiff"), (".tif", "image/tiff"),
    (".bmp", "image/bmp")]

  /** `dict.get(key, default)` on a table given as its entries. */
  function Lookup(table: seq<(string, string)>, key: string, default: string): (r: string)
    ensures r == default || exists i :: 0 <= i < |table| && table[i].0 == key && r == table[i].1
    ensures forall i :: 0 <= i < |table| && table[i].0 == key && (forall j :: 0 <= j < i ==> table[j].0 != key) ==>
      r == table[i].1
  {
    if table == [] then default
    else if table[0].0 == key then table[0].1
    else Lookup(table[1..], key, default)
  }

  /** The first entry with the key decides the lookup. */
  lemma {:induction false} LookupFinds(table: seq<(string, string)>, key: string, default: string, i: nat)
    requires i < |table| && table[i].0 == key
    requires forall j :: 0 <= j < i ==> table[j].0 != key
    ensures Lookup(table, key, default) == table[i].1
  {
    if i > 0 {
      LookupFinds(table[1..], key, default, i - 1);
    }
  }

  /** `_detect_mime_type(filepath)`: `detected` is what libmagic reports, or
      `None` when it raises. */
  function DetectMimeType(detected: Option<string>, path: string): (r: string)
    ensures detected.Some? ==> r == detected.value
    ensures detected.None? && (forall i :: 0 <= i < |MimeMap| ==> MimeMap[i].0 != Lower(Extension(path))) ==>
      r == "application/octet-stream"
    ensures detected.None? ==> forall i ::
      (0 <= i < |MimeMap| && MimeMap[i].0 == Lower(Extension(path))
       && (forall j :: 0 <= j < i ==> MimeMap[j].0 != MimeMap[i].0)) ==> r == MimeMap[i].1
  {
    match detected
    case Some(m) => m
    case None => Lookup(MimeMap, Lower(Extension(path)), "application/octet-stream")
  }

  /** A `.tif` file libmagic cannot read falls back to `image/tiff`, whatever
      the case of its suffix. */
  lemma TifFallback(stem: string, suffix: string)
    requires stem != [] && stem[|stem| - 1] != '.' && stem[|stem| - 1] != '/'
    requires Lower(suffix) == "tif"
    ensures DetectMimeType(None, stem + "." + suffix) == "image/tiff"
  {
    LowerDotTif(suffix);
    ExtensionOfName(stem, suffix);
    TifByExtension(stem + "." + suffix);
  }

  /** A suffix lower-casing to `tif` holds no dot or slash, and with its dot it
      lower-cases to `.tif`. */
  lemma LowerDotTif(suffix: string)
    requires Lower(suffix) == "tif"
    ensures '.' !in suffix && '/' !in suffix
    ensures Lower("." + suffix) == ".tif"
  {
    forall i | 0 <= i < |suffix| ensures suffix[i] != '.' && suffix[i] != '/' {
      assert Lower(suffix)[i] == LowerChar(suffix[i]);
    }
    var e := Lower("." + suffix);
    assert e[0] == '.';
    forall i | 1 <= i < 4 ensures e[i] == ".tif"[i] {
      assert ("." + suffix)[i] == suffix[i - 1];
      assert Lower(suffix)[i - 1] == LowerChar(suffix[i - 1]);
    }
  }

  /** A path whose extension lower-cases to `.tif` falls back to `image/tiff`. */
  lemma TifByExtension(path: string)
    requires Lower(Extension(path)) == ".tif"
    ensures DetectMimeType(None, path) == "image/tiff"
  {
    TifEntry();
  }

  /** `.tif` is the sixth key of the table, after five different ones. */
  lemma TifEntry()
    ensures Lookup(MimeMap, ".tif", "application/octet-stream") == "image/tiff"
  {
    forall j | 0 <= j < 5 ensures MimeMap[j].0 != ".tif" {
      var k := MimeMap[j].0;
      assert k[1] != 't' || |k| != 4;
    }
    LookupFinds(MimeMap, ".tif", "application/octet-stream", 5);
  }

  /** Without libmagic every path resolves to one of the table's types or the generic one. */
  lemma FallbackIsKnown(path: string)
    ensures DetectMimeType(None, path) in {"application/pdf", "image/png", "image/jpeg", "image/tiff",
                                           "image/bmp", "application/octet-stream"}
  {
    assert forall i :: 0 <= i < |MimeMap| ==> MimeMap[i].1 in {"application/pdf", "image/png", "image/jpeg",
                                                               "image/tiff", "image/bmp"};
  }
}

=== FILE: json.dfy ===
/** The JSON-like values the pipeline passes around: extracted field values,
    the records stored in the memory layer and the documents the validator
    reads. Objects keep their keys in insertion order (see `Dict`). */
module Json {
  import opened Base
  import opened Dict

  datatype Value =
    | Null
    | Bool(b: bool)
    | Num(n: real)
    | Str(s: string)
    | Arr(items: seq<Value>)
    | Obj(fields: Dict<Value>)

  /** Python's `bool(v)`. */
  predicate Truthy(v: Value) {
    match v
    case Null => false
    case Bool(b) => b
    case Num(n) => n != 0.0
    case Str(s) => s != []
    case Arr(items) => items != []
    case Obj(fields) => fields != []
  }

  /** Python's `isinstance(v, (int, float))`: booleans are integers in Python. */
  predicate IsNumeric(v: Value) {
    v.Num? || v.Bool?
  }

  /** `float(v)` for a numeric value. */
  function NumericValue(v: Value): real
    requires IsNumeric(v)
  {
    match v
    case Num(n) => n
    case Bool(b) => if b then 1.0 else 0.0
  }

  /** `str(v)`: a string is its own text; the rendering of any other value is
      Python's `repr` machinery, supplied by the caller as `show`. */
  function Text(v: Value, show: Value -> string): (r: string)
    ensures v.Str? ==> r == v.s
  {
    if v.Str? then v.s else show(v)
  }

  /** `obj.get(key)` on a value that may not be an object. */
  function Field(v: Value, key: string): (r: Option<Value>)
    ensures r.Some? ==> v.Obj?
  {
    if v.Obj? then Get(v.fields, key) else None
  }

  /** `obj.get(key, default)` on an object. */
  function FieldOr(v: Value, key: string, default: Value): Value {
    Field(v, key).GetOr(default)
  }

  /** Iterating over `obj.get(key, [])` when the loop body calls `.get` on
      each element: a list yields its items; an empty string or dict yields
      nothing; a non-empty string or dict yields strings, whose `.get` raises;
      `None`, a number or a boolean cannot be iterated at all. */
  function Records(v: Option<Value>): (r: Outcome<seq<Value>>)
    ensures v.None? ==> r == Done([])
    ensures v.Some? && v.value.Arr? ==> r == Done(v.value.items)
    ensures r.Done? && r.value != [] ==> v.Some? && v.value.Arr?
  {
    match v
    case None => Done([])
    case Some(Arr(items)) => Done(items)
    case Some(Str(s)) => if s == [] then Done([]) else Raised
    case Some(Obj(f)) => if f == [] then Done([]) else Raised
    case Some(_) => Raised
  }

  /** `len(v)`: defined for lists, strings and dicts only. */
  function Len(v: Value): (r: Outcome<nat>)
    ensures r.Done? <==> v.Arr? || v.Str? || v.Obj?
  {
    match v
    case Arr(items) => Done(|items|)
    case Str(s) => Done(|s|)
    case Obj(f) => Done(|f|)
    case _ => Raised
  }
}

=== FILE: layout.dfy ===
/** `layout_service.py`: the decision rules around the image analysis. The
    pixel work (thresholding, contours, OCR of a region, Canny and Hough
    line detection) is given as its results: contour areas and bounding
    boxes, the text length and line count of each region, the angles of the
    detected lines. */
module Layout {
  import opened Base
  import opened Dict
  import opened Json
  import opened ExtractionLines

  // ------------------------------------------------------------ classify_region

  datatype RegionType = TableRegion | TextRegion | Separator | ImageRegion | UnknownRegion {
    function Name(): string {
      match this
      case TableRegion => "table"
      case TextRegion => "text"
      case Separator => "separator"
      case ImageRegion => "image"
      case UnknownRegion => "unknown"
    }
  }

  /** What the OCR and the line detector report for a region: its size, the
      length of its stripped OCR text, and the number of Hough segments
      (`None` when none were found). */
  datatype RegionScan = RegionScan(height: nat, width: nat, textLength: nat, lineCount: Option<nat>)

  /** `len(text.strip()) / (height * width)`, or 0 for an empty region. */
  function TextDensity(r: RegionScan): (d: real)
    ensures d >= 0.0
  {
    if r.height * r.width > 0 then (r.textLength as real) / ((r.height * r.width) as real) else 0.0
  }

  /** Segments per 10 000 pixels, or 0 when there are none or the region is empty. */
  function LineDensity(r: RegionScan): (d: real)
    ensures d >= 0.0
  {
    if r.lineCount.Some? && r.height * r.width > 0
    then (r.lineCount.value as real) / ((r.height * r.width) as real) * 10000.0
    else 0.0
  }

  /** The decision tree over the two densities. */
  function Decide(textDensity: real, lineDensity: real): (t: RegionType)
    ensures t != UnknownRegion
  {
    if textDensity > 0.01 then (if lineDensity > 5.0 then TableRegion else TextRegion)
    else if lineDensity > 10.0 then Separator
    else ImageRegion
  }

  /** Each region type, characterised by the densities alone. */
  lemma DecideCases(textDensity: real, lineDensity: real)
    ensures Decide(textDensity, lineDensity) == TableRegion <==> textDensity > 0.01 && lineDensity > 5.0
    ensures Decide(textDensity, lineDensity) == TextRegion <==> textDensity > 0.01 && lineDensity <= 5.0
    ensures Decide(textDensity, lineDensity) == Separator <==> textDensity <= 0.01 && lineDensity > 10.0
    ensures Decide(textDensity, lineDensity) == ImageRegion <==> textDensity <= 0.01 && lineDensity <= 10.0
  {
  }

  /** `classify_region(region_image, document_type)`: `None` stands for a
      scan that raised, which the function reports as "unknown". */
  function ClassifyRegion(scan: Option<RegionScan>): (t: RegionType)
    ensures t == UnknownRegion <==> scan.None?
    ensures scan.Some? ==> t == Decide(TextDensity(scan.value), LineDensity(scan.value))
  {
    match scan
    case None => UnknownRegion
    case Some(r) => Decide(TextDensity(r), LineDensity(r))
  }

  /** A region without any text is never text or a table. */
  lemma BlankRegionIsNotText(r: RegionScan)
    requires r.textLength == 0
    ensures ClassifyRegion(Some(r)) in {Separator, ImageRegion}
  {
  }

  // ---------------------------------------------------------------- regions

  /** One external contour: its area and bounding rectangle. */
  datatype Contour = Contour(area: real, x: nat, y: nat, w: nat, h: nat)

  datatype Region = Region(regionType: RegionType, bbox: seq<int>, area: real, aspectRatio: real)

  /** `w / h if h > 0 else 0` */
  function AspectRatio(w: nat, h: nat): real {
    if h > 0 then (w as real) / (h as real) else 0.0
  }

  /** The region of a kept contour. */
  function RegionOf(c: Contour, scan: Contour -> Option<RegionScan>): (r: Region)
    ensures r.bbox == [c.x, c.y, c.x + c.w, c.y + c.h]
    ensures r.area == c.area
    ensures r.regionType == ClassifyRegion(scan(c))
    ensures r.regionType == UnknownRegion <==> scan(c).None?
    ensures r.aspectRatio >= 0.0
    ensures c.h > 0 ==> r.aspectRatio * (c.h as real) == c.w as real
    ensures c.h == 0 ==> r.aspectRatio == 0.0
  {
    Region(ClassifyRegion(scan(c)), [c.x, c.y, c.x + c.w, c.y + c.h], c.area, AspectRatio(c.w, c.h))
  }

  /** `image.shape[0] * image.shape[1] * 0.001` */
  function MinArea(height: nat, width: nat): real {
    (height * width) as real * 0.001
  }

  /** The regions of the contours whose area exceeds 0.1% of the image, in contour order. */
  function Regions(contours: seq<Contour>, minArea: real, scan: Contour -> Option<RegionScan>): (r: seq<Region>)
    ensures |r| <= |contours|
    ensures forall i :: 0 <= i < |r| ==> r[i].area > minArea
    decreases |contours|
  {
    if contours == [] then []
    else
      var rest := Regions(contours[1..], minArea, scan);
      if contours[0].area > minArea then [RegionOf(contours[0], scan)] + rest else rest
  }

  /** The number of contours that pass the area filter. */
  function Kept(contours: seq<Contour>, minArea: real): (n: nat)
    ensures n <= |contours|
  {
    if contours == [] then 0 else (if contours[0].area > minArea then 1 else 0) + Kept(contours[1..], minArea)
  }

  /** One region per contour that passes the filter: none are dropped and none invented. */
  lemma {:induction false} RegionsCount(contours: seq<Contour>, minArea: real, scan: Contour -> Option<RegionScan>)
    ensures |Regions(contours, minArea, scan)| == Kept(contours, minArea)
  {
    if contours != [] {
      RegionsCount(contours[1..], minArea, scan);
    }
  }

  /** Every contour that passes the filter appears as a region. */
  lemma {:induction false} RegionsKeepLargeContours(contours: seq<Contour>, minArea: real,
                                                    scan: Contour -> Option<RegionScan>, i: nat)
    requires i < |contours| && contours[i].area > minArea
    ensures RegionOf(contours[i], scan) in Regions(contours, minArea, scan)
  {
    if i > 0 {
      assert contours[i] == contours[1..][i - 1];
      RegionsKeepLargeContours(contours[1..], minArea, scan, i - 1);
    }
  }

  // ------------------------------------------------------------------ tables

  /** A bounding rectangle of a table-structure contour. */
  datatype Box = Box(x: nat, y: nat, w: nat, h: nat)

  datatype TableBox = TableBox(bbox: seq<int>, cellCount: nat, confidence: real)

  /** `detect_tables(binary_image)`: the boxes wider than 50 and taller than
      20, as one-cell tables at confidence 0.8. `None` stands for a failed
      detection, which yields no tables. */
  function DetectTables(boxes: Option<seq<Box>>): (r: seq<TableBox>)
    ensures boxes.None? ==> r == []
    ensures forall i :: 0 <= i < |r| ==> r[i].cellCount == 1 && r[i].confidence == 0.8
  {
    match boxes
    case None => []
    case Some(bs) => TableBoxes(bs)
  }

  function TableBoxes(bs: seq<Box>): (r: seq<TableBox>)
    ensures |r| <= |bs|
    ensures forall i :: 0 <= i < |r| ==> r[i].cellCount == 1 && r[i].confidence == 0.8
    ensures forall i :: 0 <= i < |r| ==> |r[i].bbox| == 4 && r[i].bbox[2] - r[i].bbox[0] > 50 && r[i].bbox[3] - r[i].bbox[1] > 20
  {
    if bs == [] then []
    else
      var b := bs[0];
      var rest := TableBoxes(bs[1..]);
      if b.w > 50 && b.h > 20 then [TableBox([b.x, b.y, b.x + b.w, b.y + b.h], 1, 0.8)] + rest else rest
  }

  /** A box that is large enough is never dropped. */
  lemma {:induction false} TableBoxesKeepLarge(bs: seq<Box>, i: nat)
    requires i < |bs| && bs[i].w > 50 && bs[i].h > 20
    ensures TableBox([bs[i].x, bs[i].y, bs[i].x + bs[i].w, bs[i].y + bs[i].h], 1, 0.8) in TableBoxes(bs)
  {
    if i > 0 {
      assert bs[i] == bs[1..][i - 1];
      TableBoxesKeepLarge(bs[1..], i - 1);
    }
  }

  // ------------------------------------------------------------- orientation

  datatype Orientation = Horizontal | Vertical {
    function Name(): string { if this == Horizontal then "horizontal" else "vertical" }
  }

  /** Angles above 45 degrees are folded down by 90. */
  function Fold(angle: real): (r: real)
    ensures r <= 45.0 || r == angle - 90.0
  {
    if angle > 45.0 then angle - 90.0 else angle
  }

  function Folded(angles: seq<real>): (r: seq<real>)
    ensures |r| == |angles|
    ensures forall i :: 0 <= i < |r| ==> r[i] == Fold(angles[i])
  {
    if angles == [] then [] else [Fold(angles[0])] + Folded(angles[1..])
  }

  /** `detect_text_orientation(binary_image)`: the folded angles (in degrees)
      of at most the first ten lines are averaged; `None` stands for no
      lines detected or a failed detection. */
  function TextOrientation(angles: Option<seq<real>>): (o: Orientation)
    ensures angles.None? || angles.value == [] ==> o == Horizontal
    ensures angles.Some? && angles.value != [] ==>
      (o == Vertical <==> Abs(Mean(Folded(Prefix(angles.value, 10))) - 90.0) < 10.0)
  {
    match angles
    case None => Horizontal
    case Some(a) =>
      if a == [] then Horizontal
      else
        var avg := Mean(Folded(Prefix(a, 10)));
        if Abs(avg) < 10.0 then Horizontal
        else if Abs(avg - 90.0) < 10.0 then Vertical
        else Horizontal
  }

  /** Lines after the tenth do not change the orientation. */
  lemma OrientationUsesTenLines(a: seq<real>, more: seq<real>)
    requires |a| >= 10
    ensures TextOrientation(Some(a + more)) == TextOrientation(Some(a))
  {
    assert Prefix(a + more, 10) == Prefix(a, 10);
  }

  // ---------------------------------------------------------- analyze_layout

  /** What the image pipeline yields for the first page. `failure` holds
      the message of an exception the pipeline raised, if it did. */
  datatype Scan = Scan(height: nat, width: nat, failure: Option<string>, contours: seq<Contour>,
                       regionScan: Contour -> Option<RegionScan>,
                       tableBoxes: Option<seq<Box>>, lineAngles: Option<seq<real>>)

  datatype LayoutResult =
    | Layout(regions: seq<Region>, tables: seq<TableBox>, width: nat, height: nat,
             orientation: Orientation, pageCount: nat)
    | LoadFailed
    | Failed(message: string)

  /** `analyze_layout(filepath, document_type)`: `None` stands for an image
      or PDF that could not be loaded. */
  function AnalyzeLayout(image: Option<Scan>): (r: LayoutResult)
    ensures image.None? <==> r.LoadFailed?
    ensures r.Failed? <==> image.Some? && image.value.failure.Some?
    ensures r.Layout? ==> r.pageCount == 1 && r.width == image.value.width && r.height == image.value.height
    ensures r.Layout? ==> forall i :: 0 <= i < |r.regions| ==>
      r.regions[i].area > MinArea(image.value.height, image.value.width)
  {
    match image
    case None => LoadFailed
    case Some(s) =>
      match s.failure
      case Some(message) => Failed(message)
      case None =>
        Layout(Regions(s.contours, MinArea(s.height, s.width), s.regionScan), DetectTables(s.tableBoxes),
               s.width, s.height, TextOrientation(s.lineAngles), 1)
  }

  // ------------------------------------------------------- as a JSON document

  function Ints(xs: seq<int>): seq<Value> {
    seq(|xs|, i requires 0 <= i < |xs| => Num(xs[i] as real))
  }

  function RegionValue(r: Region): Value {
    Obj([("type", Str(r.regionType.Name())), ("bbox", Arr(Ints(r.bbox))),
         ("area", Num(r.area)), ("aspect_ratio", Num(r.aspectRatio))])
  }

  function TableValue(t: TableBox): Value {
    Obj([("bbox", Arr(Ints(t.bbox))), ("cell_count", Num(t.cellCount as real)), ("confidence", Num(t.confidence))])
  }

  function TableValues(tables: seq<TableBox>): (r: seq<Value>)
    ensures |r| == |tables|
    ensures forall i :: 0 <= i < |r| ==> r[i].Obj?
  {
    seq(|tables|, i requires 0 <= i < |tables| => TableValue(tables[i]))
  }

  function RegionValues(regions: seq<Region>): (r: seq<Value>)
    ensures |r| == |regions|
    ensures forall i :: 0 <= i < |r| ==> r[i].Obj?
  {
    seq(|regions|, i requires 0 <= i < |regions| => RegionValue(regions[i]))
  }

  /** The dict `analyze_layout` returns. */
  function LayoutDict(r: LayoutResult): (d: Dict<Value>)
    ensures r.LoadFailed? ==> Get(d, "tables").None?
    ensures r.Failed? ==> Get(d, "tables") == Some(Arr([]))
    ensures r.Layout? ==> Get(d, "tables") == Some(Arr(TableValues(r.tables)))
  {
    match r
    case LoadFailed => [("error", Str("Failed to load image"))]
    case Failed(message) =>
      var d := [("error", Str(message)), ("regions", Arr([])), ("tables", Arr([]))];
      assert d[1..][1..] == d[2..];
      assert Get(d[2..], "tables") == Some(Arr([]));
      assert Get(d[1..], "tables") == Get(d[2..], "tables");
      d
    case Layout(regions, tables, width, height, orientation, pageCount) =>
      [("regions", Arr(RegionValues(regions))), ("tables", Arr(TableValues(tables))),
       ("image_dimensions", Obj([("width", Num(width as real)), ("height", Num(height as real))])),
       ("text_orientation", Str(orientation.Name())),
       ("page_count", Num(pageCount as real))]
  }

  /** Copying the layout's tables into an extraction never fails on what
      `analyze_layout` returns, and keeps the first five detected tables. */
  lemma ExtractionAcceptsLayout(image: Option<Scan>)
    ensures TablesFromLayout(LayoutDict(AnalyzeLayout(image))).Done?
    ensures AnalyzeLayout(image).Layout? ==>
      |TablesFromLayout(LayoutDict(AnalyzeLayout(image))).value| == |Prefix(AnalyzeLayout(image).tables, 5)|
  {
    var r := AnalyzeLayout(image);
    if r.Layout? {
      var items := TableValues(r.tables);
      assert forall i :: 0 <= i < |Prefix(items, 5)| ==> Prefix(items, 5)[i] == items[i];
    }
  }
}

=== FILE: learning.dfy ===
/** The learning service (`learning_service.py`): it stores every
    extraction as a pattern keyed by a signature of its layout, forwards
    reviewers' corrections to the memory layer while keeping its own per
    document type and field tally of them, flags a field for retraining
    once it has been corrected ten times, ranks suggested values, and
    clusters recent corrections. Time stamps, the hash function, the
    database rows and the document-type lookup are parameters. */
module Learning {
  import opened Base
  import opened Dict
  import opened Json
  import opened Sorting
  import opened MemoryStore

  // ------------------------------------------------------------ layout features

  datatype LayoutFeatures = LayoutFeatures(totalRegions: nat, textRegions: nat, tableRegions: nat,
                                           imageRegions: nat, avgRegionArea: real, avgAspectRatio: real)

  predicate AllObjects(regions: seq<Value>) {
    forall i :: 0 <= i < |regions| ==> regions[i].Obj?
  }

  /** `sum(1 for r in regions if r.get("type") == t)` */
  function CountType(regions: seq<Value>, t: string): (r: nat)
    ensures r <= |regions|
  {
    if regions == [] then 0
    else (if Field(regions[0], "type") == Some(Str(t)) then 1 else 0) + CountType(regions[1..], t)
  }

  /** A region has one type, so the three kinds never add up to more than the regions. */
  lemma {:induction false} KindsWithinTotal(regions: seq<Value>)
    ensures CountType(regions, "text") + CountType(regions, "table") + CountType(regions, "image")
         <= |regions|
  {
    if regions != [] {
      KindsWithinTotal(regions[1..]);
    }
  }

  /** Every region's `key` entry, 0 when missing, is a number. */
  predicate Summable(regions: seq<Value>, key: string) {
    forall i :: 0 <= i < |regions| ==> IsNumeric(FieldOr(regions[i], key, Num(0.0)))
  }

  /** `[r.get(key, 0) for r in regions]`, summable only when every entry is a number. */
  function Numbers(regions: seq<Value>, key: string): (r: Option<seq<real>>)
    ensures r.Some? <==> Summable(regions, key)
    ensures r.Some? ==> |r.value| == |regions|
    ensures r.Some? ==> forall i :: 0 <= i < |regions| ==>
      r.value[i] == NumericValue(FieldOr(regions[i], key, Num(0.0)))
  {
    if regions == [] then Some([])
    else
      var v := FieldOr(regions[0], key, Num(0.0));
      match Numbers(regions[1..], key)
      case None => None
      case Some(rest) =>
        if IsNumeric(v) then
          var r := [NumericValue(v)] + rest;
          assert forall i :: 1 <= i < |regions| ==> regions[i] == regions[1..][i - 1];
          Some(r)
        else
          assert !Summable(regions, key) by { assert !IsNumeric(FieldOr(regions[0], key, Num(0.0))); }
          None
  }

  /** The features of a list of region dicts: region counts by kind, and
      the mean area and aspect ratio, 0 without regions. Summing raises when
      an area or ratio is not a number. */
  function RegionFeatures(regions: seq<Value>): (r: Outcome<LayoutFeatures>)
    requires AllObjects(regions)
    ensures r.Done? <==>
      regions == [] || (Numbers(regions, "area").Some? && Numbers(regions, "aspect_ratio").Some?)
    ensures r.Done? ==> r.value.totalRegions == |regions|
    ensures r.Done? ==> r.value.textRegions + r.value.tableRegions + r.value.imageRegions <= r.value.totalRegions
    ensures r.Done? && regions == [] ==> r.value.avgRegionArea == 0.0 && r.value.avgAspectRatio == 0.0
    ensures r.Done? && regions != [] ==>
      r.value.avgRegionArea == Mean(Numbers(regions, "area").value)
      && r.value.avgAspectRatio == Mean(Numbers(regions, "aspect_ratio").value)
  {
    if regions == [] then Done(LayoutFeatures(0, 0, 0, 0, 0.0, 0.0))
    else if Numbers(regions, "area").None? || Numbers(regions, "aspect_ratio").None? then Raised
    else
      var areas := Numbers(regions, "area").value;
      var ratios := Numbers(regions, "aspect_ratio").value;
      KindsWithinTotal(regions);
      Done(LayoutFeatures(|regions|, CountType(regions, "text"), CountType(regions, "table"),
                          CountType(regions, "image"), Mean(areas), Mean(ratios)))
  }

  /** `_extract_layout_features(layout)`: it raises when the regions cannot
      be iterated or one of them is not a dict. */
  function ExtractLayoutFeatures(layout: Dict<Value>): (r: Outcome<LayoutFeatures>)
    ensures r.Done? ==>
      Records(Get(layout, "regions")).Done? && AllObjects(Records(Get(layout, "regions")).value)
      && r == RegionFeatures(Records(Get(layout, "regions")).value)
    ensures Records(Get(layout, "regions")).Raised? ==> r.Raised?
  {
    match Records(Get(layout, "regions"))
    case Raised => Raised
    case Done(regions) => if AllObjects(regions) then RegionFeatures(regions) else Raised
  }

  /** The features as the dict handed to the memory layer. */
  function FeatureDict(f: LayoutFeatures): (r: Dict<Value>)
    ensures WellFormed(r)
    ensures NumericAt(r, "total_regions")
    ensures forall i :: 0 <= i < |r| ==> r[i].1.Num?
  {
    var r := [("total_regions", Num(f.totalRegions as real)), ("text_regions", Num(f.textRegions as real)),
              ("table_regions", Num(f.tableRegions as real)), ("image_regions", Num(f.imageRegions as real)),
              ("avg_region_area", Num(f.avgRegionArea)), ("avg_aspect_ratio", Num(f.avgAspectRatio))];
    assert Keys(r[5..]) == ["avg_aspect_ratio"];
    assert Keys(r[4..]) == ["avg_region_area"] + Keys(r[5..]);
    assert Keys(r[3..]) == ["image_regions"] + Keys(r[4..]);
    assert Keys(r[2..]) == ["table_regions"] + Keys(r[3..]);
    assert Keys(r[1..]) == ["text_regions"] + Keys(r[2..]);
    var ks := Keys(r);
    forall i, j | 0 <= i < j < |ks|
      ensures ks[i] != ks[j]
    {
    }
    GetAt(r, 0);
    r
  }

  /** A layout compared with itself is a perfect match. */
  lemma FeaturesMatchThemselves(f: LayoutFeatures)
    ensures Similarity(FeatureDict(f), Obj(FeatureDict(f))) == Done(1.0)
  {
    ScoreOfItself(FeatureDict(f), "total_regions");
  }

  // -------------------------------------------------------- pattern signatures

  /** What the signature hashes: the numbers of regions, tables and fields and
      the first five field names. */
  datatype SignatureFeatures = SignatureFeatures(regionCount: nat, tableCount: nat, fieldCount: nat,
                                                 keyFields: seq<string>)

  /** The features of `_create_pattern_signature`; `len` of a value that has
      no length, or `.keys()` of fields that are not a dict, raises. */
  function SignatureOf(layout: Dict<Value>, extraction: Dict<Value>): (r: Outcome<SignatureFeatures>)
    ensures r.Done? <==>
      Len(GetOr(layout, "regions", Arr([]))).Done? && Len(GetOr(layout, "tables", Arr([]))).Done?
      && GetOr(extraction, "fields", Obj([])).Obj?
    ensures r.Done? ==>
      var fields := GetOr(extraction, "fields", Obj([])).fields;
      r.value.fieldCount == |fields| && |r.value.keyFields| <= 5
      && r.value.keyFields <= Keys(fields)
      && |r.value.keyFields| == (if |fields| < 5 then |fields| else 5)
  {
    match (Len(GetOr(layout, "regions", Arr([]))), Len(GetOr(layout, "tables", Arr([]))),
           GetOr(extraction, "fields", Obj([])))
    case (Done(regions), Done(tables), Obj(fields)) =>
      Done(SignatureFeatures(regions, tables, |fields|, Prefix(Keys(fields), 5)))
    case _ => Raised
  }

  /** `md5(json.dumps(features, sort_keys=True))`, with the digest a parameter. */
  function PatternSignature(layout: Dict<Value>, extraction: Dict<Value>,
                            digest: SignatureFeatures -> string): (r: Outcome<string>)
    ensures r.Done? <==> SignatureOf(layout, extraction).Done?
  {
    match SignatureOf(layout, extraction)
    case Raised => Raised
    case Done(features) => Done(digest(features))
  }

  /** The signature looks at field names only: two extractions whose fields
      have the same names in the same order share it, whatever the values
      and whatever else the extractions hold. */
  lemma SignatureIgnoresValues(layout: Dict<Value>, e1: Dict<Value>, e2: Dict<Value>,
                               digest: SignatureFeatures -> string)
    requires Get(e1, "fields").Some? && Get(e1, "fields").value.Obj?
    requires Get(e2, "fields").Some? && Get(e2, "fields").value.Obj?
    requires Keys(Get(e1, "fields").value.fields) == Keys(Get(e2, "fields").value.fields)
    ensures PatternSignature(layout, e1, digest) == PatternSignature(layout, e2, digest)
  {
  }

  // ---------------------------------------------------------- storing patterns

  /** The record `store_extraction_pattern` hands to the memory layer. */
  function PatternData(documentId: string, extraction: Dict<Value>, signature: string,
                       features: LayoutFeatures, stamp: string): (r: Dict<Value>)
    ensures WellFormed(r)
    ensures Get(r, "pattern_signature") == Some(Str(signature))
    ensures Get(r, "document_type") == Some(GetOr(extraction, "document_type", Null))
    ensures Get(r, "layout_features") == Some(Obj(FeatureDict(features)))
  {
    var r := [("document_id", Str(documentId)), ("document_type", GetOr(extraction, "document_type", Null)),
              ("pattern_signature", Str(signature)), ("extraction_results", Obj(extraction)),
              ("layout_features", Obj(FeatureDict(features))), ("timestamp", Str(stamp))];
    assert Keys(r[5..]) == ["timestamp"];
    assert Keys(r[4..]) == ["layout_features"] + Keys(r[5..]);
    assert Keys(r[3..]) == ["extraction_results"] + Keys(r[4..]);
    assert Keys(r[2..]) == ["pattern_signature"] + Keys(r[3..]);
    assert Keys(r[1..]) == ["document_type"] + Keys(r[2..]);
    var ks := Keys(r);
    forall i, j | 0 <= i < j < |ks|
      ensures ks[i] != ks[j]
    {
    }
    GetAt(r, 1);
    GetAt(r, 2);
    GetAt(r, 4);
    r
  }

  function PatternMetadata(): Dict<Value> {
    [("source", Str("u-findi")), ("type", Str("extraction_pattern"))]
  }

  /** A signature is a string, so no rendering of other values is needed to key it. */
  function NoRendering(v: Value): string { "" }

  /** `store_extraction_pattern`: the pattern is stored under its signature;
      when the signature or the features cannot be computed the failure is
      logged and the memory layer is left as it was. */
  function StoreExtractionPattern(s: Store, documentId: string, extraction: Dict<Value>, layout: Dict<Value>,
                                  digest: SignatureFeatures -> string, stamp: string): (r: Store)
    ensures r.corrections == s.corrections && r.suggestions == s.suggestions
    ensures PatternSignature(layout, extraction, digest).Raised? || ExtractLayoutFeatures(layout).Raised?
            ==> r == s
    ensures PatternSignature(layout, extraction, digest).Done? && ExtractLayoutFeatures(layout).Done? ==>
      var sig := PatternSignature(layout, extraction, digest).value;
      Get(r.patterns, sig) == Some(StoredPattern(
        PatternData(documentId, extraction, sig, ExtractLayoutFeatures(layout).value, stamp),
        PatternMetadata(), stamp))
      && forall k :: k != sig ==> Get(r.patterns, k) == Get(s.patterns, k)
  {
    match (PatternSignature(layout, extraction, digest), ExtractLayoutFeatures(layout))
    case (Done(sig), Done(features)) =>
      var pattern := PatternData(documentId, extraction, sig, features, stamp);
      assert PatternId(pattern, NoRendering) == sig;
      StorePattern(s, pattern, PatternMetadata(), stamp, NoRendering)
    case _ => s
  }

  // -------------------------------------------------------- retrieving patterns

  /** `retrieve_similar_patterns`: the search over the layout's features; a
      failure on the way yields no patterns. */
  function RetrieveSimilar(s: Store, layout: Dict<Value>, docType: string, limit: int): (r: seq<Match>)
    ensures ExtractLayoutFeatures(layout).Raised? ==> r == []
    ensures ExtractLayoutFeatures(layout).Done? ==>
      var search := SearchSimilar(s, FeatureDict(ExtractLayoutFeatures(layout).value), docType, limit);
      (search.Raised? ==> r == []) && (search.Done? ==> r == search.value)
    ensures SortedDesc(r, ScoreOf)
    ensures limit >= 0 ==> |r| <= limit
  {
    match ExtractLayoutFeatures(layout)
    case Raised => []
    case Done(f) =>
      match SearchSimilar(s, FeatureDict(f), docType, limit)
      case Raised => []
      case Done(m) => m
  }

  /** A document's layout, once stored, finds its own pattern again: the
      search for the same layout and type returns a match scoring at least
      as high as a perfect one, unless another stored pattern makes the
      search fail. */
  lemma StoredPatternRetrieved(s: Store, documentId: string, extraction: Dict<Value>, layout: Dict<Value>,
                               digest: SignatureFeatures -> string, stamp: string, docType: string, limit: int)
    requires PatternSignature(layout, extraction, digest).Done? && ExtractLayoutFeatures(layout).Done?
    requires Get(extraction, "document_type") == Some(Str(docType))
    requires limit >= 1
    requires var r := StoreExtractionPattern(s, documentId, extraction, layout, digest, stamp);
      Candidates(r.patterns, FeatureDict(ExtractLayoutFeatures(layout).value), docType).Done?
    ensures var r := StoreExtractionPattern(s, documentId, extraction, layout, digest, stamp);
      var found := RetrieveSimilar(r, layout, docType, limit);
      found != [] && found[0].score >= 1.0
  {
    var r := StoreExtractionPattern(s, documentId, extraction, layout, digest, stamp);
    var features := FeatureDict(ExtractLayoutFeatures(layout).value);
    var m := OwnPatternCandidate(s, documentId, extraction, layout, digest, stamp, docType);
    SearchLeadsWithBest(r.patterns, features, docType, limit, m);
  }

  /** The stored pattern is a candidate of its own layout's search, with score 1. */
  lemma OwnPatternCandidate(s: Store, documentId: string, extraction: Dict<Value>, layout: Dict<Value>,
                            digest: SignatureFeatures -> string, stamp: string, docType: string)
    returns (m: Match)
    requires PatternSignature(layout, extraction, digest).Done? && ExtractLayoutFeatures(layout).Done?
    requires Get(extraction, "document_type") == Some(Str(docType))
    requires var r := StoreExtractionPattern(s, documentId, extraction, layout, digest, stamp);
      Candidates(r.patterns, FeatureDict(ExtractLayoutFeatures(layout).value), docType).Done?
    ensures var r := StoreExtractionPattern(s, documentId, extraction, layout, digest, stamp);
      m.score == 1.0 && m in Candidates(r.patterns, FeatureDict(ExtractLayoutFeatures(layout).value), docType).value
  {
    var r := StoreExtractionPattern(s, documentId, extraction, layout, digest, stamp);
    var sig := PatternSignature(layout, extraction, digest).value;
    var f := ExtractLayoutFeatures(layout).value;
    var features := FeatureDict(f);
    GetIsPair(r.patterns, sig);
    var i :| 0 <= i < |r.patterns| && r.patterns[i] == (sig, Get(r.patterns, sig).value);
    var stored := r.patterns[i].1;
    FeaturesMatchThemselves(f);
    assert GetOr(stored.pattern, "layout_features", Obj([])) == Obj(features);
    CandidateFound(r.patterns, features, docType, i);
    m := MatchOf(sig, stored, features).value[0];
  }

  // ----------------------------------------------------------- error patterns

  /** The service's own tally for one document type and field. */
  datatype ErrorPattern = ErrorPattern(count: nat, firstSeen: string, lastSeen: string,
                                       oldValues: Dict<nat>, newValues: Dict<nat>)

  /** `str(x)` of a string or `None`. */
  function Rendered(x: Option<string>): string {
    match x
    case None => "None"
    case Some(t) => t
  }

  /** `f"{document_type}:{field_path}"` */
  function PatternKey(docType: Option<string>, path: string): string {
    Rendered(docType) + ":" + path
  }

  /** The number of corrections tallied under `key`. */
  function ErrorCount(patterns: Dict<ErrorPattern>, key: string): nat {
    match Get(patterns, key)
    case None => 0
    case Some(p) => p.count
  }

  /** Both value tables of a pattern account for each of its corrections once. */
  predicate Tallied(p: ErrorPattern) {
    SumOf(p.oldValues, Identity) == p.count && SumOf(p.newValues, Identity) == p.count
  }

  ghost predicate AllTallied(patterns: Dict<ErrorPattern>) {
    forall k :: Get(patterns, k).Some? ==> Tallied(Get(patterns, k).value)
  }

  /** `_update_error_patterns`: one more correction under the type and
      field, seen now, with its old and new values counted as rendered. */
  function UpdateErrorPatterns(patterns: Dict<ErrorPattern>, c: CorrectionData, now: string): (r: Dict<ErrorPattern>)
    ensures var key := PatternKey(c.documentType, c.fieldPath);
      Get(r, key).Some?
      && ErrorCount(r, key) == ErrorCount(patterns, key) + 1
      && Get(r, key).value.lastSeen == now
      && Get(r, key).value.firstSeen == (if Get(patterns, key).Some? then Get(patterns, key).value.firstSeen else now)
      && (forall k :: k != key ==> Get(r, k) == Get(patterns, k))
  {
    var key := PatternKey(c.documentType, c.fieldPath);
    var p := GetOr(patterns, key, ErrorPattern(0, now, now, [], []));
    Put(patterns, key, ErrorPattern(p.count + 1, p.firstSeen, now,
                                    Increment(p.oldValues, Rendered(c.oldValue)),
                                    Increment(p.newValues, c.newValue)))
  }

  /** The rendered old value and the new value each gain one occurrence under
      the type and field; every other value keeps its tally. */
  lemma UpdateCountsValues(patterns: Dict<ErrorPattern>, c: CorrectionData, now: string)
    ensures var key := PatternKey(c.documentType, c.fieldPath);
      var before := GetOr(patterns, key, ErrorPattern(0, now, now, [], []));
      var after := Get(UpdateErrorPatterns(patterns, c, now), key).value;
      GetOr<nat>(after.oldValues, Rendered(c.oldValue), 0) == GetOr<nat>(before.oldValues, Rendered(c.oldValue), 0) + 1
      && GetOr<nat>(after.newValues, c.newValue, 0) == GetOr<nat>(before.newValues, c.newValue, 0) + 1
      && (forall v :: v != Rendered(c.oldValue) ==> Get(after.oldValues, v) == Get(before.oldValues, v))
      && (forall v :: v != c.newValue ==> Get(after.newValues, v) == Get(before.newValues, v))
  {
  }

  /** The old and new value tables keep adding up to the correction count. */
  lemma UpdateKeepsTallies(patterns: Dict<ErrorPattern>, c: CorrectionData, now: string)
    requires AllTallied(patterns)
    ensures AllTallied(UpdateErrorPatterns(patterns, c, now))
  {
    var key := PatternKey(c.documentType, c.fieldPath);
    var p := GetOr(patterns, key, ErrorPattern(0, now, now, [], []));
    assert Tallied(p);
    IncrementTotal(p.oldValues, Rendered(c.oldValue));
    IncrementTotal(p.newValues, c.newValue);
  }

  /** `_check_retraining_trigger`: retrain once a type and field has ten corrections. */
  predicate RetrainingDue(patterns: Dict<ErrorPattern>, docType: Option<string>, path: string) {
    var key := PatternKey(docType, path);
    Get(patterns, key).Some? && Get(patterns, key).value.count >= 10
  }

  /** The corrections of `cs` tallied under `key`. */
  function Occurrences(cs: seq<CorrectionData>, key: string): (r: nat)
    ensures r <= |cs|
  {
    if cs == [] then 0
    else Occurrences(cs[..|cs| - 1], key)
         + (if PatternKey(cs[|cs| - 1].documentType, cs[|cs| - 1].fieldPath) == key then 1 else 0)
  }

  /** The tally after a run of corrections. */
  function UpdateAll(patterns: Dict<ErrorPattern>, cs: seq<CorrectionData>, now: string): Dict<ErrorPattern> {
    if cs == [] then patterns
    else UpdateErrorPatterns(UpdateAll(patterns, cs[..|cs| - 1], now), cs[|cs| - 1], now)
  }

  /** The tally under a key counts exactly the corrections of that type and field. */
  lemma {:induction false} UpdateAllCounts(patterns: Dict<ErrorPattern>, cs: seq<CorrectionData>, now: string, key: string)
    ensures ErrorCount(UpdateAll(patterns, cs, now), key) == ErrorCount(patterns, key) + Occurrences(cs, key)
  {
    if cs != [] {
      UpdateAllCounts(patterns, cs[..|cs| - 1], now, key);
    }
  }

  /** Starting from no corrections of a type and field, retraining is due
      exactly once ten of them have been recorded. */
  lemma RetrainingFromTheTenth(patterns: Dict<ErrorPattern>, cs: seq<CorrectionData>, now: string,
                               docType: Option<string>, path: string)
    requires Get(patterns, PatternKey(docType, path)).None?
    requires forall i :: 0 <= i < |cs| ==> cs[i].documentType == docType && cs[i].fieldPath == path
    ensures RetrainingDue(UpdateAll(patterns, cs, now), docType, path) <==> |cs| >= 10
  {
    var key := PatternKey(docType, path);
    UpdateAllCounts(patterns, cs, now, key);
    AllOccur(cs, key);
    if cs != [] {
      assert Get(UpdateAll(patterns, cs, now), key).Some?;
    }
  }

  lemma {:induction false} AllOccur(cs: seq<CorrectionData>, key: string)
    requires forall i :: 0 <= i < |cs| ==> PatternKey(cs[i].documentType, cs[i].fieldPath) == key
    ensures Occurrences(cs, key) == |cs|
  {
    if cs != [] {
      AllOccur(cs[..|cs| - 1], key);
    }
  }

  // ---------------------------------------------------------- storing corrections

  /** The service's state: the memory layer and its own error tally. */
  datatype Learner = Learner(memory: Store, errorPatterns: Dict<ErrorPattern>)

  /** The corrected field of a review, as its database row holds it. */
  datatype CorrectionRow = CorrectionRow(id: nat, fieldPath: string, oldValue: Option<string>, newValue: string)

  /** `store_correction(document_id, correction, document_type)`: the
      correction goes to the memory layer and into the error tally; the
      result also says whether retraining was triggered. Nothing on the way
      can raise, so the exception handler is never reached. */
  function RecordCorrection(l: Learner, documentId: string, row: CorrectionRow, docType: Option<string>,
                            now: string): (r: (Learner, bool))
    ensures var key := PatternKey(docType, row.fieldPath);
      ErrorCount(r.0.errorPatterns, key) == ErrorCount(l.errorPatterns, key) + 1
      && (r.1 <==> ErrorCount(l.errorPatterns, key) >= 9)
    ensures Count(r.0.memory, row.fieldPath, row.newValue) == Count(l.memory, row.fieldPath, row.newValue) + 1
    ensures r.0.memory.patterns == l.memory.patterns
  {
    var c := CorrectionData(documentId, docType, row.fieldPath, row.oldValue, row.newValue, row.id, now);
    var memory := MemoryStore.StoreCorrection(l.memory, c, [("source", Str("human_reviewer"))], now);
    var patterns := UpdateErrorPatterns(l.errorPatterns, c, now);
    (Learner(memory, patterns), RetrainingDue(patterns, docType, row.fieldPath))
  }

  /** Recording a correction keeps the memory layer valid and the tallies consistent. */
  lemma RecordCorrectionValid(l: Learner, documentId: string, row: CorrectionRow, docType: Option<string>,
                              now: string)
    requires Valid(l.memory) && AllTallied(l.errorPatterns)
    ensures Valid(RecordCorrection(l, documentId, row, docType, now).0.memory)
    ensures AllTallied(RecordCorrection(l, documentId, row, docType, now).0.errorPatterns)
  {
    var c := CorrectionData(documentId, docType, row.fieldPath, row.oldValue, row.newValue, row.id, now);
    StoreCorrectionValid(l.memory, c, [("source", Str("human_reviewer"))], now);
    UpdateKeepsTallies(l.errorPatterns, c, now);
  }

  // --------------------------------------------------------------- suggestions

  function Frequency(s: Suggestion): real { s.frequency as real }

  /** `_rank_suggestions`: by descending frequency, ties in the order given. */
  function RankSuggestions(s: seq<Suggestion>): (r: seq<Suggestion>)
    ensures SortedDesc(r, Frequency) && multiset(r) == multiset(s)
  {
    if s == [] then [] else SortDesc(s, Frequency)
  }

  /** Suggestions of equal frequency keep their order. */
  lemma RankStable(s: seq<Suggestion>, f: real)
    ensures WithKey(RankSuggestions(s), Frequency, f) == WithKey(s, Frequency, f)
  {
    SortDescStable(s, Frequency, f);
  }

  /** `get_suggested_corrections`: the three most frequent suggestions. */
  function SuggestedCorrections(s: Store, path: string): (r: seq<Suggestion>)
    ensures |r| <= 3 && SortedDesc(r, Frequency)
    ensures forall i :: 0 <= i < |r| ==> r[i] in GetFieldSuggestions(s, path)
  {
    var ranked := RankSuggestions(GetFieldSuggestions(s, path));
    var r := Prefix(ranked, 3);
    PrefixSorted(ranked, |r|, Frequency);
    forall i | 0 <= i < |r|
      ensures r[i] in GetFieldSuggestions(s, path)
    {
      assert r[i] in multiset(ranked);
    }
    r
  }

  /** No suggestion left out is more frequent than one returned, and three
      are returned whenever there are that many. */
  lemma SuggestedAreTheMostFrequent(s: Store, path: string, x: Suggestion)
    requires x in GetFieldSuggestions(s, path) && x !in SuggestedCorrections(s, path)
    ensures |SuggestedCorrections(s, path)| == 3
    ensures forall i :: 0 <= i < 3 ==> SuggestedCorrections(s, path)[i].frequency >= x.frequency
  {
    var all := GetFieldSuggestions(s, path);
    var ranked := RankSuggestions(all);
    var r := SuggestedCorrections(s, path);
    assert r == Prefix(ranked, 3);
    assert x in multiset(ranked);
    var j :| 0 <= j < |ranked| && ranked[j] == x;
    assert forall i :: 0 <= i < |r| ==> r[i] == ranked[i];
    forall i | 0 <= i < 3
      ensures r[i].frequency >= x.frequency
    {
      assert Frequency(ranked[i]) >= Frequency(ranked[j]);
    }
  }

  // ----------------------------------------------------------- error clusters

  /** A correction row as the clustering reads it. */
  datatype CorrectionRecord = CorrectionRecord(documentId: string, fieldPath: string,
                                               oldValue: Option<string>, newValue: string)

  datatype Cluster = Cluster(fieldPath: string, documentType: Option<string>,
                             corrections: seq<(Option<string>, string)>, count: nat)

  /** `f"{field_path}||{document_id}"` */
  function ClusterKey(row: CorrectionRecord): string {
    row.fieldPath + "||" + row.documentId
  }

  function ClusterSize(c: Cluster): nat { c.count }

  function ClusterRank(c: Cluster): real { c.count as real }

  /** Each cluster counts exactly the corrections it lists. */
  ghost predicate Consistent(clusters: Dict<Cluster>) {
    forall e :: e in clusters ==> Counted(e.1)
  }

  predicate Counted(c: Cluster) {
    c.count == |c.corrections|
  }

  /** One row added to its cluster, which is opened with the document's type
      (`docTypeOf`, "unknown" when the lookup fails) on its first row. */
  function AddRow(clusters: Dict<Cluster>, row: CorrectionRecord, docTypeOf: string -> Option<string>): (r: Dict<Cluster>)
    ensures Get(r, ClusterKey(row)).Some?
    ensures forall k :: k != ClusterKey(row) ==> Get(r, k) == Get(clusters, k)
  {
    var key := ClusterKey(row);
    var c := GetOr(clusters, key, Cluster(row.fieldPath, docTypeOf(row.documentId), [], 0));
    Put(clusters, key, c.(corrections := c.corrections + [(row.oldValue, row.newValue)], count := c.count + 1))
  }

  /** The cluster keys of a run of rows, in row order. */
  function RowKeys(rows: seq<CorrectionRecord>): seq<string> {
    if rows == [] then [] else RowKeys(rows[..|rows| - 1]) + [ClusterKey(rows[|rows| - 1])]
  }

  /** The clusters of a run of rows, in order of their first row: there is a
      cluster exactly for each key some row has. */
  function Clusters(rows: seq<CorrectionRecord>, docTypeOf: string -> Option<string>): (r: Dict<Cluster>)
    ensures forall k :: Get(r, k).Some? <==> k in RowKeys(rows)
  {
    if rows == [] then [] else AddRow(Clusters(rows[..|rows| - 1], docTypeOf), rows[|rows| - 1], docTypeOf)
  }

  lemma AddRowConsistent(clusters: Dict<Cluster>, row: CorrectionRecord, docTypeOf: string -> Option<string>)
    requires Consistent(clusters)
    ensures Consistent(AddRow(clusters, row, docTypeOf))
  {
    var key := ClusterKey(row);
    var c := GetOr<Cluster>(clusters, key, Cluster(row.fieldPath, docTypeOf(row.documentId), [], 0));
    assert Counted(c) by {
      if Get(clusters, key).Some? {
        GetIsPair<Cluster>(clusters, key);
      }
    }
    var c' := c.(corrections := c.corrections + [(row.oldValue, row.newValue)], count := c.count + 1);
    var r := Put<Cluster>(clusters, key, c');
    assert r == AddRow(clusters, row, docTypeOf);
    PutEntries<Cluster>(clusters, key, c');
    forall e | e in r ensures Counted(e.1) {
      var i :| 0 <= i < |r| && r[i] == e;
    }
  }

  /** Every cluster counts the rows it lists. */
  lemma {:induction false} ClustersConsistent(rows: seq<CorrectionRecord>, docTypeOf: string -> Option<string>)
    ensures Consistent(Clusters(rows, docTypeOf))
  {
    if rows != [] {
      ClustersConsistent(rows[..|rows| - 1], docTypeOf);
      AddRowConsistent(Clusters(rows[..|rows| - 1], docTypeOf), rows[|rows| - 1], docTypeOf);
    }
  }

  /** No cluster key occurs twice. */
  lemma {:induction false} ClustersWellFormed(rows: seq<CorrectionRecord>, docTypeOf: string -> Option<string>)
    ensures WellFormed(Clusters(rows, docTypeOf))
  {
    if rows != [] {
      var before := Clusters(rows[..|rows| - 1], docTypeOf);
      var row := rows[|rows| - 1];
      ClustersWellFormed(rows[..|rows| - 1], docTypeOf);
      var c := GetOr(before, ClusterKey(row), Cluster(row.fieldPath, docTypeOf(row.documentId), [], 0));
      PutWellFormed(before, ClusterKey(row),
                    c.(corrections := c.corrections + [(row.oldValue, row.newValue)], count := c.count + 1));
    }
  }

  /** The cluster counts add up to the number of rows. */
  lemma {:induction false} ClustersAccountForRows(rows: seq<CorrectionRecord>, docTypeOf: string -> Option<string>)
    ensures SumOf(Clusters(rows, docTypeOf), ClusterSize) == |rows|
  {
    if rows != [] {
      ClustersAccountForRows(rows[..|rows| - 1], docTypeOf);
      AddRowCounts(Clusters(rows[..|rows| - 1], docTypeOf), rows[|rows| - 1], docTypeOf);
    }
  }

  /** A row adds one to the total of the cluster counts. */
  lemma AddRowCounts(clusters: Dict<Cluster>, row: CorrectionRecord, docTypeOf: string -> Option<string>)
    ensures SumOf(AddRow(clusters, row, docTypeOf), ClusterSize) == SumOf(clusters, ClusterSize) + 1
  {
    var key := ClusterKey(row);
    var c := GetOr(clusters, key, Cluster(row.fieldPath, docTypeOf(row.documentId), [], 0));
    var c' := Cluster(c.fieldPath, c.documentType, c.corrections + [(row.oldValue, row.newValue)], c.count + 1);
    assert AddRow(clusters, row, docTypeOf) == Put(clusters, key, c');
    PutSum(clusters, key, c', ClusterSize);
    var previous := match Get(clusters, key) case Some(o) => ClusterSize(o) case None => 0;
    assert previous == c.count;
    assert ClusterSize(c') == c.count + 1;
  }

  function Values<V>(d: Dict<V>): (r: seq<V>)
    ensures |r| == |d| && forall i :: 0 <= i < |d| ==> r[i] == d[i].1
  {
    if d == [] then [] else [d[0].1] + Values(d[1..])
  }

  datatype ClusterReport =
    | ClusterReport(totalCorrections: nat, clusters: seq<Cluster>, timeframeDays: int)
    | ClusterFailure

  /** `cluster_errors(timeframe_days)` over the rows of the corrections made
      in the time frame (`None` when the query fails): the ten largest
      clusters, ties in order of first appearance. */
  function ClusterErrors(rows: Option<seq<CorrectionRecord>>, timeframeDays: int,
                         docTypeOf: string -> Option<string>): (r: ClusterReport)
    ensures r.ClusterFailure? <==> rows.None?
    ensures r.ClusterReport? ==>
      r.totalCorrections == |rows.value| && r.timeframeDays == timeframeDays
      && |r.clusters| <= 10 && SortedDesc(r.clusters, ClusterRank)
      && (forall i :: 0 <= i < |r.clusters| ==> r.clusters[i] in Values(Clusters(rows.value, docTypeOf)))
      && multiset(r.clusters) <= multiset(Values(Clusters(rows.value, docTypeOf)))
      && |r.clusters| == if |Clusters(rows.value, docTypeOf)| < 10 then |Clusters(rows.value, docTypeOf)| else 10
  {
    match rows
    case None => ClusterFailure
    case Some(rs) =>
      var all := Values(Clusters(rs, docTypeOf));
      var sorted := SortDesc(all, ClusterRank);
      var top := Prefix(sorted, 10);
      TopOf(all, ClusterRank, 10);
      forall i | 0 <= i < |top| ensures top[i] in all {
        assert top[i] in top;
      }
      ClusterReport(|rs|, top, timeframeDays)
  }

  /** A cluster left out of the report ranks no higher than any reported one. */
  lemma ClusterErrorsKeepLargest(rows: seq<CorrectionRecord>, timeframeDays: int,
                                 docTypeOf: string -> Option<string>, x: Cluster)
    requires x in Values(Clusters(rows, docTypeOf))
    requires x !in ClusterErrors(Some(rows), timeframeDays, docTypeOf).clusters
    ensures |ClusterErrors(Some(rows), timeframeDays, docTypeOf).clusters| == 10
    ensures forall i :: 0 <= i < 10 ==>
      ClusterRank(ClusterErrors(Some(rows), timeframeDays, docTypeOf).clusters[i]) >= ClusterRank(x)
  {
    var all := Values(Clusters(rows, docTypeOf));
    assert ClusterErrors(Some(rows), timeframeDays, docTypeOf).clusters == Prefix(SortDesc(all, ClusterRank), 10);
    LeftOutOfTop(all, ClusterRank, 10, x);
  }
}

=== FILE: memory_store.dfy ===
/** The in-memory stand-in for the Backboard.io memory layer
    (`backboard_client.py`): stored extraction patterns keyed by signature,
    numbered corrections, a frequency table of corrected values per field
    path, suggestions drawn from it, and the layout-similarity search. The
    client's state is a record threaded through the operations; time stamps
    are parameters. */
module MemoryStore {
  import opened Base
  import opened Dict
  import opened Json
  import opened Sorting

  // ---------------------------------------------------------------- similarity

  /** How close two numbers are: `1 - |a - b| / max(|a|, |b|, 1)`. */
  function Closeness(a: real, b: real): real {
    1.0 - Abs(a - b) / Max(Max(Abs(a), Abs(b)), 1.0)
  }

  /** The numeric value under `k`, or 0 when there is none. */
  function NumberAt(d: Dict<Value>, k: string): real {
    match Get(d, k)
    case Some(v) => if IsNumeric(v) then NumericValue(v) else 0.0
    case None => 0.0
  }

  predicate NumericAt(d: Dict<Value>, k: string) {
    Get(d, k).Some? && IsNumeric(Get(d, k).value)
  }

  /** The keys of `d1` that hold numbers in both maps, in `d1`'s order. */
  function SharedNumeric(d1: Dict<Value>, d2: Dict<Value>): (r: seq<string>)
    ensures |r| <= |d1|
    ensures forall i :: 0 <= i < |r| ==> r[i] in Keys(d1) && NumericAt(d2, r[i])
  {
    if d1 == [] then []
    else
      var rest := SharedNumeric(d1[1..], d2);
      var k := d1[0].0;
      assert Keys(d1) == [k] + Keys(d1[1..]);
      (if IsNumeric(d1[0].1) && NumericAt(d2, k) then [k] else []) + rest
  }

  /** The sum of the closeness of the two maps' values over the keys `ks`. */
  function SumCloseness(d1: Dict<Value>, d2: Dict<Value>, ks: seq<string>): real {
    if ks == [] then 0.0
    else SumCloseness(d1, d2, ks[..|ks| - 1]) + Closeness(NumberAt(d1, ks[|ks| - 1]), NumberAt(d2, ks[|ks| - 1]))
  }

  /** `_calculate_similarity_score` on two non-empty feature maps: the mean
      closeness over the keys numeric in both, 0 when there are none. */
  function Score(d1: Dict<Value>, d2: Dict<Value>): real {
    var ks := SharedNumeric(d1, d2);
    SumCloseness(d1, d2, ks) / Max(|ks| as real, 1.0)
  }

  /** `_calculate_similarity_score(features1, features2)`: 0 when either is
      empty; the stored features are read with `.keys()`, which only a dict has. */
  function Similarity(features: Dict<Value>, stored: Value): (r: Outcome<real>)
    ensures features == [] ==> r == Done(0.0)
    ensures r.Done? && r.value != 0.0 ==> stored.Obj? && stored.fields != []
  {
    if features == [] || !Truthy(stored) then Done(0.0)
    else if !stored.Obj? then Raised
    else Done(Score(features, stored.fields))
  }

  lemma ClosenessSymmetric(a: real, b: real)
    ensures Closeness(a, b) == Closeness(b, a)
  {
    assert Abs(a - b) == Abs(b - a);
  }

  lemma {:induction false} SumClosenessAppend(d1: Dict<Value>, d2: Dict<Value>, a: seq<string>, b: seq<string>)
    ensures SumCloseness(d1, d2, a + b) == SumCloseness(d1, d2, a) + SumCloseness(d1, d2, b)
    decreases |b|
  {
    if b == [] {
      assert a + b == a;
    } else {
      var ab := a + b;
      assert ab[..|ab| - 1] == a + b[..|b| - 1];
      assert ab[|ab| - 1] == b[|b| - 1];
      SumClosenessAppend(d1, d2, a, b[..|b| - 1]);
    }
  }

  lemma {:induction false} SumClosenessSwap(d1: Dict<Value>, d2: Dict<Value>, ks: seq<string>)
    ensures SumCloseness(d1, d2, ks) == SumCloseness(d2, d1, ks)
  {
    if ks != [] {
      SumClosenessSwap(d1, d2, ks[..|ks| - 1]);
      ClosenessSymmetric(NumberAt(d1, ks[|ks| - 1]), NumberAt(d2, ks[|ks| - 1]));
    }
  }

  /** The sum does not depend on the order the keys are visited in. */
  lemma {:induction false} SumClosenessPermutation(d1: Dict<Value>, d2: Dict<Value>, ks: seq<string>, ks': seq<string>)
    requires multiset(ks) == multiset(ks')
    ensures SumCloseness(d1, d2, ks) == SumCloseness(d1, d2, ks')
    decreases |ks|
  {
    if ks != [] {
      var n := |ks| - 1;
      var k := ks[n];
      assert ks == ks[..n] + [k];
      assert k in multiset(ks');
      var j :| 0 <= j < |ks'| && ks'[j] == k;
      var rest := ks'[..j] + ks'[j + 1..];
      assert ks' == ks'[..j] + [k] + ks'[j + 1..];
      assert multiset(ks) == multiset(ks[..n]) + multiset{k};
      assert multiset(ks') == multiset(ks'[..j]) + multiset{k} + multiset(ks'[j + 1..]);
      assert multiset(rest) == multiset(ks'[..j]) + multiset(ks'[j + 1..]);
      calc {
        multiset(ks[..n]);
        multiset(ks) - multiset{k};
        multiset(ks') - multiset{k};
        multiset(rest);
      }
      SumClosenessPermutation(d1, d2, ks[..n], rest);
      SumClosenessAppend(d1, d2, ks'[..j] + [k], ks'[j + 1..]);
      SumClosenessAppend(d1, d2, ks'[..j], [k]);
      SumClosenessAppend(d1, d2, ks'[..j], ks'[j + 1..]);
      assert [k][..0] == [];
    } else {
      assert |ks'| == |multiset(ks')|;
    }
  }

  lemma {:induction false} DistinctCount(s: seq<string>, x: string)
    requires Distinct(s)
    ensures multiset(s)[x] == if x in s then 1 else 0
  {
    if s != [] {
      assert s == [s[0]] + s[1..];
      assert Distinct(s[1..]) by {
        forall i, j | 0 <= i < j < |s[1..]|
          ensures s[1..][i] != s[1..][j]
        {
          assert s[1..][i] == s[i + 1] && s[1..][j] == s[j + 1];
        }
      }
      DistinctCount(s[1..], x);
      if x == s[0] {
        forall j | 0 <= j < |s[1..]|
          ensures s[1..][j] != x
        {
          assert s[1..][j] == s[j + 1];
        }
      }
    }
  }

  lemma {:induction false} SharedDistinct(d1: Dict<Value>, d2: Dict<Value>)
    requires WellFormed(d1)
    ensures Distinct(SharedNumeric(d1, d2))
  {
    if d1 != [] {
      assert WellFormed(d1[1..]) by {
        forall i, j | 0 <= i < j < |d1[1..]|
          ensures Keys(d1[1..])[i] != Keys(d1[1..])[j]
        {
          KeysIndex(d1, i + 1);
          KeysIndex(d1, j + 1);
          KeysIndex(d1[1..], i);
          KeysIndex(d1[1..], j);
        }
      }
      SharedDistinct(d1[1..], d2);
      var k := d1[0].0;
      var rest := SharedNumeric(d1[1..], d2);
      assert k !in Keys(d1[1..]) by {
        if k in Keys(d1[1..]) {
          var j :| 0 <= j < |Keys(d1[1..])| && Keys(d1[1..])[j] == k;
          KeysIndex(d1, j + 1);
          KeysIndex(d1[1..], j);
          KeysIndex(d1, 0);
        }
      }
      assert k !in rest;
    }
  }

  lemma {:induction false} SharedMember(d1: Dict<Value>, d2: Dict<Value>, k: string)
    requires WellFormed(d1)
    ensures k in SharedNumeric(d1, d2) <==> NumericAt(d1, k) && NumericAt(d2, k)
  {
    if d1 != [] {
      assert WellFormed(d1[1..]) by {
        forall i, j | 0 <= i < j < |d1[1..]|
          ensures Keys(d1[1..])[i] != Keys(d1[1..])[j]
        {
          KeysIndex(d1, i + 1);
          KeysIndex(d1, j + 1);
          KeysIndex(d1[1..], i);
          KeysIndex(d1[1..], j);
        }
      }
      SharedMember(d1[1..], d2, k);
      if d1[0].0 == k {
        assert k !in Keys(d1[1..]) by {
          if k in Keys(d1[1..]) {
            var j :| 0 <= j < |Keys(d1[1..])| && Keys(d1[1..])[j] == k;
            KeysIndex(d1, j + 1);
            KeysIndex(d1[1..], j);
            KeysIndex(d1, 0);
          }
        }
      }
    }
  }

  /** The similarity score is symmetric. */
  lemma ScoreSymmetric(d1: Dict<Value>, d2: Dict<Value>)
    requires WellFormed(d1) && WellFormed(d2)
    ensures Score(d1, d2) == Score(d2, d1)
  {
    var s12 := SharedNumeric(d1, d2);
    var s21 := SharedNumeric(d2, d1);
    SharedDistinct(d1, d2);
    SharedDistinct(d2, d1);
    assert multiset(s12) == multiset(s21) by {
      forall x
        ensures multiset(s12)[x] == multiset(s21)[x]
      {
        SharedMember(d1, d2, x);
        SharedMember(d2, d1, x);
        DistinctCount(s12, x);
        DistinctCount(s21, x);
      }
    }
    assert |s12| == |s21| by {
      assert |multiset(s12)| == |multiset(s21)|;
    }
    SumClosenessPermutation(d1, d2, s12, s21);
    SumClosenessSwap(d1, d2, s21);
  }

  /** Maps that share no numeric key score 0. */
  lemma ScoreWithoutSharedKeys(d1: Dict<Value>, d2: Dict<Value>)
    requires WellFormed(d1)
    requires forall k :: !(NumericAt(d1, k) && NumericAt(d2, k))
    ensures Score(d1, d2) == 0.0
  {
    var ks := SharedNumeric(d1, d2);
    if ks != [] {
      SharedMember(d1, d2, ks[0]);
    }
  }

  /** A map compared with itself scores 1 once it holds a number. */
  lemma ScoreOfItself(d: Dict<Value>, k: string)
    requires WellFormed(d) && NumericAt(d, k)
    ensures Score(d, d) == 1.0
  {
    var ks := SharedNumeric(d, d);
    SumClosenessOfItself(d, ks);
    SharedMember(d, d, k);
    MeanOfOnes(SumCloseness(d, d, ks), |ks|);
  }

  lemma MeanOfOnes(total: real, n: nat)
    requires n >= 1 && total == n as real
    ensures total / Max(n as real, 1.0) == 1.0
  {
  }

  lemma {:induction false} SumClosenessOfItself(d: Dict<Value>, ks: seq<string>)
    ensures SumCloseness(d, d, ks) == |ks| as real
  {
    if ks != [] {
      SumClosenessOfItself(d, ks[..|ks| - 1]);
    }
  }

  lemma ClosenessRange(a: real, b: real)
    requires a >= 0.0 && b >= 0.0
    ensures 0.0 <= Closeness(a, b) <= 1.0
  {
    var m := Max(Max(Abs(a), Abs(b)), 1.0);
    assert 0.0 <= Abs(a - b) <= m;
    DivideWithin(Abs(a - b), m);
  }

  lemma DivideWithin(x: real, m: real)
    requires m > 0.0 && 0.0 <= x <= m
    ensures 0.0 <= x / m <= 1.0
  {
    var q := x / m;
    assert q * m == x;
    assert (1.0 - q) * m == m - x;
    ProductSign(q, m);
    ProductSign(1.0 - q, m);
  }

  lemma ProductSign(a: real, m: real)
    requires m > 0.0 && a * m >= 0.0
    ensures a >= 0.0
  {
    if a < 0.0 {
      NegativeProduct(a, m);
    }
  }

  lemma NegativeProduct(a: real, m: real)
    requires m > 0.0 && a < 0.0
    ensures a * m < 0.0
  {
    assert (-a) * m > 0.0;
  }

  ghost predicate NonNegative(d: Dict<Value>) {
    forall k :: NumericAt(d, k) ==> NumericValue(Get(d, k).value) >= 0.0
  }

  lemma {:induction false} SumClosenessRange(d1: Dict<Value>, d2: Dict<Value>, ks: seq<string>)
    requires NonNegative(d1) && NonNegative(d2)
    ensures 0.0 <= SumCloseness(d1, d2, ks) <= |ks| as real
  {
    if ks != [] {
      SumClosenessRange(d1, d2, ks[..|ks| - 1]);
      ClosenessRange(NumberAt(d1, ks[|ks| - 1]), NumberAt(d2, ks[|ks| - 1]));
    }
  }

  /** With non-negative features the score lies between 0 and 1. */
  lemma ScoreRange(d1: Dict<Value>, d2: Dict<Value>)
    requires NonNegative(d1) && NonNegative(d2)
    ensures 0.0 <= Score(d1, d2) <= 1.0
  {
    var ks := SharedNumeric(d1, d2);
    SumClosenessRange(d1, d2, ks);
    if ks == [] {
      assert SumCloseness(d1, d2, ks) == 0.0;
    } else {
      DivideWithin(SumCloseness(d1, d2, ks), |ks| as real);
    }
  }

  // --------------------------------------------------------------------- state

  datatype StoredPattern = StoredPattern(pattern: Dict<Value>, metadata: Dict<Value>, storedAt: string)

  /** A correction as the learning service hands it over: the reviewed
      document, its type (None when the document has none), the corrected
      field path, the old value's text (None when there was none), the new
      value's text, the correction's row id and its time stamp. */
  datatype CorrectionData = CorrectionData(documentId: string, documentType: Option<string>,
                                           fieldPath: string, oldValue: Option<string>,
                                           newValue: string, correctionId: nat, timestamp: string)

  datatype StoredCorrection = StoredCorrection(correction: CorrectionData, metadata: Dict<Value>,
                                               storedAt: string)

  /** The client's three dictionaries: patterns by signature, corrections by
      `corr_<n>`, and for each field path the number of times each new value
      was given. */
  datatype Store = Store(patterns: Dict<StoredPattern>, corrections: Dict<StoredCorrection>,
                         suggestions: Dict<Dict<nat>>)

  /** `BackboardClient()` */
  function EmptyStore(): (r: Store)
    ensures Valid(r)
  {
    Store([], [], [])
  }

  function CorrectionKey(n: nat): string {
    "corr_" + NatToString(n)
  }

  /** The i-th stored correction (from 0) is keyed `corr_<i+1>`. */
  predicate Numbered(c: Dict<StoredCorrection>) {
    forall i :: 0 <= i < |c| ==> c[i].0 == CorrectionKey(i + 1)
  }

  /** Every state the operations produce: no key twice in any dictionary, and
      corrections numbered from 1. */
  ghost predicate Valid(s: Store) {
    WellFormed(s.patterns) && Numbered(s.corrections) && WellFormed(s.suggestions)
    && forall p :: Get(s.suggestions, p).Some? ==> WellFormed(Get(s.suggestions, p).value)
  }

  /** How often `value` was given as the correction of `path`. */
  function Count(s: Store, path: string, value: string): nat {
    GetOr(GetOr(s.suggestions, path, []), value, 0)
  }

  /** `pattern.get("pattern_signature", "unknown")`, as a dictionary key: a
      signature that is not a string is keyed by its rendering `show`. */
  function PatternId(pattern: Dict<Value>, show: Value -> string): string {
    match Get(pattern, "pattern_signature")
    case None => "unknown"
    case Some(v) => Text(v, show)
  }

  /** `store_pattern`: stores (or replaces) the entry for the pattern's signature. */
  function StorePattern(s: Store, pattern: Dict<Value>, metadata: Dict<Value>, stamp: string,
                        show: Value -> string): (r: Store)
    ensures Get(r.patterns, PatternId(pattern, show)) == Some(StoredPattern(pattern, metadata, stamp))
    ensures forall k :: k != PatternId(pattern, show) ==> Get(r.patterns, k) == Get(s.patterns, k)
    ensures |r.patterns| == |s.patterns| + (if PatternId(pattern, show) in Keys(s.patterns) then 0 else 1)
    ensures r.corrections == s.corrections && r.suggestions == s.suggestions
  {
    var id := PatternId(pattern, show);
    var r := s.(patterns := Put(s.patterns, id, StoredPattern(pattern, metadata, stamp)));
    assert |Keys(r.patterns)| == |r.patterns|;
    r
  }

  lemma StorePatternValid(s: Store, pattern: Dict<Value>, metadata: Dict<Value>, stamp: string,
                          show: Value -> string)
    requires Valid(s)
    ensures Valid(StorePattern(s, pattern, metadata, stamp, show))
  {
    PutWellFormed(s.patterns, PatternId(pattern, show), StoredPattern(pattern, metadata, stamp));
  }

  /** The next correction key is not in use. */
  lemma FreshCorrectionKey(c: Dict<StoredCorrection>)
    requires Numbered(c)
    ensures CorrectionKey(|c| + 1) !in Keys(c)
  {
    forall i | 0 <= i < |c|
      ensures Keys(c)[i] != CorrectionKey(|c| + 1)
    {
      KeysIndex(c, i);
      if NatToString(i + 1) == NatToString(|c| + 1) {
        NatToStringInjective(i + 1, |c| + 1);
      }
      assert CorrectionKey(i + 1)[5..] == NatToString(i + 1);
      assert CorrectionKey(|c| + 1)[5..] == NatToString(|c| + 1);
    }
  }

  lemma NextCorrectionAppends(c: Dict<StoredCorrection>, entry: StoredCorrection)
    ensures Numbered(c) ==>
      Put(c, CorrectionKey(|c| + 1), entry) == c + [(CorrectionKey(|c| + 1), entry)]
  {
    if Numbered(c) {
      FreshCorrectionKey(c);
      PutNew(c, CorrectionKey(|c| + 1), entry);
    }
  }

  /** `store_correction`: stores the correction under the next `corr_<n>`
      key and counts its new value for its field path. */
  function StoreCorrection(s: Store, c: CorrectionData, metadata: Dict<Value>, stamp: string): (r: Store)
    ensures Numbered(s.corrections) ==>
      r.corrections == s.corrections + [(CorrectionKey(|s.corrections| + 1), StoredCorrection(c, metadata, stamp))]
    ensures Count(r, c.fieldPath, c.newValue) == Count(s, c.fieldPath, c.newValue) + 1
    ensures forall p, v :: (p, v) != (c.fieldPath, c.newValue) ==> Count(r, p, v) == Count(s, p, v)
    ensures r.patterns == s.patterns
  {
    var id := CorrectionKey(|s.corrections| + 1);
    var entry := StoredCorrection(c, metadata, stamp);
    NextCorrectionAppends(s.corrections, entry);
    var inner := GetOr(s.suggestions, c.fieldPath, []);
    Store(s.patterns, Put(s.corrections, id, entry),
          Put(s.suggestions, c.fieldPath, Increment(inner, c.newValue)))
  }

  lemma StoreCorrectionValid(s: Store, c: CorrectionData, metadata: Dict<Value>, stamp: string)
    requires Valid(s)
    ensures Valid(StoreCorrection(s, c, metadata, stamp))
  {
    var inner := GetOr(s.suggestions, c.fieldPath, []);
    assert WellFormed(inner) by {
      if Get(s.suggestions, c.fieldPath).None? {
        assert inner == [];
      }
    }
    SuggestionsStayWellFormed(s.suggestions, c.fieldPath, c.newValue);
    NumberedAppend(s.corrections, StoredCorrection(c, metadata, stamp));
  }

  lemma NumberedAppend(c: Dict<StoredCorrection>, entry: StoredCorrection)
    requires Numbered(c)
    ensures Numbered(c + [(CorrectionKey(|c| + 1), entry)])
  {
  }

  lemma SuggestionsStayWellFormed(t: Dict<Dict<nat>>, path: string, value: string)
    requires WellFormed(t) && WellFormed(GetOr(t, path, []))
    requires forall p :: Get(t, p).Some? ==> WellFormed(Get(t, p).value)
    ensures var t' := Put(t, path, Increment(GetOr(t, path, []), value));
      WellFormed(t') && forall p :: Get(t', p).Some? ==> WellFormed(Get(t', p).value)
  {
    var inner := GetOr(t, path, []);
    PutWellFormed<nat>(inner, value, GetOr<nat>(inner, value, 0) + 1);
    PutWellFormed(t, path, Increment(inner, value));
  }

  datatype Health = Health(status: string, patternsStored: nat, correctionsStored: nat, timestamp: string)

  /** `health_check` */
  function HealthCheck(s: Store, stamp: string): (r: Health)
    ensures Valid(s) ==> r.patternsStored == |Keys(s.patterns)| && r.correctionsStored == |Keys(s.corrections)|
  {
    Health("healthy", |s.patterns|, |s.corrections|, stamp)
  }

  /** Each stored correction is reported once more by the health check; a
      stored pattern is reported once more unless its signature was stored before. */
  lemma HealthCounts(s: Store, c: CorrectionData, pattern: Dict<Value>, metadata: Dict<Value>,
                     stamp: string, show: Value -> string)
    requires Numbered(s.corrections)
    ensures HealthCheck(StoreCorrection(s, c, metadata, stamp), stamp).correctionsStored
         == HealthCheck(s, stamp).correctionsStored + 1
    ensures HealthCheck(StoreCorrection(s, c, metadata, stamp), stamp).patternsStored
         == HealthCheck(s, stamp).patternsStored
    ensures HealthCheck(StorePattern(s, pattern, metadata, stamp, show), stamp).patternsStored
         == HealthCheck(s, stamp).patternsStored
            + (if PatternId(pattern, show) in Keys(s.patterns) then 0 else 1)
  {
  }

  // --------------------------------------------------------------- suggestions

  datatype Suggestion = Suggestion(fieldPath: string, value: string, frequency: nat, confidence: real)

  /** `min(frequency / 10, 1.0)`: the confidence of a value given for this very path. */
  function ExactConfidence(f: nat): real { Min(f as real / 10.0, 1.0) }

  /** `min(frequency / 20, 0.5)`: the confidence of a value given for a namesake path. */
  function NamesakeConfidence(f: nat): real { Min(f as real / 20.0, 0.5) }

  /** The last dot-separated segment of a field path. */
  function LeafName(path: string): string { LastSegment(path, '.') }

  /** One suggestion per counted value, in the order the values were first given. */
  function SuggestionsFor(path: string, counts: Dict<nat>, confidence: nat -> real): (r: seq<Suggestion>)
    ensures |r| == |counts|
    ensures forall i :: 0 <= i < |r| ==>
      r[i] == Suggestion(path, counts[i].0, counts[i].1, confidence(counts[i].1))
  {
    if counts == [] then []
    else [Suggestion(path, counts[0].0, counts[0].1, confidence(counts[0].1))]
         + SuggestionsFor(path, counts[1..], confidence)
  }

  /** A suggestion for a namesake of `path` (another path with the same last segment) at the namesake confidence. */
  predicate IsNamesake(x: Suggestion, path: string) {
    x.fieldPath != path && LeafName(x.fieldPath) == LeafName(path)
    && x.confidence == NamesakeConfidence(x.frequency)
  }

  /** Every suggestion is for a namesake of `path`. */
  predicate NamesakesOnly(r: seq<Suggestion>, path: string) {
    forall i :: 0 <= i < |r| ==> IsNamesake(r[i], path)
  }

  /** Every suggestion is for `path` itself at the full confidence. */
  predicate ExactOnly(r: seq<Suggestion>, path: string) {
    forall i :: 0 <= i < |r| ==>
      r[i].fieldPath == path && r[i].confidence == ExactConfidence(r[i].frequency)
  }

  lemma NamesakesConcat(a: seq<Suggestion>, b: seq<Suggestion>, path: string)
    requires NamesakesOnly(a, path) && NamesakesOnly(b, path)
    ensures NamesakesOnly(a + b, path)
  {
    forall i | 0 <= i < |a + b|
      ensures IsNamesake((a + b)[i], path)
    {
      if i < |a| {
        assert (a + b)[i] == a[i];
      } else {
        assert (a + b)[i] == b[i - |a|];
      }
    }
  }

  /** The values given for other paths with the same last segment, path by path. */
  function NamesakeSuggestions(path: string, table: Dict<Dict<nat>>): (r: seq<Suggestion>)
    ensures NamesakesOnly(r, path)
  {
    if table == [] then []
    else
      var here := if table[0].0 != path && LeafName(table[0].0) == LeafName(path)
                  then SuggestionsFor(table[0].0, table[0].1, NamesakeConfidence) else [];
      var rest := NamesakeSuggestions(path, table[1..]);
      NamesakesConcat(here, rest, path);
      here + rest
  }

  lemma ConfidenceRange(f: nat)
    ensures 0.0 <= NamesakeConfidence(f) <= 0.5
    ensures 0.0 <= ExactConfidence(f) <= 1.0
  {
  }

  /** What every suggestion for `path` satisfies. */
  predicate WellScored(r: seq<Suggestion>, path: string) {
    (forall i :: 0 <= i < |r| ==> 0.0 <= r[i].confidence <= 1.0)
    && (forall i :: 0 <= i < |r| && r[i].fieldPath == path ==>
          r[i].confidence == ExactConfidence(r[i].frequency))
    && (forall i :: 0 <= i < |r| && r[i].fieldPath != path ==>
          LeafName(r[i].fieldPath) == LeafName(path)
          && r[i].confidence == NamesakeConfidence(r[i].frequency) && r[i].confidence <= 0.5)
  }

  lemma ExactSuggestionsOnly(path: string, counts: Dict<nat>)
    ensures ExactOnly(SuggestionsFor(path, counts, ExactConfidence), path)
  {
  }

  lemma CombineScored(exact: seq<Suggestion>, namesakes: seq<Suggestion>, path: string)
    requires ExactOnly(exact, path) && NamesakesOnly(namesakes, path)
    ensures WellScored(exact + namesakes, path)
  {
    var r := exact + namesakes;
    forall i | 0 <= i < |r|
      ensures 0.0 <= r[i].confidence <= 1.0
      ensures r[i].fieldPath == path ==> r[i].confidence == ExactConfidence(r[i].frequency)
      ensures r[i].fieldPath != path ==>
        LeafName(r[i].fieldPath) == LeafName(path) && r[i].confidence == NamesakeConfidence(r[i].frequency)
        && r[i].confidence <= 0.5
    {
      ConfidenceRange(r[i].frequency);
      if i >= |exact| {
        assert r[i] == namesakes[i - |exact|];
        assert IsNamesake(namesakes[i - |exact|], path);
      } else {
        assert r[i] == exact[i];
      }
    }
  }

  /** `get_field_suggestions(path, current)`: the values given for `path`
      itself, then those given for namesake paths; the current value is not
      consulted. Confidences lie in [0, 1], at most 0.5 for a namesake. */
  function GetFieldSuggestions(s: Store, path: string): (r: seq<Suggestion>)
    ensures WellScored(r, path)
  {
    var exact: seq<Suggestion> :=
      if Get(s.suggestions, path).Some?
      then SuggestionsFor(path, Get(s.suggestions, path).value, ExactConfidence) else [];
    ExactSuggestionsOnly(path, GetOr(s.suggestions, path, []));
    var namesakes := NamesakeSuggestions(path, s.suggestions);
    CombineScored(exact, namesakes, path);
    exact + namesakes
  }

  lemma {:induction false} GetIsPair<V>(d: Dict<V>, k: string)
    requires Get(d, k).Some?
    ensures exists i :: 0 <= i < |d| && d[i] == (k, Get(d, k).value)
  {
    if d[0].0 != k {
      GetIsPair(d[1..], k);
      var i :| 0 <= i < |d[1..]| && d[1..][i] == (k, Get(d[1..], k).value);
      assert d[i + 1] == d[1..][i];
    } else {
      assert d[0] == (k, Get(d, k).value);
    }
  }

  /** Every value counted for the path is suggested with its count. */
  lemma ExactSuggested(s: Store, path: string, value: string)
    requires Count(s, path, value) > 0
    ensures Suggestion(path, value, Count(s, path, value), ExactConfidence(Count(s, path, value)))
            in GetFieldSuggestions(s, path)
  {
    var counts := Get(s.suggestions, path).value;
    GetIsPair(counts, value);
    var i :| 0 <= i < |counts| && counts[i] == (value, Get(counts, value).value);
    var r := GetFieldSuggestions(s, path);
    assert r[i] == SuggestionsFor(path, counts, ExactConfidence)[i];
  }

  lemma {:induction false} NamesakeListed(path: string, table: Dict<Dict<nat>>, other: string, value: string)
    requires other != path && LeafName(other) == LeafName(path)
    requires Get(table, other).Some? && Get(Get(table, other).value, value).Some?
    ensures
      var f := Get(Get(table, other).value, value).value;
      Suggestion(other, value, f, NamesakeConfidence(f)) in NamesakeSuggestions(path, table)
  {
    var counts := Get(table, other).value;
    var f := Get(counts, value).value;
    var here := if table[0].0 != path && LeafName(table[0].0) == LeafName(path)
                then SuggestionsFor(table[0].0, table[0].1, NamesakeConfidence) else [];
    assert NamesakeSuggestions(path, table) == here + NamesakeSuggestions(path, table[1..]);
    if table[0].0 == other {
      GetIsPair(counts, value);
      var i :| 0 <= i < |counts| && counts[i] == (value, f);
      assert here[i] == Suggestion(other, value, f, NamesakeConfidence(f));
    } else {
      NamesakeListed(path, table[1..], other, value);
    }
  }

  /** Every value counted for a namesake path is suggested, at the lower confidence. */
  lemma NamesakeSuggested(s: Store, path: string, other: string, value: string)
    requires other != path && LeafName(other) == LeafName(path)
    requires Count(s, other, value) > 0
    ensures Suggestion(other, value, Count(s, other, value), NamesakeConfidence(Count(s, other, value)))
            in GetFieldSuggestions(s, path)
  {
    NamesakeListed(path, s.suggestions, other, value);
  }

  // -------------------------------------------------------------------- search

  datatype Match = Match(patternId: string, score: real, extractionResults: Value, documentId: Value)

  function ScoreOf(m: Match): real { m.score }

  /** Whether a stored pattern is of the requested document type. */
  predicate OfType(p: StoredPattern, docType: string) {
    Get(p.pattern, "document_type") == Some(Str(docType))
  }

  /** The match a stored pattern yields, if its score is above one half. */
  function MatchOf(id: string, p: StoredPattern, features: Dict<Value>): (r: Outcome<seq<Match>>)
    ensures r.Done? ==> |r.value| <= 1
    ensures r.Done? && r.value != [] ==> r.value[0].patternId == id && r.value[0].score > 0.5
  {
    match Similarity(features, GetOr(p.pattern, "layout_features", Obj([])))
    case Raised => Raised
    case Done(score) =>
      Done(if score > 0.5
           then [Match(id, score, GetOr(p.pattern, "extraction_results", Obj([])),
                       GetOr(p.pattern, "document_id", Null))]
           else [])
  }

  /** `id` names a stored pattern of the requested type. */
  ghost predicate StoredOfType(patterns: Dict<StoredPattern>, id: string, docType: string) {
    exists j :: 0 <= j < |patterns| && patterns[j].0 == id && OfType(patterns[j].1, docType)
  }

  lemma StoredOfTypeTail(patterns: Dict<StoredPattern>, id: string, docType: string)
    requires patterns != [] && StoredOfType(patterns[1..], id, docType)
    ensures StoredOfType(patterns, id, docType)
  {
    var j :| 0 <= j < |patterns[1..]| && patterns[1..][j].0 == id && OfType(patterns[1..][j].1, docType);
    assert patterns[j + 1] == patterns[1..][j];
  }

  /** The patterns of the requested type scoring above one half, in storage order. */
  function Candidates(patterns: Dict<StoredPattern>, features: Dict<Value>, docType: string): (r: Outcome<seq<Match>>)
    ensures r.Done? ==> forall x :: x in r.value ==>
      x.score > 0.5 && x.patternId in Keys(patterns) && StoredOfType(patterns, x.patternId, docType)
  {
    if patterns == [] then Done([])
    else
      var here := if OfType(patterns[0].1, docType) then MatchOf(patterns[0].0, patterns[0].1, features)
                  else Done([]);
      assert Keys(patterns) == [patterns[0].0] + Keys(patterns[1..]);
      match here
      case Raised => Raised
      case Done(m) =>
        match Candidates(patterns[1..], features, docType)
        case Raised => Raised
        case Done(rest) =>
          forall x | x in rest ensures StoredOfType(patterns, x.patternId, docType) {
            StoredOfTypeTail(patterns, x.patternId, docType);
          }
          assert m != [] ==> m[0].patternId == patterns[0].0 && OfType(patterns[0].1, docType);
          Done(m + rest)
  }

  /** `search_similar_patterns`: the candidates by descending score (ties in
      storage order), cut to `limit` with Python slice semantics. */
  function SearchSimilar(s: Store, features: Dict<Value>, docType: string, limit: int): (r: Outcome<seq<Match>>)
    ensures r.Done? ==> SortedDesc(r.value, ScoreOf)
    ensures r.Done? ==> forall i :: 0 <= i < |r.value| ==>
      r.value[i].score > 0.5 && r.value[i].patternId in Keys(s.patterns)
    ensures r.Done? && limit >= 0 ==> |r.value| <= limit
    ensures r.Done? <==> Candidates(s.patterns, features, docType).Done?
    ensures r.Done? ==> forall x :: x in r.value ==> StoredOfType(s.patterns, x.patternId, docType)
    ensures r.Done? ==> multiset(r.value) <= multiset(Candidates(s.patterns, features, docType).value)
    ensures r.Done? && limit >= 0 ==>
      |r.value| == if limit < |Candidates(s.patterns, features, docType).value| then limit
                   else |Candidates(s.patterns, features, docType).value|
  {
    match Candidates(s.patterns, features, docType)
    case Raised => Raised
    case Done(c) =>
      var r := PySlice(SortDesc(c, ScoreOf), limit);
      BestSlice(c, limit, ScoreOf);
      forall i | 0 <= i < |r| ensures r[i] in c {
        assert r[i] in r;
      }
      Done(r)
  }

  /** The top of a sequence by descending key: sorted, drawn from it without
      repetition, and as many as the limit allows. */
  lemma BestSlice<T>(c: seq<T>, limit: int, key: T -> real)
    ensures SortedDesc(PySlice(SortDesc(c, key), limit), key)
    ensures multiset(PySlice(SortDesc(c, key), limit)) <= multiset(c)
    ensures forall x :: x in PySlice(SortDesc(c, key), limit) ==> x in c
    ensures limit >= 0 ==> |PySlice(SortDesc(c, key), limit)| == if limit < |c| then limit else |c|
  {
    var sorted := SortDesc(c, key);
    var r := PySlice(sorted, limit);
    PrefixSorted(sorted, |r|, key);
    assert sorted == r + sorted[|r|..];
    assert multiset(sorted) == multiset(r) + multiset(sorted[|r|..]);
    forall x | x in r ensures x in c {
      assert x in multiset(r);
      assert x in multiset(c);
    }
  }

  /** With room for all of them, every stored pattern of the type that scores
      above one half is returned. */
  lemma {:induction false} CandidateFound(patterns: Dict<StoredPattern>, features: Dict<Value>,
                                          docType: string, i: nat)
    requires i < |patterns| && OfType(patterns[i].1, docType)
    requires Candidates(patterns, features, docType).Done?
    ensures MatchOf(patterns[i].0, patterns[i].1, features).Done?
    ensures MatchOf(patterns[i].0, patterns[i].1, features).value != [] ==>
      MatchOf(patterns[i].0, patterns[i].1, features).value[0] in Candidates(patterns, features, docType).value
  {
    var here := if OfType(patterns[0].1, docType) then MatchOf(patterns[0].0, patterns[0].1, features)
                else Done([]);
    if i > 0 {
      CandidateFound(patterns[1..], features, docType, i - 1);
      assert patterns[1..][i - 1] == patterns[i];
    }
  }

  /** The search puts the best candidate first: with room for one match, it
      returns at least one, scoring at least as high as any candidate. */
  lemma SearchLeadsWithBest(patterns: Dict<StoredPattern>, features: Dict<Value>, docType: string,
                            limit: int, m: Match)
    requires Candidates(patterns, features, docType).Done?
    requires m in Candidates(patterns, features, docType).value
    requires limit >= 1
    ensures forall s: Store :: s.patterns == patterns ==>
      SearchSimilar(s, features, docType, limit).value != []
      && SearchSimilar(s, features, docType, limit).value[0].score >= m.score
  {
    var c := Candidates(patterns, features, docType).value;
    var sorted := SortDesc(c, ScoreOf);
    assert m in multiset(sorted);
    var j :| 0 <= j < |sorted| && sorted[j] == m;
    assert sorted[0].score >= sorted[j].score;
    forall s: Store | s.patterns == patterns
      ensures SearchSimilar(s, features, docType, limit).value == PySlice(sorted, limit)
    {
    }
  }
}

=== FILE: normalization.dfy ===
/** The value normalizers of `backend/app/utils/normalization.py`: amounts
    to numbers, names to capitalised words, account and phone numbers to
    digit strings, percentages to fractions and loose values to booleans.
    Floats are exact reals here. */
module Normalization {
  import opened Base
  import opened Json

  // ---------------------------------------------------------- normalize_amount

  /** The characters `[\d.-]` that survive the amount cleaning. */
  predicate IsAmountChar(c: char) { IsDigit(c) || c == '.' || c == '-' }

  function Pow10(n: nat): (r: real)
    ensures r >= 1.0
  {
    if n == 0 then 1.0 else 10.0 * Pow10(n - 1)
  }

  /** Digits with at most one decimal point and at least one digit. */
  function ParseUnsigned(u: string): (r: Option<real>)
    ensures r.Some? ==> r.value >= 0.0
  {
    match IndexOf(u, '.')
    case None =>
      if u != [] && AllDigits(u) then Some(DigitsToNat(u) as real) else None
    case Some(k) =>
      var whole := u[..k];
      var frac := u[k + 1..];
      if AllDigits(whole) && AllDigits(frac) && |whole| + |frac| >= 1 then
        Some(DecimalValue(whole, frac))
      else None
  }

  /** The value of the numeral `whole.frac`. */
  function DecimalValue(whole: string, frac: string): (r: real)
    requires AllDigits(whole) && AllDigits(frac)
    ensures r >= 0.0
  {
    DigitsToNat(whole) as real + DigitsToNat(frac) as real / Pow10(|frac|)
  }

  /** `float(t)` on text over the alphabet `[0-9.-]`: an optional minus sign,
      then digits with at most one decimal point. Anything else raises
      `ValueError`, which is `None` here. */
  function ParseDecimal(t: string): (r: Option<real>)
    ensures r.Some? && r.value < 0.0 ==> |t| > 0 && t[0] == '-'
  {
    if t != [] && t[0] == '-' then
      match ParseUnsigned(t[1..])
      case Some(x) => Some(-x)
      case None => None
    else ParseUnsigned(t)
  }

  /** A number needs at least one digit. */
  lemma ParseDecimalNeedsDigit(t: string)
    requires forall i :: 0 <= i < |t| ==> !IsDigit(t[i])
    ensures ParseDecimal(t).None?
  {
    if t != [] && t[0] == '-' {
      ParseUnsignedNeedsDigit(t[1..]);
    } else {
      ParseUnsignedNeedsDigit(t);
    }
  }

  lemma ParseUnsignedNeedsDigit(u: string)
    requires forall i :: 0 <= i < |u| ==> !IsDigit(u[i])
    ensures ParseUnsigned(u).None?
  {
    match IndexOf(u, '.')
    case None =>
      if u != [] {
        assert !IsDigit(u[0]);
      }
    case Some(k) =>
      var whole := u[..k];
      var frac := u[k + 1..];
      if |whole| > 0 {
        assert !IsDigit(whole[0]);
      } else if |frac| > 0 {
        assert frac[0] == u[k + 1];
      }
  }

  /** The decimal rendering of a whole number parses back to it, with or without a minus sign. */
  lemma ParseDecimalWhole(n: nat)
    ensures ParseDecimal(NatToString(n)) == Some(n as real)
    ensures ParseDecimal("-" + NatToString(n)) == Some(-(n as real))
  {
    var s := NatToString(n);
    NatToStringRoundTrip(n);
    assert IndexOf(s, '.').None?;
    assert ("-" + s)[1..] == s;
  }

  /** `whole.frac` parses to the whole part plus the fraction scaled by its number of digits. */
  lemma ParseDecimalFraction(whole: string, frac: string)
    requires AllDigits(whole) && AllDigits(frac) && |whole| + |frac| >= 1
    ensures ParseDecimal(whole + "." + frac)
         == Some(DecimalValue(whole, frac))
  {
    var t := whole + "." + frac;
    ParseUnsignedFraction(whole, frac);
    if |whole| > 0 {
      assert t[0] == whole[0];
    } else {
      assert t[0] == '.';
    }
  }

  lemma ParseUnsignedFraction(whole: string, frac: string)
    requires AllDigits(whole) && AllDigits(frac) && |whole| + |frac| >= 1
    ensures ParseUnsigned(whole + "." + frac)
         == Some(DecimalValue(whole, frac))
  {
    var t := whole + "." + frac;
    assert '.' !in whole;
    IndexOfAfter(whole, '.', frac);
    assert t[|whole| + 1..] == frac;
    assert t[..|whole|] == whole;
  }

  /** `re.sub(r'[^\d\.\-]', '', s.strip())` */
  function CleanAmount(s: string): (r: string)
    ensures forall i :: 0 <= i < |r| ==> IsAmountChar(r[i])
  {
    Filter(Strip(s), IsAmountChar)
  }

  /** `normalize_amount`: `None` is 0, numbers (booleans included) are
      themselves, strings are cleaned and parsed with 0 on failure, and
      anything else, which `float()` rejects, is 0. */
  function NormalizeAmount(v: Value): (r: real)
    ensures IsNumeric(v) ==> r == NumericValue(v)
    ensures !v.Str? && !IsNumeric(v) ==> r == 0.0
    ensures v.Str? && ParseDecimal(CleanAmount(v.s)).None? ==> r == 0.0
    ensures v.Str? && ParseDecimal(CleanAmount(v.s)).Some? ==> r == ParseDecimal(CleanAmount(v.s)).value
  {
    match v
    case Null => 0.0
    case Bool(b) => if b then 1.0 else 0.0
    case Num(n) => n
    case Str(s) => ParseDecimal(CleanAmount(s)).GetOr(0.0)
    case Arr(_) => 0.0
    case Obj(_) => 0.0
  }

  /** Only the digits, points and minus signs of a string decide its amount. */
  lemma AmountIgnoresDecoration(s: string, s': string)
    requires Filter(s, IsAmountChar) == Filter(s', IsAmountChar)
    ensures NormalizeAmount(Str(s)) == NormalizeAmount(Str(s'))
  {
    FilterStrip(s, IsAmountChar);
    FilterStrip(s', IsAmountChar);
  }

  /** Cleaning an amount string first changes nothing. */
  lemma AmountCleanIdempotent(s: string)
    ensures NormalizeAmount(Str(CleanAmount(s))) == NormalizeAmount(Str(s))
  {
    var c := CleanAmount(s);
    FilterStrip(s, IsAmountChar);
    FilterTwice(s, IsAmountChar);
    AmountIgnoresDecoration(c, s);
  }

  /** A string without a single digit is worth nothing. */
  lemma AmountWithoutDigits(s: string)
    requires forall i :: 0 <= i < |s| ==> !IsDigit(s[i])
    ensures NormalizeAmount(Str(s)) == 0.0
  {
    var c := CleanAmount(s);
    FilterStrip(s, IsAmountChar);
    FilterChars(s, IsAmountChar, c => !IsDigit(c));
    ParseDecimalNeedsDigit(c);
  }

  // ------------------------------------------------------ normalize_percentage

  /** `normalize_percentage`: falsy values are 0, numbers are divided by 100,
      anything else is rendered with `str`, cleaned and parsed like an amount. */
  function NormalizePercentage(v: Value, show: Value -> string): (r: real)
    ensures !Truthy(v) ==> r == 0.0
    ensures IsNumeric(v) ==> r == NumericValue(v) / 100.0
  {
    if !Truthy(v) then 0.0
    else if IsNumeric(v) then NumericValue(v) / 100.0
    else match ParseDecimal(CleanAmount(Text(v, show)))
      case Some(x) => x / 100.0
      case None => 0.0
  }

  /** For everything but lists and objects a percentage is the amount divided by 100. */
  lemma PercentageIsAmountOverHundred(v: Value, show: Value -> string)
    requires !v.Arr? && !v.Obj?
    ensures NormalizePercentage(v, show) == NormalizeAmount(v) / 100.0
  {
    if v.Str? && v.s == [] {
      ParseDecimalNeedsDigit(CleanAmount(v.s));
    }
  }

  // ------------------------------------------------------------ normalize_name

  predicate IsWord(w: string) {
    w != [] && forall i :: 0 <= i < |w| ==> !IsSpace(w[i])
  }

  /** Length of the run of non-whitespace characters that starts `s`. */
  function WordLen(s: string): (r: nat)
    ensures r <= |s|
    ensures forall i :: 0 <= i < r ==> !IsSpace(s[i])
    ensures r < |s| ==> IsSpace(s[r])
  {
    if s == [] || IsSpace(s[0]) then 0 else 1 + WordLen(s[1..])
  }

  /** `s.split()`: the maximal runs of non-whitespace characters, in order. */
  function SplitWords(s: string): (r: seq<string>)
    ensures forall i :: 0 <= i < |r| ==> IsWord(r[i])
    decreases |s|
  {
    if s == [] then []
    else if IsSpace(s[0]) then SplitWords(s[1..])
    else
      var n := WordLen(s);
      [s[..n]] + SplitWords(s[n..])
  }

  /** `" ".join(ws)` */
  function JoinWords(ws: seq<string>): string {
    if ws == [] then [] else if |ws| == 1 then ws[0] else ws[0] + " " + JoinWords(ws[1..])
  }

  lemma {:induction false} WordLenOfWord(w: string, rest: string)
    requires forall i :: 0 <= i < |w| ==> !IsSpace(w[i])
    requires rest == [] || IsSpace(rest[0])
    ensures WordLen(w + rest) == |w|
    decreases |w|
  {
    if w != [] {
      assert (w + rest)[1..] == w[1..] + rest;
      WordLenOfWord(w[1..], rest);
    } else {
      assert w + rest == rest;
    }
  }

  /** Splitting a single-spaced join of words gives the words back. */
  lemma {:induction false} SplitJoin(ws: seq<string>)
    requires forall i :: 0 <= i < |ws| ==> IsWord(ws[i])
    ensures SplitWords(JoinWords(ws)) == ws
  {
    if |ws| == 1 {
      WordLenOfWord(ws[0], []);
      assert ws[0] + [] == ws[0];
      assert ws[0][|ws[0]|..] == [];
    } else if |ws| > 1 {
      var w := ws[0];
      var rest := JoinWords(ws[1..]);
      var s := w + " " + rest;
      WordLenOfWord(w, " " + rest);
      assert s == w + (" " + rest);
      assert s[..|w|] == w;
      assert s[|w|..] == " " + rest;
      assert (" " + rest)[1..] == rest;
      SplitJoin(ws[1..]);
    }
  }

  /** Every character of a joined text is a character of a word or the space. */
  lemma {:induction false} JoinWordsChars(ws: seq<string>, p: char -> bool)
    requires p(' ')
    requires forall i, j :: 0 <= i < |ws| && 0 <= j < |ws[i]| ==> p(ws[i][j])
    ensures forall k :: 0 <= k < |JoinWords(ws)| ==> p(JoinWords(ws)[k])
  {
    if |ws| > 1 {
      JoinWordsChars(ws[1..], p);
      var w := ws[0];
      var rest := JoinWords(ws[1..]);
      forall k | 0 <= k < |JoinWords(ws)|
        ensures p(JoinWords(ws)[k])
      {
        if k < |w| {
          assert JoinWords(ws)[k] == ws[0][k];
        } else if k > |w| {
          assert JoinWords(ws)[k] == rest[k - |w| - 1];
        }
      }
    } else if |ws| == 1 {
      assert forall k :: 0 <= k < |ws[0]| ==> p(ws[0][k]);
    }
  }

  /** A join of words neither starts nor ends with whitespace. */
  lemma {:induction false} JoinWordsEnds(ws: seq<string>)
    requires forall i :: 0 <= i < |ws| ==> IsWord(ws[i])
    ensures JoinWords(ws) == [] <==> ws == []
    ensures JoinWords(ws) != [] ==> !IsSpace(JoinWords(ws)[0]) && !IsSpace(JoinWords(ws)[|JoinWords(ws)| - 1])
  {
    if |ws| > 1 {
      JoinWordsEnds(ws[1..]);
    }
  }

  /** Characters of the words of `s` are characters of `s`. */
  lemma {:induction false} SplitWordsChars(s: string, p: char -> bool)
    requires forall k :: 0 <= k < |s| ==> p(s[k])
    ensures forall i, j :: 0 <= i < |SplitWords(s)| && 0 <= j < |SplitWords(s)[i]| ==> p(SplitWords(s)[i][j])
    decreases |s|
  {
    if s != [] {
      if IsSpace(s[0]) {
        SplitWordsChars(s[1..], p);
      } else {
        var n := WordLen(s);
        SplitWordsChars(s[n..], p);
        var r := SplitWords(s);
        assert r == [s[..n]] + SplitWords(s[n..]);
        forall i, j | 0 <= i < |r| && 0 <= j < |r[i]|
          ensures p(r[i][j])
        {
          if i == 0 {
            assert r[i][j] == s[j];
          } else {
            assert r[i] == SplitWords(s[n..])[i - 1];
          }
        }
      }
    }
  }

  /** The characters `normalize_name` keeps: letters, whitespace, `-` and `.`. */
  predicate IsNameChar(c: char) { IsLetter(c) || IsSpace(c) || c == '-' || c == '.' }

  /** `str.capitalize()`: the first character upper case, the rest lower case. */
  function Capitalize(w: string): (r: string)
    ensures |r| == |w|
  {
    if w == [] then [] else [UpperChar(w[0])] + Lower(w[1..])
  }

  function CapitalizeAll(ws: seq<string>): (r: seq<string>)
    ensures |r| == |ws|
    ensures forall i :: 0 <= i < |ws| ==> r[i] == Capitalize(ws[i])
  {
    if ws == [] then [] else [Capitalize(ws[0])] + CapitalizeAll(ws[1..])
  }

  /** A word as `normalize_name` leaves it: name characters only, already capitalised. */
  predicate IsNameWord(w: string) {
    IsWord(w) && (forall i :: 0 <= i < |w| ==> IsNameChar(w[i])) && Capitalize(w) == w
  }

  lemma CapitalizeNameWord(w: string)
    requires IsWord(w) && forall i :: 0 <= i < |w| ==> IsNameChar(w[i])
    ensures IsNameWord(Capitalize(w))
  {
    var c := Capitalize(w);
    var tail := Lower(w[1..]);
    assert c == [UpperChar(w[0])] + tail;
    assert c[1..] == tail;
    LowerTwice(w[1..]);
    CaseKeepsNameChar(w[0]);
    assert Capitalize(c) == [UpperChar(c[0])] + Lower(c[1..]);
    forall i | 0 <= i < |c|
      ensures IsNameChar(c[i]) && !IsSpace(c[i])
    {
      CaseKeepsNameChar(w[i]);
      if i > 0 {
        assert c[i] == tail[i - 1];
      }
    }
  }

  /** Changing the case of a name character keeps it a non-blank name character. */
  lemma CaseKeepsNameChar(x: char)
    requires IsNameChar(x) && !IsSpace(x)
    ensures IsNameChar(UpperChar(x)) && !IsSpace(UpperChar(x))
    ensures IsNameChar(LowerChar(x)) && !IsSpace(LowerChar(x))
    ensures UpperChar(UpperChar(x)) == UpperChar(x)
  {
  }

  /** Capitalising the words of a text made of name characters gives name words that split back apart. */
  lemma NameWords(kept: string)
    requires forall k :: 0 <= k < |kept| ==> IsNameChar(kept[k])
    ensures forall i :: 0 <= i < |CapitalizeAll(SplitWords(kept))| ==> IsNameWord(CapitalizeAll(SplitWords(kept))[i])
    ensures SplitWords(JoinWords(CapitalizeAll(SplitWords(kept)))) == CapitalizeAll(SplitWords(kept))
  {
    var parts := SplitWords(kept);
    var ws := CapitalizeAll(parts);
    SplitWordsChars(kept, IsNameChar);
    forall i | 0 <= i < |ws|
      ensures IsNameWord(ws[i])
    {
      CapitalizeNameWord(parts[i]);
    }
    SplitJoin(ws);
  }

  /** `normalize_name`: collapse whitespace, drop everything but letters,
      spaces, `-` and `.`, then capitalise each word and join with single spaces. */
  function NormalizeName(s: string): (r: string)
    ensures r == JoinWords(SplitWords(r))
    ensures forall i :: 0 <= i < |SplitWords(r)| ==> IsNameWord(SplitWords(r)[i])
  {
    if s == [] then []
    else
      var collapsed := JoinWords(SplitWords(Strip(s)));
      var kept := Filter(collapsed, IsNameChar);
      NameWords(kept);
      JoinWords(CapitalizeAll(SplitWords(kept)))
  }

  /** A normalised name is its own normalisation. */
  lemma NormalizeNameIdempotent(s: string)
    ensures NormalizeName(NormalizeName(s)) == NormalizeName(s)
  {
    var r := NormalizeName(s);
    if r != [] {
      var ws := SplitWords(r);
      JoinWordsEnds(ws);
      StripUnpadded(r);
      assert JoinWords(SplitWords(Strip(r))) == r;
      NameCharsOnly(ws);
      FilterKeepsAll(r, IsNameChar);
      NameWordsCapitalized(ws);
      assert NormalizeName(r) == JoinWords(CapitalizeAll(ws));
    }
  }

  /** Text joined from name words holds name characters only. */
  lemma NameCharsOnly(ws: seq<string>)
    requires forall i :: 0 <= i < |ws| ==> IsNameWord(ws[i])
    ensures forall k :: 0 <= k < |JoinWords(ws)| ==> IsNameChar(JoinWords(ws)[k])
  {
    forall i, j | 0 <= i < |ws| && 0 <= j < |ws[i]|
      ensures IsNameChar(ws[i][j])
    {
      assert IsNameWord(ws[i]);
    }
    JoinWordsChars(ws, IsNameChar);
  }

  /** Capitalising name words changes nothing. */
  lemma NameWordsCapitalized(ws: seq<string>)
    requires forall i :: 0 <= i < |ws| ==> IsNameWord(ws[i])
    ensures CapitalizeAll(ws) == ws
  {
    var c := CapitalizeAll(ws);
    forall i | 0 <= i < |ws|
      ensures c[i] == ws[i]
    {
      assert IsNameWord(ws[i]);
    }
  }

  // -------------------------------------------------- normalize_account_number

  /** `normalize_account_number`: every non-digit is removed. */
  function NormalizeAccountNumber(s: string): (r: string)
    ensures AllDigits(r) && |r| <= |s|
  {
    if s == [] then [] else Filter(s, IsDigit)
  }

  /** Cleaning works piece by piece: the number of a concatenation is the concatenation of the numbers. */
  lemma AccountNumberConcat(a: string, b: string)
    ensures NormalizeAccountNumber(a + b) == NormalizeAccountNumber(a) + NormalizeAccountNumber(b)
  {
    FilterAppend(a, b, IsDigit);
    if a == [] {
      assert a + b == b;
    }
    if b == [] {
      assert a + b == a;
    }
  }

  /** Digits survive unchanged, everything else vanishes. */
  lemma AccountNumberOfChar(c: char)
    ensures NormalizeAccountNumber([c]) == if IsDigit(c) then [c] else []
  {
  }

  lemma AccountNumberIdempotent(s: string)
    ensures NormalizeAccountNumber(NormalizeAccountNumber(s)) == NormalizeAccountNumber(s)
  {
    FilterKeepsAll(NormalizeAccountNumber(s), IsDigit);
  }

  // ---------------------------------------------------- normalize_phone_number

  predicate IsPhoneChar(c: char) { IsDigit(c) || c == '+' }

  /** `normalize_phone_number`: keep digits and `+`; a leading trunk `0` becomes the UK code `+44`. */
  function NormalizePhoneNumber(s: string): (r: string)
    ensures forall i :: 0 <= i < |r| ==> IsPhoneChar(r[i])
    ensures r == [] || r[0] != '0'
  {
    if s == [] then []
    else
      var cleaned := Filter(Strip(s), IsPhoneChar);
      if cleaned != [] && cleaned[0] == '0' then "+44" + cleaned[1..] else cleaned
  }

  /** A number written with a trunk zero is rewritten with the country code, whatever its punctuation. */
  lemma PhoneTrunkZero(s: string)
    requires Filter(s, IsPhoneChar) != [] && Filter(s, IsPhoneChar)[0] == '0'
    ensures NormalizePhoneNumber(s) == "+44" + Filter(s, IsPhoneChar)[1..]
  {
    FilterStrip(s, IsPhoneChar);
  }

  /** A normalised phone number is its own normalisation. */
  lemma NormalizePhoneIdempotent(s: string)
    ensures NormalizePhoneNumber(NormalizePhoneNumber(s)) == NormalizePhoneNumber(s)
  {
    var r := NormalizePhoneNumber(s);
    if r != [] {
      StripUnpadded(r);
      FilterKeepsAll(r, IsPhoneChar);
    }
  }

  // -------------------------------------------------------- normalize_boolean

  /** The words `normalize_boolean` reads as true. */
  predicate IsTrueToken(t: string) {
    t == "true" || t == "yes" || t == "y" || t == "1" || t == "t"
  }

  /** The words `normalize_boolean` reads as false. */
  predicate IsFalseToken(t: string) {
    t == "false" || t == "no" || t == "n" || t == "0" || t == "f"
  }

  /** `normalize_boolean`: booleans are themselves, strings are matched
      against the true and false words after lower-casing and stripping,
      and everything else falls back to Python truthiness. */
  function NormalizeBoolean(v: Value): (r: bool)
    ensures v.Bool? ==> r == v.b
    ensures v.Str? && IsTrueToken(Strip(Lower(v.s))) ==> r
    ensures v.Str? && IsFalseToken(Strip(Lower(v.s))) ==> !r
    ensures !v.Bool? && !(v.Str? && (IsTrueToken(Strip(Lower(v.s))) || IsFalseToken(Strip(Lower(v.s))))) ==> r == Truthy(v)
  {
    match v
    case Bool(b) => b
    case Str(s) =>
      var t := Strip(Lower(s));
      if IsTrueToken(t) then true
      else if IsFalseToken(t) then false
      else Truthy(v)
    case _ => Truthy(v)
  }

  /** Upper- and lower-case spellings mean the same. */
  lemma BooleanIgnoresCase(s: string)
    ensures NormalizeBoolean(Str(Lower(s))) == NormalizeBoolean(Str(s))
  {
    LowerTwice(s);
  }

  /** Python's own rendering of a boolean, `str(b)`, reads back as that boolean. */
  lemma BooleanOfRendering(b: bool)
    ensures NormalizeBoolean(Str(if b then "True" else "False")) == b
  {
    var s := if b then "True" else "False";
    var l := Lower(s);
    assert LowerChar('T') == 't' && LowerChar('F') == 'f';
    if b {
      assert l[0] == 't' && l[1..] == s[1..];
      assert l == "true";
    } else {
      assert l[0] == 'f' && l[1..] == s[1..];
      assert l == "false";
    }
    StripUnpadded(l);
  }
}

=== FILE: review.dfy ===
/** `review.py`: a reviewer's correction of one extracted field. The
    correction is recorded (old and new value as text), the field is written
    back into the extraction along its dotted path, and the correction is
    forwarded to the memory layer. The database and the memory layer are
    inputs: whether the document and its extraction exist, what the JSONPath
    lookup of the old value found, and whether `store_correction` raised. */
module Review {
  import opened Base
  import opened Dict
  import opened Json

  // ------------------------------------------------------ dotted-path update

  /** Reading `fields[p0][p1]...[pn]`; `None` when a key is missing or an
      intermediate value is not an object. */
  function GetPath(d: Dict<Value>, parts: seq<string>): (r: Option<Value>)
    requires |parts| >= 1
    ensures |parts| == 1 ==> r == Get(d, parts[0])
    decreases |parts|
  {
    match Get(d, parts[0])
    case None => None
    case Some(x) =>
      if |parts| == 1 then Some(x)
      else if x.Obj? then GetPath(x.fields, parts[1..])
      else None
  }

  /** The update can go through: every intermediate key on the path is
      either missing or holds an object. */
  predicate Writable(d: Dict<Value>, parts: seq<string>)
    requires |parts| >= 1
    decreases |parts|
  {
    |parts| == 1
    || match Get(d, parts[0])
       case None => true
       case Some(x) => x.Obj? && Writable(x.fields, parts[1..])
  }

  /** The nested objects the update builds below a missing key: `{p0: {p1: ... {pn: v}}}`. */
  function Nest(parts: seq<string>, v: Value): (r: Dict<Value>)
    requires |parts| >= 1
    ensures Keys(r) == [parts[0]]
    decreases |parts|
  {
    if |parts| == 1 then [(parts[0], v)] else [(parts[0], Obj(Nest(parts[1..], v)))]
  }

  /** The key path `q` leaves `parts` at some depth: the two agree on a
      common prefix and then name different keys. Such a path reads a
      sibling of the updated path, at the top level or inside one of the
      objects the update walks through. */
  predicate OffPath(q: seq<string>, parts: seq<string>)
    requires |q| >= 1 && |parts| >= 1
    decreases |parts|
  {
    q[0] != parts[0] || (|q| >= 2 && |parts| >= 2 && OffPath(q[1..], parts[1..]))
  }

  /** The loop of lines 65-71: walk the path, creating an empty dict for each
      missing intermediate key, then assign the last key. An intermediate
      value that is not a dict makes the subscript raise. */
  function SetPath(d: Dict<Value>, parts: seq<string>, v: Value): (r: Outcome<Dict<Value>>)
    requires |parts| >= 1
    ensures r.Done? <==> Writable(d, parts)
    ensures r.Done? ==> GetPath(r.value, parts) == Some(v)
    ensures r.Done? ==> forall k :: k != parts[0] ==> Get(r.value, k) == Get(d, k)
    ensures r.Done? ==> Keys(r.value) == if parts[0] in Keys(d) then Keys(d) else Keys(d) + [parts[0]]
    ensures r.Done? ==> forall q :: |q| >= 1 && OffPath(q, parts) ==> GetPath(r.value, q) == GetPath(d, q)
    decreases |parts|
  {
    if |parts| == 1 then
      LastKeyFrame(d, parts[0], v);
      Done(Put(d, parts[0], v))
    else
      match Get(d, parts[0])
      case None =>
        var inner := SetPath([], parts[1..], v);
        if inner.Raised? then Raised
        else
          InnerFrame(d, parts, [], inner.value);
          Done(Put(d, parts[0], Obj(inner.value)))
      case Some(x) =>
        if !x.Obj? then Raised
        else
          var inner := SetPath(x.fields, parts[1..], v);
          if inner.Raised? then Raised
          else
            InnerFrame(d, parts, x.fields, inner.value);
            Done(Put(d, parts[0], Obj(inner.value)))
  }

  /** Assigning the last key leaves every path through another key as it was. */
  lemma LastKeyFrame(d: Dict<Value>, k: string, v: Value)
    ensures forall q :: |q| >= 1 && OffPath(q, [k]) ==> GetPath(Put(d, k, v), q) == GetPath(d, q)
  {
    forall q | |q| >= 1 && OffPath(q, [k])
      ensures GetPath(Put(d, k, v), q) == GetPath(d, q)
    {
      OtherKeyFrame(d, k, v, q);
    }
  }

  /** A path through another first key does not see the assignment. */
  lemma OtherKeyFrame(d: Dict<Value>, k: string, v: Value, q: seq<string>)
    requires |q| >= 1 && q[0] != k
    ensures GetPath(Put(d, k, v), q) == GetPath(d, q)
  {
    assert Get(Put(d, k, v), q[0]) == Get(d, q[0]);
  }

  /** Replacing the object under the first key by one that keeps the inner
      off-path keys keeps every off-path key of the whole path. A missing
      first key reads as an empty object. */
  lemma InnerFrame(d: Dict<Value>, parts: seq<string>, before: Dict<Value>, after: Dict<Value>)
    requires |parts| >= 2
    requires Get(d, parts[0]) == Some(Obj(before)) || (Get(d, parts[0]).None? && before == [])
    requires forall q :: |q| >= 1 && OffPath(q, parts[1..]) ==> GetPath(after, q) == GetPath(before, q)
    ensures forall q :: |q| >= 1 && OffPath(q, parts) ==> GetPath(Put(d, parts[0], Obj(after)), q) == GetPath(d, q)
  {
    forall q | |q| >= 1 && OffPath(q, parts)
      ensures GetPath(Put(d, parts[0], Obj(after)), q) == GetPath(d, q)
    {
      if q[0] == parts[0] {
        assert |q| >= 2 && OffPath(q[1..], parts[1..]);
        InnerFrameAt(d, parts, before, after, q);
      } else {
        OtherKeyFrame(d, parts[0], Obj(after), q);
      }
    }
  }

  /** One path below the first key of `parts` that leaves it further down. */
  lemma InnerFrameAt(d: Dict<Value>, parts: seq<string>, before: Dict<Value>, after: Dict<Value>, q: seq<string>)
    requires |parts| >= 2 && |q| >= 2 && q[0] == parts[0] && OffPath(q[1..], parts[1..])
    requires Get(d, parts[0]) == Some(Obj(before)) || (Get(d, parts[0]).None? && before == [])
    requires GetPath(after, q[1..]) == GetPath(before, q[1..])
    ensures GetPath(Put(d, parts[0], Obj(after)), q) == GetPath(d, q)
  {
    assert GetPath(Put(d, parts[0], Obj(after)), q) == GetPath(after, q[1..]);
    if Get(d, parts[0]).None? {
      assert GetPath(before, q[1..]) == None;
    }
  }

  /** Setting `a.b` in `{"a": {"c": 1, "b": 0}}` keeps the sibling `a.c`. */
  lemma SiblingSurvives()
    ensures var d := [("a", Obj([("c", Num(1.0)), ("b", Num(0.0))]))];
      var r := SetPath(d, ["a", "b"], Num(7.0));
      r.Done? && GetPath(r.value, ["a", "b"]) == Some(Num(7.0)) && GetPath(r.value, ["a", "c"]) == Some(Num(1.0))
  {
    var d := [("a", Obj([("c", Num(1.0)), ("b", Num(0.0))]))];
    assert GetPath(d, ["a", "c"]) == Some(Num(1.0));
    assert OffPath(["a", "c"], ["a", "b"]);
  }

  /** Below a missing key the update builds exactly the nested path and nothing else. */
  lemma {:induction false} SetPathOnEmpty(parts: seq<string>, v: Value)
    requires |parts| >= 1
    ensures SetPath([], parts, v) == Done(Nest(parts, v))
    decreases |parts|
  {
    if |parts| > 1 {
      SetPathOnEmpty(parts[1..], v);
    }
  }

  /** A missing intermediate key receives a fresh object holding the rest of the path. */
  lemma CreatesIntermediates(d: Dict<Value>, parts: seq<string>, v: Value)
    requires |parts| >= 2 && Get(d, parts[0]).None?
    ensures SetPath(d, parts, v) == Done(Put(d, parts[0], Obj(Nest(parts[1..], v))))
  {
    SetPathOnEmpty(parts[1..], v);
  }

  /** Lines 63-73: a field name with a dot is a path, one without is a top-level key. */
  function UpdateField(fields: Dict<Value>, field: string, v: Value): (r: Outcome<Dict<Value>>)
    ensures '.' !in field ==> r.Done? && Get(r.value, field) == Some(v)
    ensures '.' !in field ==> forall k :: k != field ==> Get(r.value, k) == Get(fields, k)
    ensures r.Done? ==> GetPath(r.value, SplitOn(field, '.')) == Some(v)
    ensures r.Done? ==> forall q :: |q| >= 1 && OffPath(q, SplitOn(field, '.')) ==> GetPath(r.value, q) == GetPath(fields, q)
  {
    if '.' in field then SetPath(fields, SplitOn(field, '.'), v)
    else
      assert SplitOn(field, '.') == [field];
      Done(Put(fields, field, v))
  }

  /** The two branches agree: a dot-free name is a path of one key. */
  lemma UpdateFieldIsSetPath(fields: Dict<Value>, field: string, v: Value)
    ensures UpdateField(fields, field, v) == SetPath(fields, SplitOn(field, '.'), v)
  {
    if '.' !in field {
      assert SplitOn(field, '.') == [field];
    }
  }

  /** The write-back fails exactly when an intermediate value on the path is not an object. */
  lemma UpdateFieldRaises(fields: Dict<Value>, field: string, v: Value)
    ensures UpdateField(fields, field, v).Raised? <==> !Writable(fields, SplitOn(field, '.'))
  {
    UpdateFieldIsSetPath(fields, field, v);
  }

  // ------------------------------------------------------ correction record

  /** The request body; `Null` stands for an absent or `None` old value. */
  datatype CorrectionRequest = CorrectionRequest(field: string, oldValue: Value, newValue: Value)

  /** The stored `Correction` row. */
  datatype CorrectionRecord = CorrectionRecord(documentId: string, fieldPath: string, oldValue: Option<string>,
                                               newValue: string, correctedBy: string)

  /** Lines 35-45: the given old value, else the first JSONPath match, else
      none; `matches` is `Raised` when parsing or searching raised. */
  function OldValue(given: Value, matches: Outcome<seq<Value>>): (r: Value)
    ensures given != Null ==> r == given
    ensures given == Null && matches.Done? && matches.value != [] ==> r == matches.value[0]
    ensures r != Null ==> r == given || (matches.Done? && r in matches.value)
  {
    if given != Null then given
    else if matches.Done? && matches.value != [] then matches.value[0]
    else Null
  }

  /** Lines 48-55: both values are stored as their `str`, the old one only when there is one. */
  function MakeRecord(documentId: string, c: CorrectionRequest, matches: Outcome<seq<Value>>,
                      show: Value -> string): (r: CorrectionRecord)
    ensures r.documentId == documentId && r.fieldPath == c.field && r.correctedBy == "human_reviewer"
    ensures r.newValue == Text(c.newValue, show)
    ensures c.newValue.Str? ==> r.newValue == c.newValue.s
    ensures r.oldValue.None? <==> OldValue(c.oldValue, matches) == Null
    ensures c.oldValue != Null ==> r.oldValue == Some(Text(c.oldValue, show))
  {
    var previous := OldValue(c.oldValue, matches);
    CorrectionRecord(documentId, c.field, if previous == Null then None else Some(Text(previous, show)),
                     Text(c.newValue, show), "human_reviewer")
  }

  /** A recorded old value is the text of the request's old value or of one of the lookup's matches. */
  lemma RecordedOldValueSource(documentId: string, c: CorrectionRequest, matches: Outcome<seq<Value>>,
                               show: Value -> string)
    ensures var r := MakeRecord(documentId, c, matches, show);
      r.oldValue.Some? ==>
        (c.oldValue != Null && r.oldValue.value == Text(c.oldValue, show))
        || (c.oldValue == Null && matches.Done? && matches.value != [] && r.oldValue.value == Text(matches.value[0], show))
  {
  }

  // ------------------------------------------------------------- submission

  /** The response: `CorrectionResponse` with the stored record and the
      updated fields, or the HTTP status of the error. */
  datatype Response =
    | Accepted(record: CorrectionRecord, fields: Dict<Value>, sentToMemory: bool)
    | HttpError(status: nat)

  /** What the database and the memory layer report for one submission. */
  datatype Backend = Backend(documentExists: bool, extraction: Option<Dict<Value>>,
                             matches: Outcome<seq<Value>>, storeRaises: bool)

  /** Both the document and its extraction were found. */
  predicate Found(b: Backend) {
    b.documentExists && b.extraction.Some?
  }

  /** The steps after both lookups succeeded, shared by both versions below. */
  function Apply(documentId: string, c: CorrectionRequest, fields: Dict<Value>, b: Backend,
                 show: Value -> string): (r: Response)
    ensures r.Accepted? <==> UpdateField(fields, c.field, c.newValue).Done?
    ensures r.HttpError? ==> r.status == 500
    ensures r.Accepted? ==> (r.sentToMemory <==> !b.storeRaises)
    ensures r.Accepted? ==> r.fields == UpdateField(fields, c.field, c.newValue).value
    ensures r.Accepted? ==> r.record == MakeRecord(documentId, c, b.matches, show)
  {
    var record := MakeRecord(documentId, c, b.matches, show);
    match UpdateField(fields, c.field, c.newValue)
    case Raised => HttpError(500)
    case Done(updated) => Accepted(record, updated, !b.storeRaises)
  }

  /** `submit_human_correction` as written: the 404 and 400 raised inside the
      `try` are caught by its `except Exception` and re-raised as 500. */
  function SubmitCorrectionAsWritten(documentId: string, c: CorrectionRequest, b: Backend,
                                     show: Value -> string): (r: Response)
    ensures r.HttpError? ==> r.status == 500
    ensures r.Accepted? <==> Found(b) && UpdateField(b.extraction.value, c.field, c.newValue).Done?
  {
    if !b.documentExists then HttpError(500)
    else if b.extraction.None? then HttpError(500)
    else Apply(documentId, c, b.extraction.value, b, show)
  }

  /** A missing document is reported as a server error, not as not found. */
  lemma MissingDocumentIsServerError(documentId: string, c: CorrectionRequest, b: Backend, show: Value -> string)
    requires !b.documentExists
    ensures SubmitCorrectionAsWritten(documentId, c, b, show) == HttpError(500)
    ensures SubmitCorrectionAsWritten(documentId, c, b, show) != HttpError(404)
  {
  }

  /** `submit_human_correction` with the HTTP errors passed through, as the
      status codes at lines 24 and 32 intend. */
  function SubmitCorrection(documentId: string, c: CorrectionRequest, b: Backend,
                            show: Value -> string): (r: Response)
    ensures !b.documentExists <==> r == HttpError(404)
    ensures b.documentExists && b.extraction.None? <==> r == HttpError(400)
    ensures r.Accepted? <==> Found(b) && UpdateField(b.extraction.value, c.field, c.newValue).Done?
    ensures r.HttpError? ==> r.status in {400, 404, 500}
    ensures r.Accepted? ==> (r.sentToMemory <==> !b.storeRaises)
  {
    if !b.documentExists then HttpError(404)
    else if b.extraction.None? then HttpError(400)
    else Apply(documentId, c, b.extraction.value, b, show)
  }

  /** The two versions differ only in the status of the two lookup failures. */
  lemma SubmissionsAgreeOnceFound(documentId: string, c: CorrectionRequest, b: Backend, show: Value -> string)
    requires b.documentExists && b.extraction.Some?
    ensures SubmitCorrection(documentId, c, b, show) == SubmitCorrectionAsWritten(documentId, c, b, show)
  {
  }

  /** An accepted correction can be read back at its path, fields outside
      the path's first key are untouched, and so is every key that leaves
      the path deeper down. */
  lemma AcceptedCorrectionIsVisible(documentId: string, c: CorrectionRequest, b: Backend, show: Value -> string)
    requires SubmitCorrection(documentId, c, b, show).Accepted?
    ensures var r := SubmitCorrection(documentId, c, b, show);
      GetPath(r.fields, SplitOn(c.field, '.')) == Some(c.newValue)
      && (forall k :: k != SplitOn(c.field, '.')[0] ==> Get(r.fields, k) == Get(b.extraction.value, k))
      && forall q :: |q| >= 1 && OffPath(q, SplitOn(c.field, '.')) ==>
           GetPath(r.fields, q) == GetPath(b.extraction.value, q)
  {
    UpdateFieldIsSetPath(b.extraction.value, c.field, c.newValue);
  }
}

=== FILE: sorting.dfy ===
/** `sorted(xs, key=key, reverse=True)`: Python's sort is stable, and with
    `reverse=True` items with equal keys keep their original order. The sort
    is an insertion sort over sequences, proved ordered, a permutation of its
    input and stable. */
module Sorting {
  import opened Base

  predicate SortedDesc<T>(s: seq<T>, key: T -> real) {
    forall i, j :: 0 <= i < j < |s| ==> key(s[i]) >= key(s[j])
  }

  /** The items of `s` whose key is `k`, in order. */
  function WithKey<T>(s: seq<T>, key: T -> real, k: real): (r: seq<T>)
    ensures |r| <= |s|
  {
    if s == [] then []
    else (if key(s[0]) == k then [s[0]] else []) + WithKey(s[1..], key, k)
  }

  /** Place `x` in front of the first item whose key is not larger than its own. */
  function InsertDesc<T>(x: T, s: seq<T>, key: T -> real): (r: seq<T>)
    ensures |r| == |s| + 1
    ensures r[0] == x || (s != [] && r[0] == s[0])
  {
    if s == [] || key(s[0]) <= key(x) then [x] + s
    else [s[0]] + InsertDesc(x, s[1..], key)
  }

  /** Inserting adds exactly `x` to the items. */
  lemma {:induction false} InsertDescPermutes<T>(x: T, s: seq<T>, key: T -> real)
    ensures multiset(InsertDesc(x, s, key)) == multiset(s) + multiset{x}
  {
    if s != [] && key(s[0]) > key(x) {
      InsertDescPermutes(x, s[1..], key);
      assert s == [s[0]] + s[1..];
    }
  }

  lemma {:induction false} InsertDescSorted<T>(x: T, s: seq<T>, key: T -> real)
    requires SortedDesc(s, key)
    ensures SortedDesc(InsertDesc(x, s, key), key)
  {
    if s != [] && key(s[0]) > key(x) {
      var t := s[1..];
      assert SortedDesc(t, key) by {
        forall i, j | 0 <= i < j < |t|
          ensures key(t[i]) >= key(t[j])
        {
          assert t[i] == s[i + 1] && t[j] == s[j + 1];
        }
      }
      InsertDescSorted(x, t, key);
      var rest := InsertDesc(x, t, key);
      var r := [s[0]] + rest;
      assert key(rest[0]) <= key(s[0]) by {
        if t != [] {
          assert t[0] == s[1];
        }
      }
      forall i, j | 0 <= i < j < |r|
        ensures key(r[i]) >= key(r[j])
      {
        if i == 0 {
          assert key(rest[0]) >= key(rest[j - 1]);
        } else {
          assert r[i] == rest[i - 1] && r[j] == rest[j - 1];
        }
      }
    }
  }

  /** `WithKey` on a sequence with a given first item. */
  lemma WithKeyCons<T>(y: T, t: seq<T>, key: T -> real, k: real)
    ensures WithKey([y] + t, key, k) == (if key(y) == k then [y] else []) + WithKey(t, key, k)
  {
    assert ([y] + t)[1..] == t;
  }

  /** Inserting `x` puts it ahead of every item with an equal key. */
  lemma {:induction false} InsertDescWithKey<T>(x: T, s: seq<T>, key: T -> real, k: real)
    ensures WithKey(InsertDesc(x, s, key), key, k)
         == (if key(x) == k then [x] else []) + WithKey(s, key, k)
  {
    if s != [] && key(s[0]) > key(x) {
      var rest := InsertDesc(x, s[1..], key);
      InsertDescWithKey(x, s[1..], key, k);
      WithKeyCons(s[0], rest, key, k);
      WithKeyCons(s[0], s[1..], key, k);
      assert s == [s[0]] + s[1..];
    } else {
      WithKeyCons(x, s, key, k);
    }
  }

  /** The stable descending sort. */
  function SortDesc<T>(s: seq<T>, key: T -> real): (r: seq<T>)
    ensures |r| == |s|
    ensures multiset(r) == multiset(s)
    ensures SortedDesc(r, key)
  {
    if s == [] then []
    else
      var rest := SortDesc(s[1..], key);
      InsertDescSorted(s[0], rest, key);
      InsertDescPermutes(s[0], rest, key);
      assert s == [s[0]] + s[1..];
      InsertDesc(s[0], rest, key)
  }

  /** Stability: for every key, the items with that key appear in their original order. */
  lemma {:induction false} SortDescStable<T>(s: seq<T>, key: T -> real, k: real)
    ensures WithKey(SortDesc(s, key), key, k) == WithKey(s, key, k)
  {
    if s != [] {
      SortDescStable(s[1..], key, k);
      InsertDescWithKey(s[0], SortDesc(s[1..], key), key, k);
    }
  }

  /** A sequence already in descending order is left as it is. */
  lemma {:induction false} SortDescOfSorted<T>(s: seq<T>, key: T -> real)
    requires SortedDesc(s, key)
    ensures SortDesc(s, key) == s
  {
    if s != [] {
      var t := s[1..];
      assert SortedDesc(t, key) by {
        forall i, j | 0 <= i < j < |t|
          ensures key(t[i]) >= key(t[j])
        {
          assert t[i] == s[i + 1] && t[j] == s[j + 1];
        }
      }
      SortDescOfSorted(t, key);
      InsertAtFront(s[0], t, key);
      assert s == [s[0]] + t;
    }
  }

  /** An item at least as large as the first is inserted in front. */
  lemma InsertAtFront<T>(x: T, t: seq<T>, key: T -> real)
    requires t == [] || key(t[0]) <= key(x)
    ensures InsertDesc(x, t, key) == [x] + t
  {
  }

  /** Sorting loses no item. */
  lemma SortDescKeeps<T>(s: seq<T>, key: T -> real, x: T)
    requires x in s
    ensures x in SortDesc(s, key)
  {
    assert x in multiset(s);
  }

  /** An item of a sorted sequence that did not make it into a prefix has a
      key no larger than any item in the prefix. */
  lemma PrefixDominates<T>(s: seq<T>, n: nat, key: T -> real, e: T)
    requires SortedDesc(s, key) && n <= |s| && e in s
    requires forall i :: 0 <= i < n ==> s[i] != e
    ensures forall i :: 0 <= i < n ==> key(s[i]) >= key(e)
  {
    var j :| 0 <= j < |s| && s[j] == e;
    assert j >= n;
  }

  /** The first `n` items of the sort are at least as large as any item left out. */
  lemma SortedPrefixDominates<T>(s: seq<T>, key: T -> real, n: nat, e: T)
    requires e in s
    requires forall i :: 0 <= i < |Prefix(SortDesc(s, key), n)| ==> Prefix(SortDesc(s, key), n)[i] != e
    ensures forall i :: 0 <= i < |Prefix(SortDesc(s, key), n)| ==> key(Prefix(SortDesc(s, key), n)[i]) >= key(e)
  {
    var sorted := SortDesc(s, key);
    var r := Prefix(sorted, n);
    SortDescKeeps(s, key, e);
    assert forall i :: 0 <= i < |r| ==> r[i] == sorted[i];
    PrefixDominates(sorted, |r|, key, e);
  }

  /** The first `n` of the sort: ordered, drawn from `s` without repetition,
      and as many as `s` has up to `n`. */
  lemma TopOf<T>(s: seq<T>, key: T -> real, n: nat)
    ensures SortedDesc(Prefix(SortDesc(s, key), n), key)
    ensures multiset(Prefix(SortDesc(s, key), n)) <= multiset(s)
    ensures forall x :: x in Prefix(SortDesc(s, key), n) ==> x in s
    ensures |Prefix(SortDesc(s, key), n)| == if n < |s| then n else |s|
  {
    var sorted := SortDesc(s, key);
    var r := Prefix(sorted, n);
    PrefixSorted(sorted, |r|, key);
    assert sorted == r + sorted[|r|..];
    assert multiset(sorted) == multiset(r) + multiset(sorted[|r|..]);
    forall x | x in r ensures x in s {
      assert x in multiset(r);
      assert x in multiset(s);
    }
  }

  /** An item the first `n` of the sort left out: the prefix is full, and
      every item in it is at least as large. */
  lemma LeftOutOfTop<T>(s: seq<T>, key: T -> real, n: nat, e: T)
    requires e in s && e !in Prefix(SortDesc(s, key), n)
    ensures |Prefix(SortDesc(s, key), n)| == n
    ensures forall i :: 0 <= i < n ==> key(Prefix(SortDesc(s, key), n)[i]) >= key(e)
  {
    var r := Prefix(SortDesc(s, key), n);
    forall i | 0 <= i < |r| ensures r[i] != e {
      assert r[i] in r;
    }
    SortedPrefixDominates(s, key, n, e);
    SortDescKeeps(s, key, e);
    var j :| 0 <= j < |SortDesc(s, key)| && SortDesc(s, key)[j] == e;
    assert j >= |r|;
  }

  /** A prefix of a sorted sequence is sorted. */
  lemma PrefixSorted<T>(s: seq<T>, n: nat, key: T -> real)
    requires SortedDesc(s, key) && n <= |s|
    ensures SortedDesc(s[..n], key)
  {
  }
}

=== FILE: validation.dfy ===
/** The rule-based validator (`validation_service.py`): type-specific checks
    for bank statements, payslips and invoices, general checks that apply to
    every document, the simulated cross-document check, and the overall status.
    Amounts are `Decimal`s, modelled as exact reals; issue messages are not
    modelled, every other field of an issue is. */
module Validation {
  import opened Base
  import opened Dict
  import opened Json
  import opened Dates
  import opened DateNormalization
  import opened Sorting

  datatype Severity = Error | Warning | Info

  datatype Issue = Issue(code: string, severity: Severity, field: Option<string>,
                         expected: Option<real>, actual: Option<real>)

  datatype Status = Passed | PassedWithWarnings | NeedsReview | Failed

  /** What the validator takes from outside: `Decimal(s)` on a string (None
      when it raises `InvalidOperation`), the four `strptime` formats tried on
      transaction dates, the seven formats of `parse_date`, `str()` of a
      non-string value, and today's date. */
  datatype Env = Env(
    decimal: string -> Option<real>,
    transactionDate: string -> Option<CalendarDate>,
    parseDate: string -> Option<CalendarDate>,
    show: Value -> string,
    today: CalendarDate)

  function Plain(code: string, severity: Severity, field: string): Issue {
    Issue(code, severity, Some(field), None, None)
  }

  predicate NotComma(c: char) { c != ',' }

  /** `Decimal(str(v).replace(',', ''))`, None when it raises. A number renders
      as its own decimal text; `None`, booleans, lists and dicts render as text
      that is not a decimal. */
  function ToDecimal(v: Value, decimal: string -> Option<real>): (r: Option<real>)
    ensures v.Num? ==> r == Some(v.n)
    ensures r.Some? ==> v.Num? || v.Str?
  {
    match v
    case Num(n) => Some(n)
    case Str(s) => decimal(Filter(s, NotComma))
    case _ => None
  }

  /** Thousands separators never change the amount a string converts to. */
  lemma ToDecimalIgnoresCommas(s: string, decimal: string -> Option<real>)
    ensures ToDecimal(Str(s), decimal) == ToDecimal(Str(Filter(s, NotComma)), decimal)
  {
    FilterTwice(s, NotComma);
  }

  /** `re.search(r"\d{1,2}[/\-\.]\d{1,2}[/\-\.]\d{2,4}", s)` */
  predicate LooksLikeDate(s: string) {
    Search(s, DmyShape, 0, false).Some?
  }

  // ------------------------------------------------------------ bank statements

  /** `data.get("transactions", [])`, iterated (see `Records`). */
  function Transactions(data: Dict<Value>): (r: Outcome<seq<Value>>)
    ensures r == Done([]) <== Get(data, "transactions").None?
  {
    Records(Get(data, "transactions"))
  }

  /** `transaction.get("amount", 0)` converted, on a transaction that is a dict. */
  function AmountOf(tx: Value, decimal: string -> Option<real>): Option<real>
    requires tx.Obj?
  {
    ToDecimal(FieldOr(tx, "amount", Num(0.0)), decimal)
  }

  /** The balance loop: total credits and total debits, `Done(None)` when an
      amount does not convert (which ends the loop), `Raised` when a
      transaction is not a dict. */
  function Tally(txs: seq<Value>, decimal: string -> Option<real>): (r: Outcome<Option<(real, real)>>)
    ensures r.Done? && r.value.Some? ==> r.value.value.0 >= 0.0 && r.value.value.1 >= 0.0
  {
    if txs == [] then Done(Some((0.0, 0.0)))
    else if !txs[0].Obj? then Raised
    else
      match AmountOf(txs[0], decimal)
      case None => Done(None)
      case Some(a) =>
        match Tally(txs[1..], decimal)
        case Raised => Raised
        case Done(None) => Done(None)
        case Done(Some(t)) =>
          Done(Some(if a > 0.0 then (t.0 + a, t.1) else (t.0, t.1 + Abs(a))))
  }

  /** The amounts of all transactions, when every one is a dict whose amount converts. */
  function Amounts(txs: seq<Value>, decimal: string -> Option<real>): (r: Option<seq<real>>)
    ensures r.Some? ==> |r.value| == |txs|
  {
    if txs == [] then Some([])
    else if !txs[0].Obj? || AmountOf(txs[0], decimal).None? then None
    else
      match Amounts(txs[1..], decimal)
      case None => None
      case Some(rest) => Some([AmountOf(txs[0], decimal).value] + rest)
  }

  /** Credits minus debits is the sum of the signed amounts: the balance check
      completes exactly when every amount converts. */
  lemma {:induction false} TallyIsNet(txs: seq<Value>, decimal: string -> Option<real>)
    ensures Tally(txs, decimal).Done? && Tally(txs, decimal).value.Some?
        <==> Amounts(txs, decimal).Some?
    ensures Amounts(txs, decimal).Some? ==>
      Tally(txs, decimal).value.value.0 - Tally(txs, decimal).value.value.1
        == Sum(Amounts(txs, decimal).value)
  {
    if txs != [] && txs[0].Obj? && AmountOf(txs[0], decimal).Some? {
      TallyIsNet(txs[1..], decimal);
      var a := AmountOf(txs[0], decimal).value;
      if Amounts(txs[1..], decimal).Some? {
        SumAppend([a], Amounts(txs[1..], decimal).value);
        assert Sum([a]) == a by {
          assert [a][..0] == [];
        }
      }
    }
  }

  function BalanceCalculationError(): Issue {
    Issue("BALANCE_CALCULATION_ERROR", Warning, None, None, None)
  }

  /** The balance continuity check: it runs only when both balances are present. */
  function BalanceIssues(data: Dict<Value>, decimal: string -> Option<real>): (r: Outcome<seq<Issue>>)
    ensures r.Done? ==> |r.value| <= 1
    ensures !("opening_balance" in Keys(data) && "closing_balance" in Keys(data)) ==> r == Done([])
  {
    if !("opening_balance" in Keys(data) && "closing_balance" in Keys(data)) then Done([])
    else
      var opening := ToDecimal(Get(data, "opening_balance").value, decimal);
      var closing := ToDecimal(Get(data, "closing_balance").value, decimal);
      if opening.None? || closing.None? then Done([BalanceCalculationError()])
      else
        match Transactions(data)
        case Raised => Raised
        case Done(txs) => TransactionBalance(opening.value, closing.value, txs, decimal)
  }

  /** Lines 84-103, once both balances converted: tally the transactions,
      then compare. A transaction whose amount does not convert makes the
      check report that it could not calculate. */
  function TransactionBalance(opening: real, closing: real, txs: seq<Value>,
                              decimal: string -> Option<real>): (r: Outcome<seq<Issue>>)
    ensures r.Done? ==> |r.value| <= 1
  {
    match Tally(txs, decimal)
    case Raised => Raised
    case Done(None) => Done([BalanceCalculationError()])
    case Done(Some(t)) => Done(Continuity(opening, closing, t.0 - t.1))
  }

  /** The comparison itself: the closing balance against the opening balance
      plus the net movement, to the cent. */
  function Continuity(opening: real, closing: real, net: real): (r: seq<Issue>)
    ensures |r| <= 1
  {
    var expected := opening + net;
    if Abs(closing - expected) > 0.01 then
      [Issue("BALANCE_MISMATCH", Error, Some("closing_balance"), Some(expected), Some(closing))]
    else []
  }

  /** When every amount converts, the comparison is made against the sum of the signed amounts. */
  lemma TransactionBalanceOfAmounts(opening: real, closing: real, txs: seq<Value>,
                                    decimal: string -> Option<real>, amounts: seq<real>)
    requires Amounts(txs, decimal) == Some(amounts)
    ensures TransactionBalance(opening, closing, txs, decimal) == Done(Continuity(opening, closing, Sum(amounts)))
  {
    TallyIsNet(txs, decimal);
    var t := Tally(txs, decimal).value.value;
    assert Tally(txs, decimal) == Done(Some(t));
    assert t.0 - t.1 == Sum(amounts);
    assert TransactionBalance(opening, closing, txs, decimal) == Done(Continuity(opening, closing, t.0 - t.1));
  }

  /** Once both balances and every amount convert, the statement is flagged
      exactly when the closing balance is more than a cent away from the
      opening balance plus the signed amounts, and the issue carries both. */
  lemma BalanceMismatchIff(data: Dict<Value>, decimal: string -> Option<real>, opening: real, closing: real,
                           txs: seq<Value>, amounts: seq<real>)
    requires Get(data, "opening_balance").Some? && ToDecimal(Get(data, "opening_balance").value, decimal) == Some(opening)
    requires Get(data, "closing_balance").Some? && ToDecimal(Get(data, "closing_balance").value, decimal) == Some(closing)
    requires Transactions(data) == Done(txs) && Amounts(txs, decimal) == Some(amounts)
    ensures BalanceIssues(data, decimal)
         == if Abs(closing - (opening + Sum(amounts))) > 0.01
            then Done([Issue("BALANCE_MISMATCH", Error, Some("closing_balance"),
                             Some(opening + Sum(amounts)), Some(closing))])
            else Done([])
  {
    assert "opening_balance" in Keys(data) && "closing_balance" in Keys(data);
    assert BalanceIssues(data, decimal) == TransactionBalance(opening, closing, txs, decimal);
    TransactionBalanceOfAmounts(opening, closing, txs, decimal, amounts);
  }

  /** An opening balance of 100 with a credit of 50 and a debit of 20 should
      close at 130: a closing balance of 140 is a mismatch reported with the
      expected 130. */
  lemma BalanceMismatchExample(data: Dict<Value>, decimal: string -> Option<real>)
    requires Get(data, "opening_balance") == Some(Num(100.0))
    requires Get(data, "closing_balance") == Some(Num(140.0))
    requires Get(data, "transactions")
          == Some(Arr([Obj([("amount", Num(50.0))]), Obj([("amount", Num(-20.0))])]))
    ensures BalanceIssues(data, decimal)
         == Done([Issue("BALANCE_MISMATCH", Error, Some("closing_balance"), Some(130.0), Some(140.0))])
  {
    var txs := [Obj([("amount", Num(50.0))]), Obj([("amount", Num(-20.0))])];
    assert Transactions(data) == Done(txs);
    ExampleAmounts(txs, decimal);
    assert Sum([50.0, -20.0]) == 30.0;
    BalanceMismatchIff(data, decimal, 100.0, 140.0, txs, [50.0, -20.0]);
  }

  /** The amounts of the example statement: a credit of 50 and a debit of 20. */
  lemma ExampleAmounts(txs: seq<Value>, decimal: string -> Option<real>)
    requires txs == [Obj([("amount", Num(50.0))]), Obj([("amount", Num(-20.0))])]
    ensures Amounts(txs, decimal) == Some([50.0, -20.0])
  {
    var last := txs[1..];
    assert last[0] == txs[1] && last[1..] == [];
    var debit: Dict<Value> := [("amount", Num(-20.0))];
    assert Get(debit, "amount") == Some(Num(-20.0));
    assert txs[1] == Obj(debit);
    assert AmountOf(txs[1], decimal) == Some(-20.0);
    assert AmountOf(last[0], decimal) == Some(-20.0);
    assert Amounts(last[1..], decimal) == Some([]);
    assert [-20.0] + [] == [-20.0];
    assert Amounts(last, decimal) == Some([-20.0]);
    assert AmountOf(txs[0], decimal) == Some(50.0);
    assert Amounts(txs, decimal) == Some([50.0] + [-20.0]);
    assert [50.0] + [-20.0] == [50.0, -20.0];
  }

  /** With a closing balance of 130 the same statement balances. */
  lemma BalanceMatchExample(data: Dict<Value>, decimal: string -> Option<real>)
    requires Get(data, "opening_balance") == Some(Num(100.0))
    requires Get(data, "closing_balance") == Some(Num(130.0))
    requires Get(data, "transactions")
          == Some(Arr([Obj([("amount", Num(50.0))]), Obj([("amount", Num(-20.0))])]))
    ensures BalanceIssues(data, decimal) == Done([])
  {
    var txs := [Obj([("amount", Num(50.0))]), Obj([("amount", Num(-20.0))])];
    assert Transactions(data) == Done(txs);
    ExampleAmounts(txs, decimal);
    assert Sum([50.0, -20.0]) == 30.0;
    BalanceMismatchIff(data, decimal, 100.0, 130.0, txs, [50.0, -20.0]);
  }

  /** The date of a transaction dict, if it has a non-empty string date that
      parses; a non-string date makes `strptime` raise a `TypeError`, which
      the loop swallows. */
  function DateOf(tx: Value, parse: string -> Option<CalendarDate>): (r: seq<CalendarDate>)
    ensures |r| <= 1
  {
    match Field(tx, "date")
    case Some(Str(s)) =>
      if s == [] then [] else (match parse(s) case Some(d) => [d] case None => [])
    case _ => []
  }

  /** The dates of the transactions, in order; a transaction that is not a dict raises. */
  function TransactionDates(txs: seq<Value>, parse: string -> Option<CalendarDate>): (r: Outcome<seq<CalendarDate>>)
    ensures r.Done? ==> |r.value| <= |txs|
  {
    if txs == [] then Done([])
    else if !txs[0].Obj? then Raised
    else
      match TransactionDates(txs[1..], parse)
      case Raised => Raised
      case Done(rest) => Done(DateOf(txs[0], parse) + rest)
  }

  function NegOrdinal(d: CalendarDate): real {
    -(Ordinal(d) as real)
  }

  /** `sorted(dates)`: the ascending order, written as the stable descending
      sort on the negated day number. */
  function SortedDates(ds: seq<CalendarDate>): (r: seq<CalendarDate>)
    ensures multiset(r) == multiset(ds)
  {
    SortDesc(ds, NegOrdinal)
  }

  /** No date comes before an earlier-listed one. */
  predicate Chronological(ds: seq<CalendarDate>) {
    forall i, j :: 0 <= i < j < |ds| ==> !Before(ds[j], ds[i])
  }

  /** `dates != sorted(dates)` holds exactly when the dates are out of order. */
  lemma SequencingIffOutOfOrder(ds: seq<CalendarDate>)
    ensures ds != SortedDates(ds) <==> !Chronological(ds)
  {
    if Chronological(ds) {
      assert SortedDesc(ds, NegOrdinal) by {
        forall i, j | 0 <= i < j < |ds|
          ensures NegOrdinal(ds[i]) >= NegOrdinal(ds[j])
        {
          OrdinalOrder(ds[j], ds[i]);
        }
      }
      SortDescOfSorted(ds, NegOrdinal);
    } else if ds == SortedDates(ds) {
      assert SortedDesc(ds, NegOrdinal);
      forall i, j | 0 <= i < j < |ds|
        ensures !Before(ds[j], ds[i])
      {
        assert NegOrdinal(ds[i]) >= NegOrdinal(ds[j]);
        OrdinalOrder(ds[j], ds[i]);
      }
      assert false;
    }
  }

  /** `[d for d in dates if d > today]`: a transaction dated at midnight lies
      after the current moment exactly when its day lies after today. */
  function FutureDates(ds: seq<CalendarDate>, today: CalendarDate): (r: seq<CalendarDate>)
    ensures |r| <= |ds|
  {
    if ds == [] then []
    else (if Before(today, ds[0]) then [ds[0]] else []) + FutureDates(ds[1..], today)
  }

  lemma {:induction false} FutureDatesIffLater(ds: seq<CalendarDate>, today: CalendarDate)
    ensures FutureDates(ds, today) != [] <==> exists i :: 0 <= i < |ds| && Before(today, ds[i])
  {
    if ds != [] {
      FutureDatesIffLater(ds[1..], today);
      if exists i :: 0 <= i < |ds| && Before(today, ds[i]) {
        var i :| 0 <= i < |ds| && Before(today, ds[i]);
        if i > 0 {
          assert ds[1..][i - 1] == ds[i];
        }
      }
      if exists i :: 0 <= i < |ds| - 1 && Before(today, ds[1..][i]) {
        var i :| 0 <= i < |ds| - 1 && Before(today, ds[1..][i]);
        assert ds[i + 1] == ds[1..][i];
      }
    }
  }

  /** The sequencing and future-date warnings on the statement's dates. */
  function DateWarnings(ds: seq<CalendarDate>, today: CalendarDate): (r: seq<Issue>)
    ensures |r| <= 2
  {
    (if |ds| > 1 && ds != SortedDates(ds)
     then [Issue("DATE_SEQUENCING", Warning, None, None, None)] else [])
    + (if FutureDates(ds, today) != []
       then [Issue("FUTURE_DATE", Error, None, None, None)] else [])
  }

  /** The statement is flagged out of order exactly when its dates are, and
      flagged for future dates exactly when one lies after today. */
  lemma DateWarningsMeaning(ds: seq<CalendarDate>, today: CalendarDate)
    ensures Issue("DATE_SEQUENCING", Warning, None, None, None) in DateWarnings(ds, today)
        <==> !Chronological(ds)
    ensures Issue("FUTURE_DATE", Error, None, None, None) in DateWarnings(ds, today)
        <==> exists i :: 0 <= i < |ds| && Before(today, ds[i])
  {
    SequencingIffOutOfOrder(ds);
    FutureDatesIffLater(ds, today);
    if |ds| <= 1 {
      assert Chronological(ds);
    }
  }

  /** The dates the sequencing check sees, or `Raised` when the transactions
      cannot be read. */
  function StatementDates(data: Dict<Value>, env: Env): Outcome<seq<CalendarDate>> {
    match Transactions(data)
    case Raised => Raised
    case Done(txs) => TransactionDates(txs, env.transactionDate)
  }

  /** The sequencing and future-date checks; they run whether or not the
      balance check did. */
  function DateIssues(data: Dict<Value>, env: Env): (r: Outcome<seq<Issue>>)
    ensures r.Done? ==> |r.value| <= 2
  {
    match StatementDates(data, env)
    case Raised => Raised
    case Done(ds) => Done(DateWarnings(ds, env.today))
  }

  /** `validate_bank_statement`: the balance check, then the date checks. */
  function BankStatementIssues(data: Dict<Value>, env: Env): (r: Outcome<seq<Issue>>)
    ensures r.Done? <==> BalanceIssues(data, env.decimal).Done? && DateIssues(data, env).Done?
    ensures r.Done? ==> r.value == BalanceIssues(data, env.decimal).value + DateIssues(data, env).value
  {
    match BalanceIssues(data, env.decimal)
    case Raised => Raised
    case Done(balance) =>
      match DateIssues(data, env)
      case Raised => Raised
      case Done(dates) => Done(balance + dates)
  }

  // ------------------------------------------------------------------ payslips

  /** The pay plausibility checks: net above gross, and deductions above half of gross. */
  function PayIssues(data: Dict<Value>, decimal: string -> Option<real>): (r: seq<Issue>)
    ensures |r| <= 2
    ensures !("gross_pay" in Keys(data) && "net_pay" in Keys(data)) ==> r == []
    ensures forall i :: 0 <= i < |r| ==>
      r[i].code == "NET_EXCEEDS_GROSS" || r[i].code == "HIGH_DEDUCTION_RATIO" || r[i].code == "PAY_CALCULATION_ERROR"
  {
    if !("gross_pay" in Keys(data) && "net_pay" in Keys(data)) then []
    else
      var gross := ToDecimal(Get(data, "gross_pay").value, decimal);
      var net := ToDecimal(Get(data, "net_pay").value, decimal);
      if gross.None? || net.None? then [Issue("PAY_CALCULATION_ERROR", Warning, None, None, None)]
      else
        var g := gross.value;
        var n := net.value;
        (if n > g then [Issue("NET_EXCEEDS_GROSS", Error, Some("net_pay"), None, Some(n))] else [])
        + (if g > 0.0 && DeductionRatio(g, n) > 0.5
           then [Plain("HIGH_DEDUCTION_RATIO", Warning, "deductions")] else [])
  }

  function DeductionRatio(gross: real, net: real): real
    requires gross > 0.0
  {
    (gross - net) / gross
  }

  /** Deductions exceed half the gross pay exactly when net pay is below half of it. */
  lemma HighDeductionIffLowNet(gross: real, net: real)
    requires gross > 0.0
    ensures DeductionRatio(gross, net) > 0.5 <==> net < gross / 2.0
  {
    var q := DeductionRatio(gross, net);
    assert q * gross == gross - net;
    if q > 0.5 {
      ScaleStrict(q, 0.5, gross);
    } else {
      ScaleWeak(q, 0.5, gross);
    }
  }

  lemma ScaleStrict(a: real, b: real, g: real)
    requires g > 0.0 && a > b
    ensures a * g > b * g
  {
    assert a * g - b * g == (a - b) * g;
  }

  lemma ScaleWeak(a: real, b: real, g: real)
    requires g > 0.0 && a <= b
    ensures a * g <= b * g
  {
    assert b * g - a * g == (b - a) * g;
  }

  /** With both amounts readable, net pay above gross is reported as an error
      carrying the net pay, and deductions above half of a positive gross as a
      warning, in that order. */
  lemma PayIssuesIff(data: Dict<Value>, decimal: string -> Option<real>, gross: real, net: real)
    requires Get(data, "gross_pay").Some? && ToDecimal(Get(data, "gross_pay").value, decimal) == Some(gross)
    requires Get(data, "net_pay").Some? && ToDecimal(Get(data, "net_pay").value, decimal) == Some(net)
    ensures PayIssues(data, decimal)
         == (if net > gross then [Issue("NET_EXCEEDS_GROSS", Error, Some("net_pay"), None, Some(net))] else [])
            + (if gross > 0.0 && (gross - net) / gross > 0.5
               then [Plain("HIGH_DEDUCTION_RATIO", Warning, "deductions")] else [])
  {
    assert "gross_pay" in Keys(data) && "net_pay" in Keys(data);
  }

  /** Each pay flag is raised exactly when its condition holds. */
  lemma PayFlagsIff(data: Dict<Value>, decimal: string -> Option<real>, gross: real, net: real)
    requires Get(data, "gross_pay").Some? && ToDecimal(Get(data, "gross_pay").value, decimal) == Some(gross)
    requires Get(data, "net_pay").Some? && ToDecimal(Get(data, "net_pay").value, decimal) == Some(net)
    ensures Issue("NET_EXCEEDS_GROSS", Error, Some("net_pay"), None, Some(net)) in PayIssues(data, decimal)
        <==> net > gross
    ensures Plain("HIGH_DEDUCTION_RATIO", Warning, "deductions") in PayIssues(data, decimal)
        <==> gross > 0.0 && (gross - net) / gross > 0.5
  {
    PayIssuesIff(data, decimal, gross, net);
  }

  /** Either amount failing to convert gives the single calculation warning. */
  lemma PayIssuesUnreadable(data: Dict<Value>, decimal: string -> Option<real>)
    requires Get(data, "gross_pay").Some? && Get(data, "net_pay").Some?
    requires ToDecimal(Get(data, "gross_pay").value, decimal).None? || ToDecimal(Get(data, "net_pay").value, decimal).None?
    ensures PayIssues(data, decimal) == [Issue("PAY_CALCULATION_ERROR", Warning, None, None, None)]
  {
    assert "gross_pay" in Keys(data) && "net_pay" in Keys(data);
  }

  /** A payslip can never be flagged both for net above gross and for high deductions. */
  lemma PayIssuesExclusive(data: Dict<Value>, decimal: string -> Option<real>)
    ensures |PayIssues(data, decimal)| <= 1
  {
    if "gross_pay" in Keys(data) && "net_pay" in Keys(data) {
      var gross := ToDecimal(Get(data, "gross_pay").value, decimal);
      var net := ToDecimal(Get(data, "net_pay").value, decimal);
      if gross.Some? && net.Some? && gross.value > 0.0 {
        HighDeductionIffLowNet(gross.value, net.value);
      }
    }
  }

  /** A pay period in which no numeric date can be found. */
  function PayPeriodIssues(data: Dict<Value>, show: Value -> string): (r: seq<Issue>)
    ensures r != [] <==> Get(data, "pay_period").Some? && !LooksLikeDate(Text(Get(data, "pay_period").value, show))
  {
    match Get(data, "pay_period")
    case None => []
    case Some(v) =>
      if LooksLikeDate(Text(v, show)) then [] else [Plain("INVALID_PAY_PERIOD", Warning, "pay_period")]
  }

  /** `validate_payslip` */
  function PayslipIssues(data: Dict<Value>, env: Env): (r: seq<Issue>)
    ensures |r| <= 3
    ensures r == PayIssues(data, env.decimal) + PayPeriodIssues(data, env.show)
    ensures Plain("INVALID_PAY_PERIOD", Warning, "pay_period") in r
        <==> Get(data, "pay_period").Some? && !LooksLikeDate(Text(Get(data, "pay_period").value, env.show))
  {
    PayIssues(data, env.decimal) + PayPeriodIssues(data, env.show)
  }

  /** A gross of 2000 with a net of 900 is a deduction of 55%, above the 50% limit. */
  lemma HighDeductionExample(data: Dict<Value>, decimal: string -> Option<real>)
    requires Get(data, "gross_pay") == Some(Num(2000.0)) && Get(data, "net_pay") == Some(Num(900.0))
    ensures PayIssues(data, decimal) == [Plain("HIGH_DEDUCTION_RATIO", Warning, "deductions")]
  {
    HighDeductionIffLowNet(2000.0, 900.0);
  }

  /** A gross of 2000 with a net of 1100 is a deduction of 45%, within the limit. */
  lemma NormalDeductionExample(data: Dict<Value>, decimal: string -> Option<real>)
    requires Get(data, "gross_pay") == Some(Num(2000.0)) && Get(data, "net_pay") == Some(Num(1100.0))
    ensures PayIssues(data, decimal) == []
  {
    HighDeductionIffLowNet(2000.0, 1100.0);
  }

  // ------------------------------------------------------------------ invoices

  /** The invoice total check: total equals subtotal plus tax within a cent. */
  function TotalIssues(data: Dict<Value>, decimal: string -> Option<real>): (r: seq<Issue>)
    ensures |r| <= 1
    ensures !("subtotal" in Keys(data) && "tax_amount" in Keys(data) && "total_amount" in Keys(data)) ==> r == []
    ensures r != [] && r[0].severity == Error ==>
      r[0].expected.Some? && r[0].actual.Some? && Abs(r[0].actual.value - r[0].expected.value) > 0.01
  {
    if !("subtotal" in Keys(data) && "tax_amount" in Keys(data) && "total_amount" in Keys(data)) then []
    else
      var subtotal := ToDecimal(Get(data, "subtotal").value, decimal);
      var tax := ToDecimal(Get(data, "tax_amount").value, decimal);
      var total := ToDecimal(Get(data, "total_amount").value, decimal);
      if subtotal.None? || tax.None? || total.None? then
        [Issue("INVOICE_CALCULATION_ERROR", Warning, None, None, None)]
      else
        var expected := subtotal.value + tax.value;
        if Abs(total.value - expected) > 0.01 then
          [Issue("INVOICE_TOTAL_MISMATCH", Error, Some("total_amount"), Some(expected), Some(total.value))]
        else []
  }

  /** With all three amounts readable, a total further than a cent from
      subtotal plus tax is reported with that sum as the expected value, and
      nothing is reported otherwise. */
  lemma TotalMismatchIff(data: Dict<Value>, decimal: string -> Option<real>, subtotal: real, tax: real, total: real)
    requires Get(data, "subtotal").Some? && ToDecimal(Get(data, "subtotal").value, decimal) == Some(subtotal)
    requires Get(data, "tax_amount").Some? && ToDecimal(Get(data, "tax_amount").value, decimal) == Some(tax)
    requires Get(data, "total_amount").Some? && ToDecimal(Get(data, "total_amount").value, decimal) == Some(total)
    ensures TotalIssues(data, decimal)
         == if Abs(total - (subtotal + tax)) > 0.01
            then [Issue("INVOICE_TOTAL_MISMATCH", Error, Some("total_amount"), Some(subtotal + tax), Some(total))]
            else []
  {
    assert "subtotal" in Keys(data) && "tax_amount" in Keys(data) && "total_amount" in Keys(data);
  }

  /** Any of the three amounts failing to convert gives the single calculation warning. */
  lemma TotalIssuesUnreadable(data: Dict<Value>, decimal: string -> Option<real>)
    requires Get(data, "subtotal").Some? && Get(data, "tax_amount").Some? && Get(data, "total_amount").Some?
    requires ToDecimal(Get(data, "subtotal").value, decimal).None? || ToDecimal(Get(data, "tax_amount").value, decimal).None?
          || ToDecimal(Get(data, "total_amount").value, decimal).None?
    ensures TotalIssues(data, decimal) == [Issue("INVOICE_CALCULATION_ERROR", Warning, None, None, None)]
  {
    assert "subtotal" in Keys(data) && "tax_amount" in Keys(data) && "total_amount" in Keys(data);
  }

  /** `parse_date(v)`: a falsy value is no date, a string is stripped and
      parsed, and any other value raises on `.strip()`. */
  function ParseDateValue(v: Value, parseDate: string -> Option<CalendarDate>): (r: Outcome<Option<CalendarDate>>)
    ensures r.Raised? <==> Truthy(v) && !v.Str?
  {
    if !Truthy(v) then Done(None)
    else if v.Str? then Done(parseDate(Strip(v.s)))
    else Raised
  }

  /** Due date before invoice date, and a payment term over 90 days. */
  function TermIssues(invoice: CalendarDate, due: CalendarDate): (r: seq<Issue>)
    ensures |r| <= 1
  {
    OrdinalOrder(due, invoice);
    (if Before(due, invoice) then [Plain("DUE_DATE_BEFORE_INVOICE", Error, "due_date")] else [])
    + (if DaysBetween(invoice, due) > 90 then [Plain("LONG_PAYMENT_TERM", Warning, "due_date")] else [])
  }

  /** The payment term check; an exception while parsing either date skips it. */
  function InvoiceDateIssues(data: Dict<Value>, parseDate: string -> Option<CalendarDate>): (r: seq<Issue>)
    ensures |r| <= 1
    ensures BothDates(data, parseDate) ==>
      r == TermIssues(ParseDateValue(Get(data, "invoice_date").value, parseDate).value.value,
                      ParseDateValue(Get(data, "due_date").value, parseDate).value.value)
    ensures !BothDates(data, parseDate) ==> r == []
  {
    if !("invoice_date" in Keys(data) && "due_date" in Keys(data)) then []
    else
      match ParseDateValue(Get(data, "invoice_date").value, parseDate)
      case Done(Some(invoice)) =>
        (match ParseDateValue(Get(data, "due_date").value, parseDate)
         case Done(Some(due)) => TermIssues(invoice, due)
         case _ => [])
      case _ => []
  }

  /** Both dates are present and each parses to a date without raising. */
  predicate BothDates(data: Dict<Value>, parseDate: string -> Option<CalendarDate>) {
    Get(data, "invoice_date").Some? && Get(data, "due_date").Some?
    && ParseDateValue(Get(data, "invoice_date").value, parseDate).Done?
    && ParseDateValue(Get(data, "invoice_date").value, parseDate).value.Some?
    && ParseDateValue(Get(data, "due_date").value, parseDate).Done?
    && ParseDateValue(Get(data, "due_date").value, parseDate).value.Some?
  }

  /** A due date more than 90 days out is flagged, one on or before day 90 is not. */
  lemma LongTermIffOverNinetyDays(invoice: CalendarDate, due: CalendarDate)
    ensures Plain("LONG_PAYMENT_TERM", Warning, "due_date") in TermIssues(invoice, due)
        <==> Ordinal(due) > Ordinal(invoice) + 90
    ensures Plain("DUE_DATE_BEFORE_INVOICE", Error, "due_date") in TermIssues(invoice, due)
        <==> Ordinal(due) < Ordinal(invoice)
  {
    OrdinalOrder(due, invoice);
  }

  /** `validate_invoice` */
  function InvoiceIssues(data: Dict<Value>, env: Env): (r: seq<Issue>)
    ensures |r| <= 2
    ensures r == TotalIssues(data, env.decimal) + InvoiceDateIssues(data, env.parseDate)
  {
    TotalIssues(data, env.decimal) + InvoiceDateIssues(data, env.parseDate)
  }

  // ------------------------------------------------------------- general rules

  /** The fields that should never be negative, in the order they are checked. */
  function PositiveFields(): seq<string> {
    ["total_amount", "gross_pay", "net_pay", "closing_balance"]
  }

  /** A negative-value warning for each listed field that is present and
      converts to a negative amount; a field that does not convert is skipped. */
  function NegativeValueIssues(data: Dict<Value>, fields: seq<string>, decimal: string -> Option<real>): (r: seq<Issue>)
    ensures |r| <= |fields|
    ensures forall k :: 0 <= k < |r| ==>
      r[k].code == "NEGATIVE_VALUE" && r[k].field.Some? && r[k].field.value in fields
      && r[k].actual.Some? && r[k].actual.value < 0.0
  {
    if fields == [] then []
    else
      var here :=
        match Get(data, fields[0])
        case None => []
        case Some(v) =>
          match ToDecimal(v, decimal)
          case Some(x) =>
            if x < 0.0 then [Issue("NEGATIVE_VALUE", Warning, Some(fields[0]), None, Some(x))] else []
          case None => [];
      here + NegativeValueIssues(data, fields[1..], decimal)
  }

  /** Every field holding a negative amount is reported, with that amount. */
  lemma {:induction false} NegativeValueComplete(data: Dict<Value>, fields: seq<string>,
                                                 decimal: string -> Option<real>, f: string)
    requires f in fields && Get(data, f).Some?
    requires ToDecimal(Get(data, f).value, decimal).Some?
    requires ToDecimal(Get(data, f).value, decimal).value < 0.0
    ensures Issue("NEGATIVE_VALUE", Warning, Some(f), None, ToDecimal(Get(data, f).value, decimal))
            in NegativeValueIssues(data, fields, decimal)
  {
    if fields[0] != f {
      NegativeValueComplete(data, fields[1..], decimal, f);
    }
  }

  /** `"date" in k.lower()` */
  predicate IsDateKey(k: string) {
    Contains(Lower(k), "date")
  }

  /** An invalid-date-format warning for each date-named field, in key order,
      whose text holds no numeric date. */
  function DateFormatIssues(data: Dict<Value>, show: Value -> string): (r: seq<Issue>)
    ensures |r| <= |data|
    ensures forall k :: 0 <= k < |r| ==> r[k].code == "INVALID_DATE_FORMAT" && r[k].field.Some?
  {
    if data == [] then []
    else
      (if IsDateKey(data[0].0) && !LooksLikeDate(Text(data[0].1, show))
       then [Plain("INVALID_DATE_FORMAT", Warning, data[0].0)] else [])
      + DateFormatIssues(data[1..], show)
  }

  /** A field is flagged exactly when its name mentions a date and its value holds none. */
  lemma {:induction false} DateFormatIssuesIff(data: Dict<Value>, show: Value -> string, key: string)
    requires WellFormed(data)
    ensures Plain("INVALID_DATE_FORMAT", Warning, key) in DateFormatIssues(data, show)
        <==> Get(data, key).Some? && IsDateKey(key) && !LooksLikeDate(Text(Get(data, key).value, show))
  {
    if data != [] {
      WellFormedTail(data);
      DateFormatIssuesIff(data[1..], show, key);
    }
  }

  /** `validate_general_rules` */
  function GeneralIssues(data: Dict<Value>, env: Env): (r: seq<Issue>)
    ensures |r| <= 4 + |data|
    ensures r == NegativeValueIssues(data, PositiveFields(), env.decimal) + DateFormatIssues(data, env.show)
  {
    NegativeValueIssues(data, PositiveFields(), env.decimal) + DateFormatIssues(data, env.show)
  }

  /** `validate_cross_document`: the related documents are looked up in the
      database (a failed lookup finds none), and any related document yields
      the one simulated salary warning. */
  function CrossDocumentIssues(relatedCount: nat): (r: seq<Issue>)
    ensures r != [] <==> relatedCount > 0
  {
    if relatedCount > 0 then [Plain("CROSS_DOC_SALARY_MISMATCH", Warning, "gross_pay")] else []
  }

  // -------------------------------------------------------------------- status

  /** `any(issue.get("severity") == s for issue in issues)` */
  function AnyWithSeverity(issues: seq<Issue>, s: Severity): bool {
    if issues == [] then false else issues[0].severity == s || AnyWithSeverity(issues[1..], s)
  }

  lemma {:induction false} AnyWithSeverityIff(issues: seq<Issue>, s: Severity)
    ensures AnyWithSeverity(issues, s) <==> exists i :: 0 <= i < |issues| && issues[i].severity == s
  {
    if issues != [] {
      AnyWithSeverityIff(issues[1..], s);
      if exists i :: 0 <= i < |issues| - 1 && issues[1..][i].severity == s {
        var i :| 0 <= i < |issues| - 1 && issues[1..][i].severity == s;
        assert issues[i + 1] == issues[1..][i];
      }
      if exists i :: 0 <= i < |issues| && issues[i].severity == s {
        var i :| 0 <= i < |issues| && issues[i].severity == s;
        if i > 0 {
          assert issues[1..][i - 1] == issues[i];
        }
      }
    }
  }

  /** `determine_validation_status`: any error needs review, otherwise any
      warning passes with warnings, otherwise the document passes. */
  function DetermineStatus(issues: seq<Issue>): (r: Status)
    ensures r != Failed
    ensures r == NeedsReview <==> exists i :: 0 <= i < |issues| && issues[i].severity == Error
    ensures r == Passed <==> forall i :: 0 <= i < |issues| ==> issues[i].severity == Info
  {
    AnyWithSeverityIff(issues, Error);
    AnyWithSeverityIff(issues, Warning);
    if issues == [] then Passed
    else if AnyWithSeverity(issues, Error) then NeedsReview
    else if AnyWithSeverity(issues, Warning) then PassedWithWarnings
    else Passed
  }

  function Rank(s: Status): nat {
    match s
    case Passed => 0
    case PassedWithWarnings => 1
    case NeedsReview => 2
    case Failed => 3
  }

  /** More issues never make the status better. */
  lemma StatusMonotone(a: seq<Issue>, b: seq<Issue>)
    ensures Rank(DetermineStatus(a)) <= Rank(DetermineStatus(a + b))
    ensures Rank(DetermineStatus(b)) <= Rank(DetermineStatus(a + b))
  {
    var ab := a + b;
    if DetermineStatus(a) == NeedsReview {
      var i :| 0 <= i < |a| && a[i].severity == Error;
      assert ab[i] == a[i];
    }
    if DetermineStatus(b) == NeedsReview {
      var i :| 0 <= i < |b| && b[i].severity == Error;
      assert ab[|a| + i] == b[i];
    }
    if DetermineStatus(a) == PassedWithWarnings {
      var i :| 0 <= i < |a| && a[i].severity != Info;
      assert ab[i] == a[i];
    }
    if DetermineStatus(b) == PassedWithWarnings {
      var i :| 0 <= i < |b| && b[i].severity != Info;
      assert ab[|a| + i] == b[i];
    }
  }

  // ------------------------------------------------------------------ document

  datatype Report = Report(status: Status, issues: seq<Issue>, rulesApplied: seq<string>,
                           checkedAgainst: Option<string>)

  /** The type-specific rules and the name they are reported under. */
  function TypeRules(docType: string, data: Dict<Value>, env: Env): (r: Outcome<(seq<Issue>, seq<string>)>)
    ensures r.Raised? <==> docType == "bank_statement" && BankStatementIssues(data, env).Raised?
    ensures r.Done? ==> |r.value.1| <= 1 && "cross_document_rules" !in r.value.1
    ensures docType == "bank_statement" && r.Done? ==>
      r.value == (BankStatementIssues(data, env).value, ["bank_statement_rules"])
    ensures docType == "payslip" ==> r == Done((PayslipIssues(data, env), ["payslip_rules"]))
    ensures docType == "invoice" ==> r == Done((InvoiceIssues(data, env), ["invoice_rules"]))
    ensures docType != "bank_statement" && docType != "payslip" && docType != "invoice" ==> r == Done(([], []))
  {
    if docType == "bank_statement" then
      match BankStatementIssues(data, env)
      case Raised => Raised
      case Done(issues) => Done((issues, ["bank_statement_rules"]))
    else if docType == "payslip" then Done((PayslipIssues(data, env), ["payslip_rules"]))
    else if docType == "invoice" then Done((InvoiceIssues(data, env), ["invoice_rules"]))
    else Done(([], []))
  }

  /** The rules reported as applied: the type rules' name, the general rules,
      and the cross-document rules when they produced an issue. */
  function RulesApplied(names: seq<string>, cross: seq<Issue>): (r: seq<string>)
    requires |names| <= 1 && "cross_document_rules" !in names
    ensures "general_rules" in r
    ensures "cross_document_rules" in r <==> cross != []
  {
    var r := names + ["general_rules"] + (if cross != [] then ["cross_document_rules"] else []);
    assert r[|names|] == "general_rules";
    assert cross != [] ==> r[|names| + 1] == "cross_document_rules";
    r
  }

  /** `validate_document`: type rules, general rules, then cross-document
      rules; an exception anywhere fails the validation with a single error. */
  function ValidateDocument(docType: string, data: Dict<Value>, relatedCount: nat, env: Env): (r: Report)
    ensures r.status == Failed <==> docType == "bank_statement" && BankStatementIssues(data, env).Raised?
    ensures r.status == Failed ==>
      r.issues == [Issue("VALIDATION_ERROR", Error, None, None, None)] && r.rulesApplied == []
      && r.checkedAgainst.None?
    ensures r.status != Failed ==>
      r.status == DetermineStatus(r.issues)
      && "general_rules" in r.rulesApplied
      && ("cross_document_rules" in r.rulesApplied <==> relatedCount > 0)
      && (r.checkedAgainst == Some("related_documents") <==> relatedCount > 0)
    ensures r.status != Failed ==>
      r.issues == TypeRules(docType, data, env).value.0 + GeneralIssues(data, env) + CrossDocumentIssues(relatedCount)
  {
    match TypeRules(docType, data, env)
    case Raised =>
      Report(Failed, [Issue("VALIDATION_ERROR", Error, None, None, None)], [], None)
    case Done((typed, names)) =>
      var cross := CrossDocumentIssues(relatedCount);
      var issues := typed + GeneralIssues(data, env) + cross;
      Report(DetermineStatus(issues), issues, RulesApplied(names, cross),
             Some(if cross != [] then "related_documents" else "none"))
  }

  /** Every error found by any rule keeps the document from passing. */
  lemma ErrorBlocksPassing(docType: string, data: Dict<Value>, relatedCount: nat, env: Env)
    ensures var r := ValidateDocument(docType, data, relatedCount, env);
      (exists i :: 0 <= i < |r.issues| && r.issues[i].severity == Error) ==>
        r.status == NeedsReview || r.status == Failed
  {
  }
}
